=== FILE: README.md ===
# mx.unam.ciencias.edd in Dafny

A model of the data-structure library of the UNAM course "Estructuras de
Datos" (package `mx.unam.ciencias.edd`) and of the pure text helpers of its
projects, with proofs of what the library promises:

- **binary trees** (`ArbolBinario`): vertex accessors, height, depth, search,
  structural equality and the three depth-first walks;
- **ordered trees** (`ArbolBinarioOrdenado`): insertion with ties to the left,
  deletion through the in-order predecessor, splicing out a vertex with at
  most one child, rotations, the in-order iterator;
- **AVL trees** (`ArbolAVL`): stored heights, the balance factor, the upward
  rebalancing walk with single and double rotations;
- **red-black trees** (`ArbolRojinegro`): the insertion repair and the
  double-black deletion repair with its phantom leaf;
- **lists, stacks and queues** (`Lista`, `Pila`, `Cola`);
- **the complete tree** (`ArbolBinarioCompleto`) filled in breadth-first order;
- **the indexed min-heap** (`MonticuloMinimo`) with sift-up, sift-down,
  `reordena` and heap sort;
- **array algorithms** (`Arreglos`): quicksort, selection sort, binary search;
- **the three 32-bit hashes** (`Dispersores`): XOR fold, DJB and Bob
  Jenkins' hash;
- **the chained hash table** (`Diccionario`) with power-of-two capacity;
- **the three versions of the undirected graph** (`Grafica`, practicas 6, 10
  and 12): adjacency, weights, breadth- and depth-first traversal,
  connectivity and the hop-count shortest path;
- **text helpers** of the projects: the word splitter and counter, the HTML
  page pieces, the comment and tab stripper and the space collapser.

How the Java is expressed:

- Every structure is an immutable datatype, and every operation is a pure
  function returning the new structure.
- Trees are one generic datatype whose vertices carry an augmentation: nothing
  for plain trees, the stored height for AVL trees, the colour for red-black
  trees. Dafny's `==` on it is the vertex `equals` of each class.
- A vertex handle is the path of left/right steps from the root. There are no
  parent links. The walks of the source over parent pointers are written as
  recursion that repairs each level on the way back up.
- An exception is an `Err` of `Wrappers.Result`, named after the Java
  exception (`IllegalArgument`, `NoSuchElement`, `UnsupportedOperation`,
  `IllegalState`, `InvalidIndex`). `ProgramExit` stands for a message
  followed by `System.exit(1)`. `RuntimeFailure` stands for a null
  dereference or an array index out of bounds.
- `null` arguments of the operations that check for them (adding to a
  collection, the dictionary's keys, removal from lists and heaps) are
  `Wrappers.Option` values. Elements given to the ordered trees' search and
  deletion, graph elements other than the one added, and the target of
  `Lists.IndexOf` are never null in the model (see "## Left out").
- Elements of ordered structures are `int`. Graph elements and dictionary
  keys are any type with equality.
- Java's 32-bit arithmetic is written out where a wrap changes the
  outcome: `bv32` in the hashes, and `JavaInt.Wrap32` in the dictionary's
  capacity loop and in the binary search's midpoint. Elsewhere sizes,
  counts and indices are unbounded integers (see "## Left out").

## Model

| member | source | states |
|---|---|---|
| BinaryTree.Parent | Proyectos/proyecto2/src/mx/unam/ciencias/edd/ArbolBinario.java:67-71 | asking for the parent fails with NoSuchElement exactly at the root; otherwise the answer is the asked vertex's path without its last step, a vertex one level up that has the asked vertex as its left or right child |
| BinaryTree.LeftChild | Proyectos/proyecto2/src/mx/unam/ciencias/edd/ArbolBinario.java:78-82 | fails with NoSuchElement exactly when the vertex has no left child; otherwise yields the vertex one left step below, which holds that child |
| BinaryTree.RightChild | Proyectos/proyecto2/src/mx/unam/ciencias/edd/ArbolBinario.java:89-93 | fails with NoSuchElement exactly when the vertex has no right child; otherwise yields the vertex one right step below, which holds that child |
| BinaryTree.Height | Proyectos/proyecto2/src/mx/unam/ciencias/edd/ArbolBinario.java:99-107 | the height is -1 exactly for the empty tree and never below -1 |
| BinaryTree.DeepestPath | Proyectos/proyecto2/src/mx/unam/ciencias/edd/ArbolBinario.java:103-107 | a non-empty tree has a vertex whose depth equals the height (the height is attained) |
| BinaryTree.PathsWithinHeight | Proyectos/proyecto2/src/mx/unam/ciencias/edd/ArbolBinario.java:103-107 | no vertex lies deeper than the height (the height is an upper bound) |
| BinaryTree.ParentChildRoundTrip | Proyectos/proyecto2/src/mx/unam/ciencias/edd/ArbolBinario.java:67-93 | the parent of a vertex's left or right child is that vertex, and every non-root vertex is the left or right child of its parent |
| BinaryTree.Depth | Proyectos/proyecto2/src/mx/unam/ciencias/edd/ArbolBinario.java:113-121 | counting parent steps up to the root gives the number of links on the path from the root |
| BinaryTree.DepthPlusHeight | Proyectos/proyecto2/src/mx/unam/ciencias/edd/ArbolBinario.java:99-121 | a vertex's depth plus the height of its subtree never exceeds the height of the tree |
| BinaryTree.Contains | Proyectos/proyecto2/src/mx/unam/ciencias/edd/ArbolBinario.java:226-236 | the recursive search answers true exactly when the element is in the tree's multiset of elements |
| BinaryTree.Search | Proyectos/proyecto2/src/mx/unam/ciencias/edd/ArbolBinario.java:245-261 | a found vertex holds the target; nothing is found exactly when the target is null or absent |
| BinaryTree.Root | Proyectos/proyecto2/src/mx/unam/ciencias/edd/ArbolBinario.java:269-273 | fails with NoSuchElement exactly on the empty tree, otherwise gives the root vertex |
| BinaryTree.Clear | Proyectos/proyecto2/src/mx/unam/ciencias/edd/ArbolBinario.java:288-291 | the cleared tree is empty, holds no element and has count 0 |
| BinaryTree.VertexEqualsIsStructural | Proyectos/proyecto2/src/mx/unam/ciencias/edd/ArbolBinario.java:141-156 | the case analysis of vertex equality holds exactly when the two subtrees have the same shape and equal elements at the same places |
| BinaryTree.VertexEqualsIsStructuralAll | Proyectos/proyecto2/src/mx/unam/ciencias/edd/ArbolBinario.java:141-156 | the same agreement stated for every pair of trees whose first one is a vertex |
| BinaryTree.TreeEquals | Proyectos/proyecto2/src/mx/unam/ciencias/edd/ArbolBinario.java:299-309 | two trees are equal exactly when their roots are structurally equal; two empty trees are equal |
| BinaryTree.PreOrderBlocks | Practicas/practica7/src/mx/unam/ciencias/edd/ArbolBinarioOrdenado.java:276-282 | the pre-order walk of any subtree appears in the whole tree's pre-order walk as one contiguous block, starting at the offset the path determines |
| BinaryTree.PreOrderBlockRoot | Practicas/practica7/src/mx/unam/ciencias/edd/ArbolBinarioOrdenado.java:276-282 | in the pre-order walk each vertex comes first in its subtree's block, before all of its descendants |
| BinaryTree.PostOrderBlocks | Practicas/practica7/src/mx/unam/ciencias/edd/ArbolBinarioOrdenado.java:310-316 | the post-order walk of any subtree appears in the whole tree's post-order walk as one contiguous block |
| BinaryTree.PostOrderBlockRoot | Practicas/practica7/src/mx/unam/ciencias/edd/ArbolBinarioOrdenado.java:310-316 | in the post-order walk each vertex comes last in its subtree's block, after all of its descendants |
| BinaryTree.WalksListEveryVertex | Practicas/practica7/src/mx/unam/ciencias/edd/ArbolBinarioOrdenado.java:272-316 | the pre-, in- and post-order walks each list every element exactly once (same multiset as the tree, length equal to the vertex count) |
| BinaryTree.InOrderListsEveryVertex | Practicas/practica7/src/mx/unam/ciencias/edd/ArbolBinarioOrdenado.java:293-299 | the in-order walk lists exactly the tree's elements, one entry per vertex |
| BinaryTree.PreOrderListsEveryVertex | Practicas/practica7/src/mx/unam/ciencias/edd/ArbolBinarioOrdenado.java:276-282 | the pre-order walk lists exactly the tree's elements, one entry per vertex |
| BinaryTree.PostOrderListsEveryVertex | Practicas/practica7/src/mx/unam/ciencias/edd/ArbolBinarioOrdenado.java:310-316 | the post-order walk lists exactly the tree's elements, one entry per vertex |
| BinaryTree.ElemsReplaceAt | Practicas/practica7/src/mx/unam/ciencias/edd/ArbolBinarioOrdenado.java:166-172 | hanging a subtree into a vertex's slot exchanges exactly the old subtree's elements for the new one's and nothing else |
| BinaryTree.InOrderReplaceAt | Practicas/practica7/src/mx/unam/ciencias/edd/ArbolBinarioOrdenado.java:223-231 | replacing a subtree by one with the same in-order walk leaves the whole tree's in-order walk unchanged |
| OrderedTree.OrderedIffSortedInOrder | Practicas/practica7/src/mx/unam/ciencias/edd/ArbolBinarioOrdenado.java:17-18 | the binary-search-tree property (left subtree not above, right subtree not below each vertex) holds exactly when the in-order walk is non-decreasing |
| OrderedTree.Insert | Practicas/practica7/src/mx/unam/ciencias/edd/ArbolBinarioOrdenado.java:97-112 | inserting adds exactly one copy of the element and one vertex, and keeps an ordered tree ordered |
| OrderedTree.InsertPath | Practicas/practica7/src/mx/unam/ciencias/edd/ArbolBinarioOrdenado.java:97-112 | the descent ends at an empty slot and at every step goes left exactly when the new element is not greater than the vertex's (ties go left) |
| OrderedTree.InsertHangsLeaf | Practicas/practica7/src/mx/unam/ciencias/edd/ArbolBinarioOrdenado.java:97-112 | insertion changes the tree only by hanging a new leaf at the end of that descent |
| OrderedTree.Add | Practicas/practica7/src/mx/unam/ciencias/edd/ArbolBinarioOrdenado.java:84-95 | a null element is refused with IllegalArgument and nothing else; otherwise the count grows by one, the element is added once and a valid tree stays valid |
| OrderedTree.FromSeq | Proyectos/proyecto2/src/mx/unam/ciencias/edd/ArbolBinario.java:185-188 | building from a collection gives a valid ordered tree holding exactly the collection's elements, with count equal to its length |
| OrderedTree.Find | Practicas/practica7/src/mx/unam/ciencias/edd/ArbolBinarioOrdenado.java:184-196 | a found vertex holds the target; on an ordered tree nothing is found exactly when the target is absent |
| OrderedTree.MaxPath | Practicas/practica7/src/mx/unam/ciencias/edd/ArbolBinarioOrdenado.java:148-152 | following right links reaches a vertex without right child which, in an ordered tree, holds a maximum element |
| OrderedTree.SpliceOut | Practicas/practica7/src/mx/unam/ciencias/edd/ArbolBinarioOrdenado.java:160-175 | splicing out a vertex with at most one child removes exactly its element and one vertex, and keeps the order |
| OrderedTree.SwapWithPredecessor | Practicas/practica7/src/mx/unam/ciencias/edd/ArbolBinarioOrdenado.java:142-146 | only the vertex's element changes, to an element of its left subtree held by the returned vertex, which has no right child; order is kept |
| OrderedTree.RemoveRoot | Practicas/practica7/src/mx/unam/ciencias/edd/ArbolBinarioOrdenado.java:125-130 | removing a vertex (splice, or predecessor swap then splice) removes exactly its element and keeps the order |
| OrderedTree.RemoveAt | Practicas/practica7/src/mx/unam/ciencias/edd/ArbolBinarioOrdenado.java:125-130 | removing the vertex at any position drops exactly that element and one vertex from the whole tree and keeps it ordered |
| OrderedTree.DeleteAsWritten | Practicas/practica7/src/mx/unam/ciencias/edd/ArbolBinarioOrdenado.java:120-131 | the count always drops by one, even when the element is absent, while the elements lose at most one copy of it |
| OrderedTree.DeleteAsWrittenMiscounts | Practicas/practica7/src/mx/unam/ciencias/edd/ArbolBinarioOrdenado.java:121-124 | deleting from the empty tree leaves count -1, so the count no longer matches the vertices |
| OrderedTree.Delete | Practicas/practica7/src/mx/unam/ciencias/edd/ArbolBinarioOrdenado.java:120-131 | corrected deletion keeps the tree valid (count equals vertices) and removes one copy of the element; deleting an absent element changes nothing |
| OrderedTree.DeleteAsWrittenAgreesWhenPresent | Practicas/practica7/src/mx/unam/ciencias/edd/ArbolBinarioOrdenado.java:120-131 | the code as written and the corrected deletion agree exactly when the element is present |
| OrderedTree.RotateRight | Practicas/practica7/src/mx/unam/ciencias/edd/ArbolBinarioOrdenado.java:218-238 | a right rotation keeps the in-order walk, is a no-op without a left child, and otherwise lifts the left child to the top with the old top as its right child |
| OrderedTree.RotateLeft | Practicas/practica7/src/mx/unam/ciencias/edd/ArbolBinarioOrdenado.java:245-265 | mirror of the right rotation |
| OrderedTree.RotationsInverse | Practicas/practica7/src/mx/unam/ciencias/edd/ArbolBinarioOrdenado.java:218-265 | a right rotation followed by a left rotation (and the converse) restores the original subtree |
| OrderedTree.RotateRightAt | Practicas/practica7/src/mx/unam/ciencias/edd/ArbolBinarioOrdenado.java:218-238 | rotating at any vertex keeps the whole tree's in-order walk and order, and is a no-op for a missing vertex or one without a left child |
| OrderedTree.RotateLeftAt | Practicas/practica7/src/mx/unam/ciencias/edd/ArbolBinarioOrdenado.java:245-265 | mirror of the right rotation at a vertex |
| OrderedTree.RotateAtRoundTrip | Practicas/practica7/src/mx/unam/ciencias/edd/ArbolBinarioOrdenado.java:218-265 | rotating right at q and then left at the same position restores the original tree |
| OrderedTree.PushLeftSpine | Practicas/practica7/src/mx/unam/ciencias/edd/ArbolBinarioOrdenado.java:27-34 | pushing the left spine of a subtree makes the pending elements of the stack equal that subtree's in-order walk followed by what was pending before |
| OrderedTree.IterateInOrder | Practicas/practica7/src/mx/unam/ciencias/edd/ArbolBinarioOrdenado.java:21-53 | the stack-based iterator yields exactly the in-order walk of the tree |
| OrderedTree.DfsPreOrder | Practicas/practica7/src/mx/unam/ciencias/edd/ArbolBinarioOrdenado.java:272-282 | fails with NoSuchElement exactly on the empty tree; otherwise visits the root, then the left subtree's pre-order walk, then the right subtree's, so every element once and the root first |
| OrderedTree.DfsInOrder | Practicas/practica7/src/mx/unam/ciencias/edd/ArbolBinarioOrdenado.java:289-299 | fails with NoSuchElement exactly on the empty tree; otherwise visits every element once, in non-decreasing order exactly when the tree is ordered |
| OrderedTree.DfsPostOrder | Practicas/practica7/src/mx/unam/ciencias/edd/ArbolBinarioOrdenado.java:306-316 | fails with NoSuchElement exactly on the empty tree; otherwise visits the left subtree's post-order walk, then the right subtree's, then the root, so every element once and the root last |
| Avl.AvlHeightBound | Practicas/practica8/src/mx/unam/ciencias/edd/ArbolAVL.java:3-7 | a tree whose balance factors all lie in [-1, 1] and whose height is h has at least 2^((h+1)/2) - 1 vertices, so its height is logarithmic in its size |
| Avl.BalancedHeightsExact | Practicas/practica8/src/mx/unam/ciencias/edd/ArbolAVL.java:20-43 | in a balanced tree every stored height equals the real height of its subtree |
| Avl.NewVertex | Practicas/practica8/src/mx/unam/ciencias/edd/ArbolAVL.java:26-29 | a new vertex holds the element, stores height 0, which is its real height, and is balanced |
| Avl.Refresh | Practicas/practica8/src/mx/unam/ciencias/edd/ArbolAVL.java:39-43 | recomputing the height changes nothing but the stored height, and makes it exact once both children's heights are exact (a missing child counting -1) |
| Avl.BalanceOf | Practicas/practica8/src/mx/unam/ciencias/edd/ArbolAVL.java:45-49 | with exact heights, the balance is the left subtree's height minus the right one's, a missing child counting -1 |
| Avl.Visit | Practicas/practica8/src/mx/unam/ciencias/edd/ArbolAVL.java:113-150 | one visit of the rebalancing walk (height update, single or double rotation) keeps the in-order walk |
| Avl.VisitBalancedIsIdentity | Practicas/practica8/src/mx/unam/ciencias/edd/ArbolAVL.java:113-150 | visiting an already balanced vertex with exact heights changes nothing |
| Avl.RebalanceRepairs | Practicas/practica8/src/mx/unam/ciencias/edd/ArbolAVL.java:113-151 | a vertex with balanced children and balance within [-2, 2] is balanced after the visit, and its height stays within one of the taller child |
| Avl.RightHeavyDouble | Practicas/practica8/src/mx/unam/ciencias/edd/ArbolAVL.java:122-135 | at balance -2 with a right child of balance +1, the right-then-left double rotation gives a balanced subtree |
| Avl.RightHeavySingle | Practicas/practica8/src/mx/unam/ciencias/edd/ArbolAVL.java:122-135 | at balance -2 with any other right-child balance, the single left rotation gives a balanced subtree |
| Avl.RightHeavyRepaired | Practicas/practica8/src/mx/unam/ciencias/edd/ArbolAVL.java:122-135 | every balance -2 case ends balanced, with height between the right child's height and one more |
| Avl.LeftHeavyDouble | Practicas/practica8/src/mx/unam/ciencias/edd/ArbolAVL.java:137-148 | at balance +2 with a left child of balance -1, the left-then-right double rotation gives a balanced subtree |
| Avl.LeftHeavySingle | Practicas/practica8/src/mx/unam/ciencias/edd/ArbolAVL.java:137-148 | at balance +2 with any other left-child balance, the single right rotation gives a balanced subtree |
| Avl.LeftHeavyRepaired | Practicas/practica8/src/mx/unam/ciencias/edd/ArbolAVL.java:137-148 | every balance +2 case ends balanced, with height between the left child's height and one more |
| Avl.Rebalance | Practicas/practica8/src/mx/unam/ciencias/edd/ArbolAVL.java:113-151 | rebalancing a vertex, including the revisit of the new subtree top, keeps the in-order walk |
| Avl.RebalanceKeepsOrder | Practicas/practica8/src/mx/unam/ciencias/edd/ArbolAVL.java:113-151 | the rebalanced subtree is ordered exactly when the original was |
| Avl.Ins | Practicas/practica8/src/mx/unam/ciencias/edd/ArbolAVL.java:108-111 | insertion with rebalancing on the way up has the same in-order walk as the plain ordered insertion |
| Avl.InsKeepsBalance | Practicas/practica8/src/mx/unam/ciencias/edd/ArbolAVL.java:108-151 | inserting into a balanced tree gives a balanced tree with exact heights, whose height grows by at most one |
| Avl.InsKeepsOrder | Practicas/practica8/src/mx/unam/ciencias/edd/ArbolAVL.java:108-111 | inserting into an ordered tree keeps it ordered |
| Avl.InsMatchesWalk | Practicas/practica8/src/mx/unam/ciencias/edd/ArbolAVL.java:108-151 | the recursive insertion equals the plain leaf insertion followed by a rebalancing visit at each vertex on the path from the new leaf's parent up to the root |
| Avl.Add | Practicas/practica8/src/mx/unam/ciencias/edd/ArbolAVL.java:108-111 | a null element is refused with IllegalArgument; otherwise the count grows by one, the element is added once, and a valid balanced tree stays so |
| Avl.RemoveMax | Practicas/practica8/src/mx/unam/ciencias/edd/ArbolAVL.java:163-168 | removing the maximum of a subtree (the predecessor's vertex) leaves the in-order walk minus its last element, which is returned |
| Avl.RemoveMaxElems | Practicas/practica8/src/mx/unam/ciencias/edd/ArbolAVL.java:163-168 | the removed maximum together with the remaining tree holds exactly the original elements |
| Avl.RemoveMaxKeepsOrder | Practicas/practica8/src/mx/unam/ciencias/edd/ArbolAVL.java:163-168 | removing the maximum of an ordered tree leaves it ordered, with every remaining element at most the removed one |
| Avl.RemoveMaxKeepsBalance | Practicas/practica8/src/mx/unam/ciencias/edd/ArbolAVL.java:163-168 | removing the maximum keeps balance, and the height drops by at most one |
| Avl.RemoveMaxMatchesWalk | Practicas/practica8/src/mx/unam/ciencias/edd/ArbolAVL.java:163-168 | removing the maximum equals splicing out the rightmost vertex and rebalancing from its parent up |
| Avl.RemoveFound | Practicas/practica8/src/mx/unam/ciencias/edd/ArbolAVL.java:163-168 | removing a found vertex leaves its left walk followed by its right walk |
| Avl.RemoveFoundKeepsOrder | Practicas/practica8/src/mx/unam/ciencias/edd/ArbolAVL.java:163-168 | removing a found vertex of an ordered tree leaves it ordered |
| Avl.RemoveFoundKeepsBalance | Practicas/practica8/src/mx/unam/ciencias/edd/ArbolAVL.java:163-168 | removing a found vertex keeps balance, and the height drops by at most one |
| Avl.RemoveFoundMatchesWalk | Practicas/practica8/src/mx/unam/ciencias/edd/ArbolAVL.java:163-168 | the recursive removal equals the swap with the predecessor when there is a left child, the splice, and the upward rebalancing |
| Avl.Del | Practicas/practica8/src/mx/unam/ciencias/edd/ArbolAVL.java:159-162 | deletion reports nothing to delete exactly when the search finds no vertex |
| Avl.DelElems | Practicas/practica8/src/mx/unam/ciencias/edd/ArbolAVL.java:159-168 | a successful deletion removes exactly one copy of a present element |
| Avl.DelKeepsBalance | Practicas/practica8/src/mx/unam/ciencias/edd/ArbolAVL.java:159-168 | deletion keeps balance and exact heights, and the height drops by at most one |
| Avl.DelKeepsOrder | Practicas/practica8/src/mx/unam/ciencias/edd/ArbolAVL.java:159-168 | deletion keeps an ordered tree ordered |
| Avl.DelMatchesWalk | Practicas/practica8/src/mx/unam/ciencias/edd/ArbolAVL.java:159-168 | the recursive deletion equals the source's steps: search, optional predecessor swap, splice, rebalance from the removed vertex's parent up |
| Avl.Delete | Practicas/practica8/src/mx/unam/ciencias/edd/ArbolAVL.java:159-168 | deleting an absent element changes nothing (count included); otherwise one copy goes, the count drops by one and the tree stays a valid AVL tree |
| Avl.RotateRightRejected | Practicas/practica8/src/mx/unam/ciencias/edd/ArbolAVL.java:178-182 | an outside right rotation always fails with UnsupportedOperation |
| Avl.RotateLeftRejected | Practicas/practica8/src/mx/unam/ciencias/edd/ArbolAVL.java:191-195 | an outside left rotation always fails with UnsupportedOperation |
| RedBlack.RbBlackHeight | Proyectos/proyecto3/src/mx/unam/ciencias/edd/ArbolRojinegro.java:4-16 | when every root-to-leaf path meets the same number of black vertices, that number is the black count of the left spine |
| RedBlack.RbIsBalanced | Proyectos/proyecto3/src/mx/unam/ciencias/edd/ArbolRojinegro.java:4-16 | a red-black subtree of black height n has at least 2^n - 1 vertices and height below 2n (plus one for a red root), so the colouring rules bound the height |
| RedBlack.Blacken | Proyectos/proyecto3/src/mx/unam/ciencias/edd/ArbolRojinegro.java:126-129 | painting the root black keeps the in-order walk and leaves a black root |
| RedBlack.BlackenRb | Proyectos/proyecto3/src/mx/unam/ciencias/edd/ArbolRojinegro.java:126-129 | painting a red root black keeps the colouring rules and adds one to the black height |
| RedBlack.NewVertex | Proyectos/proyecto3/src/mx/unam/ciencias/edd/ArbolRojinegro.java:112-116 | the new vertex is red, holds the element, and is a red-black subtree of black height 0 |
| RedBlack.FixLeft | Proyectos/proyecto3/src/mx/unam/ciencias/edd/ArbolRojinegro.java:131-166 | the insertion repair at a grandparent whose left side received the element (recolouring or rotations) keeps the in-order walk |
| RedBlack.FixRight | Proyectos/proyecto3/src/mx/unam/ciencias/edd/ArbolRojinegro.java:131-166 | mirror of FixLeft for the right side |
| RedBlack.FixLeftRb | Proyectos/proyecto3/src/mx/unam/ciencias/edd/ArbolRojinegro.java:131-166 | below a black grandparent, a red-red conflict on the left (red uncle: recolour; black or missing uncle: crossed-side rotation then rotation at the grandparent) is resolved and the black height is kept |
| RedBlack.FixRightRb | Proyectos/proyecto3/src/mx/unam/ciencias/edd/ArbolRojinegro.java:131-166 | mirror of FixLeftRb for the right side |
| RedBlack.Ins | Proyectos/proyecto3/src/mx/unam/ciencias/edd/ArbolRojinegro.java:112-116 | insertion with repairs has the same in-order walk as the plain ordered insertion of a red leaf |
| RedBlack.InsRb | Proyectos/proyecto3/src/mx/unam/ciencias/edd/ArbolRojinegro.java:123-166 | inserting below a black root keeps the colouring rules and black height; below a red root at most one red-red edge remains at the root, for the caller to repair |
| RedBlack.InsKeepsOrder | Proyectos/proyecto3/src/mx/unam/ciencias/edd/ArbolRojinegro.java:112-116 | insertion keeps an ordered tree ordered |
| RedBlack.Add | Proyectos/proyecto3/src/mx/unam/ciencias/edd/ArbolRojinegro.java:112-166 | a null element is refused with IllegalArgument; otherwise the count grows by one, the element is added once, and a valid red-black tree (black root, no red-red edge, equal black heights) stays valid |
| RedBlack.SiblingBlackLeft | Proyectos/proyecto3/src/mx/unam/ciencias/edd/ArbolRojinegro.java:223-260 | deletion cases 3 to 6 for a double black left child keep the in-order walk, and a red parent always ends the repair |
| RedBlack.SiblingBlackRight | Proyectos/proyecto3/src/mx/unam/ciencias/edd/ArbolRojinegro.java:223-260 | mirror of SiblingBlackLeft |
| RedBlack.SiblingBlackLeftRb | Proyectos/proyecto3/src/mx/unam/ciencias/edd/ArbolRojinegro.java:223-260 | with a black sibling, cases 3 to 6 restore the colouring rules, either at the old black height or one lower with the double black passed up |
| RedBlack.SiblingBlackRightRb | Proyectos/proyecto3/src/mx/unam/ciencias/edd/ArbolRojinegro.java:223-260 | mirror of SiblingBlackLeftRb |
| RedBlack.FixDelLeft | Proyectos/proyecto3/src/mx/unam/ciencias/edd/ArbolRojinegro.java:211-260 | the whole double-black repair for a left child (red sibling rotated away, then cases 3 to 6) keeps the in-order walk |
| RedBlack.FixDelRight | Proyectos/proyecto3/src/mx/unam/ciencias/edd/ArbolRojinegro.java:211-260 | mirror of FixDelLeft |
| RedBlack.FixDelLeftRb | Proyectos/proyecto3/src/mx/unam/ciencias/edd/ArbolRojinegro.java:211-260 | the repair of a double black left child restores the colouring rules, passing a double black up only from a black parent |
| RedBlack.FixDelRightRb | Proyectos/proyecto3/src/mx/unam/ciencias/edd/ArbolRojinegro.java:211-260 | mirror of FixDelLeftRb |
| RedBlack.BubbleLeft | Proyectos/proyecto3/src/mx/unam/ciencias/edd/ArbolRojinegro.java:206-210 | passing a double black up from the left keeps the in-order walk |
| RedBlack.BubbleRight | Proyectos/proyecto3/src/mx/unam/ciencias/edd/ArbolRojinegro.java:206-210 | passing a double black up from the right keeps the in-order walk |
| RedBlack.BubbleLeftRb | Proyectos/proyecto3/src/mx/unam/ciencias/edd/ArbolRojinegro.java:206-229 | a repaired left subtree, repaired again at the parent when it reports a double black, gives a repaired parent subtree |
| RedBlack.BubbleRightRb | Proyectos/proyecto3/src/mx/unam/ciencias/edd/ArbolRojinegro.java:206-229 | mirror of BubbleLeftRb |
| RedBlack.RemoveVertex | Proyectos/proyecto3/src/mx/unam/ciencias/edd/ArbolRojinegro.java:185-202 | removing a vertex with at most one child (the phantom leaf standing in for a missing child) leaves its children's walks joined |
| RedBlack.RemoveVertexRb | Proyectos/proyecto3/src/mx/unam/ciencias/edd/ArbolRojinegro.java:185-202 | a red child is recoloured black and the black height is kept; a black vertex with a black or phantom child reports a double black |
| RedBlack.DelMax | Proyectos/proyecto3/src/mx/unam/ciencias/edd/ArbolRojinegro.java:183-184 | removing the predecessor's vertex leaves the in-order walk minus its last element, which is returned |
| RedBlack.DelMaxRb | Proyectos/proyecto3/src/mx/unam/ciencias/edd/ArbolRojinegro.java:183-202 | removing the predecessor's vertex with repairs delivers a repaired subtree |
| RedBlack.Del | Proyectos/proyecto3/src/mx/unam/ciencias/edd/ArbolRojinegro.java:179-182 | deletion reports nothing to delete exactly when the search finds no vertex |
| RedBlack.DelRb | Proyectos/proyecto3/src/mx/unam/ciencias/edd/ArbolRojinegro.java:179-204 | deletion with repairs delivers a repaired subtree of the same or one lower black height |
| RedBlack.DelElems | Proyectos/proyecto3/src/mx/unam/ciencias/edd/ArbolRojinegro.java:179-204 | a successful deletion removes exactly one copy of a present element |
| RedBlack.DelMaxKeepsOrder | Proyectos/proyecto3/src/mx/unam/ciencias/edd/ArbolRojinegro.java:183-184 | the removed predecessor belongs to the subtree, bounds what is left, and the rest stays ordered |
| RedBlack.DelBothChildrenKeepsOrder | Proyectos/proyecto3/src/mx/unam/ciencias/edd/ArbolRojinegro.java:183-184 | deleting the root of an ordered subtree with two children through its predecessor keeps it ordered |
| RedBlack.DelKeepsOrder | Proyectos/proyecto3/src/mx/unam/ciencias/edd/ArbolRojinegro.java:179-204 | deletion keeps an ordered tree ordered |
| RedBlack.Delete | Proyectos/proyecto3/src/mx/unam/ciencias/edd/ArbolRojinegro.java:179-204 | deleting an absent element changes nothing; otherwise one copy goes, the count drops by one and a valid red-black tree stays valid |
| RedBlack.RotateRightRejected | Proyectos/proyecto3/src/mx/unam/ciencias/edd/ArbolRojinegro.java:294-298 | an outside right rotation always fails with UnsupportedOperation |
| RedBlack.RotateLeftRejected | Proyectos/proyecto3/src/mx/unam/ciencias/edd/ArbolRojinegro.java:281-285 | an outside left rotation always fails with UnsupportedOperation |
| Lists.Append | Practicas/practica1/src/mx/unam/ciencias/edd/Lista.java:133-146 | a null element is refused with IllegalArgument; otherwise the list grows by one with the old elements in front and the new one last |
| Lists.Prepend | Practicas/practica1/src/mx/unam/ciencias/edd/Lista.java:166-179 | a null element is refused with IllegalArgument; otherwise the new element comes first, followed by the old list |
| Lists.Slot | Practicas/practica1/src/mx/unam/ciencias/edd/Lista.java:199-206 | an index below 1 means the front, an index at or past the length means the end, any other index is kept |
| Lists.InsertAt | Practicas/practica1/src/mx/unam/ciencias/edd/Lista.java:196-216 | a null element is refused; otherwise the element lands at the chosen slot, with the elements before and after it in their original order |
| Lists.InsertAtRemoveAt | Practicas/practica1/src/mx/unam/ciencias/edd/Lista.java:196-216 | taking the inserted element back out of its slot gives the original list |
| Lists.IndexOf | Practicas/practica1/src/mx/unam/ciencias/edd/Lista.java:402-412 | the answer is -1 exactly when the element is absent, otherwise the index of its first occurrence |
| Lists.Contains | Practicas/practica1/src/mx/unam/ciencias/edd/Lista.java:252-316 | the node scan from the head answers true exactly when a non-null element is in the list; for null it answers false |
| Lists.Remove | Practicas/practica1/src/mx/unam/ciencias/edd/Lista.java:223-246 | a null or absent element leaves the list unchanged; otherwise the list gets one shorter |
| Lists.RemoveFirstOccurrence | Practicas/practica1/src/mx/unam/ciencias/edd/Lista.java:223-246 | removal cuts out exactly the first occurrence, keeping everything before and after it in order |
| Lists.RemoveElems | Practicas/practica1/src/mx/unam/ciencias/edd/Lista.java:223-246 | removal takes exactly one copy of the element out of the list's contents (none when absent) |
| Lists.RemoveFirst | Practicas/practica1/src/mx/unam/ciencias/edd/Lista.java:268-282 | fails with NoSuchElement exactly on the empty list; otherwise the returned head followed by the remaining list is the original |
| Lists.RemoveLast | Practicas/practica1/src/mx/unam/ciencias/edd/Lista.java:289-306 | fails with NoSuchElement exactly on the empty list; otherwise the remaining list followed by the returned tail is the original |
| Lists.EndsRoundTrip | Practicas/practica1/src/mx/unam/ciencias/edd/Lista.java:133-306 | removing the first element after prepending it, or the last after appending it, gives back that element and the original list |
| Lists.First | Practicas/practica1/src/mx/unam/ciencias/edd/Lista.java:360-364 | fails exactly on the empty list; otherwise gives the element the front removal would return |
| Lists.Last | Practicas/practica1/src/mx/unam/ciencias/edd/Lista.java:371-375 | fails exactly on the empty list; otherwise gives the element the back removal would return |
| Lists.ReversedAt | Practicas/practica1/src/mx/unam/ciencias/edd/Lista.java:322-330 | position i of the reversed list holds the element at position length-1-i of the original |
| Lists.ReversedInvolution | Practicas/practica1/src/mx/unam/ciencias/edd/Lista.java:322-330 | reversing twice gives the original list |
| Lists.Reverse | Practicas/practica1/src/mx/unam/ciencias/edd/Lista.java:322-330 | the loop that prepends each element in turn builds the reversed list |
| Lists.Copy | Practicas/practica1/src/mx/unam/ciencias/edd/Lista.java:337-345 | the loop that appends each element in turn builds a list equal to the original |
| Lists.Get | Practicas/practica1/src/mx/unam/ciencias/edd/Lista.java:384-394 | fails with InvalidIndex exactly when the index is outside [0, length); otherwise gives the element at that index |
| Lists.Equals | Practicas/practica1/src/mx/unam/ciencias/edd/Lista.java:438-454 | the length check plus the pairwise scan answers true exactly when both lists hold equal elements in the same order |
| Lists.ToString | Practicas/practica1/src/mx/unam/ciencias/edd/Lista.java:418-430 | the text is the elements' texts separated by ", " inside brackets, and "[]" for the empty list |
| Lists.JoinedAppend | Practicas/practica1/src/mx/unam/ciencias/edd/Lista.java:424-427 | adding an element to a non-empty list adds ", " and its text at the end of the listing |
| StackQueue.Push | Practicas/practica2/src/mx/unam/ciencias/edd/Pila.java:30-40 | a null element is refused with IllegalArgument; otherwise the element goes on top and the rest of the stack is unchanged below it |
| StackQueue.PushAllIsLifo | Practicas/practica2/src/mx/unam/ciencias/edd/Pila.java:30-40 | pushing a sequence of elements leaves them on top in reverse order (last in, first out) |
| StackQueue.StackTextPush | Practicas/practica2/src/mx/unam/ciencias/edd/Pila.java:12-22 | after a push the listing starts with the new top's text and a newline, followed by the old listing |
| StackQueue.Enqueue | Practicas/practica7/src/mx/unam/ciencias/edd/Cola.java:30-40 | a null element is refused with IllegalArgument; otherwise the element goes last, the earlier elements keep their order and the head is unchanged |
| StackQueue.EnqueueAllIsFifo | Practicas/practica7/src/mx/unam/ciencias/edd/Cola.java:30-40 | enqueuing a sequence of elements leaves them at the back in the same order (first in, first out) |
| StackQueue.QueueTextEnqueue | Practicas/practica7/src/mx/unam/ciencias/edd/Cola.java:12-22 | after an enqueue the listing is the old listing followed by the new element's text and a comma |
| StackQueue.StackToString | Practicas/practica2/src/mx/unam/ciencias/edd/Pila.java:12-22 | the loop over the nodes produces every element's text from the top, each followed by a line break, and produces the empty text exactly for the empty stack |
| StackQueue.QueueToString | Practicas/practica7/src/mx/unam/ciencias/edd/Cola.java:12-22 | the loop over the nodes produces every element's text from the head, each followed by a comma, and produces the empty text exactly for the empty queue |
| MinHeap.Parent | Practicas/practica8/src/mx/unam/ciencias/edd/MonticuloMinimo.java:165-166 | the parent slot (i - 1) / 2 lies before the child, which is its left (2p + 1) or right (2p + 2) child |
| MinHeap.Padre | Practicas/practica8/src/mx/unam/ciencias/edd/MonticuloMinimo.java:224-228 | the parent index is -1 for the root and for slots outside the heap, and the real parent slot otherwise |
| MinHeap.IndexOkDistinct | Practicas/practica8/src/mx/unam/ciencias/edd/MonticuloMinimo.java:108-111 | when every element's stored index is its array position, no element occurs twice |
| MinHeap.Contains | Practicas/practica8/src/mx/unam/ciencias/edd/MonticuloMinimo.java:236-241 | with consistent indices, an element is in the heap exactly when its stored index points at a slot holding it |
| MinHeap.Swap | Practicas/practica8/src/mx/unam/ciencias/edd/MonticuloMinimo.java:135-141 | exchanging two slots moves exactly those two elements, keeps the contents and capacity, and keeps every stored index equal to its position |
| MinHeap.LeastOf | Practicas/practica8/src/mx/unam/ciencias/edd/MonticuloMinimo.java:118-128 | the chosen slot is the vertex or one of its children, holds a key no larger than the vertex's and its children's, and differs from the vertex only when strictly smaller |
| MinHeap.SiftDown | Practicas/practica8/src/mx/unam/ciencias/edd/MonticuloMinimo.java:117-133 | sifting down keeps the contents, size, capacity and index consistency |
| MinHeap.SiftDownRestores | Practicas/practica8/src/mx/unam/ciencias/edd/MonticuloMinimo.java:117-133 | if the heap order fails only between slot i and its children, sifting i down restores heap order on the whole range |
| MinHeap.SiftDownOnHeap | Practicas/practica8/src/mx/unam/ciencias/edd/MonticuloMinimo.java:117-133 | sifting down in a heap-ordered array changes nothing |
| MinHeap.SiftUp | Practicas/practica8/src/mx/unam/ciencias/edd/MonticuloMinimo.java:164-178 | sifting up keeps the contents, size, capacity and index consistency |
| MinHeap.SiftUpRestores | Practicas/practica8/src/mx/unam/ciencias/edd/MonticuloMinimo.java:164-178 | if the heap order fails only between slot i and its ancestors, sifting i up restores heap order |
| MinHeap.ReplaceRestores | Practicas/practica8/src/mx/unam/ciencias/edd/MonticuloMinimo.java:265-271 | after any one slot of a heap gets a new element, sifting it up and then down restores heap order |
| MinHeap.RootIsMin | Practicas/practica8/src/mx/unam/ciencias/edd/MonticuloMinimo.java:185-191 | in a heap-ordered array the root holds a minimum key |
| MinHeap.Build | Practicas/practica8/src/mx/unam/ciencias/edd/MonticuloMinimo.java:104-115 | the bulk constructor keeps exactly the given elements with capacity equal to their number, produces heap order, and with distinct elements a valid heap whose indices match the positions |
| MinHeap.Actualiza | Practicas/practica8/src/mx/unam/ciencias/edd/MonticuloMinimo.java:213-222 | the loop that swaps a slot with its parent while smaller does what the recursive sift-up does, and nothing for an index outside the heap |
| MinHeap.Remove | Practicas/practica8/src/mx/unam/ciencias/edd/MonticuloMinimo.java:197-211 | a null element, an empty heap or an absent element changes nothing; otherwise exactly that element goes, the heap stays valid with the same capacity, and its index becomes -1 |
| MinHeap.DetachedCount | Practicas/practica8/src/mx/unam/ciencias/edd/MonticuloMinimo.java:205-207 | swapping slot i with the last slot and dropping the last removes exactly the element at i |
| MinHeap.DetachedOrder | Practicas/practica8/src/mx/unam/ciencias/edd/MonticuloMinimo.java:205-209 | after the last element is moved into slot i, sifting it up and then down restores heap order |
| MinHeap.RemovedAtFacts | Practicas/practica8/src/mx/unam/ciencias/edd/MonticuloMinimo.java:202-210 | removing the element at its index leaves a valid heap one shorter, without that element, whose index becomes -1 |
| MinHeap.RemoveMin | Practicas/practica8/src/mx/unam/ciencias/edd/MonticuloMinimo.java:185-191 | fails with IllegalState exactly on an empty heap; otherwise returns the root, a minimum of all keys, and leaves a valid heap without it |
| MinHeap.AddAsWritten | Practicas/practica8/src/mx/unam/ciencias/edd/MonticuloMinimo.java:147-162 | the code as written fails (array index out of bounds) exactly when the doubled array is still full, which happens for capacity 0 |
| MinHeap.AddAsWrittenFailsOnEmptyBuild | Practicas/practica8/src/mx/unam/ciencias/edd/MonticuloMinimo.java:147-157 | a heap built from an empty collection has capacity 0, and adding to it fails |
| MinHeap.Grown | Practicas/practica8/src/mx/unam/ciencias/edd/MonticuloMinimo.java:156-162 | the corrected growth is strictly larger than the old capacity and at least its double |
| MinHeap.Add | Practicas/practica8/src/mx/unam/ciencias/edd/MonticuloMinimo.java:147-154 | adding grows the contents by exactly the element, keeps the size within capacity, grows capacity only when full, and keeps a valid heap valid with the new element found |
| MinHeap.AddRestores | Practicas/practica8/src/mx/unam/ciencias/edd/MonticuloMinimo.java:150-153 | placing the element last with that index and sifting it up keeps heap order and index consistency, and the element is found afterwards |
| MinHeap.AddAfterBuild | Practicas/practica8/src/mx/unam/ciencias/edd/MonticuloMinimo.java:147-154 | adding to a full heap (as every built heap is) with the corrected growth yields a valid heap |
| MinHeap.Get | Practicas/practica8/src/mx/unam/ciencias/edd/MonticuloMinimo.java:288-292 | fails with NoSuchElement exactly outside [0, count); otherwise gives the element at slot i, whose stored index is i |
| MinHeap.Clear | Practicas/practica8/src/mx/unam/ciencias/edd/MonticuloMinimo.java:255-259 | the cleared heap is valid, contains nothing, and slot 0 can no longer be read |
| MinHeap.Reorder | Practicas/practica8/src/mx/unam/ciencias/edd/MonticuloMinimo.java:265-271 | null changes nothing; an index outside the heap is a runtime failure; otherwise the contents, capacity and index consistency are kept |
| MinHeap.ReorderAfterKeyChange | Practicas/practica8/src/mx/unam/ciencias/edd/MonticuloMinimo.java:265-271 | after one element's key changes, reordering it succeeds and gives back a valid heap with the same elements |
| MinHeap.KeysPermute | Practicas/practica8/src/mx/unam/ciencias/edd/MonticuloMinimo.java:340-352 | two arrays holding the same elements hold the same keys |
| MinHeap.SortStep | Practicas/practica8/src/mx/unam/ciencias/edd/MonticuloMinimo.java:349-350 | taking the minimum out of the heap and appending it keeps the output sorted, not above what remains, and together with what remains a permutation of the input |
| MinHeap.HeapSort | Practicas/practica8/src/mx/unam/ciencias/edd/MonticuloMinimo.java:340-352 | the output is a non-decreasing permutation of the input |
| Arrays.Swap | Practicas/practica9/src/mx/unam/ciencias/edd/Arreglos.java:67-71 | exchanging two slots moves exactly those two values and keeps the contents |
| Arrays.SwapInvolution | Practicas/practica9/src/mx/unam/ciencias/edd/Arreglos.java:67-71 | exchanging the same two slots twice gives back the original array |
| Arrays.Partition | Practicas/practica9/src/mx/unam/ciencias/edd/Arreglos.java:25-38 | partitioning [i, j] around a[i] only permutes that range and leaves the pivot at some k with everything in [i, k) not above it and everything in (k, j] above it |
| Arrays.PermutedBounds | Practicas/practica9/src/mx/unam/ciencias/edd/Arreglos.java:39-40 | permuting a range keeps any bound that held for all of its values |
| Arrays.JoinSorted | Practicas/practica9/src/mx/unam/ciencias/edd/Arreglos.java:38-40 | a sorted part not above the pivot, the pivot, and a sorted part above it form a sorted range |
| Arrays.QuickSortRange | Practicas/practica9/src/mx/unam/ciencias/edd/Arreglos.java:21-41 | sorting [i, j] only permutes that range, leaves it non-decreasing, and leaves the array untouched when i >= j |
| Arrays.QuickSort | Practicas/practica9/src/mx/unam/ciencias/edd/Arreglos.java:16-19 | the result is a non-decreasing permutation of the input |
| Arrays.SelectionStep | Practicas/practica9/src/mx/unam/ciencias/edd/Arreglos.java:62-64 | the inner loop only permutes the suffix from i and leaves at i a minimum of that suffix |
| Arrays.SelectionAdvance | Practicas/practica9/src/mx/unam/ciencias/edd/Arreglos.java:61-64 | after outer step i the sorted prefix grows by one and stays not above the rest |
| Arrays.SelectionSort | Practicas/practica9/src/mx/unam/ciencias/edd/Arreglos.java:59-65 | the result is a non-decreasing permutation of the input |
| Arrays.BinarySearch | Practicas/practica9/src/mx/unam/ciencias/edd/Arreglos.java:92-107 | a returned index holds the searched value; on a sorted array -1 means the value is absent (midpoint computed without overflow) |
| Arrays.MidpointAsWritten | Practicas/practica9/src/mx/unam/ciencias/edd/Arreglos.java:98 | `(i + f) / 2` in Java's int is the exact midpoint while i + f stays below 2^31 and negative once it wraps |
| Arrays.SearchAsWritten | Practicas/practica9/src/mx/unam/ciencias/edd/Arreglos.java:92-107 | the loop with the 32-bit midpoint only returns -1 or an index holding the value, throws only when a midpoint wraps, and never throws on arrays of at most 2^30 elements |
| Arrays.SearchAsWrittenWraps | Practicas/practica9/src/mx/unam/ciencias/edd/Arreglos.java:96-101 | on an array of at least 3 * 2^29 elements, searching for a value above all of them throws on the second probe |
| Hashes.XorHash | Practicas/practica11/src/mx/unam/ciencias/edd/Dispersores.java:16-26 | the two loops compute the XOR of the key's big-endian 32-bit words, the last one padded on the right with zero bytes |
| Hashes.XorTail | Practicas/practica11/src/mx/unam/ciencias/edd/Dispersores.java:23-24 | the 1 to 3 trailing bytes form a left-aligned big-endian word with zero padding |
| Hashes.XorShort | Practicas/practica11/src/mx/unam/ciencias/edd/Dispersores.java:23-25 | a key shorter than four bytes hashes to its zero-padded big-endian word |
| Hashes.XorBlock | Practicas/practica11/src/mx/unam/ciencias/edd/Dispersores.java:20-22 | each full 4-byte block contributes its big-endian word by XOR |
| Hashes.XorZeros | Practicas/practica11/src/mx/unam/ciencias/edd/Dispersores.java:16-26 | a key of zero bytes, the empty key included, hashes to 0 |
| Hashes.XorPadding | Practicas/practica11/src/mx/unam/ciencias/edd/Dispersores.java:23-25 | appending zero bytes never changes the hash |
| Hashes.XorConcat | Practicas/practica11/src/mx/unam/ciencias/edd/Dispersores.java:20-25 | the hash of a key whose first part has a length divisible by four is the XOR of the two parts' hashes |
| Hashes.XorTwice | Practicas/practica11/src/mx/unam/ciencias/edd/Dispersores.java:20-22 | a block-aligned key repeated twice hashes to 0 |
| Hashes.ShiftIsTimes33 | Practicas/practica11/src/mx/unam/ciencias/edd/Dispersores.java:112 | adding the value shifted left by 5 multiplies it by 33 modulo 2^32 |
| Hashes.DjbHash | Practicas/practica11/src/mx/unam/ciencias/edd/Dispersores.java:109-114 | the loop computes the fold from 5381 of k * 33 + b over the unsigned bytes, modulo 2^32 (5381 for the empty key) |
| Hashes.DjbChain | Practicas/practica11/src/mx/unam/ciencias/edd/Dispersores.java:109-114 | hashing a concatenation continues from the state reached after the first part |
| Hashes.BlocksEnd | Practicas/practica11/src/mx/unam/ciencias/edd/Dispersores.java:39-53 | the block loop stops at the last multiple of 12 that leaves fewer than 12 bytes |
| Hashes.BjHash | Practicas/practica11/src/mx/unam/ciencias/edd/Dispersores.java:33-102 | the method computes lookup2: from x = y = 0x9e3779b9 and z = 0xFFFFFFFF, absorb little-endian 12-byte blocks with the mix, add the length to z and the remaining bytes through the fall-through switch, mix again and return z |
| Hashes.SwitchPadded | Practicas/practica11/src/mx/unam/ciencias/edd/Dispersores.java:55-68 | starting the fall-through at case 11 with zero past the key's end gives the same result as starting at the number of bytes left |
| Hashes.BjShort | Practicas/practica11/src/mx/unam/ciencias/edd/Dispersores.java:39-71 | a key shorter than 12 bytes skips the block loop and is hashed by the tail and the final mix alone |
| Dictionary.Doubling | Practicas/practica12/src/mx/unam/ciencias/edd/Diccionario.java:168-170 | the doubling loop ends at a power of two that reaches the target, and overshoots by less than a factor of two |
| Dictionary.Capacity | Practicas/practica12/src/mx/unam/ciencias/edd/Diccionario.java:165-172 | the constructor's capacity is a power of two at least 2 * max(capacidad, 64) whose half is below that bound |
| Dictionary.CapacityIsLeast | Practicas/practica12/src/mx/unam/ciencias/edd/Diccionario.java:165-172 | the corrected capacity is the least power of two not below 2 * max(capacidad, 64) |
| Dictionary.DefaultCapacity | Practicas/practica12/src/mx/unam/ciencias/edd/Diccionario.java:155-157 | the default capacity of 64 gives a table of 128 buckets |
| JavaInt.Wrap32 | Practicas/practica12/src/mx/unam/ciencias/edd/Diccionario.java:169-170 | Java int arithmetic: the wrapped value is the 32-bit two's-complement value congruent to the exact one |
| Dictionary.DoublingStuckAtZero | Practicas/practica12/src/mx/unam/ciencias/edd/Diccionario.java:169-170 | once c has wrapped to 0 the doubling loop never reaches a positive target |
| Dictionary.DoublingAsWritten | Practicas/practica12/src/mx/unam/ciencias/edd/Diccionario.java:169-170 | the loop as written stops only at a value reaching the target, and at once when the start already does |
| Dictionary.CapacityAsWritten | Practicas/practica12/src/mx/unam/ciencias/edd/Diccionario.java:165-172 | whatever the constructor as written ends with reaches twice max(capacidad, 64) as wrapped to 32 bits |
| Dictionary.DoublingAgrees | Practicas/practica12/src/mx/unam/ciencias/edd/Diccionario.java:169-170 | for a target up to 2^30 no doubling wraps, and the loop as written ends at the exact loop's power |
| Dictionary.CapacityAsWrittenAgrees | Practicas/practica12/src/mx/unam/ciencias/edd/Diccionario.java:165-172 | for capacidad up to 2^29 the constructor as written gives the least power of two the corrected one gives |
| Dictionary.DoublingWraps | Practicas/practica12/src/mx/unam/ciencias/edd/Diccionario.java:169-170 | for a target above 2^30, doubling any power of two up to 2^30 passes through -2^31 to 0 instead of reaching it |
| Dictionary.CapacityAsWrittenHangs | Practicas/practica12/src/mx/unam/ciencias/edd/Diccionario.java:165-172 | with capacidad = 2^29 + 1 the constructor's loop as written never ends, whatever the number of steps allowed |
| Dictionary.Empty | Practicas/practica12/src/mx/unam/ciencias/edd/Diccionario.java:171 | a new bucket array of n empty buckets holding nothing |
| Dictionary.Slot | Practicas/practica12/src/mx/unam/ciencias/edd/Diccionario.java:185 | the bucket chosen for a hash is a valid index of the bucket array |
| Dictionary.Find | Practicas/practica12/src/mx/unam/ciencias/edd/Diccionario.java:222-225 | scanning a bucket finds nothing exactly when no entry has the key, and otherwise a value stored under that key |
| Dictionary.Upsert | Practicas/practica12/src/mx/unam/ciencias/edd/Diccionario.java:186-195 | after storing into a bucket the key maps to the new value and every other key keeps its lookup |
| Dictionary.UpsertLength | Practicas/practica12/src/mx/unam/ciencias/edd/Diccionario.java:186-195 | an existing key is overwritten in place (same bucket length); a new key is appended at the end |
| Dictionary.Drop | Practicas/practica12/src/mx/unam/ciencias/edd/Diccionario.java:258-263 | removing from a bucket drops exactly the key's entry (one entry fewer when present, no change otherwise) and keeps every other key |
| Dictionary.LookupIsScan | Practicas/practica12/src/mx/unam/ciencias/edd/Diccionario.java:221-225 | in a well-formed table, looking in the key's own bucket gives the same answer as scanning every entry of the table |
| Dictionary.Place | Practicas/practica12/src/mx/unam/ciencias/edd/Diccionario.java:185-196 | storing without growth maps the key to the value, keeps every other key, raises the count only for a new key, and keeps the table well formed |
| Dictionary.Grow | Practicas/practica12/src/mx/unam/ciencias/edd/Diccionario.java:201-209 | growing doubles the number of buckets |
| Dictionary.ReinsertLookup | Practicas/practica12/src/mx/unam/ciencias/edd/Diccionario.java:205-208 | reinserting distinct new entries adds each of them, raises the count by their number, and keeps the table well formed |
| Dictionary.GrowNeverNests | Practicas/practica12/src/mx/unam/ciencias/edd/Diccionario.java:201-209 | while the doubled table is refilled its load stays below 0.72, so the reinsertion never triggers a second growth |
| Dictionary.GrowKeeps | Practicas/practica12/src/mx/unam/ciencias/edd/Diccionario.java:201-209 | growing gives a valid table (power-of-two length, entries in their buckets, count matching) with the same count and the same value for every key |
| Dictionary.EmptyValid | Practicas/practica12/src/mx/unam/ciencias/edd/Diccionario.java:171 | an empty table of power-of-two length is valid and finds no key |
| Dictionary.Add | Practicas/practica12/src/mx/unam/ciencias/edd/Diccionario.java:182-199 | a null key or value is refused with IllegalArgument; an existing key gets the new value with the count unchanged; a new key raises the count by one and doubles the table when the load reaches 0.72; every other key keeps its value and the table stays valid |
| Dictionary.Get | Practicas/practica12/src/mx/unam/ciencias/edd/Diccionario.java:218-227 | a null key is IllegalArgument, an absent key NoSuchElement, otherwise the stored value |
| Dictionary.Contains | Practicas/practica12/src/mx/unam/ciencias/edd/Diccionario.java:235-245 | true exactly for a non-null key stored in the table (an empty table holds none) |
| Dictionary.Unplace | Practicas/practica12/src/mx/unam/ciencias/edd/Diccionario.java:257-263 | removing from the key's bucket deletes that key only, lowers the count only when it was present, and keeps the table well formed |
| Dictionary.Remove | Practicas/practica12/src/mx/unam/ciencias/edd/Diccionario.java:254-266 | a null key is IllegalArgument and an absent key NoSuchElement; otherwise that key alone disappears, the count drops by one and the table stays valid |
| Dictionary.Clear | Practicas/practica12/src/mx/unam/ciencias/edd/Diccionario.java:324-327 | clearing keeps the number of buckets |
| Dictionary.ClearEmpties | Practicas/practica12/src/mx/unam/ciencias/edd/Diccionario.java:324-327 | the cleared table is valid, has count 0 and finds no key |
| Dictionary.New | Practicas/practica12/src/mx/unam/ciencias/edd/Diccionario.java:165-172 | the constructor gives a valid empty table of the corrected capacity |
| Dictionary.EqualsComplete | Practicas/practica12/src/mx/unam/ciencias/edd/Diccionario.java:351-367 | two valid tables mapping every key the same way are equal by the count-and-lookup check |
| Dictionary.EqualsSound | Practicas/practica12/src/mx/unam/ciencias/edd/Diccionario.java:351-367 | two valid tables equal by that check map every key the same way |
| Dictionary.EqualsIsSameContents | Practicas/practica12/src/mx/unam/ciencias/edd/Diccionario.java:351-367 | equality of valid tables holds exactly when they map every key to the same value, whatever their capacities or hash functions |
| Dictionary.GetAfterAdd | Practicas/practica12/src/mx/unam/ciencias/edd/Diccionario.java:182-227 | reading a key right after storing it gives the stored value |
| Dictionary.RemoveAfterAdd | Practicas/practica12/src/mx/unam/ciencias/edd/Diccionario.java:182-266 | adding a new key and removing it again gives a table with the original count and contents |
| Dictionary.GetAfterRemove | Practicas/practica12/src/mx/unam/ciencias/edd/Diccionario.java:218-266 | after removing a key, reading it fails with NoSuchElement and it is no longer contained |
| CompleteTree.QueueNext | Practicas/practica7/src/mx/unam/ciencias/edd/ArbolBinarioCompleto.java:165-172 | in a complete tree, taking vertex k out of the breadth-first queue and putting in its existing children gives the queue of vertex k + 1 (the queue is always a contiguous run of level-order positions) |
| CompleteTree.AddSlot | Practicas/practica7/src/mx/unam/ciencias/edd/ArbolBinarioCompleto.java:72-92 | the breadth-first search for a missing child ends at the first free level-order position, the one right after the last vertex |
| CompleteTree.Attach | Practicas/practica7/src/mx/unam/ciencias/edd/ArbolBinarioCompleto.java:80-90 | hanging the new vertex fills exactly that position and leaves every other vertex as it was |
| CompleteTree.Add | Practicas/practica7/src/mx/unam/ciencias/edd/ArbolBinarioCompleto.java:65-94 | a null element is refused with IllegalArgument; otherwise the tree stays complete, the count grows by one and the new element comes last in level order |
| CompleteTree.AddPlacesFirstGap | Practicas/practica7/src/mx/unam/ciencias/edd/ArbolBinarioCompleto.java:72-92 | the new element becomes a child of the first vertex in level order that lacks one, every earlier vertex having both children |
| CompleteTree.Bfs | Practicas/practica7/src/mx/unam/ciencias/edd/ArbolBinarioCompleto.java:160-173 | the queue-driven walk visits every element exactly once, in level order |
| CompleteTree.BfsIsLevelOrder | Practicas/practica7/src/mx/unam/ciencias/edd/ArbolBinarioCompleto.java:160-173 | the visiting order goes level by level, and left to right within a level |
| CompleteTree.LastVertex | Practicas/practica7/src/mx/unam/ciencias/edd/ArbolBinarioCompleto.java:122-138 | the recursive queue search returns the last vertex in level order |
| CompleteTree.Search | Proyectos/proyecto2/src/mx/unam/ciencias/edd/ArbolBinario.java:249-261 | a found position holds the target and lies in the subtree searched |
| CompleteTree.SearchComplete | Proyectos/proyecto2/src/mx/unam/ciencias/edd/ArbolBinario.java:249-261 | the preorder search from the root finds nothing exactly when the element is absent |
| CompleteTree.Swap | Practicas/practica7/src/mx/unam/ciencias/edd/ArbolBinarioCompleto.java:140-144 | exchanging the elements of two vertices changes those two positions only |
| CompleteTree.RemoveAsWritten | Practicas/practica7/src/mx/unam/ciencias/edd/ArbolBinarioCompleto.java:102-119 | the code as written changes nothing for a null or absent element and otherwise lowers the count by one |
| CompleteTree.RemoveAsWrittenBreaksShape | Practicas/practica7/src/mx/unam/ciencias/edd/ArbolBinarioCompleto.java:114-118 | in the tree 1 with children 5 and 5, deleting 5 detaches the left leaf (equal to the last one by element) and leaves a tree that is no longer complete |
| CompleteTree.Remove | Practicas/practica7/src/mx/unam/ciencias/edd/ArbolBinarioCompleto.java:102-119 | corrected deletion keeps the tree complete, changes nothing for a null or absent element, and otherwise removes one copy of it and lowers the count by one |
| CompleteTree.RemoveAgreesOnLeftLast | Practicas/practica7/src/mx/unam/ciencias/edd/ArbolBinarioCompleto.java:114-116 | when the last vertex is a left child the code as written and the corrected deletion agree |
| Graphs.Targets | Practicas/practica10/src/mx/unam/ciencias/edd/Grafica.java:111-134 | the neighbour list's targets line up one for one, in order, with the stored neighbours |
| Graphs.IndexOf | Practicas/practica10/src/mx/unam/ciencias/edd/Grafica.java:374-386 | the neighbour looked up is the first entry pointing at the requested vertex |
| Graphs.Empty | Practicas/practica6/src/mx/unam/ciencias/edd/Grafica.java:80-83 | a new graph is well formed: no vertices and no edges |
| Graphs.Without | Practicas/practica6/src/mx/unam/ciencias/edd/Grafica.java:172-179 | removing a vertex from the vertex list keeps exactly the other vertices, keeps them distinct and leaves a list without that vertex unchanged |
| Graphs.Add | Practicas/practica6/src/mx/unam/ciencias/edd/Grafica.java:108-114 | adding a missing (null) or already present element is IllegalArgument; otherwise the vertex is appended with no neighbours, the edge count stays and every old vertex keeps its neighbours |
| Graphs.AddValid | Practicas/practica12/src/mx/unam/ciencias/edd/Grafica.java:204-208 | appending a fresh isolated vertex keeps the graph well formed (keyed, simple, symmetric, edges counted) |
| Graphs.Vertex | Practicas/practica6/src/mx/unam/ciencias/edd/Grafica.java:203-208 | looking up a vertex fails with NoSuchElement exactly when the element is absent and otherwise returns that element |
| Graphs.Link | Practicas/practica10/src/mx/unam/ciencias/edd/Grafica.java:226-238 | joining two distinct non-adjacent vertices appends each to the other's neighbours with the same weight, adds one edge and touches no other vertex |
| Graphs.LinkValid | Practicas/practica12/src/mx/unam/ciencias/edd/Grafica.java:233-241 | the two-sided insertion of a new edge keeps the graph well formed and records the weight in both directions |
| Graphs.LinkSymmetric | Practicas/practica12/src/mx/unam/ciencias/edd/Grafica.java:238-239 | adding the edge on both sides keeps adjacency and weights symmetric |
| Graphs.Connect6 | Practicas/practica6/src/mx/unam/ciencias/edd/Grafica.java:125-133 | connecting fails exactly when an endpoint is absent (NoSuchElement), the endpoints coincide or are already adjacent (IllegalArgument); otherwise both become adjacent and the edge count grows by one |
| Graphs.Connect10 | Practicas/practica10/src/mx/unam/ciencias/edd/Grafica.java:226-238 | as the weighted connect: absent endpoints are NoSuchElement; a self-loop, an existing edge or a negative weight is IllegalArgument (zero is accepted); otherwise a symmetric edge with that weight is added and one edge is counted |
| Graphs.Connect12 | Practicas/practica12/src/mx/unam/ciencias/edd/Grafica.java:233-241 | a non-positive weight or a self-loop is IllegalArgument before anything else; then an absent endpoint is NoSuchElement and an existing edge IllegalArgument; otherwise a symmetric edge with that weight is added and one edge is counted |
| Graphs.Unlink | Practicas/practica10/src/mx/unam/ciencias/edd/Grafica.java:248-272 | removing an edge deletes exactly the pair (a,b) and (b,a) from adjacency, drops one edge and keeps the graph well formed |
| Graphs.UnlinkValid | Practicas/practica12/src/mx/unam/ciencias/edd/Grafica.java:259-261 | dropping the edge from both neighbour lists keeps the graph well formed and removes exactly that adjacency |
| Graphs.Disconnect6 | Practicas/practica6/src/mx/unam/ciencias/edd/Grafica.java:143-151 | disconnecting fails exactly when an endpoint is absent (NoSuchElement) or the two are not adjacent (IllegalArgument); otherwise the edge is gone in both directions and one edge fewer is counted |
| Graphs.Disconnect | Practicas/practica12/src/mx/unam/ciencias/edd/Grafica.java:251-262 | equal endpoints are IllegalArgument first; then absent endpoints are NoSuchElement and non-adjacent ones IllegalArgument; otherwise the edge is gone in both directions and one edge fewer is counted |
| Graphs.Neighbours6 | Practicas/practica6/src/mx/unam/ciencias/edd/Grafica.java:189-195 | asking for adjacency fails with NoSuchElement exactly when an endpoint is absent and otherwise answers whether b is a neighbour of a |
| Graphs.Neighbours | Practicas/practica12/src/mx/unam/ciencias/edd/Grafica.java:306-317 | the same query answers identically in both directions |
| Graphs.NeighboursAgree | Practicas/practica10/src/mx/unam/ciencias/edd/Grafica.java:312-323 | the two adjacency queries agree with each other and are symmetric in their arguments |
| Graphs.GetWeight | Practicas/practica12/src/mx/unam/ciencias/edd/Grafica.java:329-337 | reading a weight fails with NoSuchElement for absent endpoints and IllegalArgument for non-adjacent ones; otherwise the weight is one stored on the edge from a to b |
| Graphs.GetWeightSymmetric | Practicas/practica10/src/mx/unam/ciencias/edd/Grafica.java:335-346 | the weight read from a to b is the one read from b to a, errors included |
| Graphs.SetWeight | Practicas/practica12/src/mx/unam/ciencias/edd/Grafica.java:350-363 | setting a weight fails for absent endpoints (NoSuchElement), non-adjacent ones or a non-positive weight (IllegalArgument); otherwise adjacency is unchanged and only the weight of that edge, in both directions, becomes the new one |
| Graphs.SetValid | Practicas/practica10/src/mx/unam/ciencias/edd/Grafica.java:359-372 | rewriting both directions of one edge keeps the graph well formed and changes no other weight |
| Graphs.GetAfterSet | Practicas/practica12/src/mx/unam/ciencias/edd/Grafica.java:329-363 | after a successful weight update the weight read back, in either direction, is the new one |
| Graphs.Detach | Practicas/practica12/src/mx/unam/ciencias/edd/Grafica.java:289-294 | detaching a vertex from each of its neighbours leaves it isolated, removes it from every other neighbour list and lowers the edge count by its degree |
| Graphs.Remove | Practicas/practica6/src/mx/unam/ciencias/edd/Grafica.java:172-179 | removing an absent vertex is NoSuchElement; otherwise the vertex is gone, every other vertex loses it as a neighbour and the edge count drops by its degree |
| Graphs.RemoveValid | Practicas/practica12/src/mx/unam/ciencias/edd/Grafica.java:295 | deleting an isolated vertex from the vertex map keeps the graph well formed |
| Graphs.Clear | Practicas/practica6/src/mx/unam/ciencias/edd/Grafica.java:349-352 | clearing leaves a well-formed graph with no vertices and no edges |
| Graphs.RemoveAfterAdd | Practicas/practica12/src/mx/unam/ciencias/edd/Grafica.java:204-296 | adding a fresh vertex and removing it again gives back the original graph |
| Graphs.RemoveIsolated | Practicas/practica10/src/mx/unam/ciencias/edd/Grafica.java:293-302 | removing a vertex without neighbours only deletes that vertex |
| Graphs.DisconnectAfterConnect | Practicas/practica10/src/mx/unam/ciencias/edd/Grafica.java:226-272 | connecting two vertices and disconnecting them again gives back the original graph |
| Graphs.NeighboursAfterConnect | Practicas/practica12/src/mx/unam/ciencias/edd/Grafica.java:233-317 | after connecting, the two are neighbours; after disconnecting them again, they are not |
| Traversal.Scan | Practicas/practica6/src/mx/unam/ciencias/edd/Grafica.java:327-331 | scanning a vertex's neighbours marks all of them and queues exactly those that were not yet marked; when all were marked the pending collection is untouched |
| Traversal.ScanCount | Practicas/practica12/src/mx/unam/ciencias/edd/Grafica.java:436-440 | a neighbour scan never queues a vertex twice: the pending collection stays duplicate-free and grows by the number of newly marked neighbours |
| Traversal.ExploreStep | Practicas/practica6/src/mx/unam/ciencias/edd/Grafica.java:323-335 | one round of the traversal loop (take the next pending vertex, visit it, scan its neighbours) makes progress — fewer unmarked vertices or a shorter pending collection — and the rest of the traversal continues from that state |
| Traversal.ExploreVisits | Practicas/practica12/src/mx/unam/ciencias/edd/Grafica.java:432-444 | the traversal visits each vertex at most once, visits every marked vertex, and the visited set is closed under adjacency |
| Traversal.ExploreSound | Practicas/practica6/src/mx/unam/ciencias/edd/Grafica.java:323-335 | the traversal visits only vertices reachable from the start |
| Traversal.ExploreFirst | Practicas/practica6/src/mx/unam/ciencias/edd/Grafica.java:274-278 | the first vertex visited is the first one pending, the start vertex |
| Traversal.WalkVisitsReach | Practicas/practica6/src/mx/unam/ciencias/edd/Grafica.java:267-321 | from a start vertex of a well-formed graph, breadth-first and depth-first order both visit the start first and then every vertex reachable from it exactly once |
| Traversal.WalkFacts | Practicas/practica12/src/mx/unam/ciencias/edd/Grafica.java:466-524 | the same holds for any graph whose neighbour lists only name vertices of the graph |
| Traversal.ExploreCounts | Practicas/practica12/src/mx/unam/ciencias/edd/Grafica.java:418-430 | every vertex visited after the start is discovered through an edge of an already marked vertex, so the visit count is bounded by the degrees of the visited vertices |
| Traversal.WalkNeedsEdges | Practicas/practica12/src/mx/unam/ciencias/edd/Grafica.java:421-422 | a traversal that reaches n vertices needs at least n-1 edges, which justifies the early "too few edges" answer |
| Traversal.Bfs | Practicas/practica6/src/mx/unam/ciencias/edd/Grafica.java:267-288 | breadth-first traversal of an empty graph visits nothing; an absent start vertex is NoSuchElement; otherwise it visits each vertex reachable from the start exactly once, starting with the start |
| Traversal.Dfs | Practicas/practica6/src/mx/unam/ciencias/edd/Grafica.java:300-321 | depth-first traversal has the same errors and visits the same vertices, each once, starting with the start |
| Traversal.ConnectedFromOne | Practicas/practica10/src/mx/unam/ciencias/edd/Grafica.java:426-431 | a graph is connected exactly when everything is reachable from any one of its vertices |
| Traversal.WalkCountsConnected | Practicas/practica6/src/mx/unam/ciencias/edd/Grafica.java:238-244 | a traversal from one vertex counts as many vertices as the graph has exactly when the graph is connected |
| Traversal.IsConnected | Practicas/practica12/src/mx/unam/ciencias/edd/Grafica.java:418-430 | the connectivity test answers true exactly when every pair of vertices is joined by a path |
| Traversal.SmallConnected | Practicas/practica12/src/mx/unam/ciencias/edd/Grafica.java:419-420 | graphs with at most one vertex are connected |
| Traversal.IsConnected6 | Practicas/practica6/src/mx/unam/ciencias/edd/Grafica.java:235-245 | the earlier connectivity test fails with NoSuchElement on the empty graph and otherwise answers exactly whether the graph is connected |
| Traversal.IsConnectedAsWritten | Practicas/practica10/src/mx/unam/ciencias/edd/Grafica.java:426-431 | the connectivity test as written answers true exactly when every vertex has at least one neighbour |
| Traversal.IsConnectedAsWrittenIsWrong | Practicas/practica10/src/mx/unam/ciencias/edd/Grafica.java:426-431 | the graph made of two disjoint edges is accepted by that test though it is not connected |
| Traversal.IsConnectedAsWrittenRejectsLone | Practicas/practica10/src/mx/unam/ciencias/edd/Grafica.java:426-431 | the one-vertex graph is connected but the test as written rejects it |
| Distances.LScanKeys | Practicas/practica12/src/mx/unam/ciencias/edd/Grafica.java:620-624 | scanning a vertex's neighbours labels exactly the neighbours that had no label yet |
| Distances.LScanLabels | Practicas/practica12/src/mx/unam/ciencias/edd/Grafica.java:620-624 | labels already set are never changed; each newly labelled neighbour gets the current vertex's label plus one |
| Distances.LScanElems | Practicas/practica12/src/mx/unam/ciencias/edd/Grafica.java:620-624 | the queue gains exactly the neighbours that were unlabelled |
| Distances.LScanDistinct | Practicas/practica12/src/mx/unam/ciencias/edd/Grafica.java:620-624 | no vertex is queued twice |
| Distances.LabelsOf | Practicas/practica12/src/mx/unam/ciencias/edd/Grafica.java:612-614 | the labels of the queue, read in queue order |
| Distances.MonoStep | Practicas/practica12/src/mx/unam/ciencias/edd/Grafica.java:616-625 | taking the head off a queue whose labels are non-decreasing and span at most one, and appending vertices labelled one more than the head, keeps that shape |
| Distances.StepLayered | Practicas/practica12/src/mx/unam/ciencias/edd/Grafica.java:618-624 | one turn of the labelling loop keeps the queue's labels non-decreasing within a span of one, and no label exceeds the head's plus one |
| Distances.StepEdgeBound | Practicas/practica12/src/mx/unam/ciencias/edd/Grafica.java:618-624 | after a turn, across every edge leaving a dequeued vertex the label grows by at most one |
| Distances.StepParented | Practicas/practica12/src/mx/unam/ciencias/edd/Grafica.java:618-624 | after a turn, the origin is labelled 0 and every other labelled vertex has a neighbour labelled exactly one less |
| Distances.StepInv | Practicas/practica12/src/mx/unam/ciencias/edd/Grafica.java:616-625 | the labelling loop keeps all of these facts and makes progress |
| Distances.LExploreFinal | Practicas/practica12/src/mx/unam/ciencias/edd/Grafica.java:618-625 | when the queue empties, the labels satisfy the edge bound everywhere and every label other than the origin's has a parent one less |
| Distances.LabelsGood | Practicas/practica12/src/mx/unam/ciencias/edd/Grafica.java:612-625 | the labels computed from an origin of a well-formed graph are good in that sense |
| Distances.LabelledReachable | Practicas/practica12/src/mx/unam/ciencias/edd/Grafica.java:626-627 | a vertex that got a label is reachable from the origin |
| Distances.LabelsBelowPaths | Practicas/practica12/src/mx/unam/ciencias/edd/Grafica.java:612-625 | every path from the origin ends at a labelled vertex whose label is at most the path's number of edges |
| Distances.LabelsReach | Practicas/practica12/src/mx/unam/ciencias/edd/Grafica.java:626-627 | the labelled vertices are exactly those reachable from the origin, and the origin's label is 0 |
| Distances.LabelsDescend | Practicas/practica12/src/mx/unam/ciencias/edd/Grafica.java:630-635 | every labelled vertex other than the origin has a neighbour labelled exactly one less, so the walk back never gets stuck |
| Distances.LabelsAreDistances | Practicas/practica12/src/mx/unam/ciencias/edd/Grafica.java:602-627 | the labels are the breadth-first distances: exactly the reachable vertices, no longer than any path from the origin, each with a neighbour one closer |
| Distances.BackScan | Practicas/practica12/src/mx/unam/ciencias/edd/Grafica.java:631-635 | a pass over the neighbour list changes nothing when no neighbour is one label closer; when all neighbours are at most one closer and some is exactly one closer, the pass moves exactly one step to such a neighbour |
| Distances.Back | Practicas/practica12/src/mx/unam/ciencias/edd/Grafica.java:628-635 | the walk back from a vertex adds one vertex per unit of its label |
| Distances.BackEndsAtOrigin | Practicas/practica12/src/mx/unam/ciencias/edd/Grafica.java:630 | the walk back ends at the origin |
| Distances.BackDescends | Practicas/practica12/src/mx/unam/ciencias/edd/Grafica.java:630-635 | along the walk back consecutive vertices are adjacent and each is labelled one less than the one before |
| Distances.ReversePath | Practicas/practica12/src/mx/unam/ciencias/edd/Grafica.java:636 | reversing the walk back gives a path in the graph |
| Distances.BackIsShortest | Practicas/practica12/src/mx/unam/ciencias/edd/Grafica.java:626-636 | the reversed walk back is a path from origin to destination no longer than any other such path |
| Distances.ShortestSelf | Practicas/practica12/src/mx/unam/ciencias/edd/Grafica.java:608-611 | from a vertex to itself the one-vertex path is shortest |
| Distances.ShortestPath | Practicas/practica12/src/mx/unam/ciencias/edd/Grafica.java:602-637 | an absent endpoint is NoSuchElement; otherwise the answer is empty exactly when the destination is unreachable, and else is a shortest path from origin to destination |
| Text.UpTo | Proyectos/proyecto3/src/mx/unam/ciencias/edd/proyecto3/HtmlCreator.java:66-75 | the copy stops at the first occurrence of the stop character: the result is the longest prefix without it, and it was cut exactly when the text contains that character |
| Text.BeforeUnique | Proyectos/proyecto3/src/mx/unam/ciencias/edd/proyecto3/HtmlCreator.java:66-75 | there is only one such prefix, so the file-name stem is well defined |
| Text.Stem | Proyectos/proyecto3/src/mx/unam/ciencias/edd/proyecto3/HtmlCreator.java:66-75 | the file name without extension is the part before the first dot, or the whole name when it has no dot |
| Text.SplitWords | Proyectos/proyecto3/src/mx/unam/ciencias/edd/proyecto3/Organizador.java:92-103 | one word per space in the text; no word contains a space; the words each followed by a space spell out a prefix of the text, and what follows that prefix (the last, unterminated word) is dropped |
| Text.Tally | Proyectos/proyecto3/src/mx/unam/ciencias/edd/proyecto3/Organizador.java:77-85 | the word counts have exactly the listed words as keys, each counted as many times as it occurs |
| Text.TotalIsSum | Proyectos/proyecto3/src/mx/unam/ciencias/edd/proyecto3/Organizador.java:77-85 | adding up the counts over any list of keys gives the number of occurrences of those keys |
| Text.SumEmpty | Proyectos/proyecto3/src/mx/unam/ciencias/edd/proyecto3/Organizador.java:77-85 | keys that never occur add nothing |
| Text.TallySumsToLength | Proyectos/proyecto3/src/mx/unam/ciencias/edd/proyecto3/Organizador.java:77-85 | the counts over all distinct words add up to the number of words |
| Text.Unwrap | Proyectos/proyecto3/src/mx/unam/ciencias/edd/proyecto3/HtmlCreator.java:44-46 | removing a given opening and closing tag gives back what they wrapped |
| Text.UnwrapWrapped | Proyectos/proyecto3/src/mx/unam/ciencias/edd/proyecto3/HtmlCreator.java:44-46 | wrapping a text in tags and unwrapping it gives the text back |
| Text.Paragraph | Proyectos/proyecto3/src/mx/unam/ciencias/edd/proyecto3/HtmlCreator.java:44-46 | a paragraph is the text wrapped in the paragraph tags, and it can be recovered from them |
| Text.Title | Proyectos/proyecto3/src/mx/unam/ciencias/edd/proyecto3/HtmlCreator.java:22-24 | the title line is the name wrapped in the body and heading tags, and it can be recovered from them |
| Text.WriteCounts | Proyectos/proyecto3/src/mx/unam/ciencias/edd/proyecto3/HtmlCreator.java:26-42 | writing the counts produces one paragraph for each chunk that a second space closes, in order |
| Text.ChunkCounts | Proyectos/proyecto3/src/mx/unam/ciencias/edd/proyecto3/HtmlCreator.java:31-38 | the number of paragraphs written is half the number of spaces, rounded down; the odd space left over stays in the open chunk |
| Text.ChunkKeepsText | Proyectos/proyecto3/src/mx/unam/ciencias/edd/proyecto3/HtmlCreator.java:31-40 | the chunks written followed by the unwritten rest give back the whole text, so the paragraphs lose only the final unterminated chunk |
| Text.StartsWithJoin | Proyectos/proyecto3/src/mx/unam/ciencias/edd/proyecto3/HtmlCreator.java:14 | text appended after the page head does not change how the page starts |
| Text.EndsWithJoin | Proyectos/proyecto3/src/mx/unam/ciencias/edd/proyecto3/HtmlCreator.java:48-50 | text before the closing does not change how the page ends |
| Text.PageAsWrittenUnclosed | Proyectos/proyecto3/src/mx/unam/ciencias/edd/proyecto3/HtmlCreator.java:48-50 | the page as written starts with the html tag but ends with a second opening tag and no closing one |
| Text.PageClosed | Proyectos/proyecto3/src/mx/unam/ciencias/edd/proyecto3/HtmlCreator.java:14-50 | the page with the intended closing starts with the opening tag and ends with the closing one |
| Text.NoTabs | Proyectos/proyecto2/src/mx/unam/ciencias/edd/proyecto2/Lector.java:104 | the line without tabs has no tab and is no longer than the original |
| Text.NoTabsKeepsOthers | Proyectos/proyecto2/src/mx/unam/ciencias/edd/proyecto2/Lector.java:104 | removing tabs keeps every other character's count |
| Text.NoTabsConcat | Proyectos/proyecto2/src/mx/unam/ciencias/edd/proyecto2/Lector.java:104 | removing tabs from a concatenation removes them from each part; a single tab becomes empty and any other single character stays |
| Text.NoTabsIdentity | Proyectos/proyecto2/src/mx/unam/ciencias/edd/proyecto2/Lector.java:104 | a line without tabs is left as it is |
| Text.CleanLine | Proyectos/proyecto2/src/mx/unam/ciencias/edd/proyecto2/Lector.java:103-113 | a line is cut before its first comment mark; a line without one is kept whole and gets a trailing space |
| Text.Choose | Proyectos/proyecto2/src/mx/unam/ciencias/edd/proyecto2/Lector.java:36-73 | a structure name is accepted exactly when it is one of the nine known structures, and then it is returned unchanged; any other name ends the program |
| Text.DropSpaces | Proyectos/proyecto2/src/mx/unam/ciencias/edd/proyecto2/Lector.java:93 | dropping the leading spaces leaves a suffix of the text that does not start with a space, and only spaces were dropped |
| Text.Collapse | Proyectos/proyecto2/src/mx/unam/ciencias/edd/proyecto2/Lector.java:93 | collapsing runs of spaces keeps the first character, never lengthens the text and empties only the empty text |
| Text.CollapseSingleSpaced | Proyectos/proyecto2/src/mx/unam/ciencias/edd/proyecto2/Lector.java:93 | after collapsing, no space is followed by another |
| Text.CollapseFixed | Proyectos/proyecto2/src/mx/unam/ciencias/edd/proyecto2/Lector.java:93 | a text without two spaces in a row is unchanged by collapsing |
| Text.CollapseIdempotent | Proyectos/proyecto2/src/mx/unam/ciencias/edd/proyecto2/Lector.java:93 | collapsing twice is collapsing once |
| Text.CollapseAppend | Proyectos/proyecto2/src/mx/unam/ciencias/edd/proyecto2/Lector.java:93 | a text not ending in a space collapses independently of what follows it |
| Text.CollapseRun | Proyectos/proyecto2/src/mx/unam/ciencias/edd/proyecto2/Lector.java:93 | a run of spaces between a text not ending in a space and one not starting with a space collapses to exactly one space, each side collapsing on its own |
| Text.CollapseKeepsOthers | Proyectos/proyecto2/src/mx/unam/ciencias/edd/proyecto2/Lector.java:93 | collapsing keeps the count of every character other than the space |
| Text.DropSpacesKeepsOthers | Proyectos/proyecto2/src/mx/unam/ciencias/edd/proyecto2/Lector.java:93 | dropping leading spaces keeps the count of every character other than the space |

## Left out

- File and console plumbing:
  - the entry points `Proyecto1`, `Proyecto2` and `Proyecto3`;
  - `Modificador`;
  - the reading loop of `Lector.lecturaArchivo`, though its space-collapsing step is modelled;
  - the proyecto3 `Lector` constructor;
  - `Organizador.separa` and `abridor`;
  - `HtmlCreator.escritor` and `cuenta`.
  They only read files, write files or exit the program.
- The SVG factories of proyecto2: they are output formatting.
- `Organizador.mejorador`: it relies on Unicode normalisation from the Java library. `Modificador.ordenaList` relies on a list merge sort that is not part of this model.
- `HtmlCreator.format`: it depends on the dictionary's iteration order and `toString`. `WriteCounts` is therefore stated on the already formatted text.
- Floating point in `Grafica`: edge weights are exact reals. `dijkstra` and its `Double.MAX_VALUE` sentinels are not modelled.
- `ArbolBinarioCompleto.altura`: it is computed with `Math.log`.
- `Diccionario.carga`: the load factor is a double. The growth test is modelled as the exact integer comparison 100·count ≥ 72·length.
- The iterators of `Diccionario` and `Grafica`, `colisiones` and `colisionMaxima`: they are rendering and statistics over hash order.
- `ArbolBinario.toString`, the box-drawing tree printer: it is rendering only.
- Vertex colours of `Grafica`: they are reset after every traversal, so the traversals are modelled as functions returning the visit order.
- Traversal.IsConnected and Traversal.IsConnected6: assume every vertex is coloured NINGUNO when `esConexa` starts, as it is after every operation of the graph. A colour set beforehand through the public `setColor` (practica 6, Grafica.java:216-228; practica 12, Grafica.java:400-411) makes `recorrido` skip that vertex, so the source can answer false for a connected graph; the model does not cover that.
- Graphs.Vertex, Graphs.Connect6, Graphs.Connect10, Graphs.Connect12, Graphs.Disconnect6, Graphs.Disconnect, Graphs.Neighbours6, Graphs.Neighbours, Graphs.GetWeight, Graphs.SetWeight, Graphs.Remove, Traversal.Bfs, Traversal.Dfs, Distances.ShortestPath and Lists.IndexOf: their element arguments are plain values and never null. In Java a null argument is not a vertex (or not in the list) and takes the NoSuchElement or -1 path where the code only tests membership, but a method that starts with `a.equals(b)`, such as `desconecta` in practicas 10 and 12 (practica 10, Grafica.java:249), throws a NullPointerException for a null `a` before any membership test; those paths are not modelled.
- OrderedTree.Find, OrderedTree.DeleteAsWritten, OrderedTree.Delete, Avl.Delete and RedBlack.Delete: the element is a plain `int` and never null. In Java a null element makes `busca` throw a NullPointerException from `compareTo` on a non-empty tree; practica 7's `elimina` has already lowered the count by then, and on an empty tree it only leaves the count at -1. The AVL and red-black deletions reach the same `busca`.
- Callbacks (`AccionVerticeGrafica`, `AccionVerticeArbolBinario`): a traversal returns the sequence of visited vertices instead.
- Hashes: `Dispersor` is an arbitrary function from keys to `int`. The invertibility of Bob Jenkins' `mezcla` step is not proved; the model states only how each hash absorbs its input.
- Parent pointers, Java reference identity on `Vecino` and the transient `ultimoAgregado` field: these are replaced by paths and by bottom-up recursion.
- MinHeap: an element is an id with an integer key, and two elements are the same element when their ids agree. This stands in for `ComparableIndexable` objects and their `indice` field, which becomes a map from id to position.
- The `Comparator` parameter of `Arreglos`: the order is the natural order on `int`. The `Comparable` overloads only forward to the comparator versions.
- RedBlack.SiblingBlackLeft and RedBlack.SiblingBlackRight: a missing sibling during the deletion repair cannot happen on a valid tree, where the source would dereference null. There the model stops repairing.
- Dictionary.Slot: only states that the index is in range. The mask `(length-1) & hash` is modelled as the non-negative remainder of the hash by the length, which equals the mask for the power-of-two lengths the table always has.
- Traversal.Bfs: states which vertices are visited, each once and the start first, but not that the order is level by level.
- Traversal.Dfs: states which vertices are visited, each once and the start first, but not that the order is depth-first.
- Java's `int` bounds on counts, lengths and indices, outside the dictionary's capacity loop and the binary search's midpoint: they are unbounded integers, so the model promises nothing about structures of 2^31 or more elements.
- Iteration order of practica 12's dictionaries: `Grafica` there keeps its vertices and neighbours in `Diccionario`s, which iterate in bucket order, and that order changes when a table grows. The model keeps insertion order for all three graph versions. No contract depends on it; it only decides which of several shortest paths `Distances.ShortestPath` returns and which vertex `Traversal.IsConnected` starts from.

## Findings

| source | as written | input that shows it | evidently intended | confidence | as-written member | corrected member |
|---|---|---|---|---|---|---|
| Practicas/practica7/src/mx/unam/ciencias/edd/ArbolBinarioOrdenado.java:120-131 | `elimina` decrements the element counter before looking the element up | deleting 7 from the empty tree leaves the counter at -1 | the counter drops only when a vertex is removed | high, not executed | OrderedTree.DeleteAsWritten, OrderedTree.DeleteAsWrittenMiscounts | OrderedTree.Delete, OrderedTree.DeleteAsWrittenAgreesWhenPresent |
| Practicas/practica8/src/mx/unam/ciencias/edd/MonticuloMinimo.java:147-162 | a heap built from an empty collection has an array of length 0; `agrega` doubles the length when full, which keeps it 0, and then writes past the end | build from an empty collection, then add any element: an array index out of bounds | growth always makes room for one more element | high, not executed | MinHeap.AddAsWritten, MinHeap.AddAsWrittenFailsOnEmptyBuild | MinHeap.Add, MinHeap.AddAfterBuild |
| Practicas/practica12/src/mx/unam/ciencias/edd/Diccionario.java:165-172 | the capacity loop doubles a 32-bit `int` until it reaches 2·capacidad | capacidad = 536870913: 2·capacidad is above 2^30, the power wraps from 2^30 to -2^31 and then to 0, and the loop never ends | the smallest power of two at least 2·max(capacidad, 64) | high, not executed | Dictionary.CapacityAsWritten, Dictionary.CapacityAsWrittenHangs | Dictionary.CapacityIsLeast, Dictionary.New |
| Practicas/practica7/src/mx/unam/ciencias/edd/ArbolBinarioCompleto.java:114-118 | after the swap, the last vertex is detached from its parent by comparing it with the left child through structural `equals` | tree [1, 5, 5], delete 5: the two leaves are equal, so the left one is detached and the tree is no longer complete | the last vertex in breadth-first order is detached | high, not executed | CompleteTree.RemoveAsWritten, CompleteTree.RemoveAsWrittenBreaksShape | CompleteTree.Remove, CompleteTree.RemoveAgreesOnLeftLast |
| Practicas/practica10/src/mx/unam/ciencias/edd/Grafica.java:426-431 | `esConexa` answers true when no vertex is isolated | the graph with edges 1–2 and 3–4 is reported connected; the one-vertex graph is reported not connected | true exactly when every two vertices are joined by a path | high, not executed | Traversal.IsConnectedAsWritten, Traversal.IsConnectedAsWrittenIsWrong, Traversal.IsConnectedAsWrittenRejectsLone | Traversal.IsConnected, Traversal.ConnectedFromOne |
| Proyectos/proyecto3/src/mx/unam/ciencias/edd/proyecto3/HtmlCreator.java:48-50 | `termina` ends the page with a second opening `<html>` tag | any page: it ends with "<html>\n" and has no closing tag | the page ends with "</html>\n" | high, not executed | Text.PageAsWrittenUnclosed | Text.PageClosed |
| Practicas/practica9/src/mx/unam/ciencias/edd/Arreglos.java:96-101 | `busquedaBinaria` computes the midpoint `(i + f) / 2` in 32-bit `int` | an array of 3·2^29 elements all below the searched value: the first probe moves i past the middle, then i + f exceeds 2^31 - 1, wraps to a negative value, and `arreglo[j]` throws | the exact midpoint, as in `i + (f - i) / 2` | medium, not executed | Arrays.SearchAsWritten, Arrays.SearchAsWrittenWraps | Arrays.BinarySearch |

=== FILE: arrays.dfy ===
/**
 * Sorting and searching arrays (`Arreglos`): quicksort with the first
 * element of each range as pivot, selection sort by exchanges, and binary
 * search. Arrays are sequences of integers compared by their natural order
 * (the `Comparable` overloads; a comparator is the same with another order);
 * an in-place algorithm returns the array's new contents.
 */
module Arrays {
  import opened Wrappers
  import opened OrderedTree
  import opened JavaInt

  /** The positions `[lo, hi)` hold non-decreasing values. */
  ghost predicate SortedBetween(s: seq<int>, lo: int, hi: int) {
    forall x, y | lo <= x < y < hi && 0 <= x && y < |s| :: s[x] <= s[y]
  }

  /** Every value at positions `[lo, hi)` is at most `p`. */
  ghost predicate AtMost(s: seq<int>, lo: int, hi: int, p: int) {
    forall m | lo <= m < hi && 0 <= m < |s| :: s[m] <= p
  }

  /** Every value at positions `[lo, hi)` is above `p`. */
  ghost predicate Above(s: seq<int>, lo: int, hi: int, p: int) {
    forall m | lo <= m < hi && 0 <= m < |s| :: s[m] > p
  }

  /** Outside `[lo, hi)` nothing moved, and the values are a permutation of the old ones. */
  ghost predicate PermutedWithin(a: seq<int>, b: seq<int>, lo: int, hi: int) {
    && |b| == |a| && multiset(b) == multiset(a)
    && forall m | 0 <= m < |a| && (m < lo || hi <= m) :: b[m] == a[m]
  }

  /** `intercambia`: exchanges two positions; the values are a permutation of the old ones. */
  function Swap(s: seq<int>, x: nat, y: nat): (r: seq<int>)
    requires x < |s| && y < |s|
    ensures |r| == |s| && r[x] == s[y] && r[y] == s[x]
    ensures forall m | 0 <= m < |s| && m != x && m != y :: r[m] == s[m]
    ensures multiset(r) == multiset(s)
  {
    s[x := s[y]][y := s[x]]
  }

  /** Swapping twice restores the array. */
  lemma SwapInvolution(s: seq<int>, x: nat, y: nat)
    requires x < |s| && y < |s|
    ensures Swap(Swap(s, x, y), x, y) == s
  {
  }

  /** What a permutation within a range does to that range: its values are permuted. */
  lemma PermutedSegment(a: seq<int>, b: seq<int>, lo: int, hi: int)
    requires 0 <= lo <= hi <= |a| && PermutedWithin(a, b, lo, hi)
    ensures multiset(b[lo..hi]) == multiset(a[lo..hi])
  {
    assert b[..lo] == a[..lo];
    assert b[hi..] == a[hi..];
    SplitThree(a, lo, hi);
    SplitThree(b, lo, hi);
    Cancel(multiset(a[..lo]), multiset(b[lo..hi]), multiset(a[lo..hi]), multiset(a[hi..]));
  }

  /** A sequence's multiset is the sum of its three parts' multisets. */
  lemma SplitThree(s: seq<int>, lo: int, hi: int)
    requires 0 <= lo <= hi <= |s|
    ensures multiset(s) == multiset(s[..lo]) + multiset(s[lo..hi]) + multiset(s[hi..])
  {
    assert s == s[..lo] + s[lo..hi] + s[hi..];
  }

  /** Equal sums with equal outer parts have equal middle parts. */
  lemma Cancel(x: multiset<int>, p: multiset<int>, q: multiset<int>, z: multiset<int>)
    requires x + p + z == x + q + z
    ensures p == q
  {
    forall v ensures p[v] == q[v] {
      assert (x + p + z)[v] == (x + q + z)[v];
    }
  }

  /** Every value of the range after a permutation within it was somewhere in that range before. */
  lemma PermutedValues(a: seq<int>, b: seq<int>, lo: int, hi: int)
    requires 0 <= lo <= hi <= |a| && PermutedWithin(a, b, lo, hi)
    ensures forall m | lo <= m < hi :: exists t | lo <= t < hi :: a[t] == b[m]
  {
    PermutedSegment(a, b, lo, hi);
    forall m | lo <= m < hi
      ensures exists t | lo <= t < hi :: a[t] == b[m]
    {
      assert b[m] == b[lo..hi][m - lo];
      assert b[m] in multiset(a[lo..hi]);
      var u :| 0 <= u < hi - lo && a[lo..hi][u] == b[m];
      assert a[lo + u] == b[m];
    }
  }

  /** A bound on every value of a range survives any permutation within that range. */
  lemma PermutedBounds(a: seq<int>, b: seq<int>, lo: int, hi: int, p: int)
    requires 0 <= lo <= hi <= |a| && PermutedWithin(a, b, lo, hi)
    ensures AtMost(a, lo, hi, p) ==> AtMost(b, lo, hi, p)
    ensures Above(a, lo, hi, p) ==> Above(b, lo, hi, p)
  {
    PermutedValues(a, b, lo, hi);
  }

  /**
   * The partition step of `quickSort` on `[i, j]` with pivot `a[i]`: `k`
   * walks up over values at most the pivot, `l` walks down over larger ones,
   * misplaced pairs are exchanged, and the pivot is finally exchanged into
   * the last position of the small part.
   */
  method Partition(a: seq<int>, i: nat, j: nat) returns (b: seq<int>, k: nat)
    requires i < j < |a|
    ensures i <= k <= j
    ensures PermutedWithin(a, b, i, j + 1)
    ensures b[k] == a[i]
    ensures AtMost(b, i, k, b[k]) && Above(b, k + 1, j + 1, b[k])
  {
    b := a;
    var p := a[i];
    k := i + 1;
    var l := j;
    while k < l
      invariant i + 1 <= k <= j && k <= l + 1 && l <= j
      invariant PermutedWithin(a, b, i, j + 1) && b[i] == p
      invariant AtMost(b, i + 1, k, p) && Above(b, l + 1, j + 1, p)
      decreases l - k
    {
      if b[k] > p && b[l] <= p {
        SwapWithin(a, b, i, j + 1, k, l);
        b := Swap(b, k, l);
        k, l := k + 1, l - 1;
      } else if b[k] <= p {
        k := k + 1;
      } else {
        l := l - 1;
      }
    }
    if b[k] > p {
      k := k - 1;
    }
    SwapWithin(a, b, i, j + 1, k, i);
    b := Swap(b, k, i);
  }

  /** Exchanging two positions of a range keeps a permutation within that range. */
  lemma SwapWithin(a: seq<int>, b: seq<int>, lo: int, hi: int, x: nat, y: nat)
    requires PermutedWithin(a, b, lo, hi) && lo <= x < hi && lo <= y < hi && hi <= |b|
    ensures PermutedWithin(a, Swap(b, x, y), lo, hi)
  {
    var c := Swap(b, x, y);
    assert multiset(c) == multiset(b);
  }

  /**
   * `quickSort(arreglo, i, j)`: sorts positions `[i, j]` and leaves the rest
   * alone; a range with `i >= j` is left untouched.
   */
  method QuickSortRange(a: seq<int>, i: nat, j: int) returns (b: seq<int>)
    requires j < |a| && i <= j + 1
    ensures PermutedWithin(a, b, i, j + 1)
    ensures SortedBetween(b, i, j + 1)
    ensures i >= j ==> b == a
    decreases j + 1 - i
  {
    if i >= j {
      return a;
    }
    var c, k := Partition(a, i, j);
    var p := c[k];
    var d := QuickSortRange(c, i, k as int - 1);
    PermutedBounds(c, d, i, k, p);
    b := QuickSortRange(d, k + 1, j);
    PermutedBounds(d, b, k + 1, j + 1, p);
    JoinSorted(d, b, i, k, j, p);
  }

  /**
   * A sorted small part, the pivot, and a sorted large part that was then
   * permuted within itself make a sorted range.
   */
  lemma JoinSorted(d: seq<int>, b: seq<int>, i: nat, k: nat, j: nat, p: int)
    requires i <= k <= j < |d|
    requires SortedBetween(d, i, k) && AtMost(d, i, k, p) && d[k] == p
    requires PermutedWithin(d, b, k + 1, j + 1) && SortedBetween(b, k + 1, j + 1) && Above(b, k + 1, j + 1, p)
    ensures SortedBetween(b, i, j + 1)
  {
    forall x, y | i <= x < y < j + 1 ensures b[x] <= b[y] {
      if y < k {
        assert b[x] == d[x] && b[y] == d[y];
      } else if x < k {
        assert b[x] == d[x];
      } else if x == k {
      }
    }
  }

  /** `quickSort(arreglo)`: a sorted permutation of the array. */
  method QuickSort(a: seq<int>) returns (b: seq<int>)
    ensures |b| == |a| && multiset(b) == multiset(a)
    ensures Sorted(b)
  {
    b := QuickSortRange(a, 0, |a| - 1);
    assert b[0..|a|] == b && a[0..|a|] == a;
  }

  /**
   * The outer step of `selectionSort` at `i`: each later value smaller than
   * the one at `i` is exchanged into it, so that `i` ends with a minimum of
   * the suffix.
   */
  method SelectionStep(a: seq<int>, i: nat) returns (b: seq<int>)
    requires i < |a|
    ensures PermutedWithin(a, b, i, |a|)
    ensures forall m | i <= m < |b| :: b[i] <= b[m]
  {
    b := a;
    var j := i + 1;
    while j < |b|
      invariant i + 1 <= j <= |b| && PermutedWithin(a, b, i, |a|)
      invariant forall m | i < m < j :: b[i] <= b[m]
    {
      if b[i] > b[j] {
        b := Swap(b, i, j);
      }
      j := j + 1;
    }
  }

  /** The first `i` positions hold the `i` least values, in order. */
  ghost predicate Selected(s: seq<int>, i: nat) {
    && SortedBetween(s, 0, i)
    && forall x, y | 0 <= x < i <= y < |s| :: s[x] <= s[y]
  }

  /** An outer step at `i` after the first `i` positions were settled settles position `i` too. */
  lemma SelectionAdvance(b: seq<int>, c: seq<int>, i: nat)
    requires i < |b| && Selected(b, i)
    requires PermutedWithin(b, c, i, |b|) && forall m | i <= m < |c| :: c[i] <= c[m]
    ensures Selected(c, i + 1)
  {
    PermutedValues(b, c, i, |b|);
    forall x, y | 0 <= x < i <= y < |c| ensures c[x] <= c[y] {
      var t :| i <= t < |b| && b[t] == c[y];
    }
  }

  /** `selectionSort`: the outer step at every position gives a sorted permutation. */
  method SelectionSort(a: seq<int>) returns (b: seq<int>)
    ensures |b| == |a| && multiset(b) == multiset(a)
    ensures Sorted(b)
  {
    b := a;
    var i := 0;
    while i < |b|
      invariant 0 <= i <= |b| && |b| == |a| && multiset(b) == multiset(a)
      invariant Selected(b, i)
    {
      var b' := SelectionStep(b, i);
      SelectionAdvance(b, b', i);
      b := b';
      i := i + 1;
    }
  }

  /**
   * `busquedaBinaria`: an index holding `e`, or -1. The returned index always
   * holds `e`; on a sorted array -1 means `e` is absent. The midpoint is
   * taken as `i + (f - i) / 2`, the value `(i + f) / 2` means, which never
   * leaves `[i, f]` in Java's `int` either; the sum `i + f` as written can
   * wrap (see `SearchAsWritten`).
   */
  method BinarySearch(a: seq<int>, e: int) returns (r: int)
    ensures -1 <= r < |a|
    ensures r >= 0 ==> a[r] == e
    ensures Sorted(a) && r == -1 ==> e !in a
  {
    var i, f := 0, |a| - 1;
    while i <= f
      invariant 0 <= i <= |a| && -1 <= f < |a| && i <= f + 1
      invariant Sorted(a) ==> forall m | 0 <= m < i :: a[m] < e
      invariant Sorted(a) ==> forall m | f < m < |a| :: a[m] > e
      decreases f - i
    {
      var j := i + (f - i) / 2;
      if a[j] > e {
        f := j - 1;
      } else if a[j] < e {
        i := j + 1;
      } else {
        return j;
      }
    }
    return -1;
  }

  /**
   * The midpoint `(i + f) / 2` in Java's `int`: exact while the sum fits in
   * 31 bits, negative once it wraps (both bounds being below 2^31).
   */
  lemma MidpointAsWritten(i: int, f: int)
    requires 0 <= i <= f < 0x8000_0000
    ensures i + f < 0x8000_0000 ==> Quot(Wrap32(i + f), 2) == (i + f) / 2
    ensures i + f >= 0x8000_0000 ==> Quot(Wrap32(i + f), 2) < 0
  {
    if i + f >= 0x8000_0000 {
      assert Wrap32(i + f) == i + f - 0x1_0000_0000;
    } else {
      assert Wrap32(i + f) == i + f;
    }
  }

  /**
   * The search loop of `busquedaBinaria` as written, from the window
   * `[i, f]`, with `j = (i + f) / 2` computed in Java's `int`. A midpoint that
   * wraps to a negative index makes `arreglo[j]` throw. Arrays of at most
   * 2^30 elements never wrap.
   */
  function SearchAsWritten(a: seq<int>, e: int, i: int, f: int): (r: Result<int>)
    requires |a| < 0x8000_0000
    requires 0 <= i && -1 <= f < |a| && i <= f + 1
    ensures r.Ok? ==> -1 <= r.value < |a| && (r.value >= 0 ==> a[r.value] == e)
    ensures r.Err? ==> r.error == RuntimeFailure
    ensures |a| <= 0x4000_0000 ==> r.Ok?
    decreases f - i
  {
    if i > f then Ok(-1)
    else
      MidpointAsWritten(i, f);
      var j := Quot(Wrap32(i + f), 2);
      if j < 0 || j >= |a| then Err(RuntimeFailure)
      else if a[j] > e then SearchAsWritten(a, e, i, j - 1)
      else if a[j] < e then SearchAsWritten(a, e, j + 1, f)
      else Ok(j)
  }

  /**
   * Searching an array of 3 * 2^29 or more elements for a value above all of
   * them: the first probe moves `i` past the middle, and the second sum
   * `i + f` exceeds 2^31 - 1, wraps, and indexes the array at a negative
   * position.
   */
  lemma SearchAsWrittenWraps(a: seq<int>, e: int)
    requires 0x6000_0000 <= |a| < 0x8000_0000
    requires forall k | 0 <= k < |a| :: a[k] < e
    ensures SearchAsWritten(a, e, 0, |a| - 1) == Err(RuntimeFailure)
  {
    var f := |a| - 1;
    MidpointAsWritten(0, f);
    var i := f / 2 + 1;
    assert SearchAsWritten(a, e, 0, f) == SearchAsWritten(a, e, i, f);
    MidpointAsWritten(i, f);
  }
}

=== FILE: avl.dfy ===
/**
 * AVL trees (ArbolAVL.java): ordered trees whose vertices store their height
 * (the payload of `Tree<int, int>`). After an insertion or a deletion the
 * class walks from the parent of the changed vertex up to the root; at every
 * vertex it refreshes the stored height and, when the balance factor is +-2,
 * performs a single or a double rotation. The walk is modelled bottom-up: the
 * recursive insertion and deletion rebalance every vertex on the search path
 * on their way back, deepest first.
 */
module Avl {
  import opened Wrappers
  import opened BinaryTree
  import opened OrderedTree
  import opened JavaInt

  type AvlTree = Tree<int, int>

  /** `altura()` of a child as the class reads it: the stored height, -1 for an absent child. */
  function Stored(t: AvlTree): int {
    if t.Nil? then -1 else t.aux
  }

  /** Every stored height is the real height of its vertex. */
  ghost predicate HeightsExact(t: AvlTree) {
    match t
    case Nil => true
    case Node(l, _, h, r) => HeightsExact(l) && HeightsExact(r) && h == Height(t)
  }

  /** The AVL invariant: exact stored heights and balance factors in [-1, 1] everywhere. */
  ghost predicate Balanced(t: AvlTree) {
    match t
    case Nil => true
    case Node(l, _, h, r) =>
      && Balanced(l) && Balanced(r)
      && h == Height(t)
      && -1 <= Height(l) - Height(r) <= 1
  }

  lemma {:induction false} BalancedHeightsExact(t: AvlTree)
    requires Balanced(t)
    ensures HeightsExact(t) && Stored(t) == Height(t)
  {
    match t
    case Nil =>
    case Node(l, _, _, r) =>
      BalancedHeightsExact(l);
      BalancedHeightsExact(r);
  }

  /**
   * Why the tree stays shallow: a balanced tree of height h holds at least
   * 2^((h+1)/2) - 1 vertices, so its height is at most about twice the
   * logarithm of its size and every walk from the root is logarithmic.
   */
  lemma {:induction false} AvlHeightBound(t: AvlTree)
    requires Balanced(t)
    ensures Pow2((Height(t) + 1) / 2) <= Size(t) + 1
  {
    match t
    case Nil =>
    case Node(l, _, _, r) =>
      AvlHeightBound(l);
      AvlHeightBound(r);
      HeightBoundStep(Height(t), Height(l), Height(r), Size(l), Size(r));
  }

  /**
   * One level of the bound: children of heights `a` and `b`, the taller one
   * h - 1 and the other at least h - 2, holding `m` and `n` vertices.
   */
  lemma HeightBoundStep(h: int, a: int, b: int, m: nat, n: nat)
    requires a >= -1 && b >= -1 && -1 <= a - b <= 1 && h == 1 + Max(a, b)
    requires Pow2((a + 1) / 2) <= m + 1 && Pow2((b + 1) / 2) <= n + 1
    ensures Pow2((h + 1) / 2) <= m + 1 + n + 1
  {
    var lo := if a < b then a else b;
    var k := (h + 1) / 2;
    if h % 2 == 0 {
      assert (Max(a, b) + 1) / 2 == k;
    } else {
      assert (Max(a, b) + 1) / 2 == k - 1 && (lo + 1) / 2 >= k - 1;
      Pow2Monotone(k - 1, (lo + 1) / 2);
    }
  }

  /** `new VerticeAVL(e)`: a leaf of height 0. */
  function NewVertex(x: int): (r: AvlTree)
    ensures r.Node? && r.elem == x && Balanced(r) && Height(r) == 0 && Stored(r) == 0
  {
    Node(Nil, x, 0, Nil)
  }

  /** `cambiaAltura`: one more than the taller child's stored height. */
  function Refresh(t: AvlTree): (r: AvlTree)
    ensures r.Nil? <==> t.Nil?
    ensures t.Node? ==> r.left == t.left && r.elem == t.elem && r.right == t.right
    ensures t.Node? && HeightsExact(t.left) && HeightsExact(t.right) ==> HeightsExact(r)
  {
    if t.Nil? then t
    else
      StoredExact(t.left);
      StoredExact(t.right);
      t.(aux := 1 + Max(Stored(t.left), Stored(t.right)))
  }

  lemma StoredExact(t: AvlTree)
    ensures HeightsExact(t) ==> Stored(t) == Height(t)
  {
  }

  /** `balance()`: left height minus right height, from the stored heights. */
  function BalanceOf(v: AvlTree): (b: int)
    requires v.Node?
    ensures HeightsExact(v) ==> b == Height(v.left) - Height(v.right)
  {
    StoredExact(v.left);
    StoredExact(v.right);
    Stored(v.left) - Stored(v.right)
  }

  /** `giraDerecha` and then `cambiaAltura` on the old root (now the right child) and on the new root. */
  function RotateRightRefresh(t: AvlTree): (r: AvlTree)
    ensures InOrder(r) == InOrder(t)
  {
    match t
    case Node(Node(a, px, pa, b), qx, qa, c) => Refresh(Node(a, px, pa, Refresh(Node(b, qx, qa, c))))
    case _ => t
  }

  /** `giraIzquierda` and then `cambiaAltura` on the old root (now the left child) and on the new root. */
  function RotateLeftRefresh(t: AvlTree): (r: AvlTree)
    ensures InOrder(r) == InOrder(t)
  {
    match t
    case Node(a, qx, qa, Node(b, px, pa, c)) => Refresh(Node(Refresh(Node(a, qx, qa, b)), px, pa, c))
    case _ => t
  }

  /**
   * One step of `rebalancea`: refresh the height; at balance -2 rotate the
   * right child right first when its balance is +1, then rotate left; at
   * balance +2 the mirror image.
   */
  function Visit(v: AvlTree): (r: AvlTree)
    ensures InOrder(r) == InOrder(v)
  {
    if v.Nil? then v
    else
      var v := Refresh(v);
      var b := BalanceOf(v);
      if b == -2 then
        var d := v.right;
        var v' := if d.Node? && BalanceOf(d) == 1 then v.(right := RotateRightRefresh(d)) else v;
        RotateLeftRefresh(v')
      else if b == 2 then
        var i := v.left;
        var v' := if i.Node? && BalanceOf(i) == -1 then v.(left := RotateLeftRefresh(i)) else v;
        RotateRightRefresh(v')
      else v
  }

  /**
   * `rebalancea` at one vertex of the walk: after a rotation the walk moves
   * to the parent of the old vertex, which is the new root of the subtree,
   * and so visits that subtree once more before going further up.
   */
  function Rebalance(v: AvlTree): (r: AvlTree)
    ensures InOrder(r) == InOrder(v)
  {
    var w := Visit(v);
    if v.Node? && (BalanceOf(v) == 2 || BalanceOf(v) == -2) then Visit(w) else w
  }

  /** Visiting a vertex that already satisfies the invariant changes nothing. */
  lemma VisitBalancedIsIdentity(t: AvlTree)
    requires Balanced(t)
    ensures Visit(t) == t
  {
    if t.Node? {
      BalancedHeightsExact(t.left);
      BalancedHeightsExact(t.right);
    }
  }

  /**
   * The rebalancing step repairs a vertex whose subtrees satisfy the
   * invariant and differ in height by at most two. With a difference of at
   * most one the height becomes one more than the taller child; after a
   * rotation it is the taller child's height or one more.
   */
  lemma RebalanceRepairs(v: AvlTree)
    requires v.Node? && Balanced(v.left) && Balanced(v.right)
    requires -2 <= Height(v.left) - Height(v.right) <= 2
    ensures Balanced(Rebalance(v))
    ensures var m := Max(Height(v.left), Height(v.right));
      if -1 <= Height(v.left) - Height(v.right) <= 1 then Height(Rebalance(v)) == m + 1
      else m <= Height(Rebalance(v)) <= m + 1
  {
    var l, x, r := v.left, v.elem, v.right;
    BalancedHeightsExact(l);
    BalancedHeightsExact(r);
    var diff := Height(l) - Height(r);
    if diff == -2 {
      RightHeavyRepaired(v);
      VisitBalancedIsIdentity(Visit(v));
    } else if diff == 2 {
      LeftHeavyRepaired(v);
      VisitBalancedIsIdentity(Visit(v));
    } else {
      assert Balanced(Visit(v));
    }
  }

  lemma RightHeavyRepaired(v: AvlTree)
    requires v.Node? && Balanced(v.left) && Balanced(v.right)
    requires Height(v.left) - Height(v.right) == -2
    ensures Balanced(Visit(v))
    ensures Height(v.right) <= Height(Visit(v)) <= Height(v.right) + 1
  {
    assert v.right.Node?;
    if Height(v.right.left) - Height(v.right.right) == 1 {
      RightHeavyDouble(v);
    } else {
      RightHeavySingle(v);
    }
  }

  /** Right-heavy with a left-leaning right child: rotate the child right, then the vertex left. */
  lemma RightHeavyDouble(v: AvlTree)
    requires v.Node? && Balanced(v.left) && Balanced(v.right)
    requires Height(v.left) - Height(v.right) == -2
    requires v.right.Node? && Height(v.right.left) - Height(v.right.right) == 1
    ensures Balanced(Visit(v))
    ensures Height(v.right) <= Height(Visit(v)) <= Height(v.right) + 1
  {
    var l, x, r := v.left, v.elem, v.right;
    BalancedHeightsExact(l);
    BalancedHeightsExact(r);
    var rl, rx, rr := r.left, r.elem, r.right;
    BalancedHeightsExact(rl);
    BalancedHeightsExact(rr);
    assert BalanceOf(Refresh(v)) == -2;
    var a, y, b := rl.left, rl.elem, rl.right;
    BalancedHeightsExact(a);
    BalancedHeightsExact(b);
    var inner := Refresh(Node(b, rx, r.aux, rr));
    var top := Refresh(Node(a, y, rl.aux, inner));
    assert RotateRightRefresh(r) == top;
    var low := Refresh(Node(l, x, Refresh(v).aux, a));
    assert Visit(v) == Refresh(Node(low, y, top.aux, inner));
    assert Balanced(low);
    assert Balanced(inner);
  }

  /** Right-heavy with a right child that does not lean left: rotate the vertex left. */
  lemma RightHeavySingle(v: AvlTree)
    requires v.Node? && Balanced(v.left) && Balanced(v.right)
    requires Height(v.left) - Height(v.right) == -2
    requires v.right.Node? && Height(v.right.left) - Height(v.right.right) != 1
    ensures Balanced(Visit(v))
    ensures Height(v.right) <= Height(Visit(v)) <= Height(v.right) + 1
  {
    var l, x, r := v.left, v.elem, v.right;
    BalancedHeightsExact(l);
    BalancedHeightsExact(r);
    var rl, rx, rr := r.left, r.elem, r.right;
    BalancedHeightsExact(rl);
    BalancedHeightsExact(rr);
    assert BalanceOf(Refresh(v)) == -2;
    var low := Refresh(Node(l, x, Refresh(v).aux, rl));
    assert Visit(v) == Refresh(Node(low, rx, r.aux, rr));
    assert Balanced(low);
  }

  lemma LeftHeavyRepaired(v: AvlTree)
    requires v.Node? && Balanced(v.left) && Balanced(v.right)
    requires Height(v.left) - Height(v.right) == 2
    ensures Balanced(Visit(v))
    ensures Height(v.left) <= Height(Visit(v)) <= Height(v.left) + 1
  {
    assert v.left.Node?;
    if Height(v.left.left) - Height(v.left.right) == -1 {
      LeftHeavyDouble(v);
    } else {
      LeftHeavySingle(v);
    }
  }

  /** Left-heavy with a right-leaning left child: rotate the child left, then the vertex right. */
  lemma LeftHeavyDouble(v: AvlTree)
    requires v.Node? && Balanced(v.left) && Balanced(v.right)
    requires Height(v.left) - Height(v.right) == 2
    requires v.left.Node? && Height(v.left.left) - Height(v.left.right) == -1
    ensures Balanced(Visit(v))
    ensures Height(v.left) <= Height(Visit(v)) <= Height(v.left) + 1
  {
    var l, x, r := v.left, v.elem, v.right;
    BalancedHeightsExact(l);
    BalancedHeightsExact(r);
    var ll, lx, lr := l.left, l.elem, l.right;
    BalancedHeightsExact(ll);
    BalancedHeightsExact(lr);
    assert BalanceOf(Refresh(v)) == 2;
    var a, y, b := lr.left, lr.elem, lr.right;
    BalancedHeightsExact(a);
    BalancedHeightsExact(b);
    var inner := Refresh(Node(ll, lx, l.aux, a));
    var top := Refresh(Node(inner, y, lr.aux, b));
    assert RotateLeftRefresh(l) == top;
    var low := Refresh(Node(b, x, Refresh(v).aux, r));
    assert Visit(v) == Refresh(Node(inner, y, top.aux, low));
    assert Balanced(low);
    assert Balanced(inner);
  }

  /** Left-heavy with a left child that does not lean right: rotate the vertex right. */
  lemma LeftHeavySingle(v: AvlTree)
    requires v.Node? && Balanced(v.left) && Balanced(v.right)
    requires Height(v.left) - Height(v.right) == 2
    requires v.left.Node? && Height(v.left.left) - Height(v.left.right) != -1
    ensures Balanced(Visit(v))
    ensures Height(v.left) <= Height(Visit(v)) <= Height(v.left) + 1
  {
    var l, x, r := v.left, v.elem, v.right;
    BalancedHeightsExact(l);
    BalancedHeightsExact(r);
    var ll, lx, lr := l.left, l.elem, l.right;
    BalancedHeightsExact(ll);
    BalancedHeightsExact(lr);
    assert BalanceOf(Refresh(v)) == 2;
    var low := Refresh(Node(lr, x, Refresh(v).aux, r));
    assert Visit(v) == Refresh(Node(ll, lx, l.aux, low));
    assert Balanced(low);
  }

  /** Rebalancing rearranges vertices without reordering them, so it keeps the order invariant. */
  lemma RebalanceKeepsOrder(v: AvlTree)
    ensures Ordered(v) <==> Ordered(Rebalance(v))
  {
    OrderedIffSortedInOrder(v);
    OrderedIffSortedInOrder(Rebalance(v));
  }

  // ---------------------------------------------------------------------
  // Insertion
  // ---------------------------------------------------------------------

  /**
   * `agrega`: the ordered-tree insertion of a vertex of height 0, then the
   * walk from its parent to the root rebalancing every vertex on the way.
   */
  function Ins(t: AvlTree, x: int): (r: AvlTree)
    ensures InOrder(r) == InOrder(Insert(t, x, 0))
  {
    match t
    case Nil => NewVertex(x)
    case Node(l, y, h, rr) =>
      if x <= y then Rebalance(Node(Ins(l, x), y, h, rr)) else Rebalance(Node(l, y, h, Ins(rr, x)))
  }

  /** Insertion keeps the AVL invariant and grows the height by at most one. */
  lemma {:induction false} InsKeepsBalance(t: AvlTree, x: int)
    requires Balanced(t)
    ensures Balanced(Ins(t, x))
    ensures Height(t) <= Height(Ins(t, x)) <= Height(t) + 1
  {
    match t
    case Nil =>
    case Node(l, y, h, rr) =>
      if x <= y {
        InsKeepsBalance(l, x);
        RebalanceRepairs(Node(Ins(l, x), y, h, rr));
      } else {
        InsKeepsBalance(rr, x);
        RebalanceRepairs(Node(l, y, h, Ins(rr, x)));
      }
  }

  /** Insertion puts `x` where the plain ordered insertion does, so the tree stays ordered. */
  lemma InsKeepsOrder(t: AvlTree, x: int)
    requires Ordered(t)
    ensures Ordered(Ins(t, x))
  {
    OrderedIffSortedInOrder(Insert(t, x, 0));
    OrderedIffSortedInOrder(Ins(t, x));
  }

  /** The tree object is well formed: ordered, balanced, and counted. */
  ghost predicate ValidAvl(b: Counted<int, int>) {
    Valid(b) && Balanced(b.root)
  }

  /** `agrega(T)`: IllegalArgument for null; otherwise insert and rebalance. */
  function Add(b: Counted<int, int>, e: Option<int>): (r: Result<Counted<int, int>>)
    ensures r.Err? <==> e.None?
    ensures r.Err? ==> r.error == IllegalArgument
    ensures r.Ok? ==> r.value.count == b.count + 1 && Elems(r.value.root) == Elems(b.root) + multiset{e.value}
    ensures r.Ok? && ValidAvl(b) ==> ValidAvl(r.value)
  {
    if e.None? then Err(IllegalArgument)
    else
      var t := Ins(b.root, e.value);
      SameInOrderSameElems(t, Insert(b.root, e.value, 0));
      AddFacts(b, e.value);
      Ok(Counted(t, b.count + 1))
  }

  lemma AddFacts(b: Counted<int, int>, x: int)
    ensures ValidAvl(b) ==> ValidAvl(Counted(Ins(b.root, x), b.count + 1))
  {
    if ValidAvl(b) {
      InsKeepsBalance(b.root, x);
      InsKeepsOrder(b.root, x);
      SameInOrderSameElems(Ins(b.root, x), Insert(b.root, x, 0));
    }
  }

  // ---------------------------------------------------------------------
  // Deletion
  // ---------------------------------------------------------------------

  /**
   * Removal of the in-order predecessor found by `maximo`: the right-most
   * vertex is spliced out (its left child takes its place) and the walk
   * rebalances every vertex from its parent upwards. Returns the tree and the
   * removed maximum.
   */
  function RemoveMax(t: AvlTree): (r: (AvlTree, int))
    requires t.Node?
    ensures InOrder(r.0) + [r.1] == InOrder(t)
  {
    if t.right.Nil? then (t.left, t.elem)
    else
      var (r', m) := RemoveMax(t.right);
      (Rebalance(Node(t.left, t.elem, t.aux, r')), m)
  }

  /**
   * `elimina` once the vertex `v` is found: with a left child it takes the
   * predecessor's element and the predecessor is removed; without one it is
   * replaced by its right child.
   */
  function RemoveFound(v: AvlTree): (r: AvlTree)
    requires v.Node?
    ensures InOrder(r) == InOrder(v.left) + InOrder(v.right)
  {
    if v.left.Node? then
      var (l', m) := RemoveMax(v.left);
      Rebalance(Node(l', m, v.aux, v.right))
    else v.right
  }

  /**
   * `elimina(T)`: `None` when the ordered search misses `x` (nothing
   * changes); otherwise the tree without that vertex, rebalanced from the
   * parent of the removed vertex to the root.
   */
  function Del(t: AvlTree, x: int): (r: Option<AvlTree>)
    ensures r.None? <==> Find(t, x).None?
  {
    match t
    case Nil => None
    case Node(l, y, h, rr) =>
      if x == y then Some(RemoveFound(t))
      else if x < y then
        match Del(l, x)
        case None => None
        case Some(l') => Some(Rebalance(Node(l', y, h, rr)))
      else
        match Del(rr, x)
        case None => None
        case Some(r') => Some(Rebalance(Node(l, y, h, r')))
  }

  /** A successful deletion removes exactly one occurrence of `x`. */
  lemma {:induction false} DelElems(t: AvlTree, x: int)
    requires Del(t, x).Some?
    ensures x in Elems(t) && Elems(Del(t, x).value) == Elems(t) - multiset{x}
  {
    match t
    case Node(l, y, h, rr) =>
      if x == y {
        DropRoot(t, RemoveFound(t));
      } else if x < y {
        var l' := Del(l, x).value;
        DelElems(l, x);
        DropLeft(t, l', x);
        SameInOrderSameElems(Node(l', y, h, rr), Rebalance(Node(l', y, h, rr)));
      } else {
        var r' := Del(rr, x).value;
        DelElems(rr, x);
        DropRight(t, r', x);
        SameInOrderSameElems(Node(l, y, h, r'), Rebalance(Node(l, y, h, r')));
      }
  }

  /** Removing the maximum keeps the AVL invariant and lowers the height by at most one. */
  lemma {:induction false} RemoveMaxKeepsBalance(t: AvlTree)
    requires t.Node? && Balanced(t)
    ensures Balanced(RemoveMax(t).0)
    ensures Height(t) - 1 <= Height(RemoveMax(t).0) <= Height(t)
    decreases t
  {
    if t.right.Node? {
      RemoveMaxKeepsBalance(t.right);
      RebalanceRepairs(Node(t.left, t.elem, t.aux, RemoveMax(t.right).0));
    }
  }

  /** The removed element and the remaining vertices make up the tree. */
  lemma RemoveMaxElems(t: AvlTree)
    requires t.Node?
    ensures Elems(RemoveMax(t).0) + multiset{RemoveMax(t).1} == Elems(t)
  {
    var (r0, m) := RemoveMax(t);
    WalksListEveryVertex(r0);
    WalksListEveryVertex(t);
    assert multiset(InOrder(r0) + [m]) == multiset(InOrder(r0)) + multiset{m};
  }

  /** In an ordered tree the removed element is the largest, and what stays is ordered. */
  lemma RemoveMaxKeepsOrder(t: AvlTree)
    requires t.Node? && Ordered(t)
    ensures Ordered(RemoveMax(t).0)
    ensures forall z | z in Elems(RemoveMax(t).0) :: z <= RemoveMax(t).1
  {
    var (r0, m) := RemoveMax(t);
    OrderedIffSortedInOrder(t);
    OrderedIffSortedInOrder(r0);
    SortedDropLast(InOrder(r0), m);
    WalkBound(r0, m);
  }

  /** A bound on every value the in-order walk lists bounds every element. */
  lemma WalkBound(t: AvlTree, m: int)
    requires forall z | z in InOrder(t) :: z <= m
    ensures forall z | z in Elems(t) :: z <= m
  {
    WalksListEveryVertex(t);
    forall z | z in Elems(t) ensures z <= m {
      assert z in multiset(InOrder(t));
      assert z in InOrder(t);
    }
  }

  /** Dropping the last value of a sorted sequence leaves it sorted, and below that value. */
  lemma SortedDropLast(u: seq<int>, m: int)
    requires Sorted(u + [m])
    ensures Sorted(u) && forall z | z in u :: z <= m
  {
    var s := u + [m];
    forall z | z in u ensures z <= m {
      var k :| 0 <= k < |u| && u[k] == z;
      assert s[k] == z && s[|u|] == m;
    }
    forall i, j | 0 <= i < j < |u| ensures u[i] <= u[j] {
      assert s[i] == u[i] && s[j] == u[j];
    }
  }

  lemma {:induction false} RemoveFoundKeepsBalance(v: AvlTree)
    requires v.Node? && Balanced(v)
    ensures Balanced(RemoveFound(v))
    ensures Height(v) - 1 <= Height(RemoveFound(v)) <= Height(v)
  {
    if v.left.Node? {
      RemoveMaxKeepsBalance(v.left);
      var (l', m) := RemoveMax(v.left);
      RebalanceRepairs(Node(l', m, v.aux, v.right));
    }
  }

  lemma RemoveFoundKeepsOrder(v: AvlTree)
    requires v.Node? && Ordered(v)
    ensures Ordered(RemoveFound(v))
  {
    if v.left.Node? {
      var (l', m) := RemoveMax(v.left);
      RemoveMaxKeepsOrder(v.left);
      RemoveMaxElems(v.left);
      assert m in Elems(v.left);
      var n := Node(l', m, v.aux, v.right);
      assert Ordered(n);
      RebalanceKeepsOrder(n);
    }
  }

  /** Deletion keeps the AVL invariant and lowers the height by at most one. */
  lemma {:induction false} DelKeepsBalance(t: AvlTree, x: int)
    requires Balanced(t) && Del(t, x).Some?
    ensures Balanced(Del(t, x).value)
    ensures Height(t) - 1 <= Height(Del(t, x).value) <= Height(t)
  {
    match t
    case Node(l, y, h, rr) =>
      if x == y {
        RemoveFoundKeepsBalance(t);
      } else if x < y {
        DelKeepsBalance(l, x);
        RebalanceRepairs(Node(Del(l, x).value, y, h, rr));
      } else {
        DelKeepsBalance(rr, x);
        RebalanceRepairs(Node(l, y, h, Del(rr, x).value));
      }
  }

  lemma {:induction false} DelKeepsOrder(t: AvlTree, x: int)
    requires Ordered(t) && Del(t, x).Some?
    ensures Ordered(Del(t, x).value)
  {
    match t
    case Node(l, y, h, rr) =>
      if x == y {
        RemoveFoundKeepsOrder(t);
      } else if x < y {
        var l' := Del(l, x).value;
        DelKeepsOrder(l, x);
        DelElems(l, x);
        DelStepLeft(l, l', y, h, rr, x);
        assert Del(t, x).value == Rebalance(Node(l', y, h, rr));
      } else {
        var r' := Del(rr, x).value;
        DelKeepsOrder(rr, x);
        DelElems(rr, x);
        DelStepRight(l, y, h, rr, r', x);
        assert Del(t, x).value == Rebalance(Node(l, y, h, r'));
      }
  }

  /** Deleting from the left subtree of an ordered vertex and rebalancing keeps the order. */
  lemma DelStepLeft(l: AvlTree, l': AvlTree, y: int, h: int, r: AvlTree, x: int)
    requires Ordered(Node(l, y, h, r)) && Ordered(l') && Elems(l') == Elems(l) - multiset{x}
    ensures Ordered(Rebalance(Node(l', y, h, r)))
  {
    DiffWithin(Elems(l'), Elems(l), x);
    ShrinkLeft(l, l', y, h, r);
    RebalanceKeepsOrder(Node(l', y, h, r));
  }

  /** Deleting from the right subtree of an ordered vertex and rebalancing keeps the order. */
  lemma DelStepRight(l: AvlTree, y: int, h: int, r: AvlTree, r': AvlTree, x: int)
    requires Ordered(Node(l, y, h, r)) && Ordered(r') && Elems(r') == Elems(r) - multiset{x}
    ensures Ordered(Rebalance(Node(l, y, h, r')))
  {
    DiffWithin(Elems(r'), Elems(r), x);
    ShrinkRight(l, y, h, r, r');
    RebalanceKeepsOrder(Node(l, y, h, r'));
  }

  /** `elimina(T)` on the tree object: the count drops only when a vertex goes. */
  function Delete(b: Counted<int, int>, x: int): (r: Counted<int, int>)
    ensures x !in Elems(b.root) ==> r == b
    ensures ValidAvl(b) ==> ValidAvl(r) && Elems(r.root) == Elems(b.root) - multiset{x}
  {
    match Del(b.root, x)
    case None => b
    case Some(t) =>
      DelElems(b.root, x);
      DeleteFacts(b, x);
      Counted(t, b.count - 1)
  }

  lemma DeleteFacts(b: Counted<int, int>, x: int)
    requires Del(b.root, x).Some?
    ensures ValidAvl(b) ==> ValidAvl(Counted(Del(b.root, x).value, b.count - 1))
  {
    if ValidAvl(b) {
      var t := Del(b.root, x).value;
      DelKeepsBalance(b.root, x);
      DelKeepsOrder(b.root, x);
      DelElems(b.root, x);
      SizeIsElemsCount(b.root);
      SizeIsElemsCount(t);
    }
  }

  /** `giraDerecha` from outside the class: always UnsupportedOperation. */
  function RotateRightRejected(b: Counted<int, int>, p: Path): (r: Result<Counted<int, int>>)
    ensures r.Err? && r.error == UnsupportedOperation
  {
    Err(UnsupportedOperation)
  }

  /** `giraIzquierda` from outside the class: always UnsupportedOperation. */
  function RotateLeftRejected(b: Counted<int, int>, p: Path): (r: Result<Counted<int, int>>)
    ensures r.Err? && r.error == UnsupportedOperation
  {
    Err(UnsupportedOperation)
  }

  // ---------------------------------------------------------------------
  // The walk as the class runs it
  // ---------------------------------------------------------------------

  /**
   * `rebalancea(v)` with `v` the vertex at `p`: rebalance it, then its
   * parent, and so on up to the root.
   */
  function WalkUp(t: AvlTree, p: Path): AvlTree
    decreases |p|
  {
    var t' := ReplaceAt(t, p, Rebalance(At(t, p)));
    if |p| == 0 then t' else WalkUp(t', p[..|p| - 1])
  }

  /** `rebalancea(v.padre)` for the vertex `v` at `p`: no walk at the root. */
  function WalkFrom(t: AvlTree, p: Path): AvlTree {
    if |p| == 0 then t else WalkUp(t, p[..|p| - 1])
  }

  /** The child of `t` on side `d`, replaced by `c`. */
  function WithChild(t: AvlTree, d: Dir, c: AvlTree): AvlTree
    requires t.Node?
  {
    if d == L then t.(left := c) else t.(right := c)
  }

  function Child(t: AvlTree, d: Dir): AvlTree
    requires t.Node?
  {
    if d == L then t.left else t.right
  }

  lemma {:induction false} WalkUpBelow(t: AvlTree, d: Dir, q: Path)
    requires t.Node?
    ensures WalkUp(t, [d] + q) == Rebalance(WithChild(t, d, WalkUp(Child(t, d), q)))
    decreases |q|
  {
    var c := Child(t, d);
    var p := [d] + q;
    assert p[0] == d && p[1..] == q;
    var t' := ReplaceAt(t, p, Rebalance(At(t, p)));
    assert t' == WithChild(t, d, ReplaceAt(c, q, Rebalance(At(c, q))));
    if |q| == 0 {
      assert p[..|p| - 1] == [];
    } else {
      var q' := q[..|q| - 1];
      assert p[..|p| - 1] == [d] + q';
      WalkUpBelow(t', d, q');
      assert Child(t', d) == ReplaceAt(c, q, Rebalance(At(c, q)));
    }
  }

  /** Walking up from below a child of `t` finishes the child's walk and then rebalances `t`. */
  lemma WalkFromBelow(t: AvlTree, d: Dir, q: Path)
    requires t.Node?
    ensures WalkFrom(t, [d] + q) == Rebalance(WithChild(t, d, WalkFrom(Child(t, d), q)))
  {
    var p := [d] + q;
    if |q| == 0 {
      assert p[..|p| - 1] == [];
    } else {
      assert p[..|p| - 1] == [d] + q[..|q| - 1];
      WalkUpBelow(t, d, q[..|q| - 1]);
    }
  }

  /** `agrega` exactly as the class runs it: the ordered insertion, then the walk from the new leaf's parent. */
  function InsertByWalk(t: AvlTree, x: int): AvlTree {
    WalkFrom(Insert(t, x, 0), InsertPath(t, x))
  }

  /** The recursive insertion is the class's insertion followed by its walk. */
  lemma {:induction false} InsMatchesWalk(t: AvlTree, x: int)
    ensures Ins(t, x) == InsertByWalk(t, x)
  {
    match t
    case Nil =>
    case Node(l, y, h, rr) =>
      var d := if x <= y then L else R;
      var c := if x <= y then l else rr;
      InsMatchesWalk(c, x);
      assert InsertPath(t, x) == [d] + InsertPath(c, x);
      assert Insert(t, x, 0) == WithChild(t, d, Insert(c, x, 0));
      WalkFromBelow(Insert(t, x, 0), d, InsertPath(c, x));
  }

  /**
   * The removal after the lookup, as the class runs it on the vertex `v`
   * found: with a left child, copy the predecessor and splice it out, then
   * walk from its parent up to `v`; without one, splice `v` out.
   */
  function RemoveFoundByWalk(v: AvlTree): AvlTree
    requires v.Node?
  {
    if v.left.Node? then
      var (v', q) := SwapWithPredecessor(v);
      WalkFrom(ReplaceAt(v', q, SpliceOut(At(v', q))), q)
    else SpliceOut(v)
  }

  /** `elimina(T)` exactly as the class runs it: look up, remove, and walk from the parent to the root. */
  function DeleteByWalk(t: AvlTree, x: int): Option<AvlTree> {
    match Find(t, x)
    case None => None
    case Some(e) => Some(WalkFrom(ReplaceAt(t, e, RemoveFoundByWalk(At(t, e))), e))
  }

  lemma {:induction false} RemoveMaxMatchesWalk(t: AvlTree)
    requires t.Node?
    ensures var m := MaxPath(t);
      && RemoveMax(t).0 == WalkFrom(ReplaceAt(t, m, SpliceOut(At(t, m))), m)
      && RemoveMax(t).1 == At(t, m).elem
    decreases t
  {
    if t.right.Node? {
      var m' := MaxPath(t.right);
      RemoveMaxMatchesWalk(t.right);
      var m := [R] + m';
      assert m == MaxPath(t);
      assert At(t, m) == At(t.right, m');
      var s := SpliceOut(At(t, m));
      assert ReplaceAt(t, m, s) == WithChild(t, R, ReplaceAt(t.right, m', s));
      WalkFromBelow(ReplaceAt(t, m, s), R, m');
    }
  }

  lemma RemoveFoundMatchesWalk(v: AvlTree)
    requires v.Node?
    ensures RemoveFound(v) == RemoveFoundByWalk(v)
  {
    if v.left.Node? {
      var (v', q) := SwapWithPredecessor(v);
      var m := MaxPath(v.left);
      RemoveMaxMatchesWalk(v.left);
      assert At(v', q) == At(v.left, m);
      var s := SpliceOut(At(v', q));
      assert ReplaceAt(v', q, s) == WithChild(v', L, ReplaceAt(v.left, m, s));
      WalkFromBelow(ReplaceAt(v', q, s), L, m);
    }
  }

  lemma {:induction false} WalkFromFound(t: AvlTree, x: int)
    requires Find(t, x).Some?
    ensures var e := Find(t, x).value;
      Del(t, x) == Some(WalkFrom(ReplaceAt(t, e, RemoveFound(At(t, e))), e))
  {
    match t
    case Node(l, y, h, rr) =>
      if x != y {
        var d := if x < y then L else R;
        var c := if x < y then l else rr;
        WalkFromFound(c, x);
        var e' := Find(c, x).value;
        var e := [d] + e';
        assert Find(t, x).value == e;
        assert At(t, e) == At(c, e');
        var s := RemoveFound(At(c, e'));
        assert ReplaceAt(t, e, s) == WithChild(t, d, ReplaceAt(c, e', s));
        WalkFromBelow(ReplaceAt(t, e, s), d, e');
      }
  }

  /** The recursive deletion is the class's lookup, removal and walk. */
  lemma DelMatchesWalk(t: AvlTree, x: int)
    ensures Del(t, x) == DeleteByWalk(t, x)
  {
    if Find(t, x).Some? {
      var e := Find(t, x).value;
      WalkFromFound(t, x);
      RemoveFoundMatchesWalk(At(t, e));
    }
  }
}

=== FILE: binary_tree.dfy ===
/**
 * Generic binary trees (ArbolBinario.java).
 *
 * A vertex carries an element and an augmentation payload: nothing (`()`) for
 * the plain trees, the stored height for AVL trees and the colour for
 * red-black trees. Dafny's structural `==` on `Tree` therefore compares the
 * payload too, as the AVL and red-black `equals` overrides do. Parent links are
 * not stored: a vertex is named by the path from the root to it.
 */
module BinaryTree {
  import opened Wrappers

  /** A step from a vertex to its left or right child. */
  datatype Dir = L | R

  /** A vertex handle: the steps from the root down to the vertex. */
  type Path = seq<Dir>

  datatype Tree<T, A> = Nil | Node(left: Tree<T, A>, elem: T, aux: A, right: Tree<T, A>)

  /** A tree object: the root and the `elementos` counter. */
  datatype Counted<T, A> = Counted(root: Tree<T, A>, count: int)

  function Max(a: int, b: int): int {
    if a < b then b else a
  }

  function Size<T, A>(t: Tree<T, A>): nat {
    match t
    case Nil => 0
    case Node(l, _, _, r) => Size(l) + 1 + Size(r)
  }

  function Elems<T, A>(t: Tree<T, A>): multiset<T> {
    match t
    case Nil => multiset{}
    case Node(l, x, _, r) => Elems(l) + multiset{x} + Elems(r)
  }

  function InOrder<T, A>(t: Tree<T, A>): seq<T> {
    match t
    case Nil => []
    case Node(l, x, _, r) => InOrder(l) + [x] + InOrder(r)
  }

  /** The in-order lists before and after a single rotation are the same. */
  lemma Regroup<T>(a: seq<T>, x: T, b: seq<T>, y: T, c: seq<T>)
    ensures a + [x] + (b + [y] + c) == (a + [x] + b) + [y] + c
  {
  }

  /** The in-order lists before and after a double rotation are the same. */
  lemma Regroup2<T>(a: seq<T>, x: T, b: seq<T>, y: T, c: seq<T>, z: T, d: seq<T>)
    ensures (a + [x] + (b + [y] + c)) + [z] + d == (a + [x] + b) + [y] + (c + [z] + d)
  {
  }

  /** The in-order lists before and after the mirrored double rotation are the same. */
  lemma RegroupMirror<T>(a: seq<T>, x: T, b: seq<T>, y: T, c: seq<T>, z: T, d: seq<T>)
    ensures a + [x] + ((b + [y] + c) + [z] + d) == (a + [x] + b) + [y] + (c + [z] + d)
  {
  }

  function PreOrder<T, A>(t: Tree<T, A>): seq<T> {
    match t
    case Nil => []
    case Node(l, x, _, r) => [x] + PreOrder(l) + PreOrder(r)
  }

  function PostOrder<T, A>(t: Tree<T, A>): seq<T> {
    match t
    case Nil => []
    case Node(l, x, _, r) => PostOrder(l) + PostOrder(r) + [x]
  }

  /** The three depth-first walks list every vertex exactly once. */
  lemma WalksListEveryVertex<T, A>(t: Tree<T, A>)
    ensures multiset(InOrder(t)) == Elems(t)
    ensures multiset(PreOrder(t)) == Elems(t)
    ensures multiset(PostOrder(t)) == Elems(t)
    ensures |InOrder(t)| == |PreOrder(t)| == |PostOrder(t)| == Size(t)
  {
    InOrderListsEveryVertex(t);
    PreOrderListsEveryVertex(t);
    PostOrderListsEveryVertex(t);
  }

  lemma {:induction false} InOrderListsEveryVertex<T, A>(t: Tree<T, A>)
    ensures multiset(InOrder(t)) == Elems(t) && |InOrder(t)| == Size(t)
  {
    match t
    case Nil =>
    case Node(l, x, _, r) =>
      InOrderListsEveryVertex(l);
      InOrderListsEveryVertex(r);
  }

  lemma {:induction false} PreOrderListsEveryVertex<T, A>(t: Tree<T, A>)
    ensures multiset(PreOrder(t)) == Elems(t) && |PreOrder(t)| == Size(t)
  {
    match t
    case Nil =>
    case Node(l, x, _, r) =>
      PreOrderListsEveryVertex(l);
      PreOrderListsEveryVertex(r);
  }

  lemma {:induction false} PostOrderListsEveryVertex<T, A>(t: Tree<T, A>)
    ensures multiset(PostOrder(t)) == Elems(t) && |PostOrder(t)| == Size(t)
  {
    match t
    case Nil =>
    case Node(l, x, _, r) =>
      PostOrderListsEveryVertex(l);
      PostOrderListsEveryVertex(r);
  }

  /** A block of the middle part of a three-part sequence is a block of the whole, shifted by the first part. */
  lemma MiddleSlice<T>(a: seq<T>, b: seq<T>, c: seq<T>, j: nat, w: seq<T>)
    requires j + |w| <= |b| && b[j..j + |w|] == w
    ensures |a| + j + |w| <= |a + b + c|
    ensures (a + b + c)[|a| + j..|a| + j + |w|] == w
  {
    var u := (a + b + c)[|a| + j..|a| + j + |w|];
    forall k | 0 <= k < |w| ensures u[k] == w[k] {
      assert u[k] == (a + b + c)[|a| + j + k] == b[j + k];
    }
  }

  /** A block of the front part of a sequence is a block of the whole. */
  lemma FrontSlice<T>(b: seq<T>, c: seq<T>, j: nat, w: seq<T>)
    requires j + |w| <= |b| && b[j..j + |w|] == w
    ensures j + |w| <= |b + c| && (b + c)[j..j + |w|] == w
  {
    assert (b + c)[..|b|] == b;
  }

  /** Where the pre-order walk of the subtree at `p` starts inside the walk of the whole tree. */
  function PreOrderStart<T, A>(t: Tree<T, A>, p: Path): nat
    decreases |p|
  {
    if |p| == 0 then 0
    else match t
      case Nil => 0
      case Node(l, _, _, r) =>
        if p[0] == L then 1 + PreOrderStart(l, p[1..]) else 1 + |PreOrder(l)| + PreOrderStart(r, p[1..])
  }

  /** Where the post-order walk of the subtree at `p` starts inside the walk of the whole tree. */
  function PostOrderStart<T, A>(t: Tree<T, A>, p: Path): nat
    decreases |p|
  {
    if |p| == 0 then 0
    else match t
      case Nil => 0
      case Node(l, _, _, r) =>
        if p[0] == L then PostOrderStart(l, p[1..]) else |PostOrder(l)| + PostOrderStart(r, p[1..])
  }

  /**
   * A depth-first walk finishes a subtree before it leaves it: the pre-order
   * walk of every subtree is one contiguous block of the whole walk, and the
   * block starts with the subtree's root.
   */
  lemma {:induction false} PreOrderBlocks<T, A>(t: Tree<T, A>, p: Path)
    ensures PreOrderStart(t, p) + |PreOrder(At(t, p))| <= |PreOrder(t)|
    ensures PreOrder(t)[PreOrderStart(t, p)..PreOrderStart(t, p) + |PreOrder(At(t, p))|] == PreOrder(At(t, p))
    decreases |p|
  {
    if |p| > 0 && t.Node? {
      var l, x, r, q := t.left, t.elem, t.right, p[1..];
      assert PreOrder(t) == [x] + PreOrder(l) + PreOrder(r);
      if p[0] == L {
        assert At(t, p) == At(l, q) && PreOrderStart(t, p) == 1 + PreOrderStart(l, q);
        PreOrderBlocks(l, q);
        MiddleSlice([x], PreOrder(l), PreOrder(r), PreOrderStart(l, q), PreOrder(At(l, q)));
      } else {
        assert At(t, p) == At(r, q) && PreOrderStart(t, p) == |[x] + PreOrder(l)| + PreOrderStart(r, q);
        PreOrderBlocks(r, q);
        MiddleSlice([x] + PreOrder(l), PreOrder(r), [], PreOrderStart(r, q), PreOrder(At(r, q)));
        assert [x] + PreOrder(l) + PreOrder(r) + [] == PreOrder(t);
      }
    }
  }

  /** The same for the post-order walk; there the block ends with the subtree's root. */
  lemma {:induction false} PostOrderBlocks<T, A>(t: Tree<T, A>, p: Path)
    ensures PostOrderStart(t, p) + |PostOrder(At(t, p))| <= |PostOrder(t)|
    ensures PostOrder(t)[PostOrderStart(t, p)..PostOrderStart(t, p) + |PostOrder(At(t, p))|] == PostOrder(At(t, p))
    decreases |p|
  {
    if |p| > 0 && t.Node? {
      var l, x, r, q := t.left, t.elem, t.right, p[1..];
      assert PostOrder(t) == PostOrder(l) + PostOrder(r) + [x];
      if p[0] == L {
        assert At(t, p) == At(l, q) && PostOrderStart(t, p) == PostOrderStart(l, q);
        PostOrderBlocks(l, q);
        FrontSlice(PostOrder(l), PostOrder(r) + [x], PostOrderStart(l, q), PostOrder(At(l, q)));
        assert PostOrder(l) + (PostOrder(r) + [x]) == PostOrder(t);
      } else {
        assert At(t, p) == At(r, q) && PostOrderStart(t, p) == |PostOrder(l)| + PostOrderStart(r, q);
        PostOrderBlocks(r, q);
        MiddleSlice(PostOrder(l), PostOrder(r), [x], PostOrderStart(r, q), PostOrder(At(r, q)));
      }
    }
  }

  /** The block of a vertex's subtree in the pre-order walk starts with that vertex. */
  lemma PreOrderBlockRoot<T, A>(t: Tree<T, A>, p: Path)
    requires IsVertex(t, p)
    ensures PreOrderStart(t, p) < |PreOrder(t)| && PreOrder(t)[PreOrderStart(t, p)] == At(t, p).elem
  {
    PreOrderBlocks(t, p);
    var i, w := PreOrderStart(t, p), PreOrder(At(t, p));
    assert w[0] == At(t, p).elem;
    assert PreOrder(t)[i..i + |w|][0] == PreOrder(t)[i];
  }

  /** The block of a vertex's subtree in the post-order walk ends with that vertex. */
  lemma PostOrderBlockRoot<T, A>(t: Tree<T, A>, p: Path)
    requires IsVertex(t, p)
    ensures
      var i := PostOrderStart(t, p) + |PostOrder(At(t, p))| - 1;
      0 <= i < |PostOrder(t)| && PostOrder(t)[i] == At(t, p).elem
  {
    PostOrderBlocks(t, p);
    var i, w := PostOrderStart(t, p), PostOrder(At(t, p));
    assert w[|w| - 1] == At(t, p).elem;
    assert PostOrder(t)[i..i + |w|][|w| - 1] == PostOrder(t)[i + |w| - 1];
  }

  /** The multiset of elements has one entry per vertex. */
  lemma {:induction false} SizeIsElemsCount<T, A>(t: Tree<T, A>)
    ensures |Elems(t)| == Size(t)
  {
    match t
    case Nil =>
    case Node(l, _, _, r) =>
      SizeIsElemsCount(l);
      SizeIsElemsCount(r);
  }

  /** The subtree rooted at the end of `p`; `Nil` when the path leaves the tree. */
  function At<T, A>(t: Tree<T, A>, p: Path): Tree<T, A>
    decreases |p|
  {
    if |p| == 0 then t
    else match t
      case Nil => Nil
      case Node(l, _, _, r) => if p[0] == L then At(l, p[1..]) else At(r, p[1..])
  }

  /** `p` names a vertex of `t`. */
  predicate IsVertex<T, A>(t: Tree<T, A>, p: Path) {
    At(t, p).Node?
  }

  /** `t` with the subtree at `p` replaced by `s`; `t` itself when `p` leaves the tree early. */
  function ReplaceAt<T, A>(t: Tree<T, A>, p: Path, s: Tree<T, A>): Tree<T, A>
    decreases |p|
  {
    if |p| == 0 then s
    else match t
      case Nil => Nil
      case Node(l, x, a, r) =>
        if p[0] == L then Node(ReplaceAt(l, p[1..], s), x, a, r)
        else Node(l, x, a, ReplaceAt(r, p[1..], s))
  }

  lemma {:induction false} AtConcat<T, A>(t: Tree<T, A>, p: Path, q: Path)
    ensures At(t, p + q) == At(At(t, p), q)
    decreases |p|
  {
    if |p| == 0 {
      assert p + q == q;
    } else {
      assert (p + q)[0] == p[0];
      assert (p + q)[1..] == p[1..] + q;
      match t
      case Nil =>
      case Node(l, _, _, r) =>
        if p[0] == L { AtConcat(l, p[1..], q); } else { AtConcat(r, p[1..], q); }
    }
  }

  /** Every prefix of a vertex path is a vertex path. */
  lemma PrefixIsVertex<T, A>(t: Tree<T, A>, p: Path, i: nat)
    requires IsVertex(t, p) && i <= |p|
    ensures IsVertex(t, p[..i])
  {
    assert p == p[..i] + p[i..];
    AtConcat(t, p[..i], p[i..]);
  }

  lemma {:induction false} ReplaceAtConcat<T, A>(t: Tree<T, A>, p: Path, q: Path, s: Tree<T, A>)
    requires IsVertex(t, p)
    ensures ReplaceAt(t, p + q, s) == ReplaceAt(t, p, ReplaceAt(At(t, p), q, s))
    decreases |p|
  {
    if |p| == 0 {
      assert p + q == q;
    } else {
      assert (p + q)[0] == p[0];
      assert (p + q)[1..] == p[1..] + q;
      match t
      case Node(l, _, _, r) =>
        if p[0] == L { ReplaceAtConcat(l, p[1..], q, s); } else { ReplaceAtConcat(r, p[1..], q, s); }
    }
  }

  /** Every step of `p` but the last leaves from a vertex: `p` names a vertex or a vacant child slot. */
  predicate Reaches<T, A>(t: Tree<T, A>, p: Path)
    decreases |p|
  {
    |p| == 0 || (t.Node? && Reaches(if p[0] == L then t.left else t.right, p[1..]))
  }

  lemma {:induction false} VertexReaches<T, A>(t: Tree<T, A>, p: Path)
    requires IsVertex(t, p)
    ensures Reaches(t, p)
    decreases |p|
  {
    if |p| > 0 {
      match t
      case Node(l, _, _, r) =>
        if p[0] == L { VertexReaches(l, p[1..]); } else { VertexReaches(r, p[1..]); }
    }
  }

  lemma MultisetExt<T>(a: multiset<T>, b: multiset<T>)
    requires forall y :: a[y] == b[y]
    ensures a == b
  {
  }

  /** Dropping one occurrence from the left part of a union drops it from the union. */
  lemma DropFromLeft<T>(a: multiset<T>, a': multiset<T>, b: multiset<T>, x: T)
    requires x in a && a' == a - multiset{x}
    ensures x in a + b && a' + b == (a + b) - multiset{x}
  {
    forall z ensures (a' + b)[z] == ((a + b) - multiset{x})[z] {
    }
    MultisetExt(a' + b, (a + b) - multiset{x});
  }

  /** Dropping one occurrence from the right part of a union drops it from the union. */
  lemma DropFromRight<T>(a: multiset<T>, b: multiset<T>, b': multiset<T>, x: T)
    requires x in b && b' == b - multiset{x}
    ensures x in a + b && a + b' == (a + b) - multiset{x}
  {
    forall z ensures (a + b')[z] == ((a + b) - multiset{x})[z] {
    }
    MultisetExt(a + b', (a + b) - multiset{x});
  }

  /** Trees with the same in-order walk hold the same elements. */
  lemma SameInOrderSameElems<T, A>(s: Tree<T, A>, t: Tree<T, A>)
    requires InOrder(s) == InOrder(t)
    ensures Elems(s) == Elems(t) && Size(s) == Size(t)
  {
    WalksListEveryVertex(s);
    WalksListEveryVertex(t);
  }

  /** A tree whose in-order walk skips the root holds the elements but the root's. */
  lemma DropRoot<T, A>(t: Tree<T, A>, s: Tree<T, A>)
    requires t.Node? && InOrder(s) == InOrder(t.left) + InOrder(t.right)
    ensures Elems(s) == Elems(t) - multiset{t.elem}
  {
    WalksListEveryVertex(s);
    WalksListEveryVertex(t.left);
    WalksListEveryVertex(t.right);
    var a, b := Elems(s), Elems(t) - multiset{t.elem};
    forall z ensures a[z] == b[z] {
      assert a[z] == multiset(InOrder(t.left))[z] + multiset(InOrder(t.right))[z];
    }
    MultisetExt(a, b);
  }

  /** Dropping one occurrence from the left subtree drops it from the tree. */
  lemma DropLeft<T, A>(t: Tree<T, A>, l': Tree<T, A>, x: T)
    requires t.Node? && x in Elems(t.left) && Elems(l') == Elems(t.left) - multiset{x}
    ensures x in Elems(t)
    ensures Elems(Node(l', t.elem, t.aux, t.right)) == Elems(t) - multiset{x}
  {
    DropFromLeft(Elems(t.left), Elems(l'), multiset{t.elem}, x);
    DropFromLeft(Elems(t.left) + multiset{t.elem}, Elems(l') + multiset{t.elem}, Elems(t.right), x);
  }

  /** Dropping one occurrence from the right subtree drops it from the tree. */
  lemma DropRight<T, A>(t: Tree<T, A>, r': Tree<T, A>, x: T)
    requires t.Node? && x in Elems(t.right) && Elems(r') == Elems(t.right) - multiset{x}
    ensures x in Elems(t)
    ensures Elems(Node(t.left, t.elem, t.aux, r')) == Elems(t) - multiset{x}
  {
    DropFromRight(Elems(t.left) + multiset{t.elem}, Elems(t.right), Elems(r'), x);
  }

  /** Cancelling a replaced subtree whose replacement lost one occurrence of `x`. */
  lemma MultisetCancel<T>(e1: multiset<T>, ea: multiset<T>, et: multiset<T>, es: multiset<T>, x: T)
    requires e1 + ea == et + es && es == ea - multiset{x} && x in ea
    ensures e1 == et - multiset{x}
  {
    forall y ensures e1[y] == (et - multiset{x})[y] {
      assert (e1 + ea)[y] == (et + es)[y];
    }
    MultisetExt(e1, et - multiset{x});
  }

  /** Overwriting a vertex's element and then dropping the new one drops the old one. */
  lemma ElemsOverwrite<T, A>(v: Tree<T, A>, m: T)
    requires v.Node?
    ensures Elems(v.(elem := m)) - multiset{m} == Elems(v) - multiset{v.elem}
  {
    var a, b := Elems(v.(elem := m)) - multiset{m}, Elems(v) - multiset{v.elem};
    forall y ensures a[y] == b[y] {
      assert Elems(v.(elem := m))[y] == Elems(v.left)[y] + multiset{m}[y] + Elems(v.right)[y];
      assert Elems(v)[y] == Elems(v.left)[y] + multiset{v.elem}[y] + Elems(v.right)[y];
    }
    MultisetExt(a, b);
  }

  /** Replacing a subtree swaps its elements for those of the replacement. */
  lemma {:induction false} ElemsReplaceAt<T, A>(t: Tree<T, A>, p: Path, s: Tree<T, A>)
    requires Reaches(t, p)
    ensures Elems(ReplaceAt(t, p, s)) + Elems(At(t, p)) == Elems(t) + Elems(s)
    decreases |p|
  {
    if |p| > 0 {
      var l, x, r, q := t.left, t.elem, t.right, p[1..];
      var c := if p[0] == L then l else r;
      ElemsReplaceAt(c, q, s);
      var c' := ReplaceAt(c, q, s);
      assert At(t, p) == At(c, q);
      if p[0] == L {
        assert ReplaceAt(t, p, s) == Node(c', x, t.aux, r);
        SwapLeft(Elems(c'), Elems(c), Elems(At(c, q)), Elems(s), multiset{x}, Elems(r));
      } else {
        assert ReplaceAt(t, p, s) == Node(l, x, t.aux, c');
        SwapRight(Elems(l), multiset{x}, Elems(c'), Elems(c), Elems(At(c, q)), Elems(s));
      }
    }
  }

  /** A swap of `a` for `s` inside the left part of a union is a swap in the union. */
  lemma SwapLeft<T>(c': multiset<T>, c: multiset<T>, a: multiset<T>, s: multiset<T>, x: multiset<T>, r: multiset<T>)
    requires c' + a == c + s
    ensures (c' + x + r) + a == (c + x + r) + s
  {
    forall y ensures ((c' + x + r) + a)[y] == ((c + x + r) + s)[y] {
      assert (c' + a)[y] == (c + s)[y];
    }
    MultisetExt((c' + x + r) + a, (c + x + r) + s);
  }

  /** A swap of `a` for `s` inside the right part of a union is a swap in the union. */
  lemma SwapRight<T>(l: multiset<T>, x: multiset<T>, c': multiset<T>, c: multiset<T>, a: multiset<T>, s: multiset<T>)
    requires c' + a == c + s
    ensures (l + x + c') + a == (l + x + c) + s
  {
    forall y ensures ((l + x + c') + a)[y] == ((l + x + c) + s)[y] {
      assert (c' + a)[y] == (c + s)[y];
    }
    MultisetExt((l + x + c') + a, (l + x + c) + s);
  }

  /** Replacing a subtree swaps its vertex count for that of the replacement. */
  lemma {:induction false} SizeReplaceAt<T, A>(t: Tree<T, A>, p: Path, s: Tree<T, A>)
    requires Reaches(t, p)
    ensures Size(ReplaceAt(t, p, s)) + Size(At(t, p)) == Size(t) + Size(s)
    decreases |p|
  {
    if |p| > 0 {
      if p[0] == L { SizeReplaceAt(t.left, p[1..], s); } else { SizeReplaceAt(t.right, p[1..], s); }
    }
  }

  /** Replacing a subtree by one with the same in-order walk keeps the whole walk. */
  lemma {:induction false} InOrderReplaceAt<T, A>(t: Tree<T, A>, p: Path, s: Tree<T, A>)
    requires InOrder(s) == InOrder(At(t, p))
    ensures InOrder(ReplaceAt(t, p, s)) == InOrder(t)
    decreases |p|
  {
    if |p| > 0 {
      match t
      case Nil =>
      case Node(l, _, _, r) =>
        if p[0] == L { InOrderReplaceAt(l, p[1..], s); } else { InOrderReplaceAt(r, p[1..], s); }
    }
  }

  /** Putting back the subtree found at `p` changes nothing. */
  lemma {:induction false} ReplaceAtSame<T, A>(t: Tree<T, A>, p: Path)
    ensures ReplaceAt(t, p, At(t, p)) == t
    decreases |p|
  {
    if |p| > 0 {
      match t
      case Nil =>
      case Node(l, _, _, r) =>
        if p[0] == L { ReplaceAtSame(l, p[1..]); } else { ReplaceAtSame(r, p[1..]); }
    }
  }

  /** Replacing twice at the same path keeps the last replacement. */
  lemma {:induction false} ReplaceAtTwice<T, A>(t: Tree<T, A>, p: Path, s1: Tree<T, A>, s2: Tree<T, A>)
    requires IsVertex(t, p)
    ensures At(ReplaceAt(t, p, s1), p) == s1
    ensures ReplaceAt(ReplaceAt(t, p, s1), p, s2) == ReplaceAt(t, p, s2)
    decreases |p|
  {
    if |p| > 0 {
      match t
      case Node(l, _, _, r) =>
        if p[0] == L { ReplaceAtTwice(l, p[1..], s1, s2); } else { ReplaceAtTwice(r, p[1..], s1, s2); }
    }
  }

  // ---------------------------------------------------------------------
  // Vertex accessors (Vertice.hayPadre/padre/izquierdo/derecho/altura/profundidad)
  // ---------------------------------------------------------------------

  /** `padre()`: the parent of the vertex at `p`; NoSuchElement at the root. */
  function Parent<T, A>(t: Tree<T, A>, p: Path): (r: Result<Path>)
    requires IsVertex(t, p)
    ensures r.Err? <==> |p| == 0
    ensures r.Err? ==> r.error == NoSuchElement
    ensures r.Ok? ==> IsVertex(t, r.value) && |r.value| + 1 == |p|
    ensures r.Ok? ==> r.value + [p[|p| - 1]] == p
    ensures r.Ok? ==> At(t, r.value).left == At(t, p) || At(t, r.value).right == At(t, p)
  {
    if |p| == 0 then Err(NoSuchElement)
    else
      var q := p[..|p| - 1];
      PrefixIsVertex(t, p, |p| - 1);
      assert p == q + [p[|p| - 1]];
      AtConcat(t, q, [p[|p| - 1]]);
      Ok(q)
  }

  /** `izquierdo()`: the left child of the vertex at `p`; NoSuchElement when it has none. */
  function LeftChild<T, A>(t: Tree<T, A>, p: Path): (r: Result<Path>)
    requires IsVertex(t, p)
    ensures r.Err? <==> At(t, p).left.Nil?
    ensures r.Err? ==> r.error == NoSuchElement
    ensures r.Ok? ==> IsVertex(t, r.value) && At(t, r.value) == At(t, p).left
    ensures r.Ok? ==> r.value == p + [L]
  {
    if At(t, p).left.Nil? then Err(NoSuchElement)
    else
      AtConcat(t, p, [L]);
      Ok(p + [L])
  }

  /** `derecho()`: the right child of the vertex at `p`; NoSuchElement when it has none. */
  function RightChild<T, A>(t: Tree<T, A>, p: Path): (r: Result<Path>)
    requires IsVertex(t, p)
    ensures r.Err? <==> At(t, p).right.Nil?
    ensures r.Err? ==> r.error == NoSuchElement
    ensures r.Ok? ==> IsVertex(t, r.value) && At(t, r.value) == At(t, p).right
    ensures r.Ok? ==> r.value == p + [R]
  {
    if At(t, p).right.Nil? then Err(NoSuchElement)
    else
      AtConcat(t, p, [R]);
      Ok(p + [R])
  }

  /**
   * `padre` undoes `izquierdo` and `derecho`: a child's parent is the vertex
   * it was reached from, and every vertex but the root is the left or the
   * right child of its parent.
   */
  lemma ParentChildRoundTrip<T, A>(t: Tree<T, A>, p: Path)
    requires IsVertex(t, p)
    ensures LeftChild(t, p).Ok? ==> Parent(t, LeftChild(t, p).value) == Ok(p)
    ensures RightChild(t, p).Ok? ==> Parent(t, RightChild(t, p).value) == Ok(p)
    ensures Parent(t, p).Ok? ==>
      var q := Parent(t, p).value;
      LeftChild(t, q) == Ok(p) || RightChild(t, q) == Ok(p)
  {
    assert (p + [L])[..|p|] == p && (p + [R])[..|p|] == p;
    if |p| > 0 {
      var q := p[..|p| - 1];
      assert p == q + [p[|p| - 1]];
      PrefixIsVertex(t, p, |p| - 1);
      AtConcat(t, q, [p[|p| - 1]]);
    }
  }

  /** `altura(Vertice)`: -1 for an absent vertex, otherwise one more than the taller child. */
  function Height<T, A>(t: Tree<T, A>): (h: int)
    ensures h >= -1
    ensures h == -1 <==> t.Nil?
  {
    match t
    case Nil => -1
    case Node(l, _, _, r) => 1 + Max(Height(l), Height(r))
  }

  /** A longest path from the root of `t` to one of its vertices. */
  function DeepestPath<T, A>(t: Tree<T, A>): (p: Path)
    requires t.Node?
    ensures IsVertex(t, p) && |p| == Height(t)
  {
    match t
    case Node(l, _, _, r) =>
      if l.Nil? && r.Nil? then []
      else if r.Nil? || (l.Node? && Height(r) <= Height(l)) then [L] + DeepestPath(l)
      else [R] + DeepestPath(r)
  }

  /** No vertex lies deeper than the height. */
  lemma {:induction false} PathsWithinHeight<T, A>(t: Tree<T, A>, p: Path)
    requires IsVertex(t, p)
    ensures |p| <= Height(t)
    decreases |p|
  {
    if |p| > 0 {
      match t
      case Node(l, _, _, r) =>
        if p[0] == L {
          assert IsVertex(l, p[1..]);
          PathsWithinHeight(l, p[1..]);
        } else {
          assert IsVertex(r, p[1..]);
          PathsWithinHeight(r, p[1..]);
        }
    }
  }

  /** `profundidad(Vertice)`: 0 at the root, one more than the parent's depth below it. */
  function Depth<T, A>(t: Tree<T, A>, p: Path): (d: nat)
    requires IsVertex(t, p)
    ensures d == |p|
    decreases |p|
  {
    if |p| == 0 then 0
    else
      PrefixIsVertex(t, p, |p| - 1);
      1 + Depth(t, p[..|p| - 1])
  }

  /** A vertex's depth plus its height never exceeds the height of the tree. */
  lemma DepthPlusHeight<T, A>(t: Tree<T, A>, p: Path)
    requires IsVertex(t, p)
    ensures Depth(t, p) + Height(At(t, p)) <= Height(t)
  {
    var q := DeepestPath(At(t, p));
    AtConcat(t, p, q);
    PathsWithinHeight(t, p + q);
  }

  // ---------------------------------------------------------------------
  // Tree operations
  // ---------------------------------------------------------------------

  /** `contiene(T, Vertice)`: the vertex or one of its descendants holds `x`. */
  predicate Contains<T(==), A>(t: Tree<T, A>, x: T)
    ensures Contains(t, x) <==> x in Elems(t)
  {
    match t
    case Nil => false
    case Node(l, y, _, r) => if y == x then true else Contains(l, x) || Contains(r, x)
  }

  /**
   * `busca(Vertice, T)`: a vertex holding `x`, the first one in pre-order;
   * `None` for an absent element and for a null target.
   */
  function Search<T(==), A>(t: Tree<T, A>, x: Option<T>): (r: Option<Path>)
    ensures r.Some? ==> x.Some? && IsVertex(t, r.value) && At(t, r.value).elem == x.value
    ensures r.None? <==> (x.None? || x.value !in Elems(t))
  {
    match t
    case Nil => None
    case Node(l, y, _, r) =>
      if x.None? then None
      else if y == x.value then Some([])
      else
        var i := Search(l, x);
        var d := Search(r, x);
        if i.Some? then Some([L] + i.value)
        else if d.Some? then Some([R] + d.value)
        else None
  }

  /** `raiz()`: the root vertex; NoSuchElement for an empty tree. */
  function Root<T, A>(c: Counted<T, A>): (r: Result<Tree<T, A>>)
    ensures r.Err? <==> c.root.Nil?
    ensures r.Err? ==> r.error == NoSuchElement
    ensures r.Ok? ==> r.value.Node? && r.value == c.root
  {
    if c.root.Nil? then Err(NoSuchElement) else Ok(c.root)
  }

  /** `esVacia()`. */
  predicate IsEmpty<T, A>(c: Counted<T, A>) {
    c.root.Nil?
  }

  /** `limpia()`: no vertices and a zero counter. */
  function Clear<T, A>(c: Counted<T, A>): (r: Counted<T, A>)
    ensures IsEmpty(r) && r.count == 0 && Elems(r.root) == multiset{}
  {
    Counted(Nil, 0)
  }

  /**
   * `Vertice.equals`, branch by branch: the elements (and the payloads, as
   * the subclasses add) are equal and the children compare recursively;
   * `b == Nil` plays the role of a null argument.
   */
  predicate VertexEquals<T(==), A(==)>(a: Tree<T, A>, b: Tree<T, A>)
    requires a.Node?
    decreases a
  {
    if b.Nil? || a.aux != b.aux || a.elem != b.elem then false
    else if a.right.Node? && a.left.Node? then VertexEquals(a.right, b.right) && VertexEquals(a.left, b.left)
    else if a.right.Node? && b.left.Nil? then VertexEquals(a.right, b.right)
    else if a.left.Node? && b.right.Nil? then VertexEquals(a.left, b.left)
    else b.left.Nil? && b.right.Nil?
  }

  /** The branchy vertex comparison is exactly structural equality. */
  lemma {:induction false} VertexEqualsIsStructural<T, A>(a: Tree<T, A>, b: Tree<T, A>)
    requires a.Node?
    ensures VertexEquals(a, b) <==> a == b
    decreases a
  {
    if b.Node? && a.aux == b.aux && a.elem == b.elem {
      if a.left.Node? { VertexEqualsIsStructural(a.left, b.left); }
      if a.right.Node? { VertexEqualsIsStructural(a.right, b.right); }
    }
  }

  /** `ArbolBinario.equals`: a non-empty tree compares its root; two empty trees are equal. */
  predicate TreeEquals<T(==), A(==)>(c: Counted<T, A>, d: Counted<T, A>)
    ensures TreeEquals(c, d) <==> c.root == d.root
  {
    VertexEqualsIsStructuralAll(c.root, d.root);
    if !IsEmpty(c) then VertexEquals(c.root, d.root) else IsEmpty(c) && IsEmpty(d)
  }

  lemma VertexEqualsIsStructuralAll<T, A>(a: Tree<T, A>, b: Tree<T, A>)
    ensures a.Node? ==> (VertexEquals(a, b) <==> a == b)
  {
    if a.Node? { VertexEqualsIsStructural(a, b); }
  }
}

=== FILE: complete_tree.dfy ===
/**
 * Complete binary trees (`ArbolBinarioCompleto`). A vertex is named by its
 * breadth-first number: the root is 0 and the children of `i` are `2i + 1`
 * and `2i + 2`. A tree is the sequence of its slots, slot `i` holding the
 * element of vertex `i` or `None` when there is no such vertex, together
 * with the counter `elementos`. A complete tree of `n` elements fills
 * exactly the slots 0 to `n - 1`; then the slot order is the breadth-first
 * order, level by level and left to right.
 */
module CompleteTree {
  import opened Wrappers
  import Lists

  datatype Tree<T> = Tree(slots: seq<Option<T>>, count: int)

  /** Vertex `i` exists. */
  predicate Has<T>(s: seq<Option<T>>, i: int) {
    0 <= i < |s| && s[i].Some?
  }

  /** Every slot holds a vertex: the slots of a complete tree. */
  predicate Full<T>(s: seq<Option<T>>) {
    forall i | 0 <= i < |s| :: s[i].Some?
  }

  /** The class invariant: the slots `[0, elementos)` hold the vertices. */
  predicate IsComplete<T>(t: Tree<T>) {
    Full(t.slots) && |t.slots| == t.count
  }

  function Min(a: int, b: int): int {
    if a < b then a else b
  }

  /** The numbers `a` to `b - 1`. */
  function Range(a: nat, b: int): (r: seq<nat>)
    ensures |r| == if a < b then b - a else 0
    ensures forall i | 0 <= i < |r| :: r[i] == a + i
    decreases b - a
  {
    if a >= b then [] else [a] + Range(a + 1, b)
  }

  lemma RangeExtend(a: nat, b: int)
    requires a <= b
    ensures Range(a, b) + [b] == Range(a, b + 1)
  {
  }

  /**
   * The queue of the breadth-first walks over a complete tree of `n`
   * vertices once `k` vertices have left it: vertices `k` to
   * `min(2k + 1, n) - 1`.
   */
  function Queue(k: nat, n: int): seq<nat> {
    Range(k, Min(2 * k + 1, n))
  }

  /** The existing children of vertex `v`, left first: what a walk puts in its queue after taking `v` out. */
  function Children<T>(s: seq<Option<T>>, v: nat): seq<nat> {
    (if Has(s, 2 * v + 1) then [2 * v + 1] else []) + (if Has(s, 2 * v + 2) then [2 * v + 2] else [])
  }

  /** The queue without its first vertex `k`. */
  lemma QueueTail(k: nat, n: int)
    requires k < n
    ensures |Queue(k, n)| > 0 && Queue(k, n)[0] == k
    ensures Queue(k, n)[1..] == Range(k + 1, Min(2 * k + 1, n))
  {
  }

  /** Taking vertex `k` out of the queue and putting its children in gives the next queue. */
  lemma QueueNext<T>(s: seq<Option<T>>, k: nat)
    requires Full(s) && k < |s|
    ensures |Queue(k, |s|)| > 0 && Queue(k, |s|)[0] == k
    ensures Queue(k, |s|)[1..] + Children(s, k) == Queue(k + 1, |s|)
  {
    var n := |s|;
    QueueTail(k, n);
    var t := Range(k + 1, Min(2 * k + 1, n));
    if 2 * k + 2 < n {
      assert Children(s, k) == [2 * k + 1, 2 * k + 2];
      RangeExtendTwice(k + 1, 2 * k + 1);
    } else if 2 * k + 1 < n {
      assert Children(s, k) == [2 * k + 1];
      RangeExtend(k + 1, 2 * k + 1);
    } else {
      assert Children(s, k) == [];
      assert t + [] == t;
    }
  }

  lemma RangeExtendTwice(a: nat, b: int)
    requires a <= b
    ensures Range(a, b) + [b, b + 1] == Range(a, b + 2)
  {
    RangeExtend(a, b);
    RangeExtend(a, b + 1);
    assert Range(a, b) + [b, b + 1] == Range(a, b) + [b] + [b + 1];
  }

  /** The elements in slot order, skipping empty slots: the breadth-first order of the vertices. */
  function Values<T>(s: seq<Option<T>>): (r: seq<T>)
    ensures Full(s) ==> |r| == |s| && forall i | 0 <= i < |s| :: r[i] == s[i].value
  {
    if |s| == 0 then []
    else
      var r := (if s[0].Some? then [s[0].value] else []) + Values(s[1..]);
      assert Full(s) ==> Full(s[1..]);
      r
  }

  /** The level of a vertex: how many steps up to the root. */
  function Level(i: nat): nat {
    if i == 0 then 0 else 1 + Level((i - 1) / 2)
  }

  /** Slot order never goes back a level. */
  lemma {:induction false} LevelMonotone(i: nat, j: nat)
    requires i <= j
    ensures Level(i) <= Level(j)
    decreases j
  {
    if i > 0 {
      LevelMonotone((i - 1) / 2, (j - 1) / 2);
    }
  }

  // ---------------------------------------------------------------- adding

  /**
   * The loop of `agrega` over a non-empty tree: the queue starts with the
   * root, and the first vertex taken out without a left child gets the new
   * vertex there, else the first without a right child. In a complete tree
   * of `n` vertices, once `k` vertices have left the queue it holds the
   * vertices `k` to `min(2k + 1, n) - 1`. The slot found is always `n`.
   */
  function AddSlot<T>(s: seq<Option<T>>, q: seq<nat>, k: nat): (r: nat)
    requires Full(s) && 2 * k < |s| && q == Queue(k, |s|)
    ensures r == |s|
    decreases |s| - k
  {
    QueueNext(s, k);
    var v := q[0];
    if !Has(s, 2 * v + 1) then 2 * v + 1
    else if !Has(s, 2 * v + 2) then 2 * v + 2
    else AddSlot(s, q[1..] + [2 * v + 1, 2 * v + 2], k + 1)
  }

  /** A new vertex holding `x` in slot `i`, the slots in between left empty. */
  function Attach<T>(s: seq<Option<T>>, i: nat, x: T): (r: seq<Option<T>>)
    ensures |r| == if i < |s| then |s| else i + 1
    ensures r[i] == Some(x) && forall j | 0 <= j < |s| && j != i :: r[j] == s[j]
    ensures forall j | |s| <= j < i :: r[j] == None
  {
    if i < |s| then s[i := Some(x)] else s + seq(i - |s|, _ => None) + [Some(x)]
  }

  /**
   * `agrega(elemento)`: IllegalArgument for null; otherwise the count grows,
   * an empty tree gets the element as its root, and a non-empty one gets it
   * in the slot the loop finds.
   */
  function Add<T>(t: Tree<T>, e: Option<T>): (r: Result<Tree<T>>)
    requires IsComplete(t)
    ensures r.Err? <==> e.None?
    ensures r.Err? ==> r.error == IllegalArgument
    ensures r.Ok? ==> IsComplete(r.value) && r.value.count == t.count + 1
    ensures r.Ok? ==> Values(r.value.slots) == Values(t.slots) + [e.value]
  {
    if e.None? then Err(IllegalArgument)
    else if !Has(t.slots, 0) then Ok(Tree([Some(e.value)], t.count + 1))
    else
      var i := AddSlot(t.slots, Queue(0, t.count), 0);
      var r := Tree(Attach(t.slots, i, e.value), t.count + 1);
      assert r.slots == t.slots + [Some(e.value)];
      Ok(r)
  }

  /**
   * Where the new vertex goes: every vertex before its parent has both
   * children, and the parent lacks exactly the new slot; so levels fill
   * from left to right.
   */
  lemma AddPlacesFirstGap<T>(t: Tree<T>, x: T)
    requires IsComplete(t) && t.count > 0
    ensures var n := t.count; var p := (n - 1) / 2;
      && Has(t.slots, p) && !Has(t.slots, n)
      && (forall u | 0 <= u < p :: Has(t.slots, 2 * u + 1) && Has(t.slots, 2 * u + 2))
      && Add(t, Some(x)).value.slots[n] == Some(x)
  {
  }

  // ---------------------------------------------------------------- traversal

  /**
   * `bfs`: from the root, take a vertex out of the queue, act on it, and
   * put its existing children in, left first. Returns the elements in the
   * order acted on.
   */
  method Bfs<T>(t: Tree<T>) returns (visit: seq<T>)
    requires IsComplete(t)
    ensures visit == Values(t.slots)
  {
    var s := t.slots;
    var n := |s|;
    visit := [];
    if !Has(s, 0) {
      return;
    }
    var q: seq<nat> := [0];
    var k := 0;
    ghost var all := Values(s);
    assert q == Queue(0, n) by {
      QueueTail(0, n);
    }
    while |q| > 0
      invariant k <= n && q == Queue(k, n)
      invariant visit == all[..k]
      decreases n - k
    {
      QueueNext(s, k);
      var v := q[0];
      q := q[1..];
      assert v == k && all[k] == s[v].value;
      assert all[..k + 1] == all[..k] + [all[k]];
      visit := visit + [s[v].value];
      q := q + Children(s, v);
      k := k + 1;
    }
    assert all[..k] == all;
  }

  /** The breadth-first order visits the vertices level by level, left to right within a level. */
  lemma BfsIsLevelOrder<T>(t: Tree<T>, i: nat, j: nat)
    requires IsComplete(t) && i < j < t.count
    ensures Level(i) <= Level(j)
    ensures Level(i) == Level(j) ==> i < j
  {
    LevelMonotone(i, j);
  }

  /**
   * `buscaVertice`: the recursion over the queue that keeps taking vertices
   * out and putting their children in, and stops at a leaf taken out of an
   * emptied queue: the last vertex in breadth-first order.
   */
  function LastVertex<T>(s: seq<Option<T>>, q: seq<nat>, k: nat): (a: nat)
    requires Full(s) && k < |s| && q == Queue(k, |s|)
    ensures a == |s| - 1
    decreases |s| - k
  {
    QueueNext(s, k);
    var v := q[0];
    var rest := q[1..];
    if !Has(s, 2 * v + 1) && !Has(s, 2 * v + 2) then
      if |rest| == 0 then v else LastVertex(s, rest + Children(s, v), k + 1)
    else LastVertex(s, rest + Children(s, v), k + 1)
  }

  // ---------------------------------------------------------------- search

  /** `busca` from vertex `i`: the vertex itself if it holds `e`, else what the left subtree gives, else the right. */
  function Search<T(==)>(s: seq<Option<T>>, i: nat, e: T): (r: Option<nat>)
    ensures r.Some? ==> Has(s, r.value) && s[r.value].value == e && r.value >= i
    decreases |s| - i
  {
    if !Has(s, i) then None
    else if s[i].value == e then Some(i)
    else
      var l := Search(s, 2 * i + 1, e);
      if l.Some? then l else Search(s, 2 * i + 2, e)
  }

  /** Vertex `j` lies in the subtree of vertex `i`. */
  predicate Descends(j: nat, i: nat)
    decreases j
  {
    j == i || (j > i && j > 0 && Descends((j - 1) / 2, i))
  }

  lemma {:induction false} DescendsChild(j: nat, i: nat)
    requires Descends(j, i) && j != i
    ensures Descends(j, 2 * i + 1) || Descends(j, 2 * i + 2)
    decreases j
  {
    var p := (j - 1) / 2;
    if p != i {
      DescendsChild(p, i);
    }
  }

  lemma {:induction false} DescendsRoot(j: nat)
    ensures Descends(j, 0)
    decreases j
  {
    if j > 0 {
      DescendsRoot((j - 1) / 2);
    }
  }

  /** A search that finds nothing from `i` has looked at every vertex of the subtree of `i`. */
  lemma {:induction false} SearchMisses<T>(s: seq<Option<T>>, i: nat, e: T, j: nat)
    requires Full(s) && Search(s, i, e).None? && Descends(j, i) && j < |s|
    ensures s[j].value != e
    decreases |s| - i
  {
    if j != i {
      DescendsChild(j, i);
      if Descends(j, 2 * i + 1) {
        SearchMisses(s, 2 * i + 1, e, j);
      } else {
        SearchMisses(s, 2 * i + 2, e, j);
      }
    }
  }

  /** `busca` from the root finds a vertex exactly when some vertex holds the element. */
  lemma SearchComplete<T>(s: seq<Option<T>>, e: T)
    requires Full(s)
    ensures Search(s, 0, e).None? <==> e !in Values(s)
  {
    if Search(s, 0, e).None? {
      forall j | 0 <= j < |s| ensures s[j].value != e {
        DescendsRoot(j);
        SearchMisses(s, 0, e, j);
      }
    }
  }

  // ---------------------------------------------------------------- removal

  /** `intercambia`: the elements of two vertices change places. */
  function Swap<T>(s: seq<Option<T>>, i: nat, j: nat): (r: seq<Option<T>>)
    requires i < |s| && j < |s|
    ensures |r| == |s| && r[i] == s[j] && r[j] == s[i]
    ensures forall m | 0 <= m < |s| && m != i && m != j :: r[m] == s[m]
  {
    s[i := s[j]][j := s[i]]
  }

  /**
   * The vertex equality of `ArbolBinario` applied to vertex `i` and the leaf
   * `a`: equal elements, and `i` without children, since any child of `i`
   * is compared against a missing child of `a` and fails.
   */
  predicate EqualsLeaf<T(==)>(s: seq<Option<T>>, i: int, a: nat)
    requires Has(s, a)
  {
    Has(s, i) && s[i].value == s[a].value && !Has(s, 2 * i + 1) && !Has(s, 2 * i + 2)
  }

  /**
   * `elimina(elemento)` as written: an absent (or null) element changes
   * nothing; otherwise the count drops, the last element empties the tree,
   * and else the found vertex swaps elements with the last vertex `a`, after
   * which the parent of `a` detaches its left child if that child equals
   * `a`, and else its right child if that one does.
   */
  function RemoveAsWritten<T(==)>(t: Tree<T>, e: Option<T>): (r: Tree<T>)
    requires IsComplete(t)
    ensures e.None? || Search(t.slots, 0, e.value).None? ==> r == t
    ensures e.Some? && Search(t.slots, 0, e.value).Some? ==> r.count == t.count - 1
  {
    if e.None? then t
    else match Search(t.slots, 0, e.value)
      case None => t
      case Some(v) =>
        if t.count - 1 == 0 then Tree([], 0)
        else
          var a := LastVertex(t.slots, Queue(0, t.count), 0);
          var s := Swap(t.slots, v, a);
          var b := (a - 1) / 2;
          if EqualsLeaf(s, 2 * b + 1, a) then Tree(s[2 * b + 1 := None], t.count - 1)
          else if EqualsLeaf(s, 2 * b + 2, a) then Tree(s[2 * b + 2 := None], t.count - 1)
          else Tree(s, t.count - 1)
  }

  /**
   * Deleting 5 from the complete tree 1, 5, 5 detaches the left leaf, whose
   * element equals that of the last vertex, instead of the last vertex: the
   * root is left with a right child and no left one.
   */
  lemma RemoveAsWrittenBreaksShape()
    ensures var t := Tree([Some(1), Some(5), Some(5)], 3);
      && IsComplete(t)
      && RemoveAsWritten(t, Some(5)) == Tree([Some(1), None, Some(5)], 2)
      && !IsComplete(RemoveAsWritten(t, Some(5)))
  {
    var s := [Some(1), Some(5), Some(5)];
    assert Search(s, 1, 5) == Some(1);
    assert Search(s, 0, 5) == Some(1);
    var t := Tree(s, 3);
    assert IsComplete(t);
    assert LastVertex(s, Queue(0, 3), 0) == 2;
    var w := Swap(s, 1, 2);
    assert w == s;
    assert EqualsLeaf(w, 1, 2);
    assert w[1 := None] == [Some(1), None, Some(5)];
    assert RemoveAsWritten(t, Some(5)) == Tree(w[1 := None], 2);
    assert !Has([Some(1), None, Some(5)], 1);
  }

  /**
   * `elimina(elemento)` with the last vertex detached: an absent (or null)
   * element changes nothing; otherwise the found vertex takes the last
   * vertex's element and the last slot goes.
   */
  function Remove<T(==)>(t: Tree<T>, e: Option<T>): (r: Tree<T>)
    requires IsComplete(t)
    ensures IsComplete(r)
    ensures e.None? || e.value !in Values(t.slots) ==> r == t
    ensures e.Some? && e.value in Values(t.slots) ==>
      r.count == t.count - 1 && multiset(Values(r.slots)) == multiset(Values(t.slots)) - multiset{e.value}
  {
    if e.None? then t
    else
      SearchComplete(t.slots, e.value);
      match Search(t.slots, 0, e.value)
      case None => t
      case Some(v) =>
        if t.count - 1 == 0 then
          assert Values(t.slots) == [e.value];
          Tree([], 0)
        else
          var a := LastVertex(t.slots, Queue(0, t.count), 0);
          var s := Swap(t.slots, v, a);
          RemoveLast(t.slots, v, a);
          Tree(s[..a], t.count - 1)
  }

  /** Swapping two slots of a full tree swaps the two elements in slot order. */
  lemma ValuesSwap<T>(s: seq<Option<T>>, i: nat, j: nat)
    requires Full(s) && i < |s| && j < |s|
    ensures Full(Swap(s, i, j))
    ensures Values(Swap(s, i, j)) == Values(s)[i := Values(s)[j]][j := Values(s)[i]]
  {
    var w := Swap(s, i, j);
    assert Full(w);
    var ws := Values(w);
    var vs := Values(s);
    assert |ws| == |vs[i := vs[j]][j := vs[i]]|;
    forall m | 0 <= m < |ws|
      ensures ws[m] == vs[i := vs[j]][j := vs[i]][m]
    {
    }
  }

  /** Dropping slots from the end of a full tree drops its last elements. */
  lemma ValuesTake<T>(s: seq<Option<T>>, a: nat)
    requires Full(s) && a <= |s|
    ensures Full(s[..a]) && Values(s[..a]) == Values(s)[..a]
  {
    assert Full(s[..a]);
  }

  /** Swapping a vertex holding `x` with the last one and dropping the last slot takes one `x` out. */
  lemma RemoveLast<T>(s: seq<Option<T>>, v: nat, a: nat)
    requires Full(s) && v < |s| && a == |s| - 1
    ensures Full(Swap(s, v, a)[..a])
    ensures multiset(Values(Swap(s, v, a)[..a])) == multiset(Values(s)) - multiset{s[v].value}
  {
    ValuesSwap(s, v, a);
    ValuesTake(Swap(s, v, a), a);
    Lists.SwapDropLast(Values(s), v, a);
  }

  /** The corrected removal and the source's agree whenever the last vertex is a left child. */
  lemma RemoveAgreesOnLeftLast<T>(t: Tree<T>, e: T)
    requires IsComplete(t) && t.count >= 2 && t.count % 2 == 0 && e in Values(t.slots)
    ensures RemoveAsWritten(t, Some(e)).slots[..t.count - 1] == Remove(t, Some(e)).slots
  {
    var n := t.count;
    SearchComplete(t.slots, e);
    if Search(t.slots, 0, e).Some? {
      var v := Search(t.slots, 0, e).value;
      var a := LastVertex(t.slots, Queue(0, n), 0);
      var s := Swap(t.slots, v, a);
      assert 2 * ((a - 1) / 2) + 1 == a;
      assert EqualsLeaf(s, a, a);
      assert s[a := None][..n - 1] == s[..a];
    }
  }
}

=== FILE: dictionary.dfy ===
/**
 * Hash tables (`Diccionario`): an array of buckets whose length is a power
 * of two, each bucket a list of key/value entries. A key lives in the
 * bucket its hash selects by masking. The hash function (`Dispersor`) is a
 * parameter `hash: K -> int` giving Java's `int`; `null` arguments are
 * `None`; an operation returns the new table.
 */
module Dictionary {
  import opened Wrappers
  import opened JavaInt

  datatype Entry<K, V> = Entry(key: K, value: V)

  /** The buckets (`entradas`, a `null` bucket being empty) and the count `elementos`. */
  datatype Dict<K, V> = Dict(buckets: seq<seq<Entry<K, V>>>, count: int)

  predicate IsPow2(n: int) {
    n == 1 || (n >= 2 && n % 2 == 0 && IsPow2(n / 2))
  }

  function Max(a: int, b: int): int {
    if a < b then b else a
  }

  // ---------------------------------------------------------------- capacity

  /** The doubling loop of the constructor, from `c` on, until `c` reaches `t`. */
  function Doubling(c: int, t: int): (r: int)
    requires c >= 1 && IsPow2(c)
    ensures IsPow2(r) && r >= t && r >= c
    ensures r == c || r / 2 < t
    decreases t - c
  {
    if c >= t then c else Doubling(2 * c, t)
  }

  /** The number of buckets a table built with `capacidad` gets: the loop run from 1 up to twice the capacity, at least 64. */
  function Capacity(capacidad: int): (r: int)
    ensures IsPow2(r) && r >= 2 * Max(capacidad, 64) && r / 2 < 2 * Max(capacidad, 64)
  {
    Doubling(1, 2 * Max(capacidad, 64))
  }

  /** Of two powers of two, the smaller is at most half the larger. */
  lemma {:induction false} Pow2Below(p: int, c: int)
    requires IsPow2(p) && IsPow2(c) && p < c
    ensures p <= c / 2
    decreases c
  {
    if p != 1 {
      Pow2Below(p / 2, c / 2);
    }
  }

  /**
   * The capacity is the least power of two that is at least twice
   * `max(capacidad, 64)`.
   */
  lemma CapacityIsLeast(capacidad: int, p: int)
    requires IsPow2(p) && p >= 2 * Max(capacidad, 64)
    ensures IsPow2(Capacity(capacidad)) && Capacity(capacidad) >= 2 * Max(capacidad, 64)
    ensures Capacity(capacidad) <= p
  {
    var c := Capacity(capacidad);
    if p < c {
      Pow2Below(p, c);
    }
  }

  /** The default capacity 64 gives 128 buckets. */
  lemma DefaultCapacity()
    ensures Capacity(64) == 128
  {
    assert IsPow2(128) by {
      assert IsPow2(64) by {
        assert IsPow2(2) && IsPow2(4) && IsPow2(8) && IsPow2(16) && IsPow2(32);
      }
    }
    CapacityIsLeast(64, 128);
    assert Capacity(64) >= 128;
  }

  /**
   * The constructor's loop as written, on Java `int`s and for at most
   * `fuel` rounds: the final `c`, or None while the loop still runs.
   */
  function DoublingAsWritten(c: int, t: int, fuel: nat): (r: Option<int>)
    ensures r.Some? ==> r.value >= t
    ensures c >= t ==> r == Some(c)
    decreases fuel
  {
    if c >= t then Some(c) else if fuel == 0 then None else DoublingAsWritten(Wrap32(2 * c), t, fuel - 1)
  }

  /** The constructor's capacity rule as written, with `capacidad * 2` and `c *= 2` wrapping. */
  function CapacityAsWritten(capacidad: int, fuel: nat): (r: Option<int>)
    ensures r.Some? ==> r.value >= Wrap32(2 * Max(capacidad, 64))
  {
    var cap := if capacidad < 64 then 64 else capacidad;
    DoublingAsWritten(1, Wrap32(cap * 2), fuel)
  }

  /** While the target stays at most 2^30 no doubling wraps, and the loop as written ends where the exact one does. */
  lemma {:induction false} DoublingAgrees(c: int, t: int, fuel: nat)
    requires c >= 1 && IsPow2(c) && t <= 0x4000_0000 && fuel >= t - c
    ensures DoublingAsWritten(c, t, fuel) == Some(Doubling(c, t))
    decreases t - c
  {
    if c < t {
      assert Wrap32(2 * c) == 2 * c;
      assert IsPow2(2 * c) by {
        assert (2 * c) / 2 == c;
      }
      DoublingAgrees(2 * c, t, fuel - 1);
    }
  }

  /**
   * For a capacity up to 2^29 the constructor as written gives the least
   * power of two, once the loop has enough rounds.
   */
  lemma CapacityAsWrittenAgrees(capacidad: int, fuel: nat)
    requires capacidad <= 0x2000_0000 && fuel >= 2 * Max(capacidad, 64)
    ensures CapacityAsWritten(capacidad, fuel) == Some(Capacity(capacidad))
  {
    var t := 2 * Max(capacidad, 64);
    assert Wrap32(t) == t;
    DoublingAgrees(1, t, fuel);
  }

  /** Once `c` is 0 it stays 0, below any positive bound. */
  lemma {:induction false} DoublingStuckAtZero(t: int, fuel: nat)
    requires t > 0
    ensures DoublingAsWritten(0, t, fuel) == None
  {
    if fuel > 0 {
      DoublingStuckAtZero(t, fuel - 1);
    }
  }

  /** From 2^e, e at most 30, below a bound above 2^30, `c` wraps through -2^31 to 0 and the loop never ends. */
  lemma {:induction false} DoublingWraps(e: nat, t: int, fuel: nat)
    requires e <= 30 && 0x4000_0000 < t < 0x8000_0000
    ensures DoublingAsWritten(Pow2(e), t, fuel) == None
    decreases 30 - e
  {
    Pow2Of30();
    Pow2Monotone(e, 30);
    if fuel > 0 {
      if e < 30 {
        Pow2Monotone(e + 1, 30);
        assert Wrap32(2 * Pow2(e)) == Pow2(e + 1);
        assert DoublingAsWritten(Pow2(e), t, fuel) == DoublingAsWritten(Pow2(e + 1), t, fuel - 1);
        DoublingWraps(e + 1, t, fuel - 1);
      } else {
        DoublingPast30(t, fuel);
      }
    }
  }

  /** From 2^30 the next doubling gives -2^31 and the one after gives 0. */
  lemma DoublingPast30(t: int, fuel: nat)
    requires 0x4000_0000 < t < 0x8000_0000
    ensures DoublingAsWritten(0x4000_0000, t, fuel) == None
  {
    if fuel > 0 {
      assert Wrap32(2 * 0x4000_0000) == -0x8000_0000;
      assert DoublingAsWritten(0x4000_0000, t, fuel) == DoublingAsWritten(-0x8000_0000, t, fuel - 1);
      if fuel > 1 {
        assert Wrap32(2 * -0x8000_0000) == 0;
        assert DoublingAsWritten(-0x8000_0000, t, fuel - 1) == DoublingAsWritten(0, t, fuel - 2);
        DoublingStuckAtZero(t, fuel - 2);
      }
    }
  }

  /**
   * A table asked for 2^29 + 1 buckets never gets built: twice that lies
   * above 2^30, and doubling `c` past 2^30 wraps to -2^31 and then to 0.
   */
  lemma CapacityAsWrittenHangs(fuel: nat)
    ensures CapacityAsWritten(0x2000_0001, fuel) == None
  {
    assert Wrap32(0x2000_0001 * 2) == 0x4000_0002;
    DoublingWraps(0, 0x4000_0002, fuel);
  }

  /** A table of `n` empty buckets. */
  function Empty<K(==,!new), V>(n: nat): (d: Dict<K, V>)
    ensures |d.buckets| == n && d.count == 0
    ensures forall i | 0 <= i < n :: d.buckets[i] == []
  {
    Dict(seq(n, _ => []), 0)
  }

  // ---------------------------------------------------------------- buckets

  /**
   * The bucket of a hash, `(length - 1) & hash`. For a power-of-two length
   * the mask keeps the low bits of the two's-complement hash, which is its
   * Euclidean remainder by the length.
   */
  function Slot(h: int, n: int): (i: nat)
    requires n > 0
    ensures i < n
  {
    h % n
  }

  /** The value of the first entry of a bucket with key `k`, scanning as the bucket's iterator does. */
  function Find<K(==,!new), V>(b: seq<Entry<K, V>>, k: K): (r: Option<V>)
    ensures r.None? <==> forall j | 0 <= j < |b| :: b[j].key != k
    ensures r.Some? ==> exists j | 0 <= j < |b| :: b[j] == Entry(k, r.value)
  {
    if |b| == 0 then None else if b[0].key == k then Some(b[0].value) else Find(b[1..], k)
  }

  /** No key occurs twice. */
  predicate KeysDistinct<K(==,!new), V>(b: seq<Entry<K, V>>) {
    |b| == 0 || (Find(b[1..], b[0].key).None? && KeysDistinct(b[1..]))
  }

  /** Every entry, bucket by bucket, in the order the table iterates them. */
  function Entries<K(==,!new), V>(bs: seq<seq<Entry<K, V>>>): seq<Entry<K, V>> {
    if |bs| == 0 then [] else bs[0] + Entries(bs[1..])
  }

  /** Every entry sits in the bucket its key's hash selects. */
  ghost predicate Placed<K(!new), V>(bs: seq<seq<Entry<K, V>>>, hash: K -> int) {
    forall i, j | 0 <= i < |bs| && 0 <= j < |bs[i]| :: Slot(hash(bs[i][j].key), |bs|) == i
  }

  /** Entries placed by their hash, no key twice in a bucket, and the count counting them. */
  ghost predicate WellFormed<K(!new), V>(d: Dict<K, V>, hash: K -> int) {
    && Placed(d.buckets, hash)
    && (forall i | 0 <= i < |d.buckets| :: KeysDistinct(d.buckets[i]))
    && d.count == |Entries(d.buckets)|
  }

  /** The load test `carga() >= 0.72` on integers: the count over the length reaches 72/100. */
  predicate Overloaded(n: int, len: int) {
    100 * n >= 72 * len
  }

  /**
   * The table's invariant: a power-of-two length of at least 2, a
   * well-formed table, and a load below the threshold (it grows on
   * reaching it).
   */
  ghost predicate Valid<K(!new), V>(d: Dict<K, V>, hash: K -> int) {
    && IsPow2(|d.buckets|) && |d.buckets| >= 2
    && WellFormed(d, hash)
    && !Overloaded(d.count, |d.buckets|)
  }

  /** The value stored under `k`: the scan of the bucket its hash selects. */
  function Lookup<K(==,!new), V>(d: Dict<K, V>, hash: K -> int, k: K): Option<V>
    requires |d.buckets| > 0
  {
    Find(d.buckets[Slot(hash(k), |d.buckets|)], k)
  }

  // ---------------------------------------------------------------- bucket lemmas

  lemma {:induction false} FindConcat<K(!new), V>(a: seq<Entry<K, V>>, b: seq<Entry<K, V>>, k: K)
    ensures Find(a + b, k) == if Find(a, k).Some? then Find(a, k) else Find(b, k)
  {
    if |a| > 0 {
      assert (a + b)[0] == a[0] && (a + b)[1..] == a[1..] + b;
      FindConcat(a[1..], b, k);
    } else {
      assert a + b == b;
    }
  }

  /** With distinct keys, every entry is what a scan for its key finds. */
  lemma {:induction false} FindMember<K(!new), V>(b: seq<Entry<K, V>>, j: nat)
    requires KeysDistinct(b) && j < |b|
    ensures Find(b, b[j].key) == Some(b[j].value)
  {
    if j > 0 {
      assert b[j] == b[1..][j - 1];
      FindMember(b[1..], j - 1);
    }
  }

  lemma {:induction false} DistinctConcat<K(!new), V>(a: seq<Entry<K, V>>, b: seq<Entry<K, V>>)
    requires KeysDistinct(a) && KeysDistinct(b)
    requires forall j | 0 <= j < |a| :: Find(b, a[j].key).None?
    ensures KeysDistinct(a + b)
  {
    if |a| > 0 {
      assert (a + b)[1..] == a[1..] + b;
      assert (a + b)[0] == a[0];
      FindConcat(a[1..], b, a[0].key);
      assert Find(b, a[0].key).None?;
      forall j | 0 <= j < |a| - 1 ensures Find(b, a[1..][j].key).None? {
        assert a[1..][j] == a[j + 1];
      }
      DistinctConcat(a[1..], b);
    } else {
      assert a + b == b;
    }
  }

  /**
   * `agrega` within a bucket: the first entry with the key gets the new
   * value; with no such entry a new one is appended.
   */
  function Upsert<K(==,!new), V>(b: seq<Entry<K, V>>, k: K, v: V): (r: seq<Entry<K, V>>)
    ensures Find(r, k) == Some(v)
    ensures forall k' | k' != k :: Find(r, k') == Find(b, k')
  {
    if |b| == 0 then [Entry(k, v)]
    else if b[0].key == k then [Entry(k, v)] + b[1..]
    else
      var r := [b[0]] + Upsert(b[1..], k, v);
      assert r[1..] == Upsert(b[1..], k, v);
      r
  }

  /** The bucket after `Upsert` keeps its length when the key was there, and gains the entry at the end otherwise. */
  lemma {:induction false} UpsertLength<K(!new), V>(b: seq<Entry<K, V>>, k: K, v: V)
    ensures Find(b, k).Some? ==> |Upsert(b, k, v)| == |b|
    ensures Find(b, k).None? ==> Upsert(b, k, v) == b + [Entry(k, v)]
  {
    if |b| > 0 && b[0].key != k {
      UpsertLength(b[1..], k, v);
      if Find(b, k).None? {
        assert b == [b[0]] + b[1..];
      }
    }
  }

  /** No entry but the key's is new in the bucket after `Upsert`. */
  lemma {:induction false} UpsertFrom<K(!new), V>(b: seq<Entry<K, V>>, k: K, v: V)
    ensures forall e | e in Upsert(b, k, v) :: e.key == k || e in b
  {
    if |b| > 0 && b[0].key != k {
      UpsertFrom(b[1..], k, v);
      assert Upsert(b, k, v) == [b[0]] + Upsert(b[1..], k, v);
    }
  }

  /** `Upsert` keeps the keys of a bucket distinct. */
  lemma {:induction false} UpsertDistinct<K(!new), V>(b: seq<Entry<K, V>>, k: K, v: V)
    ensures KeysDistinct(b) ==> KeysDistinct(Upsert(b, k, v))
  {
    if KeysDistinct(b) && |b| > 0 && b[0].key != k {
      UpsertDistinct(b[1..], k, v);
      var r := Upsert(b, k, v);
      assert r[1..] == Upsert(b[1..], k, v);
    }
  }

  /** `elimina` within a bucket: the first entry with the key goes. */
  function Drop<K(==,!new), V>(b: seq<Entry<K, V>>, k: K): (r: seq<Entry<K, V>>)
    ensures Find(b, k).None? ==> r == b
    ensures Find(b, k).Some? ==> |r| == |b| - 1
    ensures KeysDistinct(b) ==> Find(r, k) == None && KeysDistinct(r)
    ensures forall k' | k' != k :: Find(r, k') == Find(b, k')
    ensures forall e | e in r :: e in b
  {
    if |b| == 0 then b
    else if b[0].key == k then b[1..]
    else
      var r := [b[0]] + Drop(b[1..], k);
      assert r[1..] == Drop(b[1..], k);
      r
  }

  /** Replacing one bucket changes the number of entries by the difference of the bucket sizes. */
  lemma {:induction false} EntriesUpdate<K(!new), V>(bs: seq<seq<Entry<K, V>>>, i: nat, b: seq<Entry<K, V>>)
    requires i < |bs|
    ensures |Entries(bs[i := b])| == |Entries(bs)| - |bs[i]| + |b|
  {
    if i > 0 {
      assert bs[i := b][1..] == bs[1..][i - 1 := b];
      EntriesUpdate(bs[1..], i - 1, b);
    } else {
      assert bs[i := b][1..] == bs[1..];
    }
  }

  /**
   * Scanning the entries of the buckets from `m` on finds what scanning the
   * key's own bucket finds, when that bucket is among them.
   */
  lemma {:induction false} EntriesFind<K(!new), V>(bs: seq<seq<Entry<K, V>>>, hash: K -> int, m: nat, k: K)
    requires Placed(bs, hash) && m <= |bs| && |bs| > 0
    ensures Find(Entries(bs[m..]), k) == if m <= Slot(hash(k), |bs|) then Find(bs[Slot(hash(k), |bs|)], k) else None
    decreases |bs| - m
  {
    if m < |bs| {
      assert bs[m..][1..] == bs[m + 1..];
      FindConcat(bs[m], Entries(bs[m + 1..]), k);
      EntriesFind(bs, hash, m + 1, k);
      if Slot(hash(k), |bs|) != m {
        forall j | 0 <= j < |bs[m]| ensures bs[m][j].key != k {
        }
      }
    }
  }

  /** In a well-formed table no key occurs twice among all the entries. */
  lemma {:induction false} EntriesDistinct<K(!new), V>(d: Dict<K, V>, hash: K -> int, m: nat)
    requires WellFormed(d, hash) && m <= |d.buckets|
    ensures KeysDistinct(Entries(d.buckets[m..]))
    decreases |d.buckets| - m
  {
    var bs := d.buckets;
    if m < |bs| {
      assert bs[m..][1..] == bs[m + 1..];
      EntriesDistinct(d, hash, m + 1);
      forall j | 0 <= j < |bs[m]| ensures Find(Entries(bs[m + 1..]), bs[m][j].key).None? {
        EntriesFind(bs, hash, m + 1, bs[m][j].key);
      }
      DistinctConcat(bs[m], Entries(bs[m + 1..]));
    }
  }

  /** A well-formed table looks a key up as a scan of all its entries does. */
  lemma LookupIsScan<K(!new), V>(d: Dict<K, V>, hash: K -> int, k: K)
    requires WellFormed(d, hash) && |d.buckets| > 0
    ensures Lookup(d, hash, k) == Find(Entries(d.buckets), k)
  {
    assert d.buckets[0..] == d.buckets;
    EntriesFind(d.buckets, hash, 0, k);
  }

  // ---------------------------------------------------------------- adding

  /** The body of `agrega` without the load test: the key's bucket gets the entry, and the count grows if the key is new. */
  function Place<K(==,!new), V>(d: Dict<K, V>, hash: K -> int, k: K, v: V): (r: Dict<K, V>)
    requires |d.buckets| > 0
    ensures |r.buckets| == |d.buckets|
    ensures r.count == if Lookup(d, hash, k).None? then d.count + 1 else d.count
    ensures Lookup(r, hash, k) == Some(v)
    ensures forall k' | k' != k :: Lookup(r, hash, k') == Lookup(d, hash, k')
    ensures WellFormed(d, hash) ==> WellFormed(r, hash)
  {
    var i := Slot(hash(k), |d.buckets|);
    var b := d.buckets[i];
    var r := d.(buckets := d.buckets[i := Upsert(b, k, v)], count := if Find(b, k).Some? then d.count else d.count + 1);
    UpsertLength(b, k, v);
    PlaceWellFormed(d, hash, k, v, i);
    r
  }

  /** Replacing the key's bucket by its `Upsert` keeps the table well formed. */
  lemma PlaceWellFormed<K(!new), V>(d: Dict<K, V>, hash: K -> int, k: K, v: V, i: nat)
    requires |d.buckets| > 0 && i == Slot(hash(k), |d.buckets|)
    ensures var b := d.buckets[i];
      WellFormed(d, hash) ==>
        WellFormed(d.(buckets := d.buckets[i := Upsert(b, k, v)], count := if Find(b, k).Some? then d.count else d.count + 1), hash)
  {
    var b := d.buckets[i];
    if WellFormed(d, hash) {
      UpsertLength(b, k, v);
      UpsertFrom(b, k, v);
      UpsertDistinct(b, k, v);
      EntriesUpdate(d.buckets, i, Upsert(b, k, v));
      PlacedUpdate(d.buckets, hash, i, Upsert(b, k, v), k);
    }
  }

  /** A bucket whose entries are the old ones or carry a key that hashes to it keeps the table placed. */
  lemma PlacedUpdate<K(!new), V>(bs: seq<seq<Entry<K, V>>>, hash: K -> int, i: nat, b: seq<Entry<K, V>>, k: K)
    requires Placed(bs, hash) && i < |bs| && Slot(hash(k), |bs|) == i
    requires forall e | e in b :: e.key == k || e in bs[i]
    ensures Placed(bs[i := b], hash)
  {
    var c: seq<seq<Entry<K, V>>> := bs[i := b];
    forall x: int, j: int | 0 <= x < |c| && 0 <= j < |c[x]| ensures Slot(hash(c[x][j].key), |c|) == x {
      if x == i {
        assert b[j] in b;
      }
    }
  }

  /** Adding every entry of `es` in order with `Place`. */
  function Reinsert<K(==,!new), V>(d: Dict<K, V>, hash: K -> int, es: seq<Entry<K, V>>): (r: Dict<K, V>)
    requires |d.buckets| > 0
    ensures |r.buckets| == |d.buckets|
    ensures r.count <= d.count + |es|
    decreases |es|
  {
    if |es| == 0 then d else Reinsert(Place(d, hash, es[0].key, es[0].value), hash, es[1..])
  }

  /**
   * `creceArreglo`: a table twice as long, the count reset to 0, and every
   * entry added again, bucket by bucket.
   */
  function Grow<K(==,!new), V>(d: Dict<K, V>, hash: K -> int): (r: Dict<K, V>)
    requires |d.buckets| > 0
    ensures |r.buckets| == 2 * |d.buckets|
  {
    Reinsert(Empty(2 * |d.buckets|), hash, Entries(d.buckets))
  }

  /**
   * Re-adding entries with distinct keys, none yet in the table: each key
   * gets its entry's value, the others keep theirs, and the count grows by
   * the number of entries.
   */
  lemma {:induction false} ReinsertLookup<K(!new), V>(d: Dict<K, V>, hash: K -> int, es: seq<Entry<K, V>>)
    requires |d.buckets| > 0 && WellFormed(d, hash) && KeysDistinct(es)
    requires forall j | 0 <= j < |es| :: Lookup(d, hash, es[j].key).None?
    ensures WellFormed(Reinsert(d, hash, es), hash)
    ensures Reinsert(d, hash, es).count == d.count + |es|
    ensures forall k :: Lookup(Reinsert(d, hash, es), hash, k) == if Find(es, k).Some? then Find(es, k) else Lookup(d, hash, k)
    decreases |es|
  {
    if |es| > 0 {
      var p := Place(d, hash, es[0].key, es[0].value);
      forall j | 0 <= j < |es| - 1 ensures Lookup(p, hash, es[1..][j].key).None? {
        assert es[1..][j] == es[j + 1];
      }
      ReinsertLookup(p, hash, es[1..]);
    }
  }

  /** `agrega` as the source runs it inside `creceArreglo` never grows again: each count reached stays below the load. */
  lemma GrowNeverNests<K(!new), V>(d: Dict<K, V>, hash: K -> int, n: nat)
    requires |d.buckets| >= 2 && d.count == |Entries(d.buckets)| && !Overloaded(d.count - 1, |d.buckets|)
    requires n <= |Entries(d.buckets)|
    ensures !Overloaded(Reinsert(Empty(2 * |d.buckets|), hash, Entries(d.buckets)[..n]).count, 2 * |d.buckets|)
  {
  }

  /** Growing keeps every key's value, the count, and the invariant. */
  lemma GrowKeeps<K(!new), V>(d: Dict<K, V>, hash: K -> int)
    requires IsPow2(|d.buckets|) && |d.buckets| >= 2 && WellFormed(d, hash) && !Overloaded(d.count - 1, |d.buckets|)
    ensures Valid(Grow(d, hash), hash) && Grow(d, hash).count == d.count
    ensures forall k :: Lookup(Grow(d, hash), hash, k) == Lookup(d, hash, k)
  {
    GrowFacts(d, hash);
    var n := |d.buckets|;
    assert IsPow2(2 * n) by {
      assert (2 * n) / 2 == n;
    }
    forall k ensures Lookup(Grow(d, hash), hash, k) == Lookup(d, hash, k) {
      LookupIsScan(d, hash, k);
    }
  }

  /** The grown table is well formed, counts the same entries, and finds what a scan of the old entries finds. */
  lemma GrowFacts<K(!new), V>(d: Dict<K, V>, hash: K -> int)
    requires |d.buckets| > 0 && WellFormed(d, hash)
    ensures WellFormed(Grow(d, hash), hash) && Grow(d, hash).count == d.count
    ensures forall k :: Lookup(Grow(d, hash), hash, k) == Find(Entries(d.buckets), k)
  {
    var es := Entries(d.buckets);
    assert d.buckets[0..] == d.buckets;
    EntriesDistinct(d, hash, 0);
    var e: Dict<K, V> := Empty(2 * |d.buckets|);
    assert Entries(e.buckets) == [] by {
      EmptyEntries(e.buckets);
    }
    ReinsertLookup(e, hash, es);
  }

  lemma {:induction false} EmptyEntries<K(!new), V>(bs: seq<seq<Entry<K, V>>>)
    requires forall i | 0 <= i < |bs| :: bs[i] == []
    ensures Entries(bs) == []
  {
    if |bs| > 0 {
      EmptyEntries(bs[1..]);
    }
  }

  /** A table of empty buckets of a power-of-two length of at least 2 is valid for any hash and holds nothing. */
  lemma EmptyValid<K(!new), V>(n: nat, hash: K -> int)
    requires IsPow2(n) && n >= 2
    ensures Valid(Empty<K, V>(n), hash)
    ensures forall k :: Lookup(Empty<K, V>(n), hash, k) == None
  {
    EmptyEntries(Empty<K, V>(n).buckets);
  }

  /** Growing a valid table that a new key has just overloaded gives a valid table with the same contents. */
  lemma GrowAfterPlace<K(!new), V>(d: Dict<K, V>, hash: K -> int, k: K, v: V)
    requires |d.buckets| > 0
    ensures var p := Place(d, hash, k, v);
      Valid(d, hash) && Lookup(d, hash, k).None? ==>
      && Valid(Grow(p, hash), hash) && Grow(p, hash).count == p.count
      && forall k' :: Lookup(Grow(p, hash), hash, k') == Lookup(p, hash, k')
  {
    if Valid(d, hash) && Lookup(d, hash, k).None? {
      GrowKeeps(Place(d, hash, k, v), hash);
    }
  }

  /** A well-formed table with count 0 holds nothing. */
  lemma EmptyLookup<K(!new), V>(d: Dict<K, V>, hash: K -> int, k: K)
    requires |d.buckets| > 0
    ensures WellFormed(d, hash) && d.count == 0 ==> Lookup(d, hash, k).None?
  {
    if WellFormed(d, hash) {
      LookupIsScan(d, hash, k);
    }
  }

  /**
   * `agrega(llave, valor)`: IllegalArgument for a null key or value.
   * Otherwise the key gets the value; a new key raises the count, and when
   * the load then reaches 0.72 the table grows to twice its length.
   */
  function Add<K(==,!new), V>(d: Dict<K, V>, hash: K -> int, k: Option<K>, v: Option<V>): (r: Result<Dict<K, V>>)
    requires |d.buckets| > 0
    ensures r.Err? <==> k.None? || v.None?
    ensures r.Err? ==> r.error == IllegalArgument
    ensures r.Ok? ==> |r.value.buckets| == if Lookup(d, hash, k.value).None? && Overloaded(d.count + 1, |d.buckets|) then 2 * |d.buckets| else |d.buckets|
    ensures Valid(d, hash) && r.Ok? ==>
      && Valid(r.value, hash)
      && r.value.count == (if Lookup(d, hash, k.value).None? then d.count + 1 else d.count)
      && Lookup(r.value, hash, k.value) == Some(v.value)
      && forall k' | k' != k.value :: Lookup(r.value, hash, k') == Lookup(d, hash, k')
  {
    if k.None? || v.None? then Err(IllegalArgument)
    else
      var p := Place(d, hash, k.value, v.value);
      if Lookup(d, hash, k.value).None? && Overloaded(p.count, |p.buckets|) then
        GrowAfterPlace(d, hash, k.value, v.value);
        Ok(Grow(p, hash))
      else Ok(p)
  }

  // ---------------------------------------------------------------- queries and removal

  /** `get(llave)`: IllegalArgument for a null key, NoSuchElement for an absent one, else its value. */
  function Get<K(==,!new), V>(d: Dict<K, V>, hash: K -> int, k: Option<K>): (r: Result<V>)
    requires |d.buckets| > 0
    ensures k.None? ==> r == Err(IllegalArgument)
    ensures k.Some? ==> (r.Err? <==> Lookup(d, hash, k.value).None?)
    ensures k.Some? && r.Err? ==> r.error == NoSuchElement
  {
    if k.None? then Err(IllegalArgument)
    else
      var i := Slot(hash(k.value), |d.buckets|);
      match Find(d.buckets[i], k.value)
      case Some(v) => Ok(v)
      case None => Err(NoSuchElement)
  }

  /** `contiene(llave)`: false for a null key or an empty table, else whether the key's bucket holds it. */
  function Contains<K(==,!new), V>(d: Dict<K, V>, hash: K -> int, k: Option<K>): (r: bool)
    requires |d.buckets| > 0
    ensures WellFormed(d, hash) ==> (r <==> k.Some? && Lookup(d, hash, k.value).Some?)
  {
    if d.count == 0 || k.None? then
      if k.Some? then EmptyLookup(d, hash, k.value); false else false
    else
      var i := Slot(hash(k.value), |d.buckets|);
      Find(d.buckets[i], k.value).Some?
  }

  /** A bucket replaced by some of its entries keeps the table placed. */
  lemma SubBucketPlaced<K(!new), V>(bs: seq<seq<Entry<K, V>>>, hash: K -> int, i: nat, b: seq<Entry<K, V>>)
    requires i < |bs| && forall e | e in b :: e in bs[i]
    ensures Placed(bs, hash) ==> Placed(bs[i := b], hash)
  {
    var r: seq<seq<Entry<K, V>>> := bs[i := b];
    if Placed(bs, hash) {
      forall m, j | 0 <= m < |r| && 0 <= j < |r[m]| ensures Slot(hash(r[m][j].key), |r|) == m {
        if m == i {
          assert b[j] in bs[i];
        }
      }
    }
  }

  /** The body of `elimina` once the key is known: its entry leaves the key's bucket. */
  function Unplace<K(==,!new), V>(d: Dict<K, V>, hash: K -> int, k: K): (r: Dict<K, V>)
    requires |d.buckets| > 0
    ensures |r.buckets| == |d.buckets|
    ensures r.count == if Lookup(d, hash, k).Some? then d.count - 1 else d.count
    ensures WellFormed(d, hash) ==> WellFormed(r, hash) && Lookup(r, hash, k).None?
    ensures forall k' | k' != k :: Lookup(r, hash, k') == Lookup(d, hash, k')
  {
    var i := Slot(hash(k), |d.buckets|);
    var b := d.buckets[i];
    EntriesUpdate(d.buckets, i, Drop(b, k));
    SubBucketPlaced(d.buckets, hash, i, Drop(b, k));
    d.(buckets := d.buckets[i := Drop(b, k)], count := if Find(b, k).Some? then d.count - 1 else d.count)
  }

  /**
   * `elimina(llave)`: IllegalArgument for a null key, NoSuchElement for an
   * absent one; otherwise its entry leaves its bucket and the count drops.
   */
  function Remove<K(==,!new), V>(d: Dict<K, V>, hash: K -> int, k: Option<K>): (r: Result<Dict<K, V>>)
    requires |d.buckets| > 0
    ensures k.None? ==> r == Err(IllegalArgument)
    ensures k.Some? ==> (r.Err? <==> Lookup(d, hash, k.value).None?)
    ensures k.Some? && r.Err? ==> r.error == NoSuchElement
    ensures r.Ok? ==> |r.value.buckets| == |d.buckets| && r.value.count == d.count - 1
    ensures Valid(d, hash) && r.Ok? ==>
      && Valid(r.value, hash)
      && Lookup(r.value, hash, k.value).None?
      && forall k' | k' != k.value :: Lookup(r.value, hash, k') == Lookup(d, hash, k')
  {
    if k.None? then Err(IllegalArgument)
    else if Lookup(d, hash, k.value).None? then Err(NoSuchElement)
    else Ok(Unplace(d, hash, k.value))
  }

  /** `limpia`: as many buckets as before, all empty, and count 0. */
  function Clear<K(==,!new), V>(d: Dict<K, V>): (r: Dict<K, V>)
    ensures |r.buckets| == |d.buckets|
  {
    Empty(|d.buckets|)
  }

  /** Clearing keeps a table valid and leaves no key in it. */
  lemma ClearEmpties<K(!new), V>(d: Dict<K, V>, hash: K -> int)
    requires Valid(d, hash)
    ensures Valid(Clear(d), hash) && Clear(d).count == 0
    ensures forall k :: Lookup(Clear(d), hash, k).None?
  {
    EmptyValid<K, V>(|d.buckets|, hash);
  }

  /**
   * The constructor `Diccionario(capacidad, dispersor)`: the capacity is
   * raised to 64, `c` doubles from 1 while it is below twice that, and the
   * table gets `c` empty buckets.
   */
  method New<K(==,!new), V>(capacidad: int, hash: K -> int) returns (d: Dict<K, V>)
    ensures Valid(d, hash) && |d.buckets| == Capacity(capacidad) && d.count == 0
    ensures forall k :: Lookup(d, hash, k).None?
  {
    var cap := if capacidad < 64 then 64 else capacidad;
    var c := 1;
    while c < cap * 2
      invariant c >= 1 && IsPow2(c) && Doubling(c, cap * 2) == Capacity(capacidad)
      decreases cap * 2 - c
    {
      c := c * 2;
    }
    EmptyValid<K, V>(c, hash);
    d := Empty(c);
  }

  /**
   * `equals`: equal counts, and every entry of the other table has its key
   * here (`contiene`) with an equal value (`get`).
   */
  function Equals<K(==,!new), V(==)>(d: Dict<K, V>, hash: K -> int, e: Dict<K, V>): bool
    requires |d.buckets| > 0
  {
    d.count == e.count && forall x | x in Entries(e.buckets) :: Contains(d, hash, Some(x.key)) && Get(d, hash, Some(x.key)) == Ok(x.value)
  }

  /** The keys of a list of entries. */
  ghost function KeySet<K, V>(es: seq<Entry<K, V>>): set<K> {
    set j | 0 <= j < |es| :: es[j].key
  }

  /** Distinct keys are as many as the entries. */
  lemma {:induction false} KeySetSize<K(!new), V>(es: seq<Entry<K, V>>)
    requires KeysDistinct(es)
    ensures |KeySet(es)| == |es|
  {
    if |es| > 0 {
      KeySetSize(es[1..]);
      assert KeySet(es) == {es[0].key} + KeySet(es[1..]) by {
        forall k | k in KeySet(es) ensures k in {es[0].key} + KeySet(es[1..]) {
          var j :| 0 <= j < |es| && es[j].key == k;
          if j > 0 {
            assert es[1..][j - 1] == es[j];
          }
        }
        forall k | k in KeySet(es[1..]) ensures k in KeySet(es) {
          var j :| 0 <= j < |es[1..]| && es[1..][j].key == k;
          assert es[j + 1].key == k;
        }
      }
    }
  }

  lemma SubsetSameSize<T>(a: set<T>, b: set<T>)
    requires a <= b && |a| == |b|
    ensures a == b
  {
    assert b == a + (b - a);
    assert |b - a| == 0;
  }

  /** Tables with the same contents are equal. */
  lemma EqualsComplete<K(!new), V>(d: Dict<K, V>, hd: K -> int, e: Dict<K, V>, he: K -> int)
    requires Valid(d, hd) && Valid(e, he)
    requires forall k :: Lookup(d, hd, k) == Lookup(e, he, k)
    ensures Equals(d, hd, e)
  {
    var a, b := Entries(d.buckets), Entries(e.buckets);
    assert d.buckets[0..] == d.buckets && e.buckets[0..] == e.buckets;
    EntriesDistinct(d, hd, 0);
    EntriesDistinct(e, he, 0);
    KeySetSize(a);
    KeySetSize(b);
    forall k ensures Find(a, k) == Find(b, k) {
      LookupIsScan(d, hd, k);
      LookupIsScan(e, he, k);
    }
    assert KeySet(a) == KeySet(b) by {
      forall k ensures k in KeySet(a) <==> k in KeySet(b) {
        if k in KeySet(a) {
          var j :| 0 <= j < |a| && a[j].key == k;
        }
        if k in KeySet(b) {
          var j :| 0 <= j < |b| && b[j].key == k;
        }
        if Find(a, k).Some? {
          var j :| 0 <= j < |a| && a[j] == Entry(k, Find(a, k).value);
        }
        if Find(b, k).Some? {
          var j :| 0 <= j < |b| && b[j] == Entry(k, Find(b, k).value);
        }
      }
    }
    forall x | x in b ensures Contains(d, hd, Some(x.key)) && Get(d, hd, Some(x.key)) == Ok(x.value) {
      var j :| 0 <= j < |b| && b[j] == x;
      FindMember(b, j);
      LookupIsScan(e, he, x.key);
    }
  }

  /** Tables that compare equal have the same contents. */
  lemma EqualsSound<K(!new), V>(d: Dict<K, V>, hd: K -> int, e: Dict<K, V>, he: K -> int)
    requires Valid(d, hd) && Valid(e, he) && Equals(d, hd, e)
    ensures forall k :: Lookup(d, hd, k) == Lookup(e, he, k)
  {
    var a, b := Entries(d.buckets), Entries(e.buckets);
    assert d.buckets[0..] == d.buckets && e.buckets[0..] == e.buckets;
    EntriesDistinct(d, hd, 0);
    EntriesDistinct(e, he, 0);
    forall x | x in b ensures Find(a, x.key) == Some(x.value) {
      LookupIsScan(d, hd, x.key);
    }
    SameScan(a, b);
    forall k ensures Lookup(d, hd, k) == Lookup(e, he, k) {
      LookupIsScan(d, hd, k);
      LookupIsScan(e, he, k);
    }
  }

  /**
   * Two lists of entries with distinct keys, as many in each, where every
   * entry of the second is found in the first: a scan finds the same in both.
   */
  lemma SameScan<K(!new), V>(a: seq<Entry<K, V>>, b: seq<Entry<K, V>>)
    requires KeysDistinct(a) && KeysDistinct(b) && |a| == |b|
    requires forall x | x in b :: Find(a, x.key) == Some(x.value)
    ensures forall k :: Find(a, k) == Find(b, k)
  {
    SameKeys(a, b);
    forall k ensures Find(a, k) == Find(b, k) {
      if k in KeySet(b) {
        var j :| 0 <= j < |b| && b[j].key == k;
        FindMember(b, j);
        assert b[j] in b;
      } else {
        FindOutside(a, k);
        FindOutside(b, k);
      }
    }
  }

  /** A scan for a key that no entry has finds nothing. */
  lemma FindOutside<K(!new), V>(es: seq<Entry<K, V>>, k: K)
    requires k !in KeySet(es)
    ensures Find(es, k) == None
  {
    forall j | 0 <= j < |es| ensures es[j].key != k {
      assert es[j].key in KeySet(es);
    }
  }

  /** Under the same conditions both lists have the same keys. */
  lemma SameKeys<K(!new), V>(a: seq<Entry<K, V>>, b: seq<Entry<K, V>>)
    requires KeysDistinct(a) && KeysDistinct(b) && |a| == |b|
    requires forall x | x in b :: Find(a, x.key) == Some(x.value)
    ensures KeySet(a) == KeySet(b)
  {
    KeySetSize(a);
    KeySetSize(b);
    forall k | k in KeySet(b) ensures k in KeySet(a) {
      var j :| 0 <= j < |b| && b[j].key == k;
      assert b[j] in b;
      var i :| 0 <= i < |a| && a[i] == Entry(k, Find(a, k).value);
    }
    SubsetSameSize(KeySet(b), KeySet(a));
  }

  /** `equals` holds exactly between tables with the same keys and values. */
  lemma EqualsIsSameContents<K(!new), V>(d: Dict<K, V>, hd: K -> int, e: Dict<K, V>, he: K -> int)
    requires Valid(d, hd) && Valid(e, he)
    ensures Equals(d, hd, e) <==> forall k :: Lookup(d, hd, k) == Lookup(e, he, k)
  {
    if Equals(d, hd, e) {
      EqualsSound(d, hd, e, he);
    }
    if forall k :: Lookup(d, hd, k) == Lookup(e, he, k) {
      EqualsComplete(d, hd, e, he);
    }
  }

  // ---------------------------------------------------------------- round trips

  /** `get` after `agrega` gives the value just added. */
  lemma GetAfterAdd<K(!new), V>(d: Dict<K, V>, hash: K -> int, k: K, v: V)
    requires Valid(d, hash)
    ensures Get(Add(d, hash, Some(k), Some(v)).value, hash, Some(k)) == Ok(v)
  {
  }

  /** `elimina` undoes the `agrega` of a new key: the same contents and count. */
  lemma RemoveAfterAdd<K(!new), V>(d: Dict<K, V>, hash: K -> int, k: K, v: V)
    requires Valid(d, hash) && Lookup(d, hash, k).None?
    ensures var r := Remove(Add(d, hash, Some(k), Some(v)).value, hash, Some(k));
      && r.Ok? && r.value.count == d.count
      && forall k' :: Lookup(r.value, hash, k') == Lookup(d, hash, k')
  {
  }

  /** After `elimina`, `get` and `contiene` no longer find the key. */
  lemma GetAfterRemove<K(!new), V>(d: Dict<K, V>, hash: K -> int, k: K)
    requires Valid(d, hash) && Lookup(d, hash, k).Some?
    ensures Get(Remove(d, hash, Some(k)).value, hash, Some(k)) == Err(NoSuchElement)
    ensures !Contains(Remove(d, hash, Some(k)).value, hash, Some(k))
  {
  }
}

=== FILE: distances.dfy ===
/**
 * `trayectoriaMinima` of practicas 10 and 12: a breadth-first walk from the
 * origin labels every vertex it reaches with its `distancia`, then a walk
 * back from the destination along labels that drop by one gives a path of
 * fewest edges. An absent label stands for `distancia == -1`.
 */
module Distances {
  import opened Wrappers
  import opened Graphs
  import opened Traversal
  import Lists

  /** The queue and the labels after a step of the labelling walk. */
  datatype Labelled<T> = Labelled(pending: seq<T>, dist: map<T, nat>)

  /**
   * The loop over the neighbours `ns` of the vertex taken out: each one not
   * yet labelled gets label `d` and joins the back of the queue.
   */
  function LScan<T(==,!new)>(ns: seq<T>, pending: seq<T>, dist: map<T, nat>, d: nat): Labelled<T>
    decreases |ns|
  {
    if |ns| == 0 then Labelled(pending, dist)
    else if ns[0] in dist then LScan(ns[1..], pending, dist, d)
    else LScan(ns[1..], pending + [ns[0]], dist[ns[0] := d], d)
  }

  /** The loop labels every neighbour. */
  lemma {:induction false} LScanKeys<T(!new)>(ns: seq<T>, pending: seq<T>, dist: map<T, nat>, d: nat)
    ensures LScan(ns, pending, dist, d).dist.Keys == dist.Keys + Elems(ns)
    decreases |ns|
  {
    if |ns| > 0 {
      ElemsCons(ns);
      if ns[0] in dist {
        LScanKeys(ns[1..], pending, dist, d);
      } else {
        LScanKeys(ns[1..], pending + [ns[0]], dist[ns[0] := d], d);
      }
    }
  }

  /** The loop keeps the old labels and gives the new ones `d`. */
  lemma {:induction false} LScanLabels<T(!new)>(ns: seq<T>, pending: seq<T>, dist: map<T, nat>, d: nat)
    ensures var m := LScan(ns, pending, dist, d).dist;
      forall u | u in m :: m[u] == if u in dist then dist[u] else d
    decreases |ns|
  {
    if |ns| > 0 {
      if ns[0] in dist {
        LScanLabels(ns[1..], pending, dist, d);
      } else {
        LScanLabels(ns[1..], pending + [ns[0]], dist[ns[0] := d], d);
      }
    }
  }

  /** The loop keeps the old queue in front. */
  lemma {:induction false} LScanPrefix<T(!new)>(ns: seq<T>, pending: seq<T>, dist: map<T, nat>, d: nat)
    ensures var r := LScan(ns, pending, dist, d);
      |r.pending| >= |pending| && r.pending[..|pending|] == pending
    decreases |ns|
  {
    if |ns| > 0 {
      if ns[0] in dist {
        LScanPrefix(ns[1..], pending, dist, d);
      } else {
        var p := pending + [ns[0]];
        LScanPrefix(ns[1..], p, dist[ns[0] := d], d);
        PrefixTrans(LScan(ns[1..], p, dist[ns[0] := d], d).pending, pending, p);
      }
    }
  }

  /** The loop appends exactly the neighbours that had no label. */
  lemma {:induction false} LScanElems<T(!new)>(ns: seq<T>, pending: seq<T>, dist: map<T, nat>, d: nat)
    ensures Elems(LScan(ns, pending, dist, d).pending) == Elems(pending) + (Elems(ns) - dist.Keys)
    decreases |ns|
  {
    if |ns| > 0 {
      var x := ns[0];
      var n := Elems(ns[1..]);
      ElemsCons(ns);
      if x in dist {
        LScanElems(ns[1..], pending, dist, d);
        KeepSets(Elems(pending), n, dist.Keys, x);
      } else {
        var p := pending + [x];
        var dist' := dist[x := d];
        ElemsAppend(pending, x);
        assert dist'.Keys == dist.Keys + {x};
        LScanElems(ns[1..], p, dist', d);
        ShiftSets(Elems(pending), n, dist.Keys, x);
      }
    }
  }

  /** The loop leaves the queue alone when every neighbour had a label. */
  lemma {:induction false} LScanSame<T(!new)>(ns: seq<T>, pending: seq<T>, dist: map<T, nat>, d: nat)
    ensures Elems(ns) <= dist.Keys ==> LScan(ns, pending, dist, d).pending == pending
    decreases |ns|
  {
    if |ns| > 0 {
      ElemsCons(ns);
      LScanSame(ns[1..], pending, dist, d);
    }
  }

  lemma KeepSets<T>(p: set<T>, n: set<T>, k: set<T>, x: T)
    requires x in k
    ensures p + (({x} + n) - k) == p + (n - k)
  {
  }

  lemma ShiftSets<T>(p: set<T>, n: set<T>, k: set<T>, x: T)
    requires x !in k
    ensures (p + {x}) + (n - (k + {x})) == p + (({x} + n) - k)
  {
  }

  /** A queue of labelled vertices, each once, stays one after the loop. */
  lemma {:induction false} LScanDistinct<T(!new)>(ns: seq<T>, pending: seq<T>, dist: map<T, nat>, d: nat)
    requires Distinct(pending) && Elems(pending) <= dist.Keys
    ensures Distinct(LScan(ns, pending, dist, d).pending)
    decreases |ns|
  {
    if |ns| > 0 {
      if ns[0] in dist {
        LScanDistinct(ns[1..], pending, dist, d);
      } else {
        var p := pending + [ns[0]];
        ElemsAppend(pending, ns[0]);
        assert ns[0] !in pending by {
          assert ns[0] !in Elems(pending);
        }
        DistinctAppend(pending, ns[0]);
        LScanDistinct(ns[1..], p, dist[ns[0] := d], d);
      }
    }
  }

  /** The queue holds labelled vertices, each once. */
  ghost predicate Queued<T(!new)>(pending: seq<T>, dist: map<T, nat>) {
    Distinct(pending) && Elems(pending) <= dist.Keys
  }

  /** The labels never drop along `ls` and span at most one. */
  ghost predicate Mono(ls: seq<nat>) {
    forall i, j | 0 <= i <= j < |ls| :: ls[i] <= ls[j] <= ls[i] + 1
  }

  /** The labels of the vertices of a queue, in order. */
  function LabelsOf<T(==,!new)>(p: seq<T>, dist: map<T, nat>): (ls: seq<nat>)
    requires forall x | x in p :: x in dist
    ensures |ls| == |p| && forall i | 0 <= i < |p| :: ls[i] == dist[p[i]]
  {
    seq(|p|, i requires 0 <= i < |p| => dist[p[i]])
  }

  /**
   * The queue's labels never drop from front to back and span at most one,
   * and no label exceeds that of the front by more than one.
   */
  ghost predicate Layered<T(!new)>(pending: seq<T>, dist: map<T, nat>) {
    && (forall x | x in pending :: x in dist)
    && Mono(LabelsOf(pending, dist))
    && (|pending| > 0 ==> forall u | u in dist :: dist[u] <= dist[pending[0]] + 1)
  }

  /** Taking out the front, labelled `d`, and appending labels `d + 1` keeps the labels monotone. */
  lemma MonoStep(ls: seq<nat>, ls': seq<nat>, d: nat)
    requires Mono(ls) && |ls| > 0 && ls[0] == d && |ls'| >= |ls| - 1
    requires forall i | 0 <= i < |ls| - 1 :: ls'[i] == ls[i + 1]
    requires forall i | |ls| - 1 <= i < |ls'| :: ls'[i] == d + 1
    ensures Mono(ls') && (|ls'| > 0 ==> d <= ls'[0])
  {
    forall i, j | 0 <= i <= j < |ls'|
      ensures ls'[i] <= ls'[j] <= ls'[i] + 1
    {
      if j < |ls| - 1 {
        assert ls[i + 1] <= ls[j + 1] <= ls[i + 1] + 1;
      } else if i < |ls| - 1 {
        assert ls[0] <= ls[i + 1] <= ls[0] + 1;
      }
    }
    if |ls'| > 0 && |ls| > 1 {
      assert ls[0] <= ls[1];
    }
  }

  /** A vertex already taken out has all its neighbours labelled, at most one more than itself. */
  ghost predicate EdgeBound<T(!new)>(g: Graph<T>, pending: seq<T>, dist: map<T, nat>) {
    forall w, u | w in dist && w in g.adj && w !in pending && u in Nbrs(g, w) :: u in dist && dist[u] <= dist[w] + 1
  }

  /** The origin has label 0; any other labelled vertex was labelled from a neighbour one less. */
  ghost predicate Parented<T(!new)>(g: Graph<T>, o: T, dist: map<T, nat>) {
    && o in dist && dist[o] == 0
    && forall v {:trigger HasParent(g, dist, v)} | v in dist && v != o :: dist[v] > 0 && HasParent(g, dist, v)
  }

  /** Some neighbour of `v` is labelled one less than `v`. */
  ghost predicate HasParent<T(!new)>(g: Graph<T>, dist: map<T, nat>, v: T) {
    v in dist && exists u :: u in dist && Adjacent(g, u, v) && dist[u] + 1 == dist[v]
  }

  lemma LScanProgress<T(!new)>(g: Graph<T>, pending: seq<T>, dist: map<T, nat>)
    requires Closed(g) && dist.Keys <= g.adj.Keys && Elems(pending) <= dist.Keys && |pending| > 0
    ensures pending[0] in g.adj && pending[0] in dist
    ensures var b := LScan(Nbrs(g, pending[0]), pending[1..], dist, dist[pending[0]] + 1);
      && dist.Keys <= b.dist.Keys <= g.adj.Keys && Elems(b.pending) <= b.dist.Keys
      && Shrinks(g.adj.Keys, dist.Keys, b.dist.Keys, b.pending, pending)
  {
    var v := pending[0];
    var ns := Nbrs(g, v);
    ElemsCons(pending);
    NbrsInside(g, v);
    var b := LScan(ns, pending[1..], dist, dist[v] + 1);
    LScanKeys(ns, pending[1..], dist, dist[v] + 1);
    LScanElems(ns, pending[1..], dist, dist[v] + 1);
    LScanSame(ns, pending[1..], dist, dist[v] + 1);
    TurnProgress(g.adj.Keys, pending, dist.Keys, Elems(ns), b.pending, b.dist.Keys);
  }

  /** The measure of the labelling loop drops: more vertices labelled, or the same labels and a shorter queue. */
  ghost predicate Shrinks<T>(k: set<T>, dk: set<T>, bk: set<T>, bp: seq<T>, pending: seq<T>) {
    |bk| <= |k| && (|dk| < |bk| || (bk == dk && |bp| < |pending|))
  }

  /** A turn of the labelling loop in terms of sets: labels grow within the vertices, or the queue shrinks. */
  lemma TurnProgress<T(!new)>(k: set<T>, pending: seq<T>, dk: set<T>, n: set<T>, bp: seq<T>, bk: set<T>)
    requires |pending| > 0 && Elems(pending) == {pending[0]} + Elems(pending[1..])
    requires dk <= k && n <= k && Elems(pending) <= dk && bk == dk + n
    requires Elems(bp) == Elems(pending[1..]) + (n - dk) && (n <= dk ==> bp == pending[1..])
    ensures pending[0] in dk && dk <= bk <= k && Elems(bp) <= bk
    ensures Shrinks(k, dk, bk, bp, pending)
  {
    GrowSets(k, dk, bk, n, Elems(pending), Elems(pending[1..]), Elems(bp), pending[0]);
  }

  /** The set arithmetic of a turn: labels only grow within the vertices, and do grow unless no neighbour is new. */
  lemma GrowSets<T>(k: set<T>, dk: set<T>, bk: set<T>, n: set<T>, pe: set<T>, re: set<T>, be: set<T>, v: T)
    requires dk <= k && n <= k && bk == dk + n && pe == {v} + re && pe <= dk && be == re + (n - dk)
    ensures v in dk && dk <= bk <= k && be <= bk
    ensures |bk| <= |k|
    ensures n <= dk ==> bk == dk
    ensures !(n <= dk) ==> |dk| < |bk|
  {
    SubsetSize(bk, k);
    SubsetSize(dk, bk);
    if !(n <= dk) {
      var x :| x in n && x !in dk;
      assert x in bk;
    }
  }

  /**
   * The labelling loop of `trayectoriaMinima`: while the queue is not
   * empty, take out its front and label its unlabelled neighbours one more.
   */
  function LExplore<T(==,!new)>(g: Graph<T>, pending: seq<T>, dist: map<T, nat>): (r: map<T, nat>)
    requires Closed(g) && dist.Keys <= g.adj.Keys && Elems(pending) <= dist.Keys
    decreases |g.adj.Keys| - |dist.Keys|, |pending|
  {
    if |pending| == 0 then dist
    else
      LScanProgress(g, pending, dist);
      var b := LScan(Nbrs(g, pending[0]), pending[1..], dist, dist[pending[0]] + 1);
      LExplore(g, b.pending, b.dist)
  }

  /** One turn of the labelling loop. */
  lemma LExploreStep<T(!new)>(g: Graph<T>, pending: seq<T>, dist: map<T, nat>)
    requires Closed(g) && dist.Keys <= g.adj.Keys && Elems(pending) <= dist.Keys && |pending| > 0
    ensures pending[0] in g.adj && pending[0] in dist
    ensures var b := LScan(Nbrs(g, pending[0]), pending[1..], dist, dist[pending[0]] + 1);
      && dist.Keys <= b.dist.Keys <= g.adj.Keys && Elems(b.pending) <= b.dist.Keys
      && Shrinks(g.adj.Keys, dist.Keys, b.dist.Keys, b.pending, pending)
      && LExplore(g, pending, dist) == LExplore(g, b.pending, b.dist)
  {
    LScanProgress(g, pending, dist);
  }

  // ---------------------------------------------------------------- the invariant, step by step

  lemma StepQueued<T(!new)>(g: Graph<T>, pending: seq<T>, dist: map<T, nat>)
    requires Queued(pending, dist) && |pending| > 0 && pending[0] in g.adj
    ensures pending[0] in dist
    ensures var b := LScan(Nbrs(g, pending[0]), pending[1..], dist, dist[pending[0]] + 1);
      Queued(b.pending, b.dist) && pending[0] !in b.pending
      && |b.pending| >= |pending| - 1 && b.pending[..|pending| - 1] == pending[1..]
      && forall i | |pending| - 1 <= i < |b.pending| :: b.pending[i] !in dist
  {
    var h := pending[0];
    ElemsCons(pending);
    var ns := Nbrs(g, h);
    var rest := pending[1..];
    var b := LScan(ns, rest, dist, dist[h] + 1);
    LScanKeys(ns, rest, dist, dist[h] + 1);
    LScanLabels(ns, rest, dist, dist[h] + 1);
    LScanPrefix(ns, rest, dist, dist[h] + 1);
    LScanElems(ns, rest, dist, dist[h] + 1);
    LScanDistinct(ns, rest, dist, dist[h] + 1);
    assert h !in Elems(b.pending);
    FreshTail(b.pending, rest, Elems(ns), dist.Keys);
  }

  /** A distinct queue that extends `rest` by new elements only has nothing of `keys` after `rest`. */
  lemma FreshTail<T(!new)>(bp: seq<T>, rest: seq<T>, extra: set<T>, keys: set<T>)
    requires Distinct(bp) && |rest| <= |bp| && bp[..|rest|] == rest
    requires Elems(bp) == Elems(rest) + (extra - keys)
    ensures forall i | |rest| <= i < |bp| :: bp[i] !in keys
  {
    forall i | |rest| <= i < |bp|
      ensures bp[i] !in keys
    {
      var x := bp[i];
      assert x !in rest by {
        forall k | 0 <= k < |rest|
          ensures rest[k] != x
        {
          assert bp[k] == rest[k];
        }
      }
      assert x in Elems(bp);
    }
  }

  lemma StepLayered<T(!new)>(g: Graph<T>, pending: seq<T>, dist: map<T, nat>)
    requires Queued(pending, dist) && Layered(pending, dist) && |pending| > 0 && pending[0] in g.adj
    ensures pending[0] in dist
    ensures var b := LScan(Nbrs(g, pending[0]), pending[1..], dist, dist[pending[0]] + 1);
      Layered(b.pending, b.dist)
  {
    var h := pending[0];
    StepQueued(g, pending, dist);
    LScanKeys(Nbrs(g, h), pending[1..], dist, dist[h] + 1);
    LScanLabels(Nbrs(g, h), pending[1..], dist, dist[h] + 1);
    var b := LScan(Nbrs(g, h), pending[1..], dist, dist[h] + 1);
    LayeredGrow(pending, dist, b.pending, b.dist);
  }

  /**
   * Taking out the front of a layered queue and appending vertices
   * labelled one more than it gives a layered queue again.
   */
  lemma LayeredGrow<T(!new)>(pending: seq<T>, dist: map<T, nat>, p: seq<T>, m: map<T, nat>)
    requires Layered(pending, dist) && |pending| > 0 && Queued(p, m)
    requires |p| >= |pending| - 1 && p[..|pending| - 1] == pending[1..]
    requires forall i | |pending| - 1 <= i < |p| :: p[i] !in dist
    requires pending[0] in dist && dist.Keys <= m.Keys
    requires forall u | u in m :: m[u] == if u in dist then dist[u] else dist[pending[0]] + 1
    ensures Layered(p, m)
  {
    var d := dist[pending[0]];
    assert forall x | x in p :: x in m by {
      assert forall x | x in p :: x in Elems(p);
    }
    var ls := LabelsOf(pending, dist);
    var ls' := LabelsOf(p, m);
    forall i | 0 <= i < |pending| - 1
      ensures ls'[i] == ls[i + 1]
    {
      assert p[i] == p[..|pending| - 1][i] == pending[i + 1];
    }
    MonoStep(ls, ls', d);
    if |p| > 0 {
      forall u | u in m
        ensures m[u] <= m[p[0]] + 1
      {
        if u in dist {
          assert dist[u] <= d + 1;
        }
      }
    }
  }

  lemma StepEdgeBound<T(!new)>(g: Graph<T>, pending: seq<T>, dist: map<T, nat>)
    requires Queued(pending, dist) && EdgeBound(g, pending, dist)
    requires |pending| > 0 && pending[0] in g.adj && pending[0] in dist
    requires forall u | u in dist :: dist[u] <= dist[pending[0]] + 1
    ensures var b := LScan(Nbrs(g, pending[0]), pending[1..], dist, dist[pending[0]] + 1);
      EdgeBound(g, b.pending, b.dist)
  {
    var h := pending[0];
    var d := dist[h];
    var ns := Nbrs(g, h);
    var b := LScan(ns, pending[1..], dist, d + 1);
    LScanKeys(ns, pending[1..], dist, d + 1);
    LScanLabels(ns, pending[1..], dist, d + 1);
    LScanElems(ns, pending[1..], dist, d + 1);
    EdgeBoundGrow(g, pending, dist, b.pending, b.dist);
  }

  /**
   * Taking the front `h` off the queue and labelling its unlabelled
   * neighbours one more than `h` keeps every edge out of a finished vertex
   * within one label.
   */
  lemma EdgeBoundGrow<T(!new)>(g: Graph<T>, pending: seq<T>, dist: map<T, nat>, bp: seq<T>, m: map<T, nat>)
    requires EdgeBound(g, pending, dist) && |pending| > 0 && pending[0] in g.adj && pending[0] in dist
    requires forall u | u in dist :: dist[u] <= dist[pending[0]] + 1
    requires m.Keys == dist.Keys + Elems(Nbrs(g, pending[0]))
    requires forall u | u in m :: m[u] == if u in dist then dist[u] else dist[pending[0]] + 1
    requires Elems(bp) == Elems(pending[1..]) + (Elems(Nbrs(g, pending[0])) - dist.Keys)
    ensures EdgeBound(g, bp, m)
  {
    var h := pending[0];
    var d := dist[h];
    ElemsCons(pending);
    forall w, u | w in m && w in g.adj && w !in bp && u in Nbrs(g, w)
      ensures u in m && m[u] <= m[w] + 1
    {
      assert w !in Elems(bp);
      assert w in dist;
      if w == h {
        assert u in Elems(Nbrs(g, h));
        if u in dist {
          assert dist[u] <= d + 1;
        }
      } else {
        assert w !in Elems(pending);
      }
    }
  }

  lemma StepParented<T(!new)>(g: Graph<T>, o: T, pending: seq<T>, dist: map<T, nat>)
    requires Parented(g, o, dist) && Elems(pending) <= dist.Keys && |pending| > 0 && pending[0] in g.adj
    ensures var b := LScan(Nbrs(g, pending[0]), pending[1..], dist, dist[pending[0]] + 1);
      Parented(g, o, b.dist)
  {
    var h := pending[0];
    assert h in Elems(pending);
    var d := dist[h];
    var ns := Nbrs(g, h);
    LScanKeys(ns, pending[1..], dist, d + 1);
    LScanLabels(ns, pending[1..], dist, d + 1);
    ParentedGrow(g, o, dist, LScan(ns, pending[1..], dist, d + 1).dist, h);
  }

  /** Labelling the unlabelled neighbours of `h` one more than `h` keeps every label explained by a neighbour. */
  lemma ParentedGrow<T(!new)>(g: Graph<T>, o: T, dist: map<T, nat>, m: map<T, nat>, h: T)
    requires Parented(g, o, dist) && h in dist && h in g.adj
    requires m.Keys == dist.Keys + Elems(Nbrs(g, h))
    requires forall u | u in m :: m[u] == if u in dist then dist[u] else dist[h] + 1
    ensures Parented(g, o, m)
  {
    forall v | v in m && v != o
      ensures m[v] > 0 && HasParent(g, m, v)
    {
      if v in dist {
        assert HasParent(g, dist, v);
        var u :| u in dist && Adjacent(g, u, v) && dist[u] + 1 == dist[v];
        assert m[u] == dist[u];
      } else {
        assert v in Nbrs(g, h);
        assert Adjacent(g, h, v) && m[h] + 1 == m[v];
      }
    }
  }

  /** The invariant of the labelling loop. */
  ghost predicate LInv<T(!new)>(g: Graph<T>, o: T, pending: seq<T>, dist: map<T, nat>) {
    && Closed(g) && dist.Keys <= g.adj.Keys && Queued(pending, dist) && Layered(pending, dist)
    && EdgeBound(g, pending, dist) && Parented(g, o, dist)
  }

  /** One turn of the labelling loop keeps its invariant. */
  lemma StepInv<T(!new)>(g: Graph<T>, o: T, pending: seq<T>, dist: map<T, nat>)
    requires LInv(g, o, pending, dist) && |pending| > 0
    ensures pending[0] in g.adj && pending[0] in dist
    ensures var b := LScan(Nbrs(g, pending[0]), pending[1..], dist, dist[pending[0]] + 1);
      && LInv(g, o, b.pending, b.dist) && dist.Keys <= b.dist.Keys
      && Shrinks(g.adj.Keys, dist.Keys, b.dist.Keys, b.pending, pending)
      && LExplore(g, pending, dist) == LExplore(g, b.pending, b.dist)
  {
    LExploreStep(g, pending, dist);
    StepQueued(g, pending, dist);
    StepLayered(g, pending, dist);
    StepEdgeBound(g, pending, dist);
    StepParented(g, o, pending, dist);
  }

  /** The labels the walk ends with, given the invariant at its start. */
  lemma {:induction false} LExploreFinal<T(!new)>(g: Graph<T>, o: T, pending: seq<T>, dist: map<T, nat>)
    requires LInv(g, o, pending, dist)
    ensures var m := LExplore(g, pending, dist);
      dist.Keys <= m.Keys <= g.adj.Keys && EdgeBound(g, [], m) && Parented(g, o, m)
    decreases |g.adj.Keys| - |dist.Keys|, |pending|
  {
    if |pending| > 0 {
      StepInv(g, o, pending, dist);
      var b := LScan(Nbrs(g, pending[0]), pending[1..], dist, dist[pending[0]] + 1);
      LExploreFinal(g, o, b.pending, b.dist);
    }
  }

  // ---------------------------------------------------------------- the labels

  /** The labels of `trayectoriaMinima` for origin `o`. */
  function Labels<T(==,!new)>(g: Graph<T>, o: T): (m: map<T, nat>)
    requires Valid(g) && o in g.adj
  {
    ValidMutual(g);
    LExplore(g, [o], map[o := 0])
  }

  /** What the labels satisfy: the facts the rest of the module is proved from. */
  ghost predicate GoodLabels<T(!new)>(g: Graph<T>, o: T, m: map<T, nat>) {
    m.Keys <= g.adj.Keys && EdgeBound(g, [], m) && Parented(g, o, m)
  }

  lemma LabelsGood<T(!new)>(g: Graph<T>, o: T)
    requires Valid(g) && o in g.adj
    ensures GoodLabels(g, o, Labels(g, o))
  {
    ValidMutual(g);
    var d0 := map[o := 0];
    assert Elems([o]) == {o};
    assert LInv(g, o, [o], d0);
    LExploreFinal(g, o, [o], d0);
  }

  /** A labelled vertex is reachable from the origin. */
  lemma {:induction false} LabelledReachable<T(!new)>(g: Graph<T>, o: T, m: map<T, nat>, v: T)
    requires GoodLabels(g, o, m) && v in m
    ensures Reachable(g, o, v)
    decreases m[v]
  {
    if v == o {
      ReachSelf(g, o);
    } else {
      assert HasParent(g, m, v);
      var u :| u in m && Adjacent(g, u, v) && m[u] + 1 == m[v];
      LabelledReachable(g, o, m, u);
      ReachStep(g, o, u, v);
    }
  }

  /** Along any walk from the origin every vertex is labelled, at most the number of edges walked. */
  lemma {:induction false} LabelsBelowPaths<T(!new)>(g: Graph<T>, o: T, m: map<T, nat>, p: seq<T>)
    requires GoodLabels(g, o, m) && IsPath(g, p) && p[0] == o
    ensures p[|p| - 1] in m && m[p[|p| - 1]] <= |p| - 1
    decreases |p|
  {
    if |p| > 1 {
      var q := p[..|p| - 1];
      assert IsPath(g, q);
      LabelsBelowPaths(g, o, m, q);
      var w := q[|q| - 1];
      assert Adjacent(g, w, p[|p| - 1]);
    }
  }

  /** Exactly the vertices reachable from `o` are labelled, `o` with 0. */
  lemma LabelsReach<T(!new)>(g: Graph<T>, o: T)
    requires Valid(g) && o in g.adj
    ensures var m := Labels(g, o);
      m.Keys == Reach(g, o) && o in m && m[o] == 0
  {
    var m := Labels(g, o);
    LabelsGood(g, o);
    forall v | v in m
      ensures v in Reach(g, o)
    {
      LabelledReachable(g, o, m, v);
    }
    forall v | v in Reach(g, o)
      ensures v in m
    {
      var p :| IsPath(g, p) && p[0] == o && p[|p| - 1] == v;
      LabelsBelowPaths(g, o, m, p);
    }
  }

  /** Every labelled vertex other than `o` has a neighbour labelled one less. */
  lemma LabelsDescend<T(!new)>(g: Graph<T>, o: T)
    requires Valid(g) && o in g.adj
    ensures var m := Labels(g, o);
      forall v | v in m && v != o :: exists u :: u in m && Adjacent(g, v, u) && m[u] + 1 == m[v]
  {
    var m := Labels(g, o);
    LabelsGood(g, o);
    ValidMutual(g);
    forall v | v in m && v != o
      ensures exists u :: u in m && Adjacent(g, v, u) && m[u] + 1 == m[v]
    {
      assert HasParent(g, m, v);
      var u :| u in m && Adjacent(g, u, v) && m[u] + 1 == m[v];
      assert Adjacent(g, v, u);
    }
  }

  /**
   * The labels are the breadth-first distances: exactly the vertices
   * reachable from `o` are labelled, `o` with 0; no walk from `o` to `v`
   * has fewer edges than the label of `v`; and every other labelled vertex
   * has a neighbour labelled one less.
   */
  lemma LabelsAreDistances<T(!new)>(g: Graph<T>, o: T)
    requires Valid(g) && o in g.adj
    ensures var m := Labels(g, o);
      && m.Keys == Reach(g, o) && o in m && m[o] == 0
      && (forall p | IsPath(g, p) && p[0] == o :: p[|p| - 1] in m && m[p[|p| - 1]] <= |p| - 1)
      && (forall v | v in m && v != o :: exists u :: u in m && Adjacent(g, v, u) && m[u] + 1 == m[v])
  {
    var m := Labels(g, o);
    LabelsGood(g, o);
    LabelsReach(g, o);
    LabelsDescend(g, o);
    forall p | IsPath(g, p) && p[0] == o
      ensures p[|p| - 1] in m && m[p[|p| - 1]] <= |p| - 1
    {
      LabelsBelowPaths(g, o, m, p);
    }
  }

  // ---------------------------------------------------------------- the walk back

  /**
   * The inner loop of the walk back: over the neighbour list `ns` of the
   * vertex the loop started from, whenever the current vertex `cur` has a
   * label one more than the neighbour's, the neighbour is added to the
   * list and becomes the current vertex. The scan goes on over the same
   * list after a change.
   */
  function BackScan<T(==,!new)>(m: map<T, nat>, ns: seq<T>, cur: T, acc: seq<T>): (r: (T, seq<T>))
    requires cur in m && forall w | w in ns :: w in m
    ensures (forall w | w in ns :: m[w] + 1 != m[cur]) ==> r == (cur, acc)
    ensures (forall w | w in ns :: m[w] + 1 >= m[cur]) && (exists w | w in ns :: m[w] + 1 == m[cur]) ==>
      r.0 in ns && r.0 in m && m[r.0] + 1 == m[cur] && r.1 == acc + [r.0]
    decreases |ns|
  {
    if |ns| == 0 then (cur, acc)
    else if m[cur] == m[ns[0]] + 1 then
      BackScan(m, ns[1..], ns[0], acc + [ns[0]])
    else
      BackScan(m, ns[1..], cur, acc)
  }

  /** Consecutive vertices of `s` are adjacent, each labelled one less than the one before. */
  ghost predicate Descends<T(!new)>(g: Graph<T>, m: map<T, nat>, s: seq<T>) {
    && (forall x | x in s :: x in m)
    && forall i | 0 <= i < |s| - 1 :: Adjacent(g, s[i], s[i + 1]) && m[s[i + 1]] + 1 == m[s[i]]
  }

  /**
   * The outer loop of the walk back: from `v`, the last vertex of `acc`,
   * until the origin; each turn moves to a neighbour labelled one less.
   */
  function Back<T(==,!new)>(g: Graph<T>, o: T, m: map<T, nat>, v: T, acc: seq<T>): (r: seq<T>)
    requires Mutual(g) && GoodLabels(g, o, m) && v in m && |acc| > 0 && acc[|acc| - 1] == v
    ensures |r| == |acc| + m[v] && r[..|acc|] == acc
    decreases m[v]
  {
    if v == o then acc
    else
      BackStep(g, o, m, v, acc);
      var s := BackScan(m, Nbrs(g, v), v, acc);
      var r := Back(g, o, m, s.0, s.1);
      BackExtend(m, v, acc, s.0, s.1, r);
      r
  }

  /** The walk back from the next vertex `c`, one label lower, is a walk back from `v`. */
  lemma BackExtend<T>(m: map<T, nat>, v: T, acc: seq<T>, c: T, next: seq<T>, r: seq<T>)
    requires v in m && c in m && m[c] + 1 == m[v] && next == acc + [c]
    requires |r| == |next| + m[c] && r[..|next|] == next
    ensures |r| == |acc| + m[v] && r[..|acc|] == acc
  {
    assert r[..|acc|] == r[..|next|][..|acc|];
  }

  /** The walk back ends at the origin. */
  lemma {:induction false} BackEndsAtOrigin<T(!new)>(g: Graph<T>, o: T, m: map<T, nat>, v: T, acc: seq<T>)
    requires Mutual(g) && GoodLabels(g, o, m) && v in m && |acc| > 0 && acc[|acc| - 1] == v
    ensures var r := Back(g, o, m, v, acc); |r| > 0 && r[|r| - 1] == o
    decreases m[v]
  {
    if v != o {
      BackStep(g, o, m, v, acc);
      var s := BackScan(m, Nbrs(g, v), v, acc);
      BackEndsAtOrigin(g, o, m, s.0, s.1);
      assert Back(g, o, m, v, acc) == Back(g, o, m, s.0, s.1);
    }
  }

  /** The walk back, from `v` on, descends one label per edge. */
  lemma {:induction false} BackDescends<T(!new)>(g: Graph<T>, o: T, m: map<T, nat>, v: T, acc: seq<T>)
    requires Mutual(g) && GoodLabels(g, o, m) && v in m && |acc| > 0 && acc[|acc| - 1] == v
    ensures Descends(g, m, Back(g, o, m, v, acc)[|acc| - 1..])
    decreases m[v]
  {
    var r := Back(g, o, m, v, acc);
    if v == o {
      assert r[|acc| - 1..] == [v];
    } else {
      BackStep(g, o, m, v, acc);
      var s := BackScan(m, Nbrs(g, v), v, acc);
      BackDescends(g, o, m, s.0, s.1);
      assert r == Back(g, o, m, s.0, s.1);
      BackJoin(g, m, v, acc, s.0, r);
    }
  }

  /** From `v` the inner loop moves to a neighbour labelled one less, and only once. */
  lemma BackStep<T(!new)>(g: Graph<T>, o: T, m: map<T, nat>, v: T, acc: seq<T>)
    requires Mutual(g) && GoodLabels(g, o, m) && v in m && v != o
    ensures v in g.adj && forall w | w in Nbrs(g, v) :: w in m
    ensures var s := BackScan(m, Nbrs(g, v), v, acc);
      s.0 in Nbrs(g, v) && s.0 in m && m[s.0] + 1 == m[v] && s.1 == acc + [s.0]
  {
    assert HasParent(g, m, v);
    var u :| u in m && Adjacent(g, u, v) && m[u] + 1 == m[v];
    assert Adjacent(g, v, u);
    forall w | w in Nbrs(g, v)
      ensures w in m && m[w] + 1 >= m[v]
    {
      assert Adjacent(g, w, v);
    }
  }

  /** The walk back from the neighbour `c`, with `v` in front, is the walk back from `v`. */
  lemma BackJoin<T(!new)>(g: Graph<T>, m: map<T, nat>, v: T, acc: seq<T>, c: T, r: seq<T>)
    requires v in m && c in m && m[c] + 1 == m[v] && |acc| > 0 && acc[|acc| - 1] == v && v in g.adj && c in Nbrs(g, v)
    requires |acc| < |r| && r[..|acc| + 1] == acc + [c]
    requires Descends(g, m, r[|acc|..])
    ensures Descends(g, m, r[|acc| - 1..])
  {
    assert r[|acc| - 1] == r[..|acc| + 1][|acc| - 1] == v;
    assert r[|acc|] == c;
    var t := r[|acc|..];
    assert r[|acc| - 1..] == [v] + t;
    forall i | 0 <= i < |t|
      ensures r[|acc| - 1..][i + 1] == t[i]
    {
    }
  }

  // ---------------------------------------------------------------- trayectoriaMinima

  /** `p` is a walk from `a` to `b` and no walk from `a` to `b` is shorter. */
  ghost predicate Shortest<T(!new)>(g: Graph<T>, a: T, b: T, p: seq<T>) {
    && IsPath(g, p) && p[0] == a && p[|p| - 1] == b
    && forall q | IsPath(g, q) && q[0] == a && q[|q| - 1] == b :: |p| <= |q|
  }

  /**
   * `trayectoriaMinima(origen, destino)` of practicas 10 and 12:
   * NoSuchElement if either is not a vertex; the origin alone if they are
   * equal; nothing if the destination is not reachable; else the walk back
   * from the destination, reversed.
   */
  function ShortestPath<T(==,!new)>(g: Graph<T>, a: T, b: T): (r: Result<seq<T>>)
    requires Valid(g)
    ensures r.Err? <==> a !in g.verts || b !in g.verts
    ensures r.Err? ==> r.error == NoSuchElement
    ensures r.Ok? ==> (|r.value| == 0 <==> !Reachable(g, a, b))
    ensures r.Ok? && |r.value| > 0 ==> Shortest(g, a, b, r.value)
  {
    if a !in g.verts || b !in g.verts then Err(NoSuchElement)
    else if a == b then
      ShortestSelf(g, a);
      Ok([a])
    else
      var m := Labels(g, a);
      LabelsAreDistances(g, a);
      LabelsGood(g, a);
      ValidMutual(g);
      if b !in m then Ok([])
      else
        var l := Back(g, a, m, b, [b]);
        BackIsShortest(g, a, b, m, l);
        Ok(Lists.Reversed(l))
  }

  lemma ShortestSelf<T(!new)>(g: Graph<T>, a: T)
    requires a in g.adj
    ensures Reachable(g, a, a) && Shortest(g, a, a, [a])
  {
    ReachSelf(g, a);
    assert IsPath(g, [a]);
  }

  /** A descending list read backwards is a walk, when edges are listed at both ends. */
  lemma ReversePath<T(!new)>(g: Graph<T>, m: map<T, nat>, l: seq<T>)
    requires Mutual(g) && |l| > 0 && l[|l| - 1] in g.adj && Descends(g, m, l)
    ensures IsPath(g, Lists.Reversed(l))
  {
    var p := Lists.Reversed(l);
    forall i | 0 <= i < |p|
      ensures p[i] == l[|l| - 1 - i]
    {
      Lists.ReversedAt(l, i);
    }
    forall i | 0 <= i < |p| - 1
      ensures Adjacent(g, p[i], p[i + 1])
    {
      var k := |l| - 2 - i;
      assert Adjacent(g, l[k], l[k + 1]);
      assert p[i] == l[k + 1] && p[i + 1] == l[k];
    }
  }

  /** The reversed walk back is a shortest walk from the origin. */
  lemma BackIsShortest<T(!new)>(g: Graph<T>, a: T, b: T, m: map<T, nat>, l: seq<T>)
    requires Mutual(g) && GoodLabels(g, a, m) && b in m && l == Back(g, a, m, b, [b])
    requires forall p | IsPath(g, p) && p[0] == a :: p[|p| - 1] in m && m[p[|p| - 1]] <= |p| - 1
    ensures Reachable(g, a, b) && Shortest(g, a, b, Lists.Reversed(l))
  {
    var p := Lists.Reversed(l);
    BackEndsAtOrigin(g, a, m, b, [b]);
    assert |l| == 1 + m[b] && l[0] == b && l[|l| - 1] == a && l[0..] == l by {
      assert l[..1] == [b];
    }
    BackDescends(g, a, m, b, [b]);
    ReversePath(g, m, l);
    Lists.ReversedAt(l, 0);
    Lists.ReversedAt(l, |l| - 1);
    forall q | IsPath(g, q) && q[0] == a && q[|q| - 1] == b
      ensures |p| <= |q|
    {
    }
  }
}

=== FILE: graph.dfy ===
/**
 * Undirected graphs (`Grafica`, in the three versions of practicas 6, 10
 * and 12). A vertex is identified by its element. Each vertex keeps its
 * neighbours in a list, in the order the edges were added, and each
 * neighbour entry carries the weight of its edge. Practica 6 has no weights;
 * its edges all carry 1. Practica 12 keeps the vertices and the neighbours
 * in dictionaries, which iterate in bucket order, an order that changes
 * when a table grows; the model keeps insertion order for all three
 * versions. No contract depends on that order: it only decides which of
 * several shortest paths `Distances.ShortestPath` returns and which vertex
 * `Traversal.IsConnected` starts from. Java's `double` weights are only
 * stored and compared against 0, so they are modelled as `real`.
 */
module Graphs {
  import opened Wrappers

  /** A neighbour entry (`Vecino`): the adjacent vertex and the weight of the edge to it. */
  datatype Nbr<T> = Nbr(to: T, weight: real)

  /** The vertices in list order, the neighbour list of each, and the edge counter `aristas`. */
  datatype Graph<T> = Graph(verts: seq<T>, adj: map<T, seq<Nbr<T>>>, edges: int)

  /** No element twice. */
  predicate Distinct<T(==,!new)>(s: seq<T>) {
    forall i, j | 0 <= i < j < |s| :: s[i] != s[j]
  }

  /** The vertices a neighbour list points at, in order. */
  function Targets<T(==,!new)>(ns: seq<Nbr<T>>): (r: seq<T>)
    ensures |r| == |ns| && forall i | 0 <= i < |ns| :: r[i] == ns[i].to
  {
    seq(|ns|, i requires 0 <= i < |ns| => ns[i].to)
  }

  /** The neighbours of `v`, in the order their edges were added. */
  function Nbrs<T(==,!new)>(g: Graph<T>, v: T): seq<T>
    requires v in g.adj
  {
    Targets(g.adj[v])
  }

  /** `b` is in the neighbour list of `a`. */
  predicate Adjacent<T(==,!new)>(g: Graph<T>, a: T, b: T) {
    a in g.adj && b in Nbrs(g, a)
  }

  /** The position of the entry for `b` in a neighbour list. */
  function IndexOf<T(==,!new)>(ns: seq<Nbr<T>>, b: T): (i: nat)
    requires b in Targets(ns)
    ensures i < |ns| && ns[i].to == b
    ensures forall j | 0 <= j < i :: ns[j].to != b
  {
    if ns[0].to == b then 0
    else
      assert Targets(ns[1..]) == Targets(ns)[1..];
      1 + IndexOf(ns[1..], b)
  }

  /** The weight stored with the entry for `b` in the list of `a`. */
  function Weight<T(==,!new)>(g: Graph<T>, a: T, b: T): real
    requires Adjacent(g, a, b)
  {
    g.adj[a][IndexOf(g.adj[a], b)].weight
  }

  /** The sum of the lengths of the neighbour lists of the vertices in `s`. */
  function Degrees<T(==,!new)>(adj: map<T, seq<Nbr<T>>>, s: seq<T>): (r: nat)
    requires forall v | v in s :: v in adj
  {
    if |s| == 0 then 0 else |adj[s[0]]| + Degrees(adj, s[1..])
  }

  /**
   * The class invariant: distinct vertices, each with a neighbour list;
   * no vertex listed twice or next to itself; every edge listed at both
   * ends with the same weight; and `aristas` counts each edge once.
   */
  ghost predicate Valid<T(!new)>(g: Graph<T>) {
    Keyed(g) && Simple(g) && Symmetric(g) && Counted(g)
  }

  /** Distinct vertices, each with a neighbour list. */
  ghost predicate Keyed<T(!new)>(g: Graph<T>) {
    Distinct(g.verts) && forall v :: v in g.adj <==> v in g.verts
  }

  /** No neighbour listed twice, and no vertex next to itself. */
  ghost predicate Simple<T(!new)>(g: Graph<T>) {
    forall v | v in g.adj :: Distinct(Nbrs(g, v)) && v !in Nbrs(g, v)
  }

  /** Every edge listed at both ends, with the same weight. */
  ghost predicate Symmetric<T(!new)>(g: Graph<T>) {
    forall v, u | v in g.adj && u in Nbrs(g, v) :: Adjacent(g, u, v) && Weight(g, u, v) == Weight(g, v, u)
  }

  /** `aristas` counts each edge once: half the sum of the degrees. */
  ghost predicate Counted<T(!new)>(g: Graph<T>) {
    (forall v | v in g.verts :: v in g.adj) && 2 * g.edges == Degrees(g.adj, g.verts)
  }

  /** The graph of the constructor and of `limpia`: no vertices, no edges. */
  function Empty<T(==,!new)>(): (r: Graph<T>)
    ensures Valid(r) && |r.verts| == 0 && r.edges == 0
  {
    Graph([], map[], 0)
  }

  // ---------------------------------------------------------------- lists

  /** `s` without the element `x`. */
  function Without<T(==,!new)>(s: seq<T>, x: T): (r: seq<T>)
    ensures forall y :: y in r <==> y in s && y != x
    ensures Distinct(s) ==> Distinct(r)
    ensures x !in s ==> r == s
    ensures |r| <= |s|
  {
    if |s| == 0 then []
    else if s[0] == x then Without(s[1..], x)
    else
      var r := Without(s[1..], x);
      DistinctPrepend(s[0], r);
      [s[0]] + r
  }

  lemma DistinctPrepend<T(!new)>(x: T, s: seq<T>)
    ensures Distinct([x] + s) <==> x !in s && Distinct(s)
  {
    if x !in s && Distinct(s) {
      forall i, j | 0 <= i < j < |[x] + s|
        ensures ([x] + s)[i] != ([x] + s)[j]
      {
        if i > 0 {
          assert ([x] + s)[i] == s[i - 1];
        }
      }
    }
    if Distinct([x] + s) {
      forall k | 0 <= k < |s|
        ensures s[k] != x
      {
        assert ([x] + s)[0] != ([x] + s)[k + 1];
      }
      forall i, j | 0 <= i < j < |s|
        ensures s[i] != s[j]
      {
        assert ([x] + s)[i + 1] != ([x] + s)[j + 1];
      }
    }
  }

  /** A list with the entry for `b` taken out (`Lista.elimina` / `Diccionario.elimina` on the neighbours). */
  function Drop<T(==,!new)>(ns: seq<Nbr<T>>, b: T): (r: seq<Nbr<T>>)
    requires b in Targets(ns)
  {
    var i := IndexOf(ns, b);
    ns[..i] + ns[i + 1..]
  }

  /** The first entry for `c` is at `i` when `i` holds `c` and nothing before it does. */
  lemma IndexOfAt<T(!new)>(ns: seq<Nbr<T>>, c: T, i: nat)
    requires i < |ns| && ns[i].to == c && forall j | 0 <= j < i :: ns[j].to != c
    ensures c in Targets(ns) && IndexOf(ns, c) == i
  {
    assert Targets(ns)[i] == c;
  }

  /** In a list without repeats, the entry for `c` is the only one with `c`. */
  lemma IndexOfOnly<T(!new)>(ns: seq<Nbr<T>>, c: T, i: nat)
    requires Distinct(Targets(ns)) && i < |ns| && ns[i].to == c
    ensures c in Targets(ns) && IndexOf(ns, c) == i
  {
    forall j | 0 <= j < i
      ensures ns[j].to != c
    {
      assert Targets(ns)[j] != Targets(ns)[i];
    }
    IndexOfAt(ns, c, i);
  }

  lemma DropTargets<T(!new)>(ns: seq<Nbr<T>>, b: T)
    requires b in Targets(ns) && Distinct(Targets(ns))
    ensures |Drop(ns, b)| == |ns| - 1
    ensures Targets(Drop(ns, b)) == Without(Targets(ns), b)
    ensures Distinct(Targets(Drop(ns, b)))
    ensures forall c | c in Targets(Drop(ns, b)) ::
      c in Targets(ns) && Drop(ns, b)[IndexOf(Drop(ns, b), c)] == ns[IndexOf(ns, c)]
  {
    var i := IndexOf(ns, b);
    var r := Drop(ns, b);
    var ts := Targets(ns);
    DropWithout(ns, b);
    forall c | c in Targets(r)
      ensures c in ts && r[IndexOf(r, c)] == ns[IndexOf(ns, c)]
    {
      var k := IndexOf(r, c);
      var m := if k < i then k else k + 1;
      assert r[k] == ns[m];
      IndexOfOnly(ns, c, m);
    }
  }

  lemma DropWithout<T(!new)>(ns: seq<Nbr<T>>, b: T)
    requires b in Targets(ns) && Distinct(Targets(ns))
    ensures |Drop(ns, b)| == |ns| - 1
    ensures Targets(Drop(ns, b)) == Without(Targets(ns), b)
    ensures Distinct(Targets(Drop(ns, b)))
  {
    var i := IndexOf(ns, b);
    var ts := Targets(ns);
    var front, back := ts[..i], ts[i + 1..];
    assert ts == front + [b] + back;
    assert b !in front by {
      forall j | 0 <= j < i
        ensures front[j] != b
      {
        assert ts[j] != ts[i];
      }
    }
    assert b !in back by {
      forall j | 0 <= j < |back|
        ensures back[j] != b
      {
        assert ts[i + 1 + j] != ts[i];
      }
    }
    WithoutConcat(front, [b], b);
    WithoutConcat(front + [b], back, b);
    assert Without([b], b) == [];
    assert Without(ts, b) == front + back;
    TargetsSplit(ns, i);
  }

  lemma TargetsSplit<T(!new)>(ns: seq<Nbr<T>>, i: nat)
    requires i < |ns|
    ensures Targets(ns[..i] + ns[i + 1..]) == Targets(ns)[..i] + Targets(ns)[i + 1..]
  {
  }

  lemma WithoutConcat<T(!new)>(a: seq<T>, b: seq<T>, x: T)
    ensures Without(a + b, x) == Without(a, x) + Without(b, x)
  {
    if |a| > 0 {
      assert (a + b)[1..] == a[1..] + b;
      WithoutConcat(a[1..], b, x);
    } else {
      assert a + b == b;
    }
  }

  /** A list with the entry for `b` given the weight `w`. */
  function Reweigh<T(==,!new)>(ns: seq<Nbr<T>>, b: T, w: real): (r: seq<Nbr<T>>)
    requires b in Targets(ns)
    ensures Targets(r) == Targets(ns)
    ensures forall c | c in Targets(ns) :: IndexOf(r, c) == IndexOf(ns, c)
  {
    var i := IndexOf(ns, b);
    var r := ns[i := Nbr(b, w)];
    assert Targets(r) == Targets(ns);
    ReweighIndex(ns, r, i);
    r
  }

  lemma ReweighIndex<T(!new)>(ns: seq<Nbr<T>>, r: seq<Nbr<T>>, i: nat)
    requires |r| == |ns| && i < |ns| && Targets(r) == Targets(ns)
    ensures forall c | c in Targets(ns) :: IndexOf(r, c) == IndexOf(ns, c)
  {
    forall c | c in Targets(ns)
      ensures IndexOf(r, c) == IndexOf(ns, c)
    {
      var k := IndexOf(ns, c);
      assert Targets(r)[k] == c;
      forall j | 0 <= j < k
        ensures r[j].to != c
      {
        assert Targets(r)[j] == Targets(ns)[j];
      }
      IndexOfAt(r, c, k);
    }
  }

  lemma IndexOfAppend<T(!new)>(ns: seq<Nbr<T>>, e: Nbr<T>)
    ensures Targets(ns + [e]) == Targets(ns) + [e.to]
    ensures e.to !in Targets(ns) ==> IndexOf(ns + [e], e.to) == |ns|
    ensures forall c | c in Targets(ns) :: IndexOf(ns + [e], c) == IndexOf(ns, c)
  {
    assert Targets(ns + [e]) == Targets(ns) + [e.to];
    if e.to !in Targets(ns) {
      IndexOfAt(ns + [e], e.to, |ns|);
    }
    forall c | c in Targets(ns)
      ensures IndexOf(ns + [e], c) == IndexOf(ns, c)
    {
      IndexOfAt(ns + [e], c, IndexOf(ns, c));
    }
  }

  // ---------------------------------------------------------------- degrees

  /** Giving one vertex a new list changes the degree sum by the change in its length. */
  lemma {:induction false} DegreesUpdate<T(!new)>(adj: map<T, seq<Nbr<T>>>, s: seq<T>, x: T, ns: seq<Nbr<T>>)
    requires forall v | v in s :: v in adj
    requires x in adj && Distinct(s)
    ensures Degrees(adj[x := ns], s) == Degrees(adj, s) + (if x in s then |ns| - |adj[x]| else 0)
  {
    if |s| > 0 {
      DegreesUpdate(adj, s[1..], x, ns);
      assert s[0] == x ==> x !in s[1..];
    }
  }

  /** Dropping a vertex and its list from the sum takes its degree out. */
  lemma {:induction false} DegreesWithout<T(!new)>(adj: map<T, seq<Nbr<T>>>, s: seq<T>, x: T)
    requires forall v | v in s :: v in adj
    requires x in adj && Distinct(s)
    ensures forall v | v in Without(s, x) :: v in adj - {x}
    ensures Degrees(adj - {x}, Without(s, x)) == Degrees(adj, s) - (if x in s then |adj[x]| else 0)
  {
    if |s| > 0 {
      DegreesWithout(adj, s[1..], x);
      assert s[0] == x ==> x !in s[1..];
    }
  }

  /** The degree sum over a list with one more vertex. */
  lemma {:induction false} DegreesAppend<T(!new)>(adj: map<T, seq<Nbr<T>>>, s: seq<T>, x: T)
    requires forall v | v in s :: v in adj
    requires x in adj
    ensures Degrees(adj, s + [x]) == Degrees(adj, s) + |adj[x]|
  {
    if |s| == 0 {
      assert s + [x] == [x];
    } else {
      assert (s + [x])[1..] == s[1..] + [x];
      DegreesAppend(adj, s[1..], x);
    }
  }

  /** Keys outside the list do not count. */
  lemma {:induction false} DegreesOther<T(!new)>(adj: map<T, seq<Nbr<T>>>, s: seq<T>, x: T, ns: seq<Nbr<T>>)
    requires forall v | v in s :: v in adj
    requires x !in s
    ensures Degrees(adj[x := ns], s) == Degrees(adj, s)
  {
    if |s| > 0 {
      DegreesOther(adj, s[1..], x, ns);
    }
  }

  // ---------------------------------------------------------------- adding vertices

  /**
   * `agrega(elemento)`: IllegalArgument for null or for an element already
   * in the graph; otherwise a new isolated vertex goes at the end.
   * Practica 10 (lines 196-201) and practica 12 (lines 204-208) guard alike.
   */
  function Add<T(==,!new)>(g: Graph<T>, e: Option<T>): (r: Result<Graph<T>>)
    requires Valid(g)
    ensures r.Err? <==> e.None? || e.value in g.verts
    ensures r.Err? ==> r.error == IllegalArgument
    ensures r.Ok? ==> (
      && Valid(r.value) && r.value.verts == g.verts + [e.value] && r.value.edges == g.edges
      && Nbrs(r.value, e.value) == []
      && forall v | v in g.adj :: v in r.value.adj && Nbrs(r.value, v) == Nbrs(g, v))
  {
    if e.None? || e.value in g.verts then Err(IllegalArgument)
    else
      AddValid(g, e.value);
      Ok(Graph(g.verts + [e.value], g.adj[e.value := []], g.edges))
  }

  lemma AddValid<T(!new)>(g: Graph<T>, x: T)
    requires Valid(g) && x !in g.verts
    ensures Valid(Graph(g.verts + [x], g.adj[x := []], g.edges))
  {
    var r := Graph(g.verts + [x], g.adj[x := []], g.edges);
    forall v, u | v in r.adj && u in Nbrs(r, v)
      ensures Adjacent(r, u, v) && Weight(r, u, v) == Weight(r, v, u)
    {
      assert v != x && u != x;
    }
    DegreesOther(g.adj, g.verts, x, []);
    DegreesAppend(r.adj, g.verts, x);
  }

  /** `vertice(elemento)`: NoSuchElement for an element not in the graph, else its vertex. */
  function Vertex<T(==,!new)>(g: Graph<T>, x: T): (r: Result<T>)
    requires Valid(g)
    ensures r.Err? <==> x !in g.verts
    ensures r.Err? ==> r.error == NoSuchElement
    ensures r.Ok? ==> r.value in g.adj && r.value == x
  {
    if x in g.verts then Ok(x) else Err(NoSuchElement)
  }

  // ---------------------------------------------------------------- edges

  /** The shared body of `conecta`: each end gets the other at the end of its list, and one more edge. */
  function Link<T(==,!new)>(g: Graph<T>, a: T, b: T, w: real): (r: Graph<T>)
    requires Valid(g) && a in g.adj && b in g.adj && a != b && !Adjacent(g, a, b)
    ensures Valid(r) && r.verts == g.verts && r.edges == g.edges + 1
    ensures Nbrs(r, a) == Nbrs(g, a) + [b] && Nbrs(r, b) == Nbrs(g, b) + [a]
    ensures forall v | v in g.adj && v != a && v != b :: v in r.adj && r.adj[v] == g.adj[v]
    ensures Weight(r, a, b) == w && Weight(r, b, a) == w
  {
    var r := Graph(g.verts, g.adj[a := g.adj[a] + [Nbr(b, w)]][b := g.adj[b] + [Nbr(a, w)]], g.edges + 1);
    LinkValid(g, a, b, w);
    r
  }

  lemma LinkValid<T(!new)>(g: Graph<T>, a: T, b: T, w: real)
    requires Valid(g) && a in g.adj && b in g.adj && a != b && !Adjacent(g, a, b)
    ensures var r := Graph(g.verts, g.adj[a := g.adj[a] + [Nbr(b, w)]][b := g.adj[b] + [Nbr(a, w)]], g.edges + 1);
      Valid(r) && Nbrs(r, a) == Nbrs(g, a) + [b] && Nbrs(r, b) == Nbrs(g, b) + [a]
      && Weight(r, a, b) == w && Weight(r, b, a) == w
  {
    var r := Graph(g.verts, g.adj[a := g.adj[a] + [Nbr(b, w)]][b := g.adj[b] + [Nbr(a, w)]], g.edges + 1);
    IndexOfAppend(g.adj[a], Nbr(b, w));
    IndexOfAppend(g.adj[b], Nbr(a, w));
    assert !Adjacent(g, b, a);
    forall v | v in r.adj
      ensures Distinct(Nbrs(r, v)) && v !in Nbrs(r, v)
    {
      if v == a {
        DistinctAppend(Nbrs(g, a), b);
      } else if v == b {
        DistinctAppend(Nbrs(g, b), a);
      }
    }
    LinkSymmetric(g, a, b, w);
    Recount(g, a, g.adj[a] + [Nbr(b, w)], b, g.adj[b] + [Nbr(a, w)], g.edges + 1);
  }

  lemma DistinctAppend<T(!new)>(s: seq<T>, x: T)
    requires Distinct(s) && x !in s
    ensures Distinct(s + [x])
  {
  }

  lemma LinkSymmetric<T(!new)>(g: Graph<T>, a: T, b: T, w: real)
    requires Symmetric(g) && a in g.adj && b in g.adj && a != b && !Adjacent(g, a, b) && !Adjacent(g, b, a)
    ensures Symmetric(Graph(g.verts, g.adj[a := g.adj[a] + [Nbr(b, w)]][b := g.adj[b] + [Nbr(a, w)]], g.edges + 1))
  {
    var r := Graph(g.verts, g.adj[a := g.adj[a] + [Nbr(b, w)]][b := g.adj[b] + [Nbr(a, w)]], g.edges + 1);
    IndexOfAppend(g.adj[a], Nbr(b, w));
    IndexOfAppend(g.adj[b], Nbr(a, w));
    forall v, u | v in r.adj && u in Nbrs(r, v)
      ensures Adjacent(r, u, v) && Weight(r, u, v) == Weight(r, v, u)
    {
      if v == a && u == b {
      } else if v == b && u == a {
      } else {
        assert u in Nbrs(g, v);
        assert v in Nbrs(g, u);
      }
    }
  }

  /** New lists for two vertices change the degree sum by the change in their lengths. */
  lemma Recount<T(!new)>(g: Graph<T>, a: T, na: seq<Nbr<T>>, b: T, nb: seq<Nbr<T>>, e: int)
    requires Keyed(g) && Counted(g) && a in g.adj && b in g.adj && a != b
    requires 2 * e == 2 * g.edges + |na| - |g.adj[a]| + |nb| - |g.adj[b]|
    ensures Counted(Graph(g.verts, g.adj[a := na][b := nb], e))
  {
    DegreesUpdate(g.adj, g.verts, a, na);
    DegreesUpdate(g.adj[a := na], g.verts, b, nb);
  }

  /**
   * `conecta(a, b)` of practica 6: NoSuchElement for a missing end;
   * IllegalArgument for a loop or an edge already there; else the edge,
   * with weight 1.
   */
  function Connect6<T(==,!new)>(g: Graph<T>, a: T, b: T): (r: Result<Graph<T>>)
    requires Valid(g)
    ensures r.Err? <==> a !in g.verts || b !in g.verts || a == b || Adjacent(g, a, b)
    ensures r.Err? ==> r.error == (if a !in g.verts || b !in g.verts then NoSuchElement else IllegalArgument)
    ensures r.Ok? ==> Valid(r.value) && Adjacent(r.value, a, b) && Adjacent(r.value, b, a) && r.value.edges == g.edges + 1
  {
    if a !in g.verts || b !in g.verts then Err(NoSuchElement)
    else if a == b || Adjacent(g, a, b) then Err(IllegalArgument)
    else Ok(Link(g, a, b, 1.0))
  }

  /**
   * `conecta(a, b, peso)` of practica 10: NoSuchElement for a missing end;
   * IllegalArgument for a loop, an edge already there or a negative weight
   * (0 passes); else the edge with that weight.
   */
  function Connect10<T(==,!new)>(g: Graph<T>, a: T, b: T, w: real): (r: Result<Graph<T>>)
    requires Valid(g)
    ensures r.Err? <==> a !in g.verts || b !in g.verts || a == b || Adjacent(g, a, b) || w < 0.0
    ensures r.Err? ==> r.error == (if a !in g.verts || b !in g.verts then NoSuchElement else IllegalArgument)
    ensures r.Ok? ==> (
      && Valid(r.value) && Adjacent(r.value, a, b) && r.value.edges == g.edges + 1
      && Weight(r.value, a, b) == w && Weight(r.value, b, a) == w)
  {
    if a !in g.verts || b !in g.verts then Err(NoSuchElement)
    else if a == b || Adjacent(g, a, b) || w < 0.0 then Err(IllegalArgument)
    else Ok(Link(g, a, b, w))
  }

  /**
   * `conecta(a, b, peso)` of practica 12: IllegalArgument for a weight of
   * at most 0 or a loop, checked first; then NoSuchElement for a missing
   * end; then IllegalArgument for an edge already there.
   */
  function Connect12<T(==,!new)>(g: Graph<T>, a: T, b: T, w: real): (r: Result<Graph<T>>)
    requires Valid(g)
    ensures r.Err? <==> w <= 0.0 || a == b || a !in g.verts || b !in g.verts || Adjacent(g, a, b)
    ensures r.Err? ==> r.error == (if w > 0.0 && a != b && (a !in g.verts || b !in g.verts) then NoSuchElement else IllegalArgument)
    ensures r.Ok? ==> (
      && Valid(r.value) && Adjacent(r.value, a, b) && r.value.edges == g.edges + 1
      && Weight(r.value, a, b) == w && Weight(r.value, b, a) == w)
  {
    if w <= 0.0 || a == b then Err(IllegalArgument)
    else if a !in g.verts || b !in g.verts then Err(NoSuchElement)
    else if Adjacent(g, a, b) then Err(IllegalArgument)
    else Ok(Link(g, a, b, w))
  }

  /** The shared body of `desconecta`: each end leaves the other's list, and one edge fewer. */
  function Unlink<T(==,!new)>(g: Graph<T>, a: T, b: T): (r: Graph<T>)
    requires Valid(g) && Adjacent(g, a, b)
    ensures Valid(r) && r.verts == g.verts && r.edges == g.edges - 1
    ensures Nbrs(r, a) == Without(Nbrs(g, a), b) && Nbrs(r, b) == Without(Nbrs(g, b), a)
    ensures forall v | v in g.adj && v != a && v != b :: v in r.adj && r.adj[v] == g.adj[v]
    ensures forall x, y :: Adjacent(r, x, y) <==> Adjacent(g, x, y) && !(x == a && y == b) && !(x == b && y == a)
  {
    UnlinkValid(g, a, b);
    Graph(g.verts, g.adj[a := Drop(g.adj[a], b)][b := Drop(g.adj[b], a)], g.edges - 1)
  }

  lemma UnlinkValid<T(!new)>(g: Graph<T>, a: T, b: T)
    requires Valid(g) && Adjacent(g, a, b)
    ensures Adjacent(g, b, a)
    ensures var r := Graph(g.verts, g.adj[a := Drop(g.adj[a], b)][b := Drop(g.adj[b], a)], g.edges - 1);
      && Valid(r)
      && Nbrs(r, a) == Without(Nbrs(g, a), b) && Nbrs(r, b) == Without(Nbrs(g, b), a)
      && forall x, y :: Adjacent(r, x, y) <==> Adjacent(g, x, y) && !(x == a && y == b) && !(x == b && y == a)
  {
    assert Adjacent(g, b, a);
    var da := Drop(g.adj[a], b);
    var db := Drop(g.adj[b], a);
    var r := Graph(g.verts, g.adj[a := da][b := db], g.edges - 1);
    DropTargets(g.adj[a], b);
    DropTargets(g.adj[b], a);
    assert a != b;
    forall x, y
      ensures Adjacent(r, x, y) <==> Adjacent(g, x, y) && !(x == a && y == b) && !(x == b && y == a)
    {
    }
    forall v | v in r.adj
      ensures Distinct(Nbrs(r, v)) && v !in Nbrs(r, v)
    {
    }
    forall v, u | v in r.adj && u in Nbrs(r, v)
      ensures Adjacent(r, u, v) && Weight(r, u, v) == Weight(r, v, u)
    {
      assert Adjacent(g, v, u);
      assert Weight(r, v, u) == Weight(g, v, u);
      assert Weight(r, u, v) == Weight(g, u, v);
    }
    Recount(g, a, da, b, db, g.edges - 1);
  }

  /**
   * `desconecta(a, b)` of practica 6: NoSuchElement for a missing end,
   * IllegalArgument when the two are not listed at each other, else the
   * edge goes.
   */
  function Disconnect6<T(==,!new)>(g: Graph<T>, a: T, b: T): (r: Result<Graph<T>>)
    requires Valid(g)
    ensures r.Err? <==> a !in g.verts || b !in g.verts || !Adjacent(g, a, b)
    ensures r.Err? ==> r.error == (if a !in g.verts || b !in g.verts then NoSuchElement else IllegalArgument)
    ensures r.Ok? ==> Valid(r.value) && !Adjacent(r.value, a, b) && !Adjacent(r.value, b, a) && r.value.edges == g.edges - 1
  {
    if a !in g.verts || b !in g.verts then Err(NoSuchElement)
    else if !(b in Nbrs(g, a)) || !(a in Nbrs(g, b)) then Err(IllegalArgument)
    else Ok(Unlink(g, a, b))
  }

  /**
   * `desconecta(a, b)` of practicas 10 and 12: IllegalArgument for equal
   * ends, checked first; then NoSuchElement for a missing end; then
   * IllegalArgument when they are not neighbours; else the edge goes.
   */
  function Disconnect<T(==,!new)>(g: Graph<T>, a: T, b: T): (r: Result<Graph<T>>)
    requires Valid(g)
    ensures r.Err? <==> a == b || a !in g.verts || b !in g.verts || !Adjacent(g, a, b)
    ensures r.Err? ==> r.error == (if a != b && (a !in g.verts || b !in g.verts) then NoSuchElement else IllegalArgument)
    ensures r.Ok? ==> Valid(r.value) && !Adjacent(r.value, a, b) && !Adjacent(r.value, b, a) && r.value.edges == g.edges - 1
  {
    if a == b then Err(IllegalArgument)
    else if a !in g.verts || b !in g.verts then Err(NoSuchElement)
    else if !Adjacent(g, a, b) then Err(IllegalArgument)
    else Ok(Unlink(g, a, b))
  }

  /** `sonVecinos(a, b)` of practica 6: NoSuchElement for a missing end, else whether each is listed at the other. */
  function Neighbours6<T(==,!new)>(g: Graph<T>, a: T, b: T): (r: Result<bool>)
    requires Valid(g)
    ensures r.Err? <==> a !in g.verts || b !in g.verts
    ensures r.Err? ==> r.error == NoSuchElement
    ensures r.Ok? ==> (r.value <==> Adjacent(g, a, b))
  {
    if a !in g.verts || b !in g.verts then Err(NoSuchElement)
    else Ok(b in Nbrs(g, a) && a in Nbrs(g, b))
  }

  /**
   * `sonVecinos(a, b)` of practicas 10 and 12: NoSuchElement for a missing
   * end, false for equal ends, else whether `b` is in the list of `a`.
   */
  function Neighbours<T(==,!new)>(g: Graph<T>, a: T, b: T): (r: Result<bool>)
    requires Valid(g)
    ensures r.Err? <==> a !in g.verts || b !in g.verts
    ensures r.Err? ==> r.error == NoSuchElement
    ensures r.Ok? ==> (r.value <==> Adjacent(g, a, b)) && (r.value <==> Adjacent(g, b, a))
  {
    if a !in g.verts || b !in g.verts then Err(NoSuchElement)
    else if a == b then Ok(false)
    else Ok(b in Nbrs(g, a))
  }

  /** The two versions of `sonVecinos` agree, and neither depends on the order of its arguments. */
  lemma NeighboursAgree<T(!new)>(g: Graph<T>, a: T, b: T)
    requires Valid(g)
    ensures Neighbours6(g, a, b) == Neighbours(g, a, b) == Neighbours(g, b, a)
  {
  }

  // ---------------------------------------------------------------- weights

  /**
   * `getPeso(a, b)`: NoSuchElement for a missing end, IllegalArgument when
   * they are not neighbours, else the weight stored at `a` for `b`.
   */
  function GetWeight<T(==,!new)>(g: Graph<T>, a: T, b: T): (r: Result<real>)
    requires Valid(g)
    ensures r.Err? <==> a !in g.verts || b !in g.verts || !Adjacent(g, a, b)
    ensures r.Err? ==> r.error == (if a !in g.verts || b !in g.verts then NoSuchElement else IllegalArgument)
    ensures r.Ok? ==> exists i | 0 <= i < |g.adj[a]| :: g.adj[a][i] == Nbr(b, r.value)
  {
    if a !in g.verts || b !in g.verts then Err(NoSuchElement)
    else if !Adjacent(g, a, b) then Err(IllegalArgument)
    else Ok(Weight(g, a, b))
  }

  /** The weight of an edge reads the same from either end. */
  lemma GetWeightSymmetric<T(!new)>(g: Graph<T>, a: T, b: T)
    requires Valid(g)
    ensures GetWeight(g, a, b) == GetWeight(g, b, a)
  {
  }

  /**
   * `setPeso(a, b, peso)`: NoSuchElement for a missing end, IllegalArgument
   * when they are not neighbours or the weight is at most 0, else both
   * entries of the edge take the weight.
   */
  function SetWeight<T(==,!new)>(g: Graph<T>, a: T, b: T, w: real): (r: Result<Graph<T>>)
    requires Valid(g)
    ensures r.Err? <==> a !in g.verts || b !in g.verts || !Adjacent(g, a, b) || w <= 0.0
    ensures r.Err? ==> r.error == (if a !in g.verts || b !in g.verts then NoSuchElement else IllegalArgument)
    ensures r.Ok? ==> (
      && Valid(r.value) && r.value.verts == g.verts && r.value.edges == g.edges
      && (forall x, y :: Adjacent(r.value, x, y) <==> Adjacent(g, x, y))
      && (forall x, y | Adjacent(g, x, y) :: Weight(r.value, x, y) == if (x == a && y == b) || (x == b && y == a) then w else Weight(g, x, y)))
  {
    if a !in g.verts || b !in g.verts then Err(NoSuchElement)
    else if !Adjacent(g, a, b) then Err(IllegalArgument)
    else if w <= 0.0 then Err(IllegalArgument)
    else
      SetValid(g, a, b, w);
      Ok(Graph(g.verts, g.adj[a := Reweigh(g.adj[a], b, w)][b := Reweigh(g.adj[b], a, w)], g.edges))
  }

  lemma SetValid<T(!new)>(g: Graph<T>, a: T, b: T, w: real)
    requires Valid(g) && Adjacent(g, a, b)
    ensures var r := Graph(g.verts, g.adj[a := Reweigh(g.adj[a], b, w)][b := Reweigh(g.adj[b], a, w)], g.edges);
      && Valid(r)
      && (forall x, y :: Adjacent(r, x, y) <==> Adjacent(g, x, y))
      && (forall x, y | Adjacent(g, x, y) :: Weight(r, x, y) == if (x == a && y == b) || (x == b && y == a) then w else Weight(g, x, y))
  {
    assert Adjacent(g, b, a);
    var r := Graph(g.verts, g.adj[a := Reweigh(g.adj[a], b, w)][b := Reweigh(g.adj[b], a, w)], g.edges);
    forall x, y | Adjacent(g, x, y)
      ensures Adjacent(r, x, y)
      ensures Weight(r, x, y) == if (x == a && y == b) || (x == b && y == a) then w else Weight(g, x, y)
    {
    }
    Recount(g, a, Reweigh(g.adj[a], b, w), b, Reweigh(g.adj[b], a, w), g.edges);
  }

  /** `getPeso` after `setPeso` gives the new weight from either end. */
  lemma GetAfterSet<T(!new)>(g: Graph<T>, a: T, b: T, w: real)
    requires Valid(g) && SetWeight(g, a, b, w).Ok?
    ensures GetWeight(SetWeight(g, a, b, w).value, a, b) == Ok(w)
    ensures GetWeight(SetWeight(g, a, b, w).value, b, a) == Ok(w)
  {
    SetValid(g, a, b, w);
  }

  // ---------------------------------------------------------------- removing vertices

  /**
   * The loop of `elimina` over the neighbour list `ns` of `x`: the edge to
   * each neighbour goes in turn, taking `x` out of the neighbour's list.
   */
  function Detach<T(==,!new)>(g: Graph<T>, x: T, ns: seq<T>): (r: Graph<T>)
    requires Valid(g) && x in g.adj && Nbrs(g, x) == ns
    ensures Valid(r) && r.verts == g.verts && x in r.adj && Nbrs(r, x) == []
    ensures r.edges == g.edges - |ns|
    ensures forall v | v in g.adj && v != x :: v in r.adj && Nbrs(r, v) == Without(Nbrs(g, v), x)
    decreases |ns|
  {
    if |ns| == 0 then g
    else
      var h := Unlink(g, x, ns[0]);
      assert Without(ns, ns[0]) == ns[1..] by {
        assert ns[0] !in ns[1..];
      }
      var r := Detach(h, x, ns[1..]);
      assert forall v | v in g.adj && v != x && v != ns[0] :: x !in Nbrs(g, v) ==> Without(Nbrs(g, v), x) == Nbrs(g, v);
      assert x !in Without(Nbrs(g, ns[0]), x);
      r
  }

  /**
   * `elimina(elemento)`: NoSuchElement for an element not in the graph;
   * otherwise every edge at the vertex goes (one edge fewer per neighbour)
   * and then the vertex itself. Practicas 10 (lines 293-302) and 12 (lines
   * 289-296) do the same.
   */
  function Remove<T(==,!new)>(g: Graph<T>, x: T): (r: Result<Graph<T>>)
    requires Valid(g)
    ensures r.Err? <==> x !in g.verts
    ensures r.Err? ==> r.error == NoSuchElement
    ensures r.Ok? ==> (
      && Valid(r.value) && r.value.verts == Without(g.verts, x)
      && r.value.edges == g.edges - |Nbrs(g, x)|
      && forall v | v in g.adj && v != x :: v in r.value.adj && Nbrs(r.value, v) == Without(Nbrs(g, v), x))
  {
    if x !in g.verts then Err(NoSuchElement)
    else
      var h := Detach(g, x, Nbrs(g, x));
      RemoveValid(h, x);
      Ok(Graph(Without(h.verts, x), h.adj - {x}, h.edges))
  }

  lemma RemoveValid<T(!new)>(h: Graph<T>, x: T)
    requires Valid(h) && x in h.adj && Nbrs(h, x) == []
    ensures Valid(Graph(Without(h.verts, x), h.adj - {x}, h.edges))
  {
    var r := Graph(Without(h.verts, x), h.adj - {x}, h.edges);
    forall v, u | v in r.adj && u in Nbrs(r, v)
      ensures Adjacent(r, u, v) && Weight(r, u, v) == Weight(r, v, u)
    {
      assert u != x;
    }
    DegreesWithout(h.adj, h.verts, x);
  }

  /** `limpia`: no vertices and no edges left. */
  function Clear<T(==,!new)>(g: Graph<T>): (r: Graph<T>)
    ensures Valid(r) && |r.verts| == 0 && r.edges == 0
  {
    Empty()
  }

  // ---------------------------------------------------------------- round trips

  /** Adding an element and removing it again gives back the graph. */
  lemma RemoveAfterAdd<T(!new)>(g: Graph<T>, x: T)
    requires Valid(g) && x !in g.verts
    ensures Add(g, Some(x)).Ok? && Remove(Add(g, Some(x)).value, x) == Ok(g)
  {
    var h := Graph(g.verts + [x], g.adj[x := []], g.edges);
    assert Add(g, Some(x)) == Ok(h);
    RemoveIsolated(h, x);
    WithoutAppend(g.verts, x);
    assert x !in g.adj;
    MapRestore(g.adj, x, []);
  }

  /** Removing a vertex without edges leaves the rest as it was. */
  lemma RemoveIsolated<T(!new)>(h: Graph<T>, x: T)
    requires Valid(h) && x in h.verts && Nbrs(h, x) == []
    ensures Remove(h, x) == Ok(Graph(Without(h.verts, x), h.adj - {x}, h.edges))
  {
    assert Detach(h, x, Nbrs(h, x)) == h;
  }

  lemma WithoutAppend<T(!new)>(s: seq<T>, x: T)
    requires x !in s
    ensures Without(s + [x], x) == s
  {
    WithoutConcat(s, [x], x);
    assert Without([x], x) == [];
  }

  lemma MapRestore<K(!new), V>(m: map<K, V>, x: K, v: V)
    requires x !in m
    ensures m[x := v] - {x} == m
  {
  }

  /** Connecting two vertices and disconnecting them again gives back the graph. */
  lemma DisconnectAfterConnect<T(!new)>(g: Graph<T>, a: T, b: T, w: real)
    requires Valid(g) && Connect10(g, a, b, w).Ok?
    ensures Disconnect(Connect10(g, a, b, w).value, a, b) == Ok(g)
  {
    var h := Link(g, a, b, w);
    assert Connect10(g, a, b, w) == Ok(h);
    assert Disconnect(h, a, b) == Ok(Unlink(h, a, b));
    assert !Adjacent(g, b, a);
    DropAppended(g.adj[a], Nbr(b, w));
    DropAppended(g.adj[b], Nbr(a, w));
    MapRestore2(g.adj, a, g.adj[a] + [Nbr(b, w)], b, g.adj[b] + [Nbr(a, w)]);
  }

  lemma MapRestore2<K(!new), V>(m: map<K, V>, a: K, va: V, b: K, vb: V)
    requires a in m && b in m && a != b
    ensures m[a := va][b := vb][a := m[a]][b := m[b]] == m
  {
  }

  lemma DropAppended<T(!new)>(ns: seq<Nbr<T>>, e: Nbr<T>)
    requires e.to !in Targets(ns)
    ensures e.to in Targets(ns + [e]) && Drop(ns + [e], e.to) == ns
  {
    IndexOfAppend(ns, e);
  }

  /** After `conecta` the two are neighbours, and after `desconecta` they are not. */
  lemma NeighboursAfterConnect<T(!new)>(g: Graph<T>, a: T, b: T, w: real)
    requires Valid(g) && Connect12(g, a, b, w).Ok?
    ensures Neighbours(Connect12(g, a, b, w).value, a, b) == Ok(true)
    ensures Disconnect(Connect12(g, a, b, w).value, a, b).Ok?
    ensures Neighbours(Disconnect(Connect12(g, a, b, w).value, a, b).value, a, b) == Ok(false)
  {
  }
}

=== FILE: hashes.dfy ===
/**
 * Hash functions over byte keys (`Dispersores`): XOR folding, Daniel J.
 * Bernstein's hash and Bob Jenkins' hash (the lookup2 design). Java's `int`
 * is a 32-bit two's-complement word whose addition, subtraction and shifts
 * wrap around, which is exactly `bv32` arithmetic; `>>>` is the logical
 * shift `>>` on `bv32`. A key is the sequence of its bytes, each read
 * unsigned (`& 0xFF`).
 */
module Hashes {

  /** The byte at `i`, or zero past the end of the key. */
  function ByteAt(key: seq<bv8>, i: int): bv8 {
    if 0 <= i < |key| then key[i] else 0
  }

  /** The byte at `i` widened to a word, zero past the end: the source's `llave[i] & 0xFF`. */
  function Lane(key: seq<bv8>, i: int): bv32 {
    ByteAt(key, i) as bv32
  }

  // ---------------------------------------------------------------- XOR

  /** Four bytes as a word, the first one most significant. */
  function BigEndian(a: bv8, b: bv8, c: bv8, d: bv8): bv32 {
    (a as bv32 << 24) | (b as bv32 << 16) | (c as bv32 << 8) | d as bv32
  }

  /** The four bytes from `i` on, most significant first, zeros past the end. */
  function BigWord(key: seq<bv8>, i: int): bv32 {
    BigEndian(ByteAt(key, i), ByteAt(key, i + 1), ByteAt(key, i + 2), ByteAt(key, i + 3))
  }

  /** The source's `^` on words. */
  function Xor(p: bv32, q: bv32): bv32 {
    p ^ q
  }

  lemma XorAssoc(p: bv32, q: bv32, r: bv32)
    ensures Xor(p, Xor(q, r)) == Xor(Xor(p, q), r)
  {
  }

  lemma XorUnits(p: bv32)
    ensures Xor(0, p) == p && Xor(p, 0) == p && Xor(p, p) == 0
  {
  }

  /**
   * The XOR of the big-endian words of the 4-byte blocks, a shorter last
   * block being padded with zero bytes on the right.
   */
  function XorFold(key: seq<bv8>): bv32
    decreases |key|
  {
    if |key| <= 4 then BigWord(key, 0) else Xor(BigWord(key, 0), XorFold(key[4..]))
  }

  /** Placing one more byte into a zero lane of the tail word, from the last lane up. */
  lemma Lane2(c: bv8)
    ensures BigEndian(0, 0, 0, 0) | (c as bv32 << 8) == BigEndian(0, 0, c, 0)
  {
  }

  lemma Lane1(b: bv8, c: bv8)
    ensures BigEndian(0, 0, c, 0) | (b as bv32 << 16) == BigEndian(0, b, c, 0)
  {
  }

  lemma Lane0(a: bv8, b: bv8, c: bv8)
    ensures BigEndian(0, b, c, 0) | (a as bv32 << 24) == BigEndian(a, b, c, 0)
  {
  }

  /** The trailing bytes of a key, `n` to the end, fewer than four, as the tail loop leaves them in `t`. */
  method XorTail(key: seq<bv8>, n: nat) returns (t: bv32)
    requires n <= |key| < n + 4
    ensures t == BigWord(key, n)
  {
    t := 0;
    var m0 := |key| - n;
    var m := m0;
    while m > 0
      invariant 0 <= m <= m0
      invariant t == BigEndian(if m <= 0 < m0 then key[n] else 0,
                               if m <= 1 < m0 then key[n + 1] else 0,
                               if m <= 2 < m0 then key[n + 2] else 0, 0)
    {
      m := m - 1;
      var b := key[n + m];
      if m == 2 {
        Lane2(b);
      } else if m == 1 {
        Lane1(b, if 2 < m0 then key[n + 2] else 0);
      } else {
        Lane0(b, if 1 < m0 then key[n + 1] else 0, if 2 < m0 then key[n + 2] else 0);
      }
      t := t | (b as bv32 << (8 * (3 - m)));
    }
  }

  /**
   * `dispersaXOR`: XORs the word of every full block into `r`, then ORs the
   * trailing bytes into `t` from the last one back, the byte at offset `m`
   * of the tail going to bits `8 * (3 - m)` and up.
   */
  method XorHash(key: seq<bv8>) returns (h: bv32)
    ensures h == XorFold(key)
  {
    var r: bv32 := 0;
    var m := |key|;
    var n := 0;
    XorUnits(XorFold(key));
    assert key[0..] == key;
    while m >= 4
      invariant 0 <= n <= |key| && m == |key| - n
      invariant XorFold(key) == Xor(r, XorFold(key[n..]))
    {
      XorBlock(key, n);
      XorAssoc(r, BigWord(key, n), XorFold(key[n + 4..]));
      r := Xor(r, BigWord(key, n));
      m, n := m - 4, n + 4;
    }
    var t := XorTail(key, n);
    XorShort(key, n);
    h := Xor(r, t);
  }

  /** The words of a suffix are the words of the key further on. */
  lemma BigWordSuffix(key: seq<bv8>, n: nat)
    requires n <= |key|
    ensures BigWord(key[n..], 0) == BigWord(key, n)
  {
    assert ByteAt(key[n..], 0) == ByteAt(key, n);
    assert ByteAt(key[n..], 1) == ByteAt(key, n + 1);
    assert ByteAt(key[n..], 2) == ByteAt(key, n + 2);
    assert ByteAt(key[n..], 3) == ByteAt(key, n + 3);
  }

  /** The fold of a suffix holding at least a block: the block's word and the fold of what follows. */
  lemma XorBlock(key: seq<bv8>, n: nat)
    requires n + 4 <= |key|
    ensures XorFold(key[n..]) == Xor(BigWord(key, n), XorFold(key[n + 4..]))
  {
    assert key[n..][4..] == key[n + 4..];
    BigWordSuffix(key, n);
    if |key| - n == 4 {
      assert key[n + 4..] == [];
      XorUnits(BigWord(key, n));
    }
  }

  /** The fold of a suffix shorter than a block: its zero-padded word. */
  lemma XorShort(key: seq<bv8>, n: nat)
    requires n <= |key| < n + 4
    ensures XorFold(key[n..]) == BigWord(key, n)
  {
    BigWordSuffix(key, n);
  }

  /** A word of zero bytes is zero. */
  lemma ZeroWord()
    ensures BigEndian(0, 0, 0, 0) == 0
  {
  }

  /** A key of zero bytes, the empty key included, hashes to 0. */
  lemma {:induction false} XorZeros(z: seq<bv8>)
    requires forall i | 0 <= i < |z| :: z[i] == 0
    ensures XorFold(z) == 0
    decreases |z|
  {
    assert ByteAt(z, 0) == 0 && ByteAt(z, 1) == 0 && ByteAt(z, 2) == 0 && ByteAt(z, 3) == 0;
    ZeroWord();
    if |z| > 4 {
      XorZeros(z[4..]);
      XorUnits(0);
    }
  }

  /** The first word of a key with something appended, when the key holds at least a block or the rest is zeros. */
  lemma FirstWord(a: seq<bv8>, b: seq<bv8>)
    requires |a| >= 4 || forall i | 0 <= i < |b| :: b[i] == 0
    ensures BigWord(a + b, 0) == BigWord(a, 0)
  {
    var ab := a + b;
    assert ByteAt(ab, 0) == ByteAt(a, 0);
    assert ByteAt(ab, 1) == ByteAt(a, 1);
    assert ByteAt(ab, 2) == ByteAt(a, 2);
    assert ByteAt(ab, 3) == ByteAt(a, 3);
  }

  /** Folding is blockwise: a whole number of blocks followed by anything hashes to the XOR of the two hashes. */
  lemma {:induction false} XorConcat(a: seq<bv8>, b: seq<bv8>)
    requires |a| % 4 == 0
    ensures XorFold(a + b) == Xor(XorFold(a), XorFold(b))
    decreases |a|
  {
    if |a| == 0 {
      assert a + b == b;
      XorZeros(a);
      XorUnits(XorFold(b));
    } else {
      var ab := a + b;
      XorBlock(ab, 0);
      assert ab[0..] == ab && ab[4..] == a[4..] + b;
      FirstWord(a, b);
      XorConcat(a[4..], b);
      XorBlock(a, 0);
      assert a[0..] == a;
      XorAssoc(BigWord(a, 0), XorFold(a[4..]), XorFold(b));
    }
  }

  /** Zero bytes at the end of a key never change its hash. */
  lemma {:induction false} XorPadding(key: seq<bv8>, pad: seq<bv8>)
    requires forall i | 0 <= i < |pad| :: pad[i] == 0
    ensures XorFold(key + pad) == XorFold(key)
    decreases |key|
  {
    var kp := key + pad;
    if |key| > 4 {
      FirstWord(key, pad);
      assert kp[4..] == key[4..] + pad;
      XorPadding(key[4..], pad);
    } else {
      FirstWord(key, pad);
      if |kp| > 4 {
        XorZeros(kp[4..]);
        XorUnits(BigWord(key, 0));
      }
    }
  }

  /** A key made of the same whole blocks twice hashes to 0. */
  lemma XorTwice(a: seq<bv8>)
    requires |a| % 4 == 0
    ensures XorFold(a + a) == 0
  {
    XorConcat(a, a);
    XorUnits(XorFold(a));
  }

  // ---------------------------------------------------------------- DJB

  /** The source's step `k += (k << 5) + b`: multiplying by 33 and adding the byte. */
  function DjbStep(k: bv32, b: bv8): bv32 {
    k + (k << 5) + b as bv32
  }

  /** Shifting left by five and adding is multiplying by 33. */
  lemma ShiftIsTimes33(k: bv32)
    ensures k + (k << 5) == k * 33
  {
  }

  /** Bernstein's recurrence from seed `k`, applied to the bytes from the first to the last. */
  function DjbFrom(k: bv32, key: seq<bv8>): bv32
    decreases |key|
  {
    if |key| == 0 then k else DjbStep(DjbFrom(k, key[..|key| - 1]), key[|key| - 1])
  }

  /** The Bernstein hash of a key: the recurrence from 5381. */
  function Djb(key: seq<bv8>): bv32 {
    DjbFrom(5381, key)
  }

  /** `dispersaDJB`: `k` starts at 5381 and every byte, from the first on, takes one step. */
  method DjbHash(key: seq<bv8>) returns (k: bv32)
    ensures k == Djb(key)
  {
    k := 5381;
    var i := 0;
    while i < |key|
      invariant 0 <= i <= |key| && k == Djb(key[..i])
    {
      assert key[..i + 1][..i] == key[..i];
      k := DjbStep(k, key[i]);
      i := i + 1;
    }
    assert key[..i] == key;
  }

  /** The hash of a key depends on a prefix only through the prefix's hash. */
  lemma {:induction false} DjbChain(k: bv32, a: seq<bv8>, b: seq<bv8>)
    ensures DjbFrom(k, a + b) == DjbFrom(DjbFrom(k, a), b)
    decreases |b|
  {
    if |b| == 0 {
      assert a + b == a;
    } else {
      assert (a + b)[..|a + b| - 1] == a + b[..|b| - 1];
      DjbChain(k, a, b[..|b| - 1]);
    }
  }

  // ---------------------------------------------------------------- Bob Jenkins

  /** The three words of Bob Jenkins' hash. */
  datatype Triple = Triple(x: bv32, y: bv32, z: bv32)

  /**
   * Step `i`, 1 to 9, of `mezcla`: one word is taken down by the other two
   * and XOR-ed with a shift of the word changed last; `x`, `y` and `z` take
   * turns, with shifts 13, 8, 13, 12, 16, 5, 3, 10 and 15, right for
   * `x` and `z` (`>>>`) and left for `y`.
   */
  function MixStep(s: Triple, i: nat): Triple {
    var x, y, z := s.x, s.y, s.z;
    if i == 1 then s.(x := (x - y - z) ^ (z >> 13))
    else if i == 2 then s.(y := (y - z - x) ^ (x << 8))
    else if i == 3 then s.(z := (z - x - y) ^ (y >> 13))
    else if i == 4 then s.(x := (x - y - z) ^ (z >> 12))
    else if i == 5 then s.(y := (y - z - x) ^ (x << 16))
    else if i == 6 then s.(z := (z - x - y) ^ (y >> 5))
    else if i == 7 then s.(x := (x - y - z) ^ (z >> 3))
    else if i == 8 then s.(y := (y - z - x) ^ (x << 10))
    else if i == 9 then s.(z := (z - x - y) ^ (y >> 15))
    else s
  }

  /** The first `n` steps of `mezcla`. */
  function MixSteps(s: Triple, n: nat): Triple {
    if n == 0 then s else MixStep(MixSteps(s, n - 1), n)
  }

  /** `mezcla`: all nine steps. */
  function Mix(s: Triple): Triple {
    MixSteps(s, 9)
  }

  const Golden: bv32 := 0x9e3779b9

  /** The starting state: the golden ratio twice, and all ones. */
  const Start: Triple := Triple(Golden, Golden, 0xFFFF_FFFF)

  /** The four bytes from `i` on as a little-endian word, summed as the source sums them. */
  function LittleWord(key: seq<bv8>, i: int): bv32 {
    Lane(key, i) + (Lane(key, i + 1) << 8) + (Lane(key, i + 2) << 16) + (Lane(key, i + 3) << 24)
  }

  /** One block from `k` absorbed: its three little-endian words added, then a mix. */
  function AbsorbBlock(s: Triple, key: seq<bv8>, k: int): Triple {
    Mix(Triple(s.x + LittleWord(key, k), s.y + LittleWord(key, k + 4), s.z + LittleWord(key, k + 8)))
  }

  /** Absorbing every full 12-byte block from `k` on. */
  function Absorb(s: Triple, key: seq<bv8>, k: nat): Triple
    decreases |key| - k
  {
    if |key| - k < 12 then s else Absorb(AbsorbBlock(s, key, k), key, k + 12)
  }

  /** Where the full blocks end. */
  function BlocksEnd(key: seq<bv8>): (e: nat)
    ensures e <= |key| < e + 12 && e % 12 == 0
  {
    |key| - |key| % 12
  }

  /** The source's `z += llave.length`. */
  function AddLength(s: Triple, n: nat): Triple {
    s.(z := s.z + Length32(n))
  }

  lemma BlocksEndAt(key: seq<bv8>, k: nat)
    requires k % 12 == 0 && k <= |key| < k + 12
    ensures BlocksEnd(key) == k
  {
  }

  /** Java's `int` value of a length, wrapped to 32 bits. */
  function Length32(n: nat): bv32 {
    (n % 0x1_0000_0000) as bv32
  }

  /** The word a case adds to: `z` for cases 9 to 11, `y` for 5 to 8, `x` for 1 to 4. */
  function Word(c: nat): (w: nat)
    ensures w <= 2
  {
    if c >= 9 then 2 else if c >= 5 then 1 else 0
  }

  /** How far a case shifts its byte: 24, 16, 8 or 0 in `x` and `y`, and 24, 16 or 8 in `z`, whose low byte took the length. */
  function Shift(c: nat): bv5 {
    if c == 11 || c == 8 || c == 4 then 24
    else if c == 10 || c == 7 || c == 3 then 16
    else if c == 9 || c == 6 || c == 2 then 8
    else 0
  }

  function Get(s: Triple, w: nat): bv32 {
    if w == 0 then s.x else if w == 1 then s.y else s.z
  }

  function Put(s: Triple, w: nat, v: bv32): Triple {
    if w == 0 then s.(x := v) else if w == 1 then s.(y := v) else s.(z := v)
  }

  /** Adding `b`, shifted as case `c` shifts, to the word case `c` adds to. */
  function AddLane(s: Triple, c: nat, b: bv32): Triple {
    Put(s, Word(c), Get(s, Word(c)) + (b << Shift(c)))
  }

  /** `case c:` of the final `switch`, for `c` from 11 down to 1: byte `k + c - 1` added to its word and lane. */
  function Case(key: seq<bv8>, k: int, c: nat, s: Triple): Triple {
    AddLane(s, c, Lane(key, k + c - 1))
  }

  /** `switch (c)` without a `break` before case 1: enters at case `c` and falls through every lower case. */
  function Switch(key: seq<bv8>, k: int, c: nat, s: Triple): Triple {
    if c == 0 then s else Switch(key, k, c - 1, Case(key, k, c, s))
  }

  /**
   * The last additions over the rest of the key padded with zero bytes to
   * eleven: the length into `z`, then every case from 11 down.
   */
  function Finish(s: Triple, key: seq<bv8>, k: int): Triple {
    Switch(key, k, 11, AddLength(s, |key|))
  }

  /** Bob Jenkins' hash of a key: the blocks absorbed, the length and the rest added, a last mix, its third word. */
  function Bj(key: seq<bv8>): bv32 {
    Mix(Finish(Absorb(Start, key, 0), key, BlocksEnd(key))).z
  }

  /** Adding a zero byte changes nothing. */
  lemma AddLaneZero(s: Triple, c: nat, b: bv32)
    requires b == 0
    ensures AddLane(s, c, b) == s
  {
  }

  /** A case whose byte lies past the end of the key changes nothing. */
  lemma CaseZero(key: seq<bv8>, k: int, c: nat, s: Triple)
    requires 1 <= c && k + c > |key|
    ensures Case(key, k, c, s) == s
  {
    AddLaneZero(s, c, Lane(key, k + c - 1));
  }

  /**
   * The fall-through adds exactly the bytes the key has: entering at any
   * case from the number of bytes left up to 11 gives the same state, the
   * missing bytes counting as zeros.
   */
  lemma {:induction false} SwitchPadded(key: seq<bv8>, k: int, c: nat, s: Triple)
    requires k <= |key| && |key| - k <= c <= 11
    ensures Switch(key, k, c, s) == Switch(key, k, |key| - k, s)
    decreases c
  {
    if c > |key| - k {
      CaseZero(key, k, c, s);
      SwitchPadded(key, k, c - 1, s);
    }
  }

  /**
   * `dispersaBJ`: absorbs 12-byte blocks while at least 12 bytes are left,
   * adds the key's length to `z` and the remaining bytes through the
   * `switch`, mixes once more and returns `z`.
   */
  method BjHash(key: seq<bv8>) returns (h: bv32)
    ensures h == Bj(key)
  {
    var k, l := 0, |key|;
    var s := Start;
    while l >= 12
      invariant 0 <= k <= |key| && k + l == |key| && k % 12 == 0
      invariant Absorb(Start, key, 0) == Absorb(s, key, k)
    {
      s := AbsorbBlock(s, key, k);
      l, k := l - 12, k + 12;
    }
    assert Absorb(s, key, k) == s;
    BlocksEndAt(key, k);
    s := AddLength(s, |key|);
    var t := Switch(key, k, l, s);
    SwitchPadded(key, k, 11, s);
    assert Finish(Absorb(Start, key, 0), key, BlocksEnd(key)) == t;
    h := Mix(t).z;
  }

  /** Keys shorter than a block are not absorbed: one mix of the padded words. */
  lemma BjShort(key: seq<bv8>)
    requires |key| < 12
    ensures Bj(key) == Mix(Finish(Start, key, 0)).z
  {
    assert Absorb(Start, key, 0) == Start;
    assert BlocksEnd(key) == 0;
  }
}

=== FILE: heap.dfy ===
/**
 * Minimum heaps (`MonticuloMinimo`): a complete binary tree stored level by
 * level in an array, every vertex's key at most its children's keys. The
 * elements are indexable: each one records its own position in the array
 * (`getIndice`/`setIndice`), which the heap keeps up to date so that an
 * element whose key dropped can be moved to its place (`reordena`, used by
 * Dijkstra's algorithm).
 *
 * An element is its identity (Java object identity: neither the adapters nor
 * the graph vertices redefine `equals`) and its key (what `compareTo`
 * compares). The heap is the used part of the array, the index field of
 * every element it has ever held, and the length of the backing array.
 */
module MinHeap {
  import opened Wrappers
  import OrderedTree
  import Lists

  datatype Elem = Elem(id: int, key: int)

  /**
   * `arr` is `arbol[0..elementos)`; `index[id]` is the index field of the
   * element with that identity; `capacity` is `arbol.length`.
   */
  datatype Heap = Heap(arr: seq<Elem>, index: map<int, int>, capacity: nat)

  /** The parent of a position other than the root: one of its two children is `c`. */
  function Parent(c: nat): (p: nat)
    requires c > 0
    ensures p < c && (c == 2 * p + 1 || c == 2 * p + 2)
  {
    (c - 1) / 2
  }

  /** Every position whose parent is at or after `lo` has a key at least its parent's. */
  ghost predicate HeapFrom(a: seq<Elem>, lo: nat) {
    forall c {:trigger Parent(c)} | 0 < c < |a| && Parent(c) >= lo :: a[Parent(c)].key <= a[c].key
  }

  /** The minimum-heap order. */
  ghost predicate HeapOrdered(a: seq<Elem>) {
    HeapFrom(a, 0)
  }

  /** Every element of the heap has its own position as its index field. */
  ghost predicate IndexOk(h: Heap) {
    forall k | 0 <= k < |h.arr| :: h.arr[k].id in h.index && h.index[h.arr[k].id] == k
  }

  /** What a heap keeps between operations. */
  ghost predicate Valid(h: Heap) {
    HeapOrdered(h.arr) && IndexOk(h) && |h.arr| <= h.capacity
  }

  /** No identity occurs twice. */
  ghost predicate DistinctIds(a: seq<Elem>) {
    forall x, y | 0 <= x < y < |a| :: a[x].id != a[y].id
  }

  /** The keys, position by position. */
  function Keys(a: seq<Elem>): (r: seq<int>)
    ensures |r| == |a| && forall k | 0 <= k < |a| :: r[k] == a[k].key
  {
    seq(|a|, k requires 0 <= k < |a| => a[k].key)
  }

  /** `getIndice`: an element that was never given a position (a fresh adapter) answers -1. */
  function IndexOf(h: Heap, id: int): int {
    if id in h.index then h.index[id] else -1
  }

  /** Consistent index fields make every identity occur at most once. */
  lemma IndexOkDistinct(h: Heap)
    requires IndexOk(h)
    ensures DistinctIds(h.arr)
  {
  }

  /**
   * `contiene`: some element of the heap is this one. With consistent index
   * fields this is exactly "the element's index field names a position that
   * holds it".
   */
  predicate Contains(h: Heap, id: int)
    ensures IndexOk(h) ==> (Contains(h, id) <==> 0 <= IndexOf(h, id) < |h.arr| && h.arr[IndexOf(h, id)].id == id)
  {
    exists k | 0 <= k < |h.arr| :: h.arr[k].id == id
  }

  /**
   * `intercambia(i, j)`: exchanges two positions; the element leaving `i`
   * gets index `j`, then the one leaving `j` gets index `i`.
   */
  function Swap(h: Heap, i: nat, j: nat): (r: Heap)
    requires i < |h.arr| && j < |h.arr|
    ensures |r.arr| == |h.arr| && r.arr[i] == h.arr[j] && r.arr[j] == h.arr[i]
    ensures forall k | 0 <= k < |h.arr| && k != i && k != j :: r.arr[k] == h.arr[k]
    ensures multiset(r.arr) == multiset(h.arr) && r.capacity == h.capacity
    ensures IndexOk(h) ==> IndexOk(r)
  {
    Heap(h.arr[i := h.arr[j]][j := h.arr[i]], h.index[h.arr[i].id := j][h.arr[j].id := i], h.capacity)
  }

  /**
   * The position `monticuloMin(i)` picks: the left child if its key is below
   * `i`'s, then the right child if its key is below that; a least key among
   * `i` and its children, and `i` itself unless a child is strictly smaller.
   */
  function LeastOf(a: seq<Elem>, i: nat): (m: nat)
    requires i < |a|
    ensures m < |a| && (m == i || (m > 0 && Parent(m) == i))
    ensures a[m].key <= a[i].key && (m != i ==> a[m].key < a[i].key)
    ensures forall c | 0 < c < |a| && Parent(c) == i :: a[m].key <= a[c].key
  {
    var n := |a|;
    var m := if 2 * i + 1 < n && a[2 * i + 1].key < a[i].key then 2 * i + 1 else i;
    if 2 * i + 2 < n && a[2 * i + 2].key < a[m].key then 2 * i + 2 else m
  }

  /**
   * `monticuloMin(i)`: while a child has a smaller key, exchange `i` with the
   * child of least key (the left one on a tie) and continue there.
   */
  function SiftDown(h: Heap, i: nat): (r: Heap)
    ensures |r.arr| == |h.arr| && multiset(r.arr) == multiset(h.arr) && r.capacity == h.capacity
    ensures IndexOk(h) ==> IndexOk(r)
    decreases |h.arr| - i
  {
    var n := |h.arr|;
    if n <= i then h
    else
      var m := LeastOf(h.arr, i);
      if m == i then h else SiftDown(Swap(h, m, i), m)
  }

  /**
   * `recorreArriba(i)`: while the parent has a larger key, exchange the two
   * and continue at the parent. At the root Java computes the parent
   * `(0 - 1) / 2` as 0 (division truncates), compares the root with itself
   * and stops.
   */
  function SiftUp(h: Heap, i: nat): (r: Heap)
    requires i < |h.arr|
    ensures |r.arr| == |h.arr| && multiset(r.arr) == multiset(h.arr) && r.capacity == h.capacity
    ensures IndexOk(h) ==> IndexOk(r)
    decreases i
  {
    if i == 0 then h
    else if h.arr[Parent(i)].key > h.arr[i].key then SiftUp(Swap(h, Parent(i), i), Parent(i))
    else h
  }

  /** Only the pairs between `i` and its children may be out of order, counting pairs whose parent is at or after `lo`. */
  ghost predicate AlmostBelow(a: seq<Elem>, i: nat, lo: nat) {
    && (forall c {:trigger Parent(c)} | 0 < c < |a| && Parent(c) >= lo && Parent(c) != i :: a[Parent(c)].key <= a[c].key)
    && (i > 0 && Parent(i) >= lo ==> forall c | 0 < c < |a| && Parent(c) == i :: a[Parent(i)].key <= a[c].key)
  }

  /** Only the pair between `i` and its parent may be out of order. */
  ghost predicate AlmostAbove(a: seq<Elem>, i: nat) {
    && (forall c {:trigger Parent(c)} | 0 < c < |a| && c != i :: a[Parent(c)].key <= a[c].key)
    && (i > 0 ==> forall c | 0 < c < |a| && Parent(c) == i :: a[Parent(i)].key <= a[c].key)
  }

  /**
   * One exchange of `monticuloMin`: `i` with a least child `m` whose key is
   * smaller. Afterwards only the pairs below `m` may be out of order.
   */
  lemma SiftDownStep(a: seq<Elem>, i: nat, m: nat, lo: nat)
    requires lo <= i < m < |a| && Parent(m) == i && a[m].key < a[i].key
    requires forall c | 0 < c < |a| && Parent(c) == i :: a[m].key <= a[c].key
    requires AlmostBelow(a, i, lo)
    ensures AlmostBelow(a[m := a[i]][i := a[m]], m, lo)
  {
    var b := a[m := a[i]][i := a[m]];
    forall c | 0 < c < |a| && Parent(c) >= lo && Parent(c) != m
      ensures b[Parent(c)].key <= b[c].key
    {
      if c == m {
      } else if Parent(c) == i {
      } else if c == i {
      } else {
        assert b[c] == a[c] && b[Parent(c)] == a[Parent(c)];
      }
    }
    forall c | 0 < c < |a| && Parent(c) == m
      ensures b[Parent(m)].key <= b[c].key
    {
      assert b[c] == a[c];
    }
  }

  /** `monticuloMin(i)` repairs a heap that is out of order only below `i`. */
  lemma {:induction false} SiftDownRestores(h: Heap, i: nat, lo: nat)
    requires lo <= i && AlmostBelow(h.arr, i, lo)
    ensures HeapFrom(SiftDown(h, i).arr, lo)
    decreases |h.arr| - i
  {
    var a, n := h.arr, |h.arr|;
    if i < n {
      var m := LeastOf(a, i);
      if m != i {
        var h' := Swap(h, m, i);
        assert SiftDown(h, i) == SiftDown(h', m);
        assert h'.arr == a[m := a[i]][i := a[m]];
        SiftDownStep(a, i, m, lo);
        SiftDownRestores(h', m, lo);
      } else {
        assert SiftDown(h, i) == h;
      }
    }
  }

  /** `recorreArriba(i)` repairs a heap that is out of order only above `i`. */
  lemma {:induction false} SiftUpRestores(h: Heap, i: nat)
    requires i < |h.arr| && AlmostAbove(h.arr, i)
    ensures HeapOrdered(SiftUp(h, i).arr)
    decreases i
  {
    var a, n := h.arr, |h.arr|;
    if i > 0 && a[Parent(i)].key > a[i].key {
      var p := Parent(i);
      var h' := Swap(h, p, i);
      var b := h'.arr;
      forall c | 0 < c < n && c != p
        ensures b[Parent(c)].key <= b[c].key
      {
        if c == i {
        } else if Parent(c) == p {
        } else if Parent(c) == i {
        } else {
          assert b[c] == a[c] && b[Parent(c)] == a[Parent(c)];
        }
      }
      if p > 0 {
        forall c | 0 < c < n && Parent(c) == p
          ensures b[Parent(p)].key <= b[c].key
        {
          assert b[Parent(p)] == a[Parent(p)];
        }
      }
      SiftUpRestores(h', p);
    }
  }

  /** On a heap, `monticuloMin` moves nothing. */
  lemma {:induction false} SiftDownOnHeap(h: Heap, i: nat)
    requires HeapOrdered(h.arr)
    ensures SiftDown(h, i) == h
  {
    if i < |h.arr| {
      var m := LeastOf(h.arr, i);
      if m != i {
        assert false;
      }
    }
  }

  /**
   * Putting any element at position `i` of a heap and running `recorreArriba(i)`
   * then `monticuloMin(i)` gives a heap again: either the element moves up
   * and the second pass finds nothing to do, or it stays and the second pass
   * moves it down.
   */
  lemma {:induction false} ReplaceRestores(h: Heap, i: nat, v: Elem)
    requires HeapOrdered(h.arr) && i < |h.arr|
    ensures HeapOrdered(SiftDown(SiftUp(h.(arr := h.arr[i := v]), i), i).arr)
  {
    var a := h.arr;
    var h' := h.(arr := a[i := v]);
    var b := h'.arr;
    if i > 0 && b[Parent(i)].key > v.key {
      forall c | 0 < c < |b| && Parent(c) == i
        ensures b[i].key <= b[c].key && b[Parent(i)].key <= b[c].key
      {
        assert a[Parent(i)].key <= a[i].key;
      }
      assert AlmostAbove(b, i);
      SiftUpRestores(h', i);
      SiftDownOnHeap(SiftUp(h', i), i);
    } else {
      assert SiftUp(h', i) == h';
      if i > 0 {
        forall c | 0 < c < |b| && Parent(c) == i
          ensures b[Parent(i)].key <= b[c].key
        {
          assert a[Parent(i)].key <= a[i].key;
        }
      }
      assert AlmostBelow(b, i, 0);
      SiftDownRestores(h', i, 0);
    }
  }

  /** The root of a heap holds a least key. */
  lemma {:induction false} RootIsMin(a: seq<Elem>, k: nat)
    requires HeapOrdered(a) && k < |a|
    ensures a[0].key <= a[k].key
    decreases k
  {
    if k > 0 {
      RootIsMin(a, Parent(k));
    }
  }

  /**
   * The collection constructor: the elements in iteration order, each given
   * its position as index field, then `monticuloMin(j)` for `j` from
   * `(n - 1) / 2` down to 0. The backing array is exactly as long as the
   * collection.
   */
  method Build(xs: seq<Elem>) returns (h: Heap)
    ensures |h.arr| == |xs| && multiset(h.arr) == multiset(xs) && h.capacity == |xs|
    ensures HeapOrdered(h.arr)
    ensures DistinctIds(xs) ==> Valid(h)
  {
    var index: map<int, int> := map[];
    var i := 0;
    while i < |xs|
      invariant 0 <= i <= |xs|
      invariant DistinctIds(xs) ==> forall k | 0 <= k < i :: xs[k].id in index && index[xs[k].id] == k
    {
      index := index[xs[i].id := i];
      i := i + 1;
    }
    h := Heap(xs, index, |xs|);
    // Java's `(0 - 1) / 2` truncates to 0.
    var j: int := if |xs| == 0 then 0 else (|xs| - 1) / 2;
    while j >= 0
      invariant -1 <= j && |h.arr| == |xs| && multiset(h.arr) == multiset(xs) && h.capacity == |xs|
      invariant HeapFrom(h.arr, j + 1)
      invariant DistinctIds(xs) ==> IndexOk(h)
      decreases j
    {
      SiftDownRestores(h, j, j);
      h := SiftDown(h, j);
      j := j - 1;
    }
  }

  /** `padre(i)`: the parent of a used position other than the root, else -1. */
  function Padre(h: Heap, i: int): (p: int)
    ensures p == -1 || (0 < i < |h.arr| && p == Parent(i))
    ensures 0 < i < |h.arr| ==> p >= 0
  {
    if 0 < i < |h.arr| then (i - 1) / 2 else -1
  }

  /**
   * `actualiza(i)`: the loop form of `recorreArriba`, which does nothing for
   * a position outside the used part.
   */
  method Actualiza(h: Heap, i: int) returns (r: Heap)
    ensures r == if 0 <= i < |h.arr| then SiftUp(h, i) else h
  {
    if i < 0 {
      return h;
    }
    r := h;
    var j := i;
    var p := Padre(r, j);
    while 0 < j && 0 <= p && r.arr[j].key < r.arr[p].key
      invariant 0 <= j && |r.arr| == |h.arr| && p == Padre(r, j)
      invariant i < |h.arr| ==> j < |r.arr| && SiftUp(r, j) == SiftUp(h, i)
      invariant i >= |h.arr| ==> r == h && j == i
      decreases j
    {
      r := Swap(r, p, j);
      j := p;
      p := Padre(r, j);
    }
  }

  /**
   * `elimina(e)`: nothing happens for null, an empty heap, an element not in
   * the heap or one whose index field is outside the used part. Otherwise the
   * element is exchanged with the last one, the last position is dropped,
   * `actualiza` and `monticuloMin` repair the position it left, and its index
   * field becomes -1.
   */
  method Remove(h: Heap, e: Option<int>) returns (r: Heap)
    ensures e.None? || |h.arr| == 0 || !Contains(h, e.value) ==> r == h
    ensures Valid(h) && e.Some? && Contains(h, e.value) ==>
      && Valid(r) && |r.arr| == |h.arr| - 1 && r.capacity == h.capacity
      && multiset(r.arr) == multiset(h.arr) - multiset{h.arr[IndexOf(h, e.value)]}
      && IndexOf(r, e.value) == -1 && !Contains(r, e.value)
  {
    if e.None? || |h.arr| == 0 || !Contains(h, e.value) {
      return h;
    }
    var n := |h.arr|;
    var i := IndexOf(h, e.value);
    if i < 0 || n <= i {
      return h;
    }
    var t := Detached(h, i);
    var u := Actualiza(t, i);
    var w := SiftDown(u, i);
    r := w.(index := w.index[e.value := -1]);
    assert r == RemovedAt(h, i, e.value);
    if Valid(h) {
      RemovedAtFacts(h, i, e.value);
    }
  }

  /** The first half of `elimina(e)` for the element at `i`: exchanged with the last one, which is dropped. */
  function Detached(h: Heap, i: nat): (t: Heap)
    requires 0 <= i < |h.arr|
    ensures |t.arr| == |h.arr| - 1 && t.capacity == h.capacity
  {
    var s := Swap(h, i, |h.arr| - 1);
    Heap(s.arr[..|h.arr| - 1], s.index, s.capacity)
  }

  /** What `elimina(e)` leaves when the element with identity `id` sits at `i`. */
  function RemovedAt(h: Heap, i: nat, id: int): Heap
    requires 0 <= i < |h.arr|
  {
    var t := Detached(h, i);
    var u := if i < |t.arr| then SiftUp(t, i) else t;
    var w := SiftDown(u, i);
    w.(index := w.index[id := -1])
  }

  /** Detaching keeps the other elements, each with a consistent index field. */
  lemma DetachedFacts(h: Heap, i: nat)
    requires IndexOk(h) && i < |h.arr|
    ensures var t := Detached(h, i);
      && multiset(t.arr) == multiset(h.arr) - multiset{h.arr[i]}
      && IndexOk(t)
      && forall x | x in t.arr :: x.id != h.arr[i].id
  {
    var s := Swap(h, i, |h.arr| - 1);
    DetachedCount(h, i);
    DetachedIndex(h, i, s);
  }

  /** The detached array is the swapped one without its last element, `h.arr[i]`. */
  lemma DetachedCount(h: Heap, i: nat)
    requires i < |h.arr|
    ensures multiset(Detached(h, i).arr) == multiset(h.arr) - multiset{h.arr[i]}
  {
    var n := |h.arr|;
    assert Detached(h, i).arr == h.arr[i := h.arr[n - 1]][n - 1 := h.arr[i]][..n - 1];
    Lists.SwapDropLast(h.arr, i, n - 1);
  }

  /** The detached array keeps the swapped index, which still places `h.arr[i]` last. */
  lemma DetachedIndex(h: Heap, i: nat, s: Heap)
    requires IndexOk(h) && i < |h.arr| && s == Swap(h, i, |h.arr| - 1)
    ensures IndexOk(Detached(h, i))
    ensures forall x | x in Detached(h, i).arr :: x.id != h.arr[i].id
  {
    var n := |h.arr|;
    var t := Detached(h, i);
    assert IndexOk(s) && t.arr == s.arr[..n - 1] && t.index == s.index;
    PrefixIndex(s, n - 1);
    assert s.arr[n - 1] == h.arr[i];
  }

  /**
   * Cutting a consistently indexed array to a prefix keeps its index
   * consistent, and no element of the prefix shares an identity with one
   * after it.
   */
  lemma PrefixIndex(s: Heap, m: nat)
    requires IndexOk(s) && m <= |s.arr|
    ensures IndexOk(s.(arr := s.arr[..m]))
    ensures forall x, j | x in s.arr[..m] && m <= j < |s.arr| :: x.id != s.arr[j].id
  {
    forall x, j | x in s.arr[..m] && m <= j < |s.arr| ensures x.id != s.arr[j].id {
      var k :| 0 <= k < m && s.arr[k] == x;
    }
  }

  /** Detaching from a heap and repairing at `i` gives a heap. */
  lemma DetachedOrder(h: Heap, i: nat)
    requires HeapOrdered(h.arr) && i < |h.arr|
    ensures var t := Detached(h, i);
      HeapOrdered(SiftDown(if i < |t.arr| then SiftUp(t, i) else t, i).arr)
  {
    var n := |h.arr|;
    var t := Detached(h, i);
    var base := t.(arr := h.arr[..n - 1]);
    assert HeapOrdered(base.arr);
    if i < n - 1 {
      assert t == base.(arr := base.arr[i := h.arr[n - 1]]);
      ReplaceRestores(base, i, h.arr[n - 1]);
    } else {
      assert t.arr == base.arr;
      SiftDownOnHeap(t, i);
    }
  }

  /** After `elimina(e)` every remaining element keeps a consistent index field and `e`'s is -1. */
  lemma RemovedAtIndex(h: Heap, i: nat, id: int)
    requires IndexOk(h) && i < |h.arr| && h.arr[i].id == id
    ensures var r := RemovedAt(h, i, id);
      IndexOk(r) && IndexOf(r, id) == -1 && !Contains(r, id)
  {
    var t := Detached(h, i);
    DetachedFacts(h, i);
    var u := if i < |t.arr| then SiftUp(t, i) else t;
    var w := SiftDown(u, i);
    assert multiset(w.arr) == multiset(t.arr) && IndexOk(w);
    forall x | x in w.arr ensures x.id != id {
      assert x in multiset(w.arr);
      assert x in t.arr;
    }
    ForgetIndex(w, id);
  }

  /** Setting the index field of an element outside the heap to -1 disturbs no other. */
  lemma ForgetIndex(w: Heap, id: int)
    requires IndexOk(w) && forall x | x in w.arr :: x.id != id
    ensures var r := w.(index := w.index[id := -1]);
      IndexOk(r) && IndexOf(r, id) == -1 && !Contains(r, id)
  {
    var r := w.(index := w.index[id := -1]);
    forall k | 0 <= k < |w.arr| ensures r.arr[k].id in r.index && r.index[r.arr[k].id] == k {
      assert w.arr[k] in w.arr;
    }
  }

  /** Removing the element at `i` of a valid heap leaves a valid heap of the other elements. */
  lemma RemovedAtFacts(h: Heap, i: nat, id: int)
    requires Valid(h) && i < |h.arr| && h.arr[i].id == id
    ensures var r := RemovedAt(h, i, id);
      && Valid(r) && |r.arr| == |h.arr| - 1 && r.capacity == h.capacity
      && multiset(r.arr) == multiset(h.arr) - multiset{h.arr[i]}
      && IndexOf(r, id) == -1 && !Contains(r, id)
  {
    DetachedFacts(h, i);
    DetachedOrder(h, i);
    RemovedAtIndex(h, i, id);
  }

  /** `elimina()`: IllegalState on an empty heap; otherwise the root goes and is returned. */
  method RemoveMin(h: Heap) returns (r: Result<(Elem, Heap)>)
    ensures r.Err? <==> |h.arr| == 0
    ensures r.Err? ==> r.error == IllegalState
    ensures r.Ok? ==> r.value.0 == h.arr[0]
    ensures r.Ok? && Valid(h) ==>
      && Valid(r.value.1) && multiset(r.value.1.arr) == multiset(h.arr) - multiset{h.arr[0]}
      && forall k | 0 <= k < |h.arr| :: r.value.0.key <= h.arr[k].key
  {
    if |h.arr| == 0 {
      return Err(IllegalState);
    }
    var e := h.arr[0];
    var h' := Remove(h, Some(e.id));
    r := Ok((e, h'));
    if Valid(h) {
      forall k | 0 <= k < |h.arr| ensures e.key <= h.arr[k].key {
        RootIsMin(h.arr, k);
      }
    }
  }

  /** The new backing array length when `agrega` finds the array full: double the old one. */
  function DoubledAsWritten(capacity: nat): nat {
    capacity * 2
  }

  /**
   * `agrega(e)` as written: when the array is full its length is doubled, the
   * element goes in the first free position and `recorreArriba` moves it up.
   * A heap built from an empty collection has an array of length 0, which
   * doubling leaves at 0, so the store falls outside the array.
   */
  function AddAsWritten(h: Heap, e: Elem): (r: Result<Heap>)
    ensures r.Err? <==> |h.arr| >= (if |h.arr| == h.capacity then DoubledAsWritten(h.capacity) else h.capacity)
    ensures r.Ok? ==> multiset(r.value.arr) == multiset(h.arr) + multiset{e}
  {
    var n := |h.arr|;
    var capacity := if n == h.capacity then DoubledAsWritten(h.capacity) else h.capacity;
    if n >= capacity then Err(RuntimeFailure)
    else Ok(SiftUp(Heap(h.arr + [e], h.index[e.id := n], capacity), n))
  }

  /** A heap built from an empty collection cannot take its first element. */
  lemma AddAsWrittenFailsOnEmptyBuild(h: Heap, e: Elem)
    requires |h.arr| == 0 && h.capacity == 0
    ensures AddAsWritten(h, e) == Err(RuntimeFailure)
  {
  }

  /** The corrected growth: doubling, but never below one free position. */
  function Grown(capacity: nat): (c: nat)
    ensures c > capacity && c >= DoubledAsWritten(capacity)
  {
    if capacity == 0 then 1 else capacity * 2
  }

  /**
   * `agrega(e)` with the corrected growth: the element is stored at the end
   * with its position as index field and moved up. A new element keeps the
   * heap valid and the array never overflows.
   */
  function Add(h: Heap, e: Elem): (r: Heap)
    ensures multiset(r.arr) == multiset(h.arr) + multiset{e} && |r.arr| == |h.arr| + 1
    ensures |h.arr| <= h.capacity ==> |r.arr| <= r.capacity
    ensures |h.arr| < h.capacity ==> r.capacity == h.capacity
    ensures Valid(h) && !Contains(h, e.id) ==> Valid(r) && Contains(r, e.id)
  {
    var n := |h.arr|;
    var capacity := if n == h.capacity then Grown(h.capacity) else h.capacity;
    var h' := Heap(h.arr + [e], h.index[e.id := n], capacity);
    AddRestores(h, e, h');
    SiftUp(h', n)
  }

  lemma AddRestores(h: Heap, e: Elem, h': Heap)
    requires h'.arr == h.arr + [e] && h'.index == h.index[e.id := |h.arr|]
    ensures HeapOrdered(h.arr) ==> HeapOrdered(SiftUp(h', |h.arr|).arr)
    ensures IndexOk(h) && !Contains(h, e.id) ==> IndexOk(h')
    ensures Contains(SiftUp(h', |h.arr|), e.id)
  {
    AddFound(h, e, h');
    if HeapOrdered(h.arr) {
      AddOrders(h.arr, e, h');
    }
    if IndexOk(h) && !Contains(h, e.id) {
      AddIndexes(h, e, h');
    }
  }

  /** The element appended and moved up is found in the heap. */
  lemma AddFound(h: Heap, e: Elem, h': Heap)
    requires h'.arr == h.arr + [e]
    ensures Contains(SiftUp(h', |h.arr|), e.id)
  {
    var r := SiftUp(h', |h.arr|);
    assert h'.arr[|h.arr|] == e;
    assert e in multiset(r.arr);
  }

  /** Appending to an ordered heap leaves only the last pair to repair, and moving up repairs it. */
  lemma AddOrders(a: seq<Elem>, e: Elem, h': Heap)
    requires h'.arr == a + [e] && HeapOrdered(a)
    ensures HeapOrdered(SiftUp(h', |a|).arr)
  {
    assert AlmostAbove(h'.arr, |a|);
    SiftUpRestores(h', |a|);
  }

  /** The new element's entry in the index map points at the end, and the old entries are untouched. */
  lemma AddIndexes(h: Heap, e: Elem, h': Heap)
    requires h'.arr == h.arr + [e] && h'.index == h.index[e.id := |h.arr|]
    requires IndexOk(h) && !Contains(h, e.id)
    ensures IndexOk(h')
  {
  }

  /** The corrected growth removes the failure: every heap built by the collection constructor accepts an element. */
  lemma AddAfterBuild(h: Heap, e: Elem)
    requires Valid(h) && h.capacity == |h.arr| && !Contains(h, e.id)
    ensures Valid(Add(h, e)) && Add(h, e).capacity == Grown(|h.arr|)
  {
  }

  /** `get(i)`: NoSuchElement outside `[0, elementos)`; the element found there has `i` as its index field. */
  function Get(h: Heap, i: int): (r: Result<Elem>)
    ensures r.Err? <==> i < 0 || i >= |h.arr|
    ensures r.Err? ==> r.error == NoSuchElement
    ensures r.Ok? ==> r.value in h.arr
    ensures r.Ok? && IndexOk(h) ==> IndexOf(h, r.value.id) == i
  {
    if i < 0 || i >= |h.arr| then Err(NoSuchElement) else Ok(h.arr[i])
  }

  /** `limpia`: no element is left; the backing array and the index fields stay. */
  function Clear(h: Heap): (r: Heap)
    ensures Valid(h) ==> Valid(r)
    ensures forall id :: !Contains(r, id)
    ensures Get(r, 0).Err?
  {
    h.(arr := [])
  }

  /**
   * `reordena(e)`: nothing for null; otherwise `recorreArriba` then
   * `monticuloMin` at the element's index field. An index field outside the
   * used part makes Java read outside the array or through a null slot.
   */
  function Reorder(h: Heap, e: Option<int>): (r: Result<Heap>)
    ensures e.None? ==> r == Ok(h)
    ensures e.Some? ==> (r.Err? <==> !(0 <= IndexOf(h, e.value) < |h.arr|))
    ensures r.Err? ==> r.error == RuntimeFailure
    ensures r.Ok? ==> multiset(r.value.arr) == multiset(h.arr) && r.value.capacity == h.capacity
    ensures r.Ok? && IndexOk(h) ==> IndexOk(r.value)
  {
    if e.None? then Ok(h)
    else
      var i := IndexOf(h, e.value);
      if i < 0 || i >= |h.arr| then Err(RuntimeFailure)
      else Ok(SiftDown(SiftUp(h, i), i))
  }

  /** The key of the element at `i` changed, as Dijkstra's algorithm lowers a distance. */
  function ChangeKey(h: Heap, i: nat, k: int): Heap
    requires i < |h.arr|
  {
    h.(arr := h.arr[i := h.arr[i].(key := k)])
  }

  /** After any key change of an element of the heap, `reordena` on it gives a valid heap with the same elements. */
  lemma ReorderAfterKeyChange(h: Heap, i: nat, k: int)
    requires Valid(h) && i < |h.arr|
    ensures var h' := ChangeKey(h, i, k);
      && Reorder(h', Some(h.arr[i].id)).Ok?
      && Valid(Reorder(h', Some(h.arr[i].id)).value)
      && multiset(Reorder(h', Some(h.arr[i].id)).value.arr) == multiset(h'.arr)
  {
    var h' := ChangeKey(h, i, k);
    assert IndexOk(h');
    ReplaceRestores(h, i, h.arr[i].(key := k));
  }

  lemma KeysSplit(a: seq<Elem>, b: seq<Elem>, j: nat)
    requires |a| > 0 && j < |b|
    ensures Keys(a) == [a[0].key] + Keys(a[1..])
    ensures Keys(b) == Keys(b[..j]) + [b[j].key] + Keys(b[j + 1..])
    ensures Keys(b[..j] + b[j + 1..]) == Keys(b[..j]) + Keys(b[j + 1..])
  {
  }

  /** Taking a matching element out of two equal multisets leaves them equal. */
  lemma DropMatching(a: seq<Elem>, b: seq<Elem>, j: nat)
    requires |a| > 0 && j < |b| && b[j] == a[0] && multiset(a) == multiset(b)
    ensures multiset(a[1..]) == multiset(b[..j] + b[j + 1..])
  {
    assert a == [a[0]] + a[1..];
    assert b == b[..j] + [b[j]] + b[j + 1..];
    forall v ensures multiset(a[1..])[v] == multiset(b[..j] + b[j + 1..])[v] {
      assert multiset(a)[v] == multiset(b)[v];
    }
  }

  /** Equal multisets of elements have equal multisets of keys. */
  lemma {:induction false} KeysPermute(a: seq<Elem>, b: seq<Elem>)
    requires multiset(a) == multiset(b)
    ensures multiset(Keys(a)) == multiset(Keys(b))
    decreases |a|
  {
    if |a| > 0 {
      assert a[0] in multiset(b);
      var j :| 0 <= j < |b| && b[j] == a[0];
      DropMatching(a, b, j);
      KeysPermute(a[1..], b[..j] + b[j + 1..]);
      KeysSplit(a, b, j);
      var ka, kb1, kb2 := Keys(a[1..]), Keys(b[..j]), Keys(b[j + 1..]);
      assert multiset(ka) == multiset(kb1) + multiset(kb2);
      forall v ensures multiset(Keys(a))[v] == multiset(Keys(b))[v] {
      }
    }
  }

  /** Between rounds of `heapSort`: the output is sorted, below everything left, and with the heap holds the input. */
  ghost predicate SortProgress(ys: seq<int>, a: seq<Elem>, xs: seq<int>) {
    && multiset(ys) + multiset(Keys(a)) == multiset(xs)
    && OrderedTree.Sorted(ys)
    && forall x, k | 0 <= x < |ys| && 0 <= k < |a| :: ys[x] <= a[k].key
  }

  /** Taking out a least element and appending its key keeps the progress. */
  lemma SortStep(ys: seq<int>, a: seq<Elem>, a': seq<Elem>, xs: seq<int>)
    requires SortProgress(ys, a, xs) && |a| > 0
    requires multiset(a') == multiset(a) - multiset{a[0]}
    requires forall k | 0 <= k < |a| :: a[0].key <= a[k].key
    ensures SortProgress(ys + [a[0].key], a', xs)
  {
    var e := a[0];
    SortStepCount(ys, a, a', xs);
    OrderedTree.SortedBuild(ys, e.key, []);
    assert ys + [e.key] + [] == ys + [e.key];
    SortStepBound(ys, a, a');
  }

  /** Moving the least key from the heap to the output keeps the count. */
  lemma SortStepCount(ys: seq<int>, a: seq<Elem>, a': seq<Elem>, xs: seq<int>)
    requires multiset(ys) + multiset(Keys(a)) == multiset(xs) && |a| > 0
    requires multiset(a') == multiset(a) - multiset{a[0]}
    ensures multiset(ys + [a[0].key]) + multiset(Keys(a')) == multiset(xs)
  {
    var e := a[0];
    Lists.PutBack(a, a', e);
    KeysPermute(a, [e] + a');
    assert Keys([e] + a') == [e.key] + Keys(a');
  }

  /** Every key still in the heap is at least the one just taken out, and so at least every key output. */
  lemma SortStepBound(ys: seq<int>, a: seq<Elem>, a': seq<Elem>)
    requires |a| > 0 && forall x, k | 0 <= x < |ys| && 0 <= k < |a| :: ys[x] <= a[k].key
    requires multiset(a') == multiset(a) - multiset{a[0]}
    requires forall k | 0 <= k < |a| :: a[0].key <= a[k].key
    ensures forall x, k | 0 <= x < |ys + [a[0].key]| && 0 <= k < |a'| :: (ys + [a[0].key])[x] <= a'[k].key
  {
    OrderedTree.DiffWithin(multiset(a'), multiset(a), a[0]);
    forall k | 0 <= k < |a'| ensures exists t | 0 <= t < |a| :: a[t] == a'[k] {
      assert a'[k] in multiset(a');
      assert a'[k] in multiset(a);
    }
  }

  /**
   * `heapSort`: every value wrapped in a fresh adapter, a heap built from the
   * adapters, and the minimum taken out until the heap is empty. The result
   * is a sorted permutation of the input.
   */
  method HeapSort(xs: seq<int>) returns (ys: seq<int>)
    ensures multiset(ys) == multiset(xs) && |ys| == |xs|
    ensures OrderedTree.Sorted(ys)
  {
    var adapters := seq(|xs|, k requires 0 <= k < |xs| => Elem(k, xs[k]));
    assert Keys(adapters) == xs;
    var h := Build(adapters);
    KeysPermute(h.arr, adapters);
    ys := [];
    while |h.arr| != 0
      invariant Valid(h) && SortProgress(ys, h.arr, xs)
      decreases |h.arr|
    {
      var r := RemoveMin(h);
      SortStep(ys, h.arr, r.value.1.arr, xs);
      ys := ys + [r.value.0.key];
      h := r.value.1;
    }
    assert |Keys(h.arr)| == 0;
    assert |ys| == |multiset(ys)| == |multiset(xs)| == |xs|;
  }
}

=== FILE: java_int.dfy ===
/**
 * Java's `int` arithmetic and powers of two, shared by the structures whose
 * Java code computes with 32-bit integers (the dictionary's capacity loop,
 * the binary search's midpoint) and by the height bounds of the balanced
 * trees.
 */
module JavaInt {
  /** Java's `int` arithmetic: a value wrapped into [-2^31, 2^31). */
  function Wrap32(n: int): (r: int)
    ensures -0x8000_0000 <= r < 0x8000_0000
    ensures (r - n) % 0x1_0000_0000 == 0
  {
    (n + 0x8000_0000) % 0x1_0000_0000 - 0x8000_0000
  }

  /** Java's `/` on `int`: the quotient rounded toward zero, unlike Dafny's Euclidean `/`. */
  function Quot(a: int, b: int): (q: int)
    requires b > 0
    ensures a >= 0 ==> q == a / b
    ensures a < 0 ==> q == -((-a) / b)
  {
    if a >= 0 then a / b else -((-a) / b)
  }

  function Pow2(e: nat): (r: nat)
    ensures r >= 1
  {
    if e == 0 then 1 else 2 * Pow2(e - 1)
  }

  lemma {:induction false} Pow2Monotone(a: nat, b: nat)
    requires a <= b
    ensures Pow2(a) <= Pow2(b)
  {
    if a < b {
      Pow2Monotone(a, b - 1);
    }
  }

  lemma {:induction false} Pow2Add(a: nat, b: nat)
    ensures Pow2(a + b) == Pow2(a) * Pow2(b)
  {
    if b > 0 {
      Pow2Add(a, b - 1);
    }
  }

  lemma Pow2Of30()
    ensures Pow2(30) == 0x4000_0000
  {
    assert Pow2(5) == 32 by {
      assert Pow2(1) == 2 && Pow2(2) == 4 && Pow2(3) == 8 && Pow2(4) == 16;
    }
    Pow2Add(5, 5);
    Pow2Add(10, 10);
    Pow2Add(20, 10);
  }
}

=== FILE: lists.dfy ===
/**
 * Doubly linked lists (`Lista`), modelled by the sequence of their elements
 * from head to tail. The length is the sequence's length; `null` arguments
 * are `None`.
 */
module Lists {
  import opened Wrappers

  /** `agrega` and `agregaFinal`: IllegalArgument for null, else the element becomes the tail. */
  function Append<T>(xs: seq<T>, e: Option<T>): (r: Result<seq<T>>)
    ensures r.Err? <==> e.None?
    ensures r.Err? ==> r.error == IllegalArgument
    ensures r.Ok? ==> |r.value| == |xs| + 1 && r.value[..|xs|] == xs && r.value[|xs|] == e.value
  {
    if e.None? then Err(IllegalArgument) else Ok(xs + [e.value])
  }

  /** `agregaInicio`: IllegalArgument for null, else the element becomes the head. */
  function Prepend<T>(xs: seq<T>, e: Option<T>): (r: Result<seq<T>>)
    ensures r.Err? <==> e.None?
    ensures r.Err? ==> r.error == IllegalArgument
    ensures r.Ok? ==> |r.value| == |xs| + 1 && r.value[0] == e.value && r.value[1..] == xs
  {
    if e.None? then Err(IllegalArgument) else Ok([e.value] + xs)
  }

  /** Where `inserta(i, _)` puts the element: the head below 1, the tail from the length on. */
  function Slot(n: nat, i: int): (k: nat)
    ensures k <= n
    ensures i < 1 ==> k == 0
    ensures i >= n ==> k == n
    ensures 1 <= i < n ==> k == i
  {
    if i < 1 then 0 else if i >= n then n else i
  }

  /**
   * `inserta(i, e)`: IllegalArgument for null; otherwise the element lands
   * at index `Slot(|xs|, i)` and the others keep their order around it.
   */
  method InsertAt<T>(xs: seq<T>, i: int, e: Option<T>) returns (r: Result<seq<T>>)
    ensures r.Err? <==> e.None?
    ensures r.Err? ==> r.error == IllegalArgument
    ensures r.Ok? ==> var k := Slot(|xs|, i);
      |r.value| == |xs| + 1 && r.value[k] == e.value && r.value[..k] == xs[..k] && r.value[k + 1..] == xs[k..]
  {
    if e.None? {
      return Err(IllegalArgument);
    }
    if i < 1 {
      return Prepend(xs, e);
    }
    if i >= |xs| {
      return Append(xs, e);
    }
    // Walk to the vertex before index i and link the new one after it.
    var before: seq<T> := [xs[0]];
    var j := i;
    while j > 1
      invariant 1 <= j <= i
      invariant |before| == i - j + 1 && before == xs[..i - j + 1]
    {
      before := before + [xs[|before|]];
      j := j - 1;
    }
    r := Ok(before + [e.value] + xs[i..]);
  }

  /** Removing the element at index `k` undoes the insertion there. */
  lemma InsertAtRemoveAt<T>(xs: seq<T>, ys: seq<T>, k: nat, x: T)
    requires k <= |xs| && |ys| == |xs| + 1 && ys[k] == x && ys[..k] == xs[..k] && ys[k + 1..] == xs[k..]
    ensures ys[..k] + ys[k + 1..] == xs
  {
    assert xs == xs[..k] + xs[k..];
  }

  /** `indiceDe`: the index of the first equal element, or -1. */
  method IndexOf<T(==)>(xs: seq<T>, e: T) returns (i: int)
    ensures -1 <= i < |xs|
    ensures i == -1 <==> e !in xs
    ensures i >= 0 ==> xs[i] == e && e !in xs[..i]
  {
    i := 0;
    while i < |xs|
      invariant 0 <= i <= |xs| && e !in xs[..i]
    {
      if xs[i] == e {
        return i;
      }
      i := i + 1;
    }
    assert xs[..i] == xs;
    return -1;
  }

  /**
   * `contiene`, through `buscaAux`: walks the nodes from the head until one
   * holds an equal element. A null element equals no node's, so the walk
   * ends at null and the answer is false.
   */
  method Contains<T(==)>(xs: seq<T>, e: Option<T>) returns (r: bool)
    ensures r <==> e.Some? && e.value in xs
  {
    var n := 0;
    while n < |xs|
      invariant 0 <= n <= |xs|
      invariant e.None? || e.value !in xs[..n]
    {
      if e.Some? && xs[n] == e.value {
        return true;
      }
      n := n + 1;
    }
    assert xs[..n] == xs;
    return false;
  }

  /**
   * `elimina(e)`: the first equal element goes and the rest keep their
   * order; a null or absent element changes nothing.
   */
  function Remove<T(==)>(xs: seq<T>, e: Option<T>): (r: seq<T>)
    ensures e.None? || e.value !in xs ==> r == xs
    ensures e.Some? && e.value in xs ==> |r| == |xs| - 1
  {
    if e.None? || |xs| == 0 then xs
    else if xs[0] == e.value then xs[1..]
    else [xs[0]] + Remove(xs[1..], e)
  }

  /** The removed element is the first equal one; the others keep their order. */
  lemma {:induction false} RemoveFirstOccurrence<T>(xs: seq<T>, e: T, k: nat)
    requires k < |xs| && xs[k] == e && e !in xs[..k]
    ensures Remove(xs, Some(e)) == xs[..k] + xs[k + 1..]
  {
    if k > 0 {
      assert xs[0] in xs[..k];
      assert xs[1..][..k - 1] == xs[1..k];
      RemoveFirstOccurrence(xs[1..], e, k - 1);
      assert xs[..k] == [xs[0]] + xs[1..k];
    }
  }

  /** Removal takes exactly one occurrence out of the multiset of elements. */
  lemma {:induction false} RemoveElems<T>(xs: seq<T>, e: T)
    ensures multiset(Remove(xs, Some(e))) == multiset(xs) - multiset{e}
  {
    if |xs| > 0 {
      assert xs == [xs[0]] + xs[1..];
      if xs[0] != e {
        RemoveElems(xs[1..], e);
      }
    }
  }

  /** `eliminaPrimero`: NoSuchElement on an empty list; otherwise the head and what follows it. */
  function RemoveFirst<T>(xs: seq<T>): (r: Result<(T, seq<T>)>)
    ensures r.Err? <==> |xs| == 0
    ensures r.Err? ==> r.error == NoSuchElement
    ensures r.Ok? ==> [r.value.0] + r.value.1 == xs
  {
    if |xs| == 0 then Err(NoSuchElement) else Ok((xs[0], xs[1..]))
  }

  /** `eliminaUltimo`: NoSuchElement on an empty list; otherwise the tail and what precedes it. */
  function RemoveLast<T>(xs: seq<T>): (r: Result<(T, seq<T>)>)
    ensures r.Err? <==> |xs| == 0
    ensures r.Err? ==> r.error == NoSuchElement
    ensures r.Ok? ==> r.value.1 + [r.value.0] == xs
  {
    if |xs| == 0 then Err(NoSuchElement) else Ok((xs[|xs| - 1], xs[..|xs| - 1]))
  }

  /** Adding at an end and removing from that end give back the list and the element. */
  lemma EndsRoundTrip<T>(xs: seq<T>, x: T)
    ensures RemoveFirst(Prepend(xs, Some(x)).value) == Ok((x, xs))
    ensures RemoveLast(Append(xs, Some(x)).value) == Ok((x, xs))
  {
  }

  /** `getPrimero` and `getUltimo`: NoSuchElement on an empty list. */
  function First<T>(xs: seq<T>): (r: Result<T>)
    ensures r.Err? <==> |xs| == 0
    ensures r.Ok? ==> r == Ok(RemoveFirst(xs).value.0)
  {
    if |xs| == 0 then Err(NoSuchElement) else Ok(xs[0])
  }

  function Last<T>(xs: seq<T>): (r: Result<T>)
    ensures r.Err? <==> |xs| == 0
    ensures r.Ok? ==> r == Ok(RemoveLast(xs).value.0)
  {
    if |xs| == 0 then Err(NoSuchElement) else Ok(xs[|xs| - 1])
  }

  /** The reverse of a sequence, defined from the back. */
  function Reversed<T>(xs: seq<T>): (r: seq<T>)
    ensures |r| == |xs|
  {
    if |xs| == 0 then [] else [xs[|xs| - 1]] + Reversed(xs[..|xs| - 1])
  }

  lemma {:induction false} ReversedAt<T>(xs: seq<T>, i: nat)
    requires i < |xs|
    ensures Reversed(xs)[i] == xs[|xs| - 1 - i]
    decreases |xs|
  {
    if i > 0 {
      ReversedAt(xs[..|xs| - 1], i - 1);
    }
  }

  /** Putting back the one copy that was taken out restores the multiset. */
  lemma PutBack<T>(a: seq<T>, a': seq<T>, e: T)
    requires |a| > 0 && e == a[0] && multiset(a') == multiset(a) - multiset{e}
    ensures multiset(a) == multiset([e] + a')
  {
    assert e in multiset(a);
  }

  /** Moving the last element into position `v` and dropping the last position takes one `x[v]` out. */
  lemma SwapDropLast<T>(x: seq<T>, v: nat, a: nat)
    requires v < |x| && a == |x| - 1
    ensures multiset(x[v := x[a]][a := x[v]][..a]) == multiset(x) - multiset{x[v]}
  {
    var y := x[v := x[a]][a := x[v]];
    assert multiset(y) == multiset(x);
    assert y == y[..a] + [x[v]];
  }

  /** Reversing moves the first element to the end. */
  lemma {:induction false} ReversedFront<T>(xs: seq<T>)
    requires |xs| > 0
    ensures Reversed(xs) == Reversed(xs[1..]) + [xs[0]]
  {
    var n, t := |xs|, xs[1..];
    var a, b := Reversed(xs), Reversed(t) + [xs[0]];
    forall i | 0 <= i < n ensures a[i] == b[i] {
      ReversedAt(xs, i);
      if i < n - 1 {
        ReversedAt(t, i);
        assert t[n - 2 - i] == xs[n - 1 - i];
      }
    }
  }

  /** Reversing twice gives the list back. */
  lemma ReversedInvolution<T>(xs: seq<T>)
    ensures Reversed(Reversed(xs)) == xs
  {
    forall i | 0 <= i < |xs| ensures Reversed(Reversed(xs))[i] == xs[i] {
      ReversedAt(Reversed(xs), i);
      ReversedAt(xs, |xs| - 1 - i);
    }
  }

  /** `reversa`: a new list built by adding every element at the head, from the first on. */
  method Reverse<T>(xs: seq<T>) returns (r: seq<T>)
    ensures r == Reversed(xs)
  {
    r := [];
    var k := 0;
    while k < |xs|
      invariant 0 <= k <= |xs|
      invariant |r| == k && forall i | 0 <= i < k :: r[i] == xs[k - 1 - i]
    {
      r := [xs[k]] + r;
      k := k + 1;
    }
    forall i | 0 <= i < |xs| ensures r[i] == Reversed(xs)[i] {
      ReversedAt(xs, i);
    }
  }

  /** `copia`: a new list built by adding every element at the tail. */
  method Copy<T>(xs: seq<T>) returns (r: seq<T>)
    ensures r == xs
  {
    r := [];
    var k := 0;
    while k < |xs|
      invariant 0 <= k <= |xs| && r == xs[..k]
    {
      r := r + [xs[k]];
      k := k + 1;
    }
  }

  /** `get(i)`: InvalidIndex outside `[0, length)`; otherwise the element `i` steps from the head. */
  method Get<T>(xs: seq<T>, i: int) returns (r: Result<T>)
    ensures r.Err? <==> i < 0 || i >= |xs|
    ensures r.Err? ==> r.error == InvalidIndex
    ensures r.Ok? ==> 0 <= i < |xs| && r.value == xs[i]
  {
    if i < 0 || i >= |xs| {
      return Err(InvalidIndex);
    }
    var rest := xs;
    var j := 0;
    while j < i
      invariant 0 <= j <= i && rest == xs[j..]
    {
      rest := rest[1..];
      j := j + 1;
    }
    return Ok(rest[0]);
  }

  /** `equals`: equal lengths and pairwise equal elements. */
  method Equals<T(==)>(xs: seq<T>, ys: seq<T>) returns (b: bool)
    ensures b <==> xs == ys
  {
    if |xs| != |ys| {
      return false;
    }
    var k := 0;
    while k < |xs|
      invariant 0 <= k <= |xs| && xs[..k] == ys[..k]
    {
      if xs[k] != ys[k] {
        return false;
      }
      k := k + 1;
    }
    assert xs[..k] == xs && ys[..k] == ys;
    return true;
  }

  /** The texts of the elements, each but the first preceded by `", "`. */
  function Joined<T>(xs: seq<T>, show: T -> string): string {
    if |xs| == 0 then "" else if |xs| == 1 then show(xs[0]) else Joined(xs[..|xs| - 1], show) + ", " + show(xs[|xs| - 1])
  }

  /** `toString`: `"[]"` for the empty list, else the joined elements in brackets. */
  method ToString<T>(xs: seq<T>, show: T -> string) returns (s: string)
    ensures s == "[" + Joined(xs, show) + "]"
    ensures |xs| == 0 ==> s == "[]"
  {
    if |xs| == 0 {
      return "[]";
    }
    s := "[" + show(xs[0]);
    var k := 1;
    while k < |xs|
      invariant 1 <= k <= |xs| && s == "[" + Joined(xs[..k], show)
    {
      assert xs[..k + 1][..k] == xs[..k];
      s := s + ", " + show(xs[k]);
      k := k + 1;
    }
    assert xs[..k] == xs;
    s := s + "]";
  }

  /** Adding at the tail adds one separated item to the text. */
  lemma JoinedAppend<T>(xs: seq<T>, x: T, show: T -> string)
    requires |xs| > 0
    ensures Joined(xs + [x], show) == Joined(xs, show) + ", " + show(x)
  {
    assert (xs + [x])[..|xs|] == xs;
  }
}

=== FILE: ordered_tree.dfy ===
/**
 * Ordered binary trees (ArbolBinarioOrdenado.java): every vertex is at least
 * its left descendants and at most its right descendants. Insertion hangs a
 * new leaf (ties go left), deletion splices out a vertex with at most one
 * child after swapping with the in-order predecessor, and rotations keep the
 * in-order walk. The functions are generic in the vertex payload so that the
 * AVL and red-black trees reuse them.
 */
module OrderedTree {
  import opened Wrappers
  import opened BinaryTree

  /** Non-decreasing sequences. */
  predicate Sorted(s: seq<int>) {
    forall i, j | 0 <= i < j < |s| :: s[i] <= s[j]
  }

  /** The class invariant, vertex by vertex. */
  ghost predicate Ordered<A>(t: Tree<int, A>) {
    match t
    case Nil => true
    case Node(l, x, _, r) =>
      && Ordered(l) && Ordered(r)
      && (forall y | y in Elems(l) :: y <= x)
      && (forall y | y in Elems(r) :: x <= y)
  }

  /** A tree object is well formed: ordered, and the counter is the number of vertices. */
  ghost predicate Valid<A>(b: Counted<int, A>) {
    Ordered(b.root) && b.count == Size(b.root)
  }

  lemma SortedJoin(a: seq<int>, x: int, b: seq<int>)
    ensures Sorted(a + [x] + b) <==>
      && Sorted(a) && Sorted(b)
      && (forall y | y in a :: y <= x)
      && (forall y | y in b :: x <= y)
  {
    if Sorted(a + [x] + b) {
      SortedSplit(a, x, b);
    }
    if && Sorted(a) && Sorted(b) && (forall y | y in a :: y <= x) && (forall y | y in b :: x <= y) {
      SortedBuild(a, x, b);
    }
  }

  /** The parts of a sorted join are sorted and lie on either side of the middle. */
  lemma SortedSplit(a: seq<int>, x: int, b: seq<int>)
    requires Sorted(a + [x] + b)
    ensures Sorted(a) && Sorted(b)
    ensures forall y | y in a :: y <= x
    ensures forall y | y in b :: x <= y
  {
    var s := a + [x] + b;
    assert forall i | 0 <= i < |a| :: s[i] == a[i];
    assert forall i | 0 <= i < |b| :: s[|a| + 1 + i] == b[i];
    assert s[|a|] == x;
    forall y | y in a ensures y <= x {
      var i :| 0 <= i < |a| && a[i] == y;
      assert s[i] <= s[|a|];
    }
    forall y | y in b ensures x <= y {
      var i :| 0 <= i < |b| && b[i] == y;
      assert s[|a|] <= s[|a| + 1 + i];
    }
    forall i, j | 0 <= i < j < |b| ensures b[i] <= b[j] {
      assert s[|a| + 1 + i] <= s[|a| + 1 + j];
    }
  }

  /** Sorted parts on either side of the middle join into a sorted sequence. */
  lemma SortedBuild(a: seq<int>, x: int, b: seq<int>)
    requires Sorted(a) && Sorted(b)
    requires forall y | y in a :: y <= x
    requires forall y | y in b :: x <= y
    ensures Sorted(a + [x] + b)
  {
    var s := a + [x] + b;
    forall i, j | 0 <= i < j < |s| ensures s[i] <= s[j] {
      if j < |a| {
        assert s[i] == a[i] && s[j] == a[j];
      } else if i < |a| {
        assert s[i] == a[i] && a[i] in a;
        if j > |a| {
          assert s[j] == b[j - |a| - 1] && b[j - |a| - 1] in b;
        }
      } else if i == |a| {
        assert s[j] == b[j - |a| - 1] && b[j - |a| - 1] in b;
      } else {
        assert s[i] == b[i - |a| - 1] && s[j] == b[j - |a| - 1];
      }
    }
  }

  /** A tree is ordered exactly when its in-order walk is sorted. */
  lemma {:induction false} OrderedIffSortedInOrder<A>(t: Tree<int, A>)
    ensures Ordered(t) <==> Sorted(InOrder(t))
  {
    match t
    case Nil =>
    case Node(l, x, _, r) =>
      OrderedIffSortedInOrder(l);
      OrderedIffSortedInOrder(r);
      WalksListEveryVertex(l);
      WalksListEveryVertex(r);
      SortedJoin(InOrder(l), x, InOrder(r));
      assert forall y :: y in Elems(l) <==> y in InOrder(l);
      assert forall y :: y in Elems(r) <==> y in InOrder(r);
  }

  /**
   * Replacing an ordered subtree by an ordered tree drawn from the same
   * elements keeps the whole tree ordered.
   */
  lemma {:induction false} OrderedReplaceAt<A>(t: Tree<int, A>, p: Path, s: Tree<int, A>)
    requires Ordered(t) && Ordered(s)
    requires forall y | y in Elems(s) :: y in Elems(At(t, p))
    ensures Ordered(ReplaceAt(t, p, s))
    ensures forall y | y in Elems(ReplaceAt(t, p, s)) :: y in Elems(t)
    decreases |p|
  {
    if |p| > 0 && t.Node? {
      var l, x, r, q := t.left, t.elem, t.right, p[1..];
      if p[0] == L {
        assert At(t, p) == At(l, q);
        OrderedReplaceAt(l, q, s);
      } else {
        assert At(t, p) == At(r, q);
        OrderedReplaceAt(r, q, s);
      }
    }
  }

  // ---------------------------------------------------------------------
  // Insertion
  // ---------------------------------------------------------------------

  /** `agrega(Vertice, Vertice)`: hangs `x` as a new leaf, going left on ties. */
  function Insert<A>(t: Tree<int, A>, x: int, a: A): (r: Tree<int, A>)
    ensures Elems(r) == Elems(t) + multiset{x}
    ensures Size(r) == Size(t) + 1
    ensures Ordered(t) ==> Ordered(r)
  {
    match t
    case Nil => Node(Nil, x, a, Nil)
    case Node(l, y, b, rr) =>
      if x <= y then Node(Insert(l, x, a), y, b, rr) else Node(l, y, b, Insert(rr, x, a))
  }

  /** The path to the vacant slot where `Insert` hangs `x` (`ultimoAgregado`). */
  function InsertPath<A>(t: Tree<int, A>, x: int): (p: Path)
    ensures Reaches(t, p) && At(t, p).Nil?
    ensures forall i | 0 <= i < |p| :: IsVertex(t, p[..i]) && (p[i] == L <==> x <= At(t, p[..i]).elem)
  {
    match t
    case Nil => []
    case Node(l, y, _, rr) =>
      var d := if x <= y then L else R;
      var q := InsertPath(if x <= y then l else rr, x);
      var p := [d] + q;
      assert forall i | 0 < i <= |p| :: p[..i] == [d] + q[..i - 1];
      assert forall i | 0 < i < |p| :: p[i] == q[i - 1];
      p
  }

  /** The new vertex is a leaf holding `x` at the end of `InsertPath`; nothing else changes. */
  lemma {:induction false} InsertHangsLeaf<A>(t: Tree<int, A>, x: int, a: A)
    ensures Insert(t, x, a) == ReplaceAt(t, InsertPath(t, x), Node(Nil, x, a, Nil))
    ensures At(Insert(t, x, a), InsertPath(t, x)) == Node(Nil, x, a, Nil)
  {
    match t
    case Nil =>
    case Node(l, y, _, rr) =>
      if x <= y { InsertHangsLeaf(l, x, a); } else { InsertHangsLeaf(rr, x, a); }
  }

  /** `agrega(T)`: IllegalArgument for null; otherwise one more vertex and one more count. */
  function Add(b: Counted<int, ()>, e: Option<int>): (r: Result<Counted<int, ()>>)
    ensures r.Err? <==> e.None?
    ensures r.Err? ==> r.error == IllegalArgument
    ensures r.Ok? ==> r.value.count == b.count + 1 && Elems(r.value.root) == Elems(b.root) + multiset{e.value}
    ensures r.Ok? && Valid(b) ==> Valid(r.value)
  {
    if e.None? then Err(IllegalArgument)
    else Ok(Counted(Insert(b.root, e.value, ()), b.count + 1))
  }

  /** The collection constructor: adds the elements one after the other. */
  function FromSeq(xs: seq<int>): (r: Counted<int, ()>)
    ensures Valid(r) && Elems(r.root) == multiset(xs) && r.count == |xs|
  {
    if |xs| == 0 then Counted(Nil, 0)
    else
      var b := FromSeq(xs[..|xs| - 1]);
      assert xs == xs[..|xs| - 1] + [xs[|xs| - 1]];
      Add(b, Some(xs[|xs| - 1])).value
  }

  // ---------------------------------------------------------------------
  // Search
  // ---------------------------------------------------------------------

  /** `busca(Vertice, T)`: follows the order from the root; `None` when the walk falls off. */
  function Find<A>(t: Tree<int, A>, x: int): (r: Option<Path>)
    ensures r.Some? ==> IsVertex(t, r.value) && At(t, r.value).elem == x
    ensures Ordered(t) ==> (r.None? <==> x !in Elems(t))
    ensures x !in Elems(t) ==> r.None?
  {
    match t
    case Nil => None
    case Node(l, y, _, rr) =>
      if x == y then Some([])
      else if x < y then
        var f := Find(l, x);
        if f.Some? then Some([L] + f.value) else None
      else
        var f := Find(rr, x);
        if f.Some? then Some([R] + f.value) else None
  }

  /** `maximo`: the right-most vertex, which holds the largest element. */
  function MaxPath<A>(t: Tree<int, A>): (p: Path)
    requires t.Node?
    ensures IsVertex(t, p) && At(t, p).right.Nil?
    ensures forall i | 0 <= i < |p| :: p[i] == R
    ensures Ordered(t) ==> forall y | y in Elems(t) :: y <= At(t, p).elem
  {
    if t.right.Nil? then [] else [R] + MaxPath(t.right)
  }

  // ---------------------------------------------------------------------
  // Deletion
  // ---------------------------------------------------------------------

  /** `eliminaVertice`: a vertex with at most one child is replaced by that child. */
  function SpliceOut<A>(v: Tree<int, A>): (r: Tree<int, A>)
    requires v.Node? && (v.left.Nil? || v.right.Nil?)
    ensures Elems(r) == Elems(v) - multiset{v.elem}
    ensures Size(r) + 1 == Size(v)
    ensures Ordered(v) ==> Ordered(r)
  {
    OneChild(Elems(v.left), v.elem, Elems(v.right));
    if v.right.Node? then v.right else v.left
  }

  /** Taking the middle element out of a sum with an empty side leaves the other side. */
  lemma OneChild<T>(a: multiset<T>, x: T, b: multiset<T>)
    ensures a == multiset{} ==> (a + multiset{x} + b) - multiset{x} == b
    ensures b == multiset{} ==> (a + multiset{x} + b) - multiset{x} == a
  {
    assert (a + multiset{x} + b) - multiset{x} == a + b;
  }

  /**
   * `intercambiaEliminable`: copies the in-order predecessor (the maximum of
   * the left subtree) into a vertex with a left child and returns the path to
   * the predecessor, which has no right child.
   */
  function SwapWithPredecessor<A>(v: Tree<int, A>): (r: (Tree<int, A>, Path))
    requires v.Node? && v.left.Node?
    ensures r.1 == [L] + MaxPath(v.left)
    ensures r.0.Node? && r.0 == v.(elem := r.0.elem)
    ensures IsVertex(r.0, r.1) && At(r.0, r.1).right.Nil? && At(r.0, r.1).elem == r.0.elem
    ensures r.0.elem in Elems(v.left)
    ensures Ordered(v) ==> Ordered(r.0)
  {
    var q := MaxPath(v.left);
    var m := At(v.left, q).elem;
    ElemsAtVertex(v.left, q);
    (v.(elem := m), [L] + q)
  }

  /** The element at a vertex belongs to the tree. */
  lemma {:induction false} ElemsAtVertex<T, A>(t: Tree<T, A>, p: Path)
    requires IsVertex(t, p)
    ensures At(t, p).elem in Elems(t)
    ensures forall y | y in Elems(At(t, p)) :: y in Elems(t)
    decreases |p|
  {
    if |p| > 0 {
      if p[0] == L {
        assert At(t, p) == At(t.left, p[1..]);
        ElemsAtVertex(t.left, p[1..]);
      } else {
        assert At(t, p) == At(t.right, p[1..]);
        ElemsAtVertex(t.right, p[1..]);
      }
    }
  }

  /** The body of `elimina` once the vertex `v` is found: one occurrence of its element goes. */
  function RemoveRoot<A>(v: Tree<int, A>): (r: Tree<int, A>)
    requires v.Node?
    ensures Elems(r) == Elems(v) - multiset{v.elem}
    ensures Size(r) + 1 == Size(v)
    ensures Ordered(v) ==> Ordered(r)
  {
    if v.left.Nil? || v.right.Nil? then SpliceOut(v)
    else
      var (w, q) := SwapWithPredecessor(v);
      var s := SpliceOut(At(w, q));
      RemoveRootFacts(v, w, q, s);
      ReplaceAt(w, q, s)
  }

  lemma RemoveRootFacts<A>(v: Tree<int, A>, w: Tree<int, A>, q: Path, s: Tree<int, A>)
    requires v.Node? && v.left.Node? && v.right.Node?
    requires (w, q) == SwapWithPredecessor(v)
    requires s == SpliceOut(At(w, q))
    ensures Elems(ReplaceAt(w, q, s)) == Elems(v) - multiset{v.elem}
    ensures Size(ReplaceAt(w, q, s)) + 1 == Size(v)
    ensures Ordered(v) ==> Ordered(ReplaceAt(w, q, s))
  {
    var m := w.elem;
    VertexReaches(w, q);
    ElemsReplaceAt(w, q, s);
    SizeReplaceAt(w, q, s);
    assert m in Elems(At(w, q));
    MultisetCancel(Elems(ReplaceAt(w, q, s)), Elems(At(w, q)), Elems(w), Elems(s), m);
    ElemsOverwrite(v, m);
    if Ordered(v) {
      assert Ordered(w);
      assert Ordered(At(w, q)) by { OrderedAt(w, q); }
      OrderedReplaceAt(w, q, s);
    }
  }

  /** Subtrees of an ordered tree are ordered. */
  lemma {:induction false} OrderedAt<A>(t: Tree<int, A>, p: Path)
    requires Ordered(t)
    ensures Ordered(At(t, p))
    decreases |p|
  {
    if |p| > 0 && t.Node? {
      if p[0] == L { OrderedAt(t.left, p[1..]); } else { OrderedAt(t.right, p[1..]); }
    }
  }

  /** Removes the vertex at `p` from the whole tree. */
  function RemoveAt<A>(t: Tree<int, A>, p: Path): (r: Tree<int, A>)
    requires IsVertex(t, p)
    ensures Elems(r) == Elems(t) - multiset{At(t, p).elem}
    ensures Size(r) + 1 == Size(t)
    ensures Ordered(t) ==> Ordered(r)
  {
    var v := At(t, p);
    var s := RemoveRoot(v);
    VertexReaches(t, p);
    ElemsReplaceAt(t, p, s);
    SizeReplaceAt(t, p, s);
    MultisetCancel(Elems(ReplaceAt(t, p, s)), Elems(v), Elems(t), Elems(s), v.elem);
    OrderedRemoveAt(t, p, s);
    ReplaceAt(t, p, s)
  }

  lemma OrderedRemoveAt<A>(t: Tree<int, A>, p: Path, s: Tree<int, A>)
    requires IsVertex(t, p) && s == RemoveRoot(At(t, p))
    ensures Ordered(t) ==> Ordered(ReplaceAt(t, p, s))
  {
    if Ordered(t) {
      OrderedAt(t, p);
      DiffWithin(Elems(s), Elems(At(t, p)), At(t, p).elem);
      OrderedReplaceAt(t, p, s);
    }
  }

  /** An ordered left subtree with no element the old one lacked keeps the vertex ordered. */
  lemma ShrinkLeft<A>(l: Tree<int, A>, l': Tree<int, A>, y: int, h: A, r: Tree<int, A>)
    requires Ordered(Node(l, y, h, r)) && Ordered(l') && forall z | z in Elems(l') :: z in Elems(l)
    ensures Ordered(Node(l', y, h, r))
  {
    forall z | z in Elems(l') ensures z <= y {
      assert z in Elems(l);
    }
  }

  /** An ordered right subtree with no element the old one lacked keeps the vertex ordered. */
  lemma ShrinkRight<A>(l: Tree<int, A>, y: int, h: A, r: Tree<int, A>, r': Tree<int, A>)
    requires Ordered(Node(l, y, h, r)) && Ordered(r') && forall z | z in Elems(r') :: z in Elems(r)
    ensures Ordered(Node(l, y, h, r'))
  {
    forall z | z in Elems(r') ensures y <= z {
      assert z in Elems(r);
    }
  }

  /** Taking one copy out of a multiset adds no element. */
  lemma DiffWithin<T>(a: multiset<T>, b: multiset<T>, x: T)
    requires a == b - multiset{x}
    ensures forall z | z in a :: z in b
  {
    forall z | z in a ensures z in b {
      assert a[z] <= b[z];
    }
  }

  /** `elimina` as written: the counter drops before the element is looked up. */
  function DeleteAsWritten<A>(b: Counted<int, A>, x: int): (r: Counted<int, A>)
    ensures r.count == b.count - 1
    ensures Ordered(b.root) ==> Ordered(r.root) && Elems(r.root) == Elems(b.root) - multiset{x}
  {
    match Find(b.root, x)
    case None => Counted(b.root, b.count - 1)
    case Some(p) => Counted(RemoveAt(b.root, p), b.count - 1)
  }

  /** Deleting an absent element from a well-formed tree leaves the counter wrong. */
  lemma DeleteAsWrittenMiscounts()
    ensures var empty: Counted<int, ()> := Counted(Nil, 0);
      Valid(empty) && DeleteAsWritten(empty, 7).count == -1 && !Valid(DeleteAsWritten(empty, 7))
  {
  }

  /** `elimina` with the counter dropped only when a vertex is removed. */
  function Delete<A>(b: Counted<int, A>, x: int): (r: Counted<int, A>)
    ensures Valid(b) ==> Valid(r) && Elems(r.root) == Elems(b.root) - multiset{x}
    ensures x !in Elems(b.root) ==> r == b
  {
    match Find(b.root, x)
    case None => b
    case Some(p) => Counted(RemoveAt(b.root, p), b.count - 1)
  }

  /** The two versions agree exactly when the element is present. */
  lemma {:induction false} DeleteAsWrittenAgreesWhenPresent<A>(b: Counted<int, A>, x: int)
    requires Ordered(b.root)
    ensures DeleteAsWritten(b, x) == Delete(b, x) <==> x in Elems(b.root)
  {
    if x !in Elems(b.root) {
      assert Delete(b, x).count == b.count;
    }
  }

  // ---------------------------------------------------------------------
  // Rotations
  // ---------------------------------------------------------------------

  /** `giraDerecha` on a subtree: the left child becomes the root; no change without a left child. */
  function RotateRight<A>(t: Tree<int, A>): (r: Tree<int, A>)
    ensures InOrder(r) == InOrder(t)
    ensures t.Nil? || t.left.Nil? ==> r == t
    ensures t.Node? && t.left.Node? ==> r.Node? && r.right.Node? && r.elem == t.left.elem && r.right.elem == t.elem
  {
    match t
    case Node(Node(a, px, pa, b), qx, qa, c) => Node(a, px, pa, Node(b, qx, qa, c))
    case _ => t
  }

  /** `giraIzquierda` on a subtree: the right child becomes the root; no change without a right child. */
  function RotateLeft<A>(t: Tree<int, A>): (r: Tree<int, A>)
    ensures InOrder(r) == InOrder(t)
    ensures t.Nil? || t.right.Nil? ==> r == t
    ensures t.Node? && t.right.Node? ==> r.Node? && r.left.Node? && r.elem == t.right.elem && r.left.elem == t.elem
  {
    match t
    case Node(a, qx, qa, Node(b, px, pa, c)) => Node(Node(a, qx, qa, b), px, pa, c)
    case _ => t
  }

  /** The two rotations undo each other. */
  lemma RotationsInverse<A>(t: Tree<int, A>)
    ensures t.Node? && t.left.Node? ==> RotateLeft(RotateRight(t)) == t
    ensures t.Node? && t.right.Node? ==> RotateRight(RotateLeft(t)) == t
  {
  }

  /** `giraDerecha(vertice)` on the whole tree; a missing vertex or left child leaves it alone. */
  function RotateRightAt<A>(t: Tree<int, A>, p: Path): (r: Tree<int, A>)
    ensures InOrder(r) == InOrder(t)
    ensures Ordered(t) ==> Ordered(r)
    ensures !IsVertex(t, p) || At(t, p).left.Nil? ==> r == t
  {
    if !IsVertex(t, p) || At(t, p).left.Nil? then t
    else
      InOrderReplaceAt(t, p, RotateRight(At(t, p)));
      OrderedIffSortedInOrder(t);
      OrderedIffSortedInOrder(ReplaceAt(t, p, RotateRight(At(t, p))));
      ReplaceAt(t, p, RotateRight(At(t, p)))
  }

  /** `giraIzquierda(vertice)` on the whole tree; a missing vertex or right child leaves it alone. */
  function RotateLeftAt<A>(t: Tree<int, A>, p: Path): (r: Tree<int, A>)
    ensures InOrder(r) == InOrder(t)
    ensures Ordered(t) ==> Ordered(r)
    ensures !IsVertex(t, p) || At(t, p).right.Nil? ==> r == t
  {
    if !IsVertex(t, p) || At(t, p).right.Nil? then t
    else
      InOrderReplaceAt(t, p, RotateLeft(At(t, p)));
      OrderedIffSortedInOrder(t);
      OrderedIffSortedInOrder(ReplaceAt(t, p, RotateLeft(At(t, p))));
      ReplaceAt(t, p, RotateLeft(At(t, p)))
  }

  /** Rotating right and then left on the same vertex gives back the tree. */
  lemma RotateAtRoundTrip<A>(t: Tree<int, A>, p: Path)
    requires IsVertex(t, p) && At(t, p).left.Node?
    ensures RotateLeftAt(RotateRightAt(t, p), p) == t
  {
    var s := RotateRight(At(t, p));
    ReplaceAtTwice(t, p, s, RotateLeft(s));
    RotationsInverse(At(t, p));
    ReplaceAtSame(t, p);
  }

  // ---------------------------------------------------------------------
  // Walks
  // ---------------------------------------------------------------------

  /** Every entry of the iterator's stack is a vertex. */
  predicate AllVertices<T, A>(stack: seq<Tree<T, A>>) {
    forall i | 0 <= i < |stack| :: stack[i].Node?
  }

  /** The elements still to be produced by the iterator's stack, top first. */
  ghost function Pending<T, A>(stack: seq<Tree<T, A>>): seq<T>
    requires AllVertices(stack)
  {
    if |stack| == 0 then [] else [stack[0].elem] + InOrder(stack[0].right) + Pending(stack[1..])
  }

  /** Pushes `v` and its left descendants, the left-most last, on top of the stack. */
  method PushLeftSpine<T, A>(v: Tree<T, A>, stack: seq<Tree<T, A>>) returns (s: seq<Tree<T, A>>)
    requires AllVertices(stack)
    ensures AllVertices(s) && Pending(s) == InOrder(v) + Pending(stack)
  {
    s := stack;
    var a := v;
    while a.Node?
      invariant AllVertices(s)
      invariant InOrder(a) + Pending(s) == InOrder(v) + Pending(stack)
      decreases Size(a)
    {
      var s' := [a] + s;
      assert s'[1..] == s;
      assert Pending(s') == [a.elem] + InOrder(a.right) + Pending(s);
      s := s';
      a := a.left;
    }
  }

  /**
   * The in-order `Iterador`: the stack starts with the left spine of the
   * root; each `next` pops a vertex and pushes the left spine of its right
   * child. The elements come out in in-order.
   */
  method IterateInOrder<T, A>(t: Tree<T, A>) returns (out: seq<T>)
    ensures out == InOrder(t)
  {
    var stack := PushLeftSpine(t, []);
    out := [];
    while |stack| > 0
      invariant AllVertices(stack)
      invariant out + Pending(stack) == InOrder(t)
      decreases |Pending(stack)|
    {
      var top := stack[0];
      ghost var rest := Pending(stack[1..]);
      assert Pending(stack) == [top.elem] + InOrder(top.right) + rest;
      stack := PushLeftSpine(top.right, stack[1..]);
      assert (out + [top.elem]) + Pending(stack) == out + ([top.elem] + InOrder(top.right) + rest);
      out := out + [top.elem];
    }
  }

  /**
   * `dfsPreOrder`: the root, then the left subtree's pre-order walk, then the
   * right subtree's; NoSuchElement on an empty tree. `PreOrderBlocks` shows
   * every subtree is walked as one block that starts with its root.
   */
  function DfsPreOrder<A>(b: Counted<int, A>): (r: Result<seq<int>>)
    ensures r.Err? <==> b.root.Nil?
    ensures r.Err? ==> r.error == NoSuchElement
    ensures r.Ok? ==> multiset(r.value) == Elems(b.root) && r.value[0] == b.root.elem
    ensures r.Ok? ==> r.value == [b.root.elem] + PreOrder(b.root.left) + PreOrder(b.root.right)
  {
    WalksListEveryVertex(b.root);
    if b.root.Nil? then Err(NoSuchElement) else Ok(PreOrder(b.root))
  }

  /** `dfsInOrder`: the vertices in in-order, sorted when the tree is ordered. */
  function DfsInOrder<A>(b: Counted<int, A>): (r: Result<seq<int>>)
    ensures r.Err? <==> b.root.Nil?
    ensures r.Err? ==> r.error == NoSuchElement
    ensures r.Ok? ==> multiset(r.value) == Elems(b.root)
    ensures r.Ok? ==> (Sorted(r.value) <==> Ordered(b.root))
  {
    WalksListEveryVertex(b.root);
    OrderedIffSortedInOrder(b.root);
    if b.root.Nil? then Err(NoSuchElement) else Ok(InOrder(b.root))
  }

  /**
   * `dfsPostOrder`: the left subtree's post-order walk, then the right
   * subtree's, then the root; NoSuchElement on an empty tree.
   * `PostOrderBlocks` shows every subtree is walked as one block that ends
   * with its root.
   */
  function DfsPostOrder<A>(b: Counted<int, A>): (r: Result<seq<int>>)
    ensures r.Err? <==> b.root.Nil?
    ensures r.Err? ==> r.error == NoSuchElement
    ensures r.Ok? ==> multiset(r.value) == Elems(b.root) && r.value[|r.value| - 1] == b.root.elem
    ensures r.Ok? ==> r.value == PostOrder(b.root.left) + PostOrder(b.root.right) + [b.root.elem]
  {
    WalksListEveryVertex(b.root);
    if b.root.Nil? then Err(NoSuchElement) else Ok(PostOrder(b.root))
  }
}

=== FILE: red_black.dfy ===
/**
 * Red-black trees (`ArbolRojinegro`): ordered trees whose vertices carry a
 * colour. Insertion hangs a red vertex and repairs red-red conflicts from
 * the grandparent upwards; deletion removes a vertex with at most one child
 * and repairs a missing black ("double black") from the parent upwards.
 *
 * The walk of the source over parent pointers is written as recursion: each
 * level returns its repaired subtree, and deletion also reports whether the
 * subtree lost one black on every path (the double black travelling up).
 */
module RedBlack {
  import opened Wrappers
  import opened BinaryTree
  import opened OrderedTree
  import opened JavaInt

  /** The colour of a vertex. */
  datatype Color = Red | Black

  type RbTree = Tree<int, Color>

  /** `esRojo`: a vertex that exists and is red; missing leaves count as black. */
  predicate IsRed(t: RbTree) {
    t.Node? && t.aux == Red
  }

  predicate IsBlack(t: RbTree) {
    !IsRed(t)
  }

  /**
   * A red-black subtree of black height `n`: every path from its root to a
   * missing leaf meets `n` black vertices, and no red vertex has a red child.
   */
  ghost predicate RB(t: RbTree, n: nat) {
    match t
    case Nil => n == 0
    case Node(l, _, c, r) =>
      if c == Black then n >= 1 && RB(l, n - 1) && RB(r, n - 1)
      else IsBlack(l) && IsBlack(r) && RB(l, n) && RB(r, n)
  }

  /** Black vertices on the left spine; the black height of a red-black tree. */
  function BlackHeight(t: RbTree): nat {
    if t.Nil? then 0 else (if t.aux == Black then 1 else 0) + BlackHeight(t.left)
  }

  lemma RbBlackHeight(t: RbTree, n: nat)
    requires RB(t, n)
    ensures BlackHeight(t) == n
  {
  }

  /** A tree object obeying the class invariant: ordered, counted, black root, red-black. */
  ghost predicate ValidRb(b: Counted<int, Color>) {
    Valid(b) && IsBlack(b.root) && RB(b.root, BlackHeight(b.root))
  }

  /**
   * Why the tree stays balanced: with black height `n` there are at least
   * 2^n - 1 vertices, and no path is longer than twice the black vertices on it.
   */
  lemma {:induction false} RbIsBalanced(t: RbTree, n: nat)
    requires RB(t, n)
    ensures Pow2(n) <= Size(t) + 1
    ensures Height(t) + 1 <= 2 * n + (if IsRed(t) then 1 else 0)
  {
    match t
    case Nil =>
    case Node(l, _, c, r) =>
      if c == Black {
        RbIsBalanced(l, n - 1);
        RbIsBalanced(r, n - 1);
      } else {
        RbIsBalanced(l, n);
        RbIsBalanced(r, n);
      }
  }

  /** Makes the root black (case 1 of the insertion repair). */
  function Blacken(t: RbTree): (r: RbTree)
    ensures InOrder(r) == InOrder(t) && IsBlack(r)
  {
    if t.Nil? then t else t.(aux := Black)
  }

  lemma BlackenRb(t: RbTree, n: nat)
    requires RB(t, n)
    ensures RB(Blacken(t), if IsRed(t) then n + 1 else n)
  {
  }

  // ---------------------------------------------------------------------
  // Insertion
  // ---------------------------------------------------------------------

  /** `nuevoVertice` followed by the colouring in `agrega`: a red leaf. */
  function NewVertex(x: int): (r: RbTree)
    ensures IsRed(r) && InOrder(r) == [x] && RB(r, 0)
  {
    Node(Nil, x, Red, Nil)
  }

  /**
   * The insertion repair seen from the grandparent `g` of a red vertex whose
   * red parent is the left child of `g` (cases 3, 4 and 5 of
   * `rebalanceaAgrega`): a red uncle makes the grandparent red and its
   * children black; otherwise one rotation (two when the red vertex is the
   * inner grandchild) brings the middle element to the top, black.
   */
  function FixLeft(g: RbTree): (r: RbTree)
    ensures InOrder(r) == InOrder(g)
  {
    if g.Nil? || !IsRed(g.left) then g
    else
      var p, u := g.left, g.right;
      if IsRed(p.left) || IsRed(p.right) then
        if IsRed(u) then Node(p.(aux := Black), g.elem, Red, u.(aux := Black))
        else if IsRed(p.left) then
          Regroup(InOrder(p.left), p.elem, InOrder(p.right), g.elem, InOrder(u));
          Node(p.left, p.elem, Black, Node(p.right, g.elem, Red, u))
        else
          var v := p.right;
          assert InOrder(p.right) == InOrder(v.left) + [v.elem] + InOrder(v.right);
          Regroup2(InOrder(p.left), p.elem, InOrder(v.left), v.elem, InOrder(v.right), g.elem, InOrder(u));
          Node(Node(p.left, p.elem, Red, v.left), v.elem, Black, Node(v.right, g.elem, Red, u))
      else g
  }

  /** The mirror image of `FixLeft`: the red parent is the right child of `g`. */
  function FixRight(g: RbTree): (r: RbTree)
    ensures InOrder(r) == InOrder(g)
  {
    if g.Nil? || !IsRed(g.right) then g
    else
      var p, u := g.right, g.left;
      if IsRed(p.left) || IsRed(p.right) then
        if IsRed(u) then Node(u.(aux := Black), g.elem, Red, p.(aux := Black))
        else if IsRed(p.right) then
          Regroup(InOrder(u), g.elem, InOrder(p.left), p.elem, InOrder(p.right));
          Node(Node(u, g.elem, Red, p.left), p.elem, Black, p.right)
        else
          var v := p.left;
          assert InOrder(p.left) == InOrder(v.left) + [v.elem] + InOrder(v.right);
          RegroupMirror(InOrder(u), g.elem, InOrder(v.left), v.elem, InOrder(v.right), p.elem, InOrder(p.right));
          Node(Node(u, g.elem, Red, v.left), v.elem, Black, Node(v.right, p.elem, Red, p.right))
      else g
  }

  /**
   * The ordered insertion of a red vertex, repaired on the way back up: at
   * every vertex of the descent the conflict one level below is resolved.
   */
  function Ins(t: RbTree, x: int): (r: RbTree)
    ensures InOrder(r) == InOrder(Insert(t, x, Red))
  {
    match t
    case Nil => NewVertex(x)
    case Node(l, y, c, rr) =>
      if x <= y then FixLeft(Node(Ins(l, x), y, c, rr)) else FixRight(Node(l, y, c, Ins(rr, x)))
  }

  /** A red root whose children are red-black of height `n`, at least one of them black. */
  ghost predicate Almost(t: RbTree, n: nat) {
    && t.Node? && t.aux == Red && RB(t.left, n) && RB(t.right, n)
    && (IsBlack(t.left) || IsBlack(t.right))
  }

  /** Below a black grandparent the repair leaves no conflict and keeps the black height. */
  lemma FixLeftRb(g: RbTree, n: nat)
    requires g.Node? && g.aux == Black && n >= 1 && RB(g.right, n - 1)
    requires RB(g.left, n - 1) || Almost(g.left, n - 1)
    ensures RB(FixLeft(g), n)
  {
  }

  lemma FixRightRb(g: RbTree, n: nat)
    requires g.Node? && g.aux == Black && n >= 1 && RB(g.left, n - 1)
    requires RB(g.right, n - 1) || Almost(g.right, n - 1)
    ensures RB(FixRight(g), n)
  {
  }

  /**
   * Insertion into a red-black subtree of black height `n` keeps the black
   * height; below a black root nothing is left to repair, below a red root at
   * most one red-red conflict remains at the root, for the parent to resolve.
   */
  lemma {:induction false} InsRb(t: RbTree, x: int, n: nat)
    requires RB(t, n)
    ensures IsBlack(t) ==> RB(Ins(t, x), n)
    ensures IsRed(t) ==> Almost(Ins(t, x), n)
    decreases t, 1
  {
    if IsBlack(t) {
      InsRbBlack(t, x, n);
    } else {
      InsRbRed(t, x, n);
    }
  }

  /** Below a black root the repair one level down leaves a red-black tree. */
  lemma {:induction false} InsRbBlack(t: RbTree, x: int, n: nat)
    requires RB(t, n) && IsBlack(t)
    ensures RB(Ins(t, x), n)
    decreases t, 0
  {
    match t
    case Nil =>
    case Node(l, y, c, rr) =>
      if x <= y {
        InsRb(l, x, n - 1);
        FixLeftRb(Node(Ins(l, x), y, c, rr), n);
      } else {
        InsRb(rr, x, n - 1);
        FixRightRb(Node(l, y, c, Ins(rr, x)), n);
      }
  }

  /** Below a red root nothing is repaired: the conflict, if any, is left to the parent. */
  lemma {:induction false} InsRbRed(t: RbTree, x: int, n: nat)
    requires RB(t, n) && IsRed(t)
    ensures Almost(Ins(t, x), n)
    decreases t, 0
  {
    var Node(l, y, c, rr) := t;
    if x <= y {
      InsRb(l, x, n);
      var g := Node(Ins(l, x), y, c, rr);
      assert FixLeft(g) == g;
    } else {
      InsRb(rr, x, n);
      var g := Node(l, y, c, Ins(rr, x));
      assert FixRight(g) == g;
    }
  }

  lemma InsKeepsOrder(t: RbTree, x: int)
    requires Ordered(t)
    ensures Ordered(Ins(t, x))
  {
    OrderedIffSortedInOrder(Insert(t, x, Red));
    OrderedIffSortedInOrder(Ins(t, x));
  }

  /**
   * `agrega(T)`: IllegalArgument for null; otherwise the ordered insertion of
   * a red vertex, the repair, and a black root.
   */
  function Add(b: Counted<int, Color>, e: Option<int>): (r: Result<Counted<int, Color>>)
    ensures r.Err? <==> e.None?
    ensures r.Err? ==> r.error == IllegalArgument
    ensures r.Ok? ==> r.value.count == b.count + 1 && Elems(r.value.root) == Elems(b.root) + multiset{e.value}
    ensures r.Ok? && ValidRb(b) ==> ValidRb(r.value)
  {
    if e.None? then Err(IllegalArgument)
    else
      var t := Blacken(Ins(b.root, e.value));
      SameInOrderSameElems(t, Insert(b.root, e.value, Red));
      AddFacts(b, e.value);
      Ok(Counted(t, b.count + 1))
  }

  lemma AddFacts(b: Counted<int, Color>, x: int)
    ensures ValidRb(b) ==> ValidRb(Counted(Blacken(Ins(b.root, x)), b.count + 1))
  {
    if ValidRb(b) {
      var n := BlackHeight(b.root);
      var t := Ins(b.root, x);
      InsRb(b.root, x, n);
      BlackenRb(t, n);
      RbBlackHeight(Blacken(t), if IsRed(t) then n + 1 else n);
      InsKeepsOrder(b.root, x);
      OrderedIffSortedInOrder(t);
      OrderedIffSortedInOrder(Blacken(t));
      SameInOrderSameElems(Blacken(t), Insert(b.root, x, Red));
    }
  }

  // ---------------------------------------------------------------------
  // Deletion
  // ---------------------------------------------------------------------

  /**
   * A repaired subtree, and whether every path through it has one black
   * vertex fewer than before (a double black at its root still to repair).
   */
  datatype Removed = Removed(tree: RbTree, short: bool)

  /**
   * Cases 3 to 6 of `eliminaRojinegro` for a double black left child of `n`
   * whose sibling is not red. A black parent, sibling and nephews: the
   * sibling turns red and the double black moves up to the parent (case 3);
   * a red parent instead turns black and the repair ends (case 4). Otherwise
   * a red far nephew is ensured by one rotation at the sibling (case 5), and
   * a rotation at the parent ends the repair (case 6). A missing sibling,
   * which a red-black tree never has here, stops the repair.
   */
  function SiblingBlackLeft(n: RbTree): (r: Removed)
    requires n.Node?
    ensures InOrder(r.tree) == InOrder(n)
    ensures n.aux == Red ==> !r.short
  {
    var v, s := n.left, n.right;
    if s.Nil? then Removed(n, false)
    else if n.aux == Black && s.aux == Black && IsBlack(s.left) && IsBlack(s.right) then
      Removed(Node(v, n.elem, Black, s.(aux := Red)), true)
    else if s.aux == Black && IsBlack(s.left) && IsBlack(s.right) && n.aux == Red then
      Removed(Node(v, n.elem, Black, s.(aux := Red)), false)
    else
      var s' :=
        if IsRed(s.left) && IsBlack(s.right) then
          Regroup(InOrder(s.left.left), s.left.elem, InOrder(s.left.right), s.elem, InOrder(s.right));
          Node(s.left.left, s.left.elem, Black, Node(s.left.right, s.elem, Red, s.right))
        else s;
      assert InOrder(s') == InOrder(s) == InOrder(s'.left) + [s'.elem] + InOrder(s'.right);
      Regroup(InOrder(v), n.elem, InOrder(s'.left), s'.elem, InOrder(s'.right));
      Removed(Node(Node(v, n.elem, Black, s'.left), s'.elem, n.aux, Blacken(s'.right)), false)
  }

  /** The mirror image of `SiblingBlackLeft`: the double black is the right child. */
  function SiblingBlackRight(n: RbTree): (r: Removed)
    requires n.Node?
    ensures InOrder(r.tree) == InOrder(n)
    ensures n.aux == Red ==> !r.short
  {
    var v, s := n.right, n.left;
    if s.Nil? then Removed(n, false)
    else if n.aux == Black && s.aux == Black && IsBlack(s.left) && IsBlack(s.right) then
      Removed(Node(s.(aux := Red), n.elem, Black, v), true)
    else if s.aux == Black && IsBlack(s.left) && IsBlack(s.right) && n.aux == Red then
      Removed(Node(s.(aux := Red), n.elem, Black, v), false)
    else
      var s' :=
        if IsBlack(s.left) && IsRed(s.right) then
          Regroup(InOrder(s.left), s.elem, InOrder(s.right.left), s.right.elem, InOrder(s.right.right));
          Node(Node(s.left, s.elem, Red, s.right.left), s.right.elem, Black, s.right.right)
        else s;
      assert InOrder(s') == InOrder(s) == InOrder(s'.left) + [s'.elem] + InOrder(s'.right);
      Regroup(InOrder(s'.left), s'.elem, InOrder(s'.right), n.elem, InOrder(v));
      Removed(Node(Blacken(s'.left), s'.elem, n.aux, Node(s'.right, n.elem, Black, v)), false)
  }

  /**
   * `eliminaRojinegro` for a double black left child of `n`: a red sibling
   * is first rotated above the parent, which turns red (case 2), so that the
   * new sibling is black; then cases 3 to 6.
   */
  function FixDelLeft(n: RbTree): (r: Removed)
    requires n.Node?
    ensures InOrder(r.tree) == InOrder(n)
  {
    var s := n.right;
    if IsRed(s) then
      var inner := SiblingBlackLeft(Node(n.left, n.elem, Red, s.left));
      Removed(Node(inner.tree, s.elem, Black, s.right), false)
    else SiblingBlackLeft(n)
  }

  /** The mirror image of `FixDelLeft`. */
  function FixDelRight(n: RbTree): (r: Removed)
    requires n.Node?
    ensures InOrder(r.tree) == InOrder(n)
  {
    var s := n.left;
    if IsRed(s) then
      var inner := SiblingBlackRight(Node(s.right, n.elem, Red, n.right));
      Removed(Node(s.left, s.elem, Black, inner.tree), false)
    else SiblingBlackRight(n)
  }

  /** A rebuilt vertex whose left subtree may have come back short. */
  function BubbleLeft(n: RbTree, short: bool): (r: Removed)
    requires n.Node?
    ensures InOrder(r.tree) == InOrder(n)
  {
    if short then FixDelLeft(n) else Removed(n, false)
  }

  function BubbleRight(n: RbTree, short: bool): (r: Removed)
    requires n.Node?
    ensures InOrder(r.tree) == InOrder(n)
  {
    if short then FixDelRight(n) else Removed(n, false)
  }

  /**
   * Removal of a vertex with at most one child: the child `h` (the right one
   * when present) takes its place; a missing child is the black phantom leaf.
   * A red `h` turns black; a black `h` in place of a black vertex is a
   * double black.
   */
  function RemoveVertex(v: RbTree): (r: Removed)
    requires v.Node? && (v.left.Nil? || v.right.Nil?)
    ensures InOrder(r.tree) == InOrder(v.left) + InOrder(v.right)
  {
    var h := if v.right.Node? then v.right else v.left;
    if IsRed(h) then Removed(h.(aux := Black), false)
    else if v.aux == Black then Removed(h, true)
    else Removed(h, false)
  }

  /**
   * Removal of the in-order predecessor found by `maximo`: the right-most
   * vertex goes and the repair runs up to `t`. Returns the repaired subtree
   * and the removed element.
   */
  function DelMax(t: RbTree): (r: (Removed, int))
    requires t.Node?
    ensures InOrder(r.0.tree) + [r.1] == InOrder(t)
  {
    if t.right.Nil? then (RemoveVertex(t), t.elem)
    else
      var (res, m) := DelMax(t.right);
      (BubbleRight(Node(t.left, t.elem, t.aux, res.tree), res.short), m)
  }

  /**
   * `elimina(T)` below the root: `None` when the ordered search misses `x`.
   * A vertex with both children takes its predecessor's element (keeping its
   * colour) and the predecessor is removed instead.
   */
  function Del(t: RbTree, x: int): (r: Option<Removed>)
    ensures r.None? <==> Find(t, x).None?
  {
    match t
    case Nil => None
    case Node(l, y, c, rr) =>
      if x == y then
        if l.Node? && rr.Node? then
          var (res, m) := DelMax(l);
          Some(BubbleLeft(Node(res.tree, m, c, rr), res.short))
        else Some(RemoveVertex(t))
      else if x < y then
        match Del(l, x)
        case None => None
        case Some(res) => Some(BubbleLeft(Node(res.tree, y, c, rr), res.short))
      else
        match Del(rr, x)
        case None => None
        case Some(res) => Some(BubbleRight(Node(l, y, c, res.tree), res.short))
  }

  /**
   * What a deletion below a red-black subtree `t` of black height `n`
   * delivers: a red-black subtree of height `n`, or of height `n - 1` when it
   * reports a double black; and a red root only where `t` had one.
   */
  ghost predicate Shrunk(t: RbTree, r: Removed, n: nat) {
    && (r.short ==> n >= 1 && RB(r.tree, n - 1))
    && (!r.short ==> RB(r.tree, n))
    && (IsRed(r.tree) ==> IsRed(t))
  }

  lemma SiblingBlackLeftRb(n: RbTree, k: nat)
    requires n.Node? && k >= 1 && RB(n.left, k - 1) && RB(n.right, k) && IsBlack(n.right)
    ensures Shrunk(n, SiblingBlackLeft(n), if n.aux == Black then k + 1 else k)
  {
  }

  lemma SiblingBlackRightRb(n: RbTree, k: nat)
    requires n.Node? && k >= 1 && RB(n.right, k - 1) && RB(n.left, k) && IsBlack(n.left)
    ensures Shrunk(n, SiblingBlackRight(n), if n.aux == Black then k + 1 else k)
  {
  }

  /** The double black repair of a left child one black short of its sibling. */
  lemma FixDelLeftRb(n: RbTree, k: nat)
    requires n.Node? && k >= 1 && RB(n.left, k - 1) && RB(n.right, k)
    requires n.aux == Red ==> IsBlack(n.right)
    ensures Shrunk(n, FixDelLeft(n), if n.aux == Black then k + 1 else k)
  {
    var s := n.right;
    if IsRed(s) {
      SiblingBlackLeftRb(Node(n.left, n.elem, Red, s.left), k);
    } else {
      SiblingBlackLeftRb(n, k);
    }
  }

  lemma FixDelRightRb(n: RbTree, k: nat)
    requires n.Node? && k >= 1 && RB(n.right, k - 1) && RB(n.left, k)
    requires n.aux == Red ==> IsBlack(n.left)
    ensures Shrunk(n, FixDelRight(n), if n.aux == Black then k + 1 else k)
  {
    var s := n.left;
    if IsRed(s) {
      SiblingBlackRightRb(Node(s.right, n.elem, Red, n.right), k);
    } else {
      SiblingBlackRightRb(n, k);
    }
  }

  lemma RemoveVertexRb(v: RbTree, n: nat)
    requires v.Node? && (v.left.Nil? || v.right.Nil?) && RB(v, n)
    ensures Shrunk(v, RemoveVertex(v), n)
  {
  }

  /** Rebuilding `t` around a subtree that came back from a deletion on the left. */
  lemma BubbleLeftRb(t: RbTree, res: Removed, m: int, n: nat)
    requires t.Node? && RB(t, n)
    requires Shrunk(t.left, res, if t.aux == Black then n - 1 else n)
    ensures Shrunk(t, BubbleLeft(Node(res.tree, m, t.aux, t.right), res.short), n)
  {
    var k := if t.aux == Black then n - 1 else n;
    if res.short {
      FixDelLeftRb(Node(res.tree, m, t.aux, t.right), k);
    }
  }

  lemma BubbleRightRb(t: RbTree, res: Removed, m: int, n: nat)
    requires t.Node? && RB(t, n)
    requires Shrunk(t.right, res, if t.aux == Black then n - 1 else n)
    ensures Shrunk(t, BubbleRight(Node(t.left, m, t.aux, res.tree), res.short), n)
  {
    var k := if t.aux == Black then n - 1 else n;
    var v := Node(t.left, m, t.aux, res.tree);
    if res.short {
      FixDelRightRb(v, k);
    } else {
      KeptRb(t, res.tree, m, n);
    }
  }

  /** A subtree that came back at its old black height, and red only where the old one was, fits back in. */
  lemma KeptRb(t: RbTree, r: RbTree, m: int, n: nat)
    requires t.Node? && RB(t, n)
    requires RB(r, if t.aux == Black then n - 1 else n) && (IsRed(r) ==> IsRed(t.right))
    ensures RB(Node(t.left, m, t.aux, r), n)
  {
  }

  lemma {:induction false} DelMaxRb(t: RbTree, n: nat)
    requires t.Node? && RB(t, n)
    ensures Shrunk(t, DelMax(t).0, n)
    decreases t
  {
    if t.right.Nil? {
      RemoveVertexRb(t, n);
    } else {
      var k := if t.aux == Black then n - 1 else n;
      DelMaxRb(t.right, k);
      BubbleRightRb(t, DelMax(t.right).0, t.elem, n);
    }
  }

  /** Deletion keeps the red-black invariant below a subtree, up to one reported black. */
  lemma {:induction false} DelRb(t: RbTree, x: int, n: nat)
    requires RB(t, n) && Del(t, x).Some?
    ensures Shrunk(t, Del(t, x).value, n)
  {
    match t
    case Node(l, y, c, rr) =>
      var k := if c == Black then n - 1 else n;
      if x == y {
        if l.Node? && rr.Node? {
          var (res, m) := DelMax(l);
          DelMaxRb(l, k);
          BubbleLeftRb(t, res, m, n);
        } else {
          RemoveVertexRb(t, n);
        }
      } else if x < y {
        DelRb(l, x, k);
        BubbleLeftRb(t, Del(l, x).value, y, n);
      } else {
        DelRb(rr, x, k);
        BubbleRightRb(t, Del(rr, x).value, y, n);
      }
  }

  /** A successful deletion removes exactly one occurrence of `x`, in the order of the walk. */
  lemma {:induction false} DelElems(t: RbTree, x: int)
    requires Del(t, x).Some?
    ensures x in Elems(t) && Elems(Del(t, x).value.tree) == Elems(t) - multiset{x}
  {
    match t
    case Node(l, y, c, rr) =>
      if x == y {
        if l.Node? && rr.Node? {
          var (res, m) := DelMax(l);
          assert InOrder(Del(t, x).value.tree) == InOrder(l) + InOrder(rr);
        }
        DropRoot(t, Del(t, x).value.tree);
      } else if x < y {
        var res := Del(l, x).value;
        DelElems(l, x);
        DropLeft(t, res.tree, x);
        SameInOrderSameElems(Node(res.tree, y, c, rr), Del(t, x).value.tree);
      } else {
        var res := Del(rr, x).value;
        DelElems(rr, x);
        DropRight(t, res.tree, x);
        SameInOrderSameElems(Node(l, y, c, res.tree), Del(t, x).value.tree);
      }
  }

  /** The removed maximum bounds what stays, and what stays is ordered. */
  lemma DelMaxKeepsOrder(t: RbTree)
    requires t.Node? && Ordered(t)
    ensures Ordered(DelMax(t).0.tree)
    ensures DelMax(t).1 in Elems(t)
    ensures forall z | z in InOrder(DelMax(t).0.tree) :: z <= DelMax(t).1
  {
    var (res, m) := DelMax(t);
    var a := InOrder(res.tree);
    OrderedIffSortedInOrder(t);
    OrderedIffSortedInOrder(res.tree);
    assert a + [m] + [] == InOrder(t);
    SortedJoin(a, m, []);
    WalksListEveryVertex(t);
    assert m in InOrder(t);
  }

  /** Deleting at a vertex with two children: its predecessor moves up, and the order stays. */
  lemma DelBothChildrenKeepsOrder(t: RbTree)
    requires t.Node? && t.left.Node? && t.right.Node? && Ordered(t)
    ensures Ordered(Del(t, t.elem).value.tree)
  {
    var (res, m) := DelMax(t.left);
    var r := Del(t, t.elem).value.tree;
    assert InOrder(r) == InOrder(res.tree) + [m] + InOrder(t.right);
    DelMaxKeepsOrder(t.left);
    OrderedIffSortedInOrder(t);
    OrderedIffSortedInOrder(res.tree);
    OrderedIffSortedInOrder(r);
    SortedJoin(InOrder(t.left), t.elem, InOrder(t.right));
    WalksListEveryVertex(t.left);
    assert m in InOrder(t.left);
    SortedJoin(InOrder(res.tree), m, InOrder(t.right));
  }

  /** One step of the descent to the left: a smaller ordered left subtree keeps the order. */
  lemma DelStepLeft(l: RbTree, res: Removed, y: int, c: Color, rr: RbTree, x: int)
    requires Ordered(Node(l, y, c, rr)) && Ordered(res.tree)
    requires Elems(res.tree) == Elems(l) - multiset{x}
    ensures Ordered(BubbleLeft(Node(res.tree, y, c, rr), res.short).tree)
  {
    var n := Node(res.tree, y, c, rr);
    DiffWithin(Elems(res.tree), Elems(l), x);
    ShrinkLeft(l, res.tree, y, c, rr);
    OrderedIffSortedInOrder(n);
    OrderedIffSortedInOrder(BubbleLeft(n, res.short).tree);
  }

  /** One step of the descent to the right: a smaller ordered right subtree keeps the order. */
  lemma DelStepRight(l: RbTree, y: int, c: Color, rr: RbTree, res: Removed, x: int)
    requires Ordered(Node(l, y, c, rr)) && Ordered(res.tree)
    requires Elems(res.tree) == Elems(rr) - multiset{x}
    ensures Ordered(BubbleRight(Node(l, y, c, res.tree), res.short).tree)
  {
    var n := Node(l, y, c, res.tree);
    DiffWithin(Elems(res.tree), Elems(rr), x);
    ShrinkRight(l, y, c, rr, res.tree);
    OrderedIffSortedInOrder(n);
    OrderedIffSortedInOrder(BubbleRight(n, res.short).tree);
  }

  lemma {:induction false} DelKeepsOrder(t: RbTree, x: int)
    requires Ordered(t) && Del(t, x).Some?
    ensures Ordered(Del(t, x).value.tree)
  {
    var r := Del(t, x).value.tree;
    match t
    case Node(l, y, c, rr) =>
      if x == y {
        if l.Node? && rr.Node? {
          DelBothChildrenKeepsOrder(t);
        } else {
          OrderedIffSortedInOrder(t);
          OrderedIffSortedInOrder(r);
          assert InOrder(r) == InOrder(l) + InOrder(rr);
          SortedJoin(InOrder(l), y, InOrder(rr));
          SortedJoin(InOrder(l), y, []);
          assert InOrder(l) + [y] + [] == InOrder(l) + [y];
        }
      } else if x < y {
        var res := Del(l, x).value;
        DelKeepsOrder(l, x);
        DelElems(l, x);
        DelStepLeft(l, res, y, c, rr, x);
      } else {
        var res := Del(rr, x).value;
        DelKeepsOrder(rr, x);
        DelElems(rr, x);
        DelStepRight(l, y, c, rr, res, x);
      }
  }

  /**
   * `elimina(T)` on the tree object: nothing changes when the element is
   * absent; otherwise one occurrence goes, the count drops by one, and the
   * class invariant is kept.
   */
  function Delete(b: Counted<int, Color>, x: int): (r: Counted<int, Color>)
    ensures x !in Elems(b.root) ==> r == b
    ensures ValidRb(b) ==> ValidRb(r) && Elems(r.root) == Elems(b.root) - multiset{x}
  {
    match Del(b.root, x)
    case None => b
    case Some(res) =>
      DelElems(b.root, x);
      DeleteFacts(b, x);
      Counted(res.tree, b.count - 1)
  }

  lemma DeleteFacts(b: Counted<int, Color>, x: int)
    requires Del(b.root, x).Some?
    ensures ValidRb(b) ==> ValidRb(Counted(Del(b.root, x).value.tree, b.count - 1))
  {
    if ValidRb(b) {
      var n := BlackHeight(b.root);
      var res := Del(b.root, x).value;
      DelRb(b.root, x, n);
      RbBlackHeight(res.tree, if res.short then n - 1 else n);
      DelKeepsOrder(b.root, x);
      DelElems(b.root, x);
      SizeIsElemsCount(b.root);
      SizeIsElemsCount(res.tree);
    }
  }

  /** `giraDerecha` from outside the class: always UnsupportedOperation. */
  function RotateRightRejected(b: Counted<int, Color>, p: Path): (r: Result<Counted<int, Color>>)
    ensures r.Err? && r.error == UnsupportedOperation
  {
    Err(UnsupportedOperation)
  }

  /** `giraIzquierda` from outside the class: always UnsupportedOperation. */
  function RotateLeftRejected(b: Counted<int, Color>, p: Path): (r: Result<Counted<int, Color>>)
    ensures r.Err? && r.error == UnsupportedOperation
  {
    Err(UnsupportedOperation)
  }
}

=== FILE: stack_queue.dfy ===
/**
 * Stacks (`Pila`) and queues (`Cola`): both keep a chain of elements from a
 * head, modelled as the sequence from head to tail. A stack pushes at the
 * head; a queue at the tail.
 */
module StackQueue {
  import opened Wrappers
  import Lists

  /**
   * `Pila.mete`: IllegalArgument for null; otherwise the element becomes the
   * head. The stack's nodes are linked as a list's, and pushing is the
   * list's `agregaInicio`.
   */
  function Push<T>(s: seq<T>, e: Option<T>): (r: Result<seq<T>>)
    ensures r.Err? <==> e.None?
    ensures r.Err? ==> r.error == IllegalArgument
    ensures r.Ok? ==> |r.value| == |s| + 1 && r.value[0] == e.value && r.value[1..] == s
  {
    Lists.Prepend(s, e)
  }

  /** `Cola.mete`: IllegalArgument for null; otherwise the element becomes the tail, the head stays. */
  function Enqueue<T>(s: seq<T>, e: Option<T>): (r: Result<seq<T>>)
    ensures r.Err? <==> e.None?
    ensures r.Err? ==> r.error == IllegalArgument
    ensures r.Ok? ==> |r.value| == |s| + 1 && r.value[..|s|] == s && r.value[|s|] == e.value
    ensures r.Ok? && |s| > 0 ==> r.value[0] == s[0]
  {
    if e.None? then Err(IllegalArgument) else Ok(s + [e.value])
  }

  /** Pushing the elements of `xs` one by one. */
  function PushAll<T>(s: seq<T>, xs: seq<T>): seq<T>
    decreases |xs|
  {
    if |xs| == 0 then s else PushAll(Push(s, Some(xs[0])).value, xs[1..])
  }

  /** Enqueuing the elements of `xs` one by one. */
  function EnqueueAll<T>(s: seq<T>, xs: seq<T>): seq<T>
    decreases |xs|
  {
    if |xs| == 0 then s else EnqueueAll(Enqueue(s, Some(xs[0])).value, xs[1..])
  }

  /** Last in, first out: pushed elements come back from the head in reverse order. */
  lemma {:induction false} PushAllIsLifo<T>(s: seq<T>, xs: seq<T>)
    ensures PushAll(s, xs) == Lists.Reversed(xs) + s
    decreases |xs|
  {
    if |xs| > 0 {
      PushAllIsLifo([xs[0]] + s, xs[1..]);
      Lists.ReversedFront(xs);
      assert Lists.Reversed(xs[1..]) + ([xs[0]] + s) == Lists.Reversed(xs) + s;
    }
  }

  /** First in, first out: enqueued elements come back from the head in the same order. */
  lemma {:induction false} EnqueueAllIsFifo<T>(s: seq<T>, xs: seq<T>)
    ensures EnqueueAll(s, xs) == s + xs
    decreases |xs|
  {
    if |xs| > 0 {
      EnqueueAllIsFifo(s + [xs[0]], xs[1..]);
      assert s + [xs[0]] + xs[1..] == s + xs;
    }
  }

  /** `Pila.toString`: every element from the head, each followed by a line break. */
  function StackText<T>(s: seq<T>, show: T -> string): string {
    if |s| == 0 then "" else show(s[0]) + "\n" + StackText(s[1..], show)
  }

  /** `Cola.toString`: every element from the head, each followed by a comma. */
  function QueueText<T>(s: seq<T>, show: T -> string): string {
    if |s| == 0 then "" else show(s[0]) + "," + QueueText(s[1..], show)
  }

  /** Pushing puts one more line on top of the stack's text. */
  lemma StackTextPush<T>(s: seq<T>, x: T, show: T -> string)
    ensures StackText(Push(s, Some(x)).value, show) == show(x) + "\n" + StackText(s, show)
  {
    assert ([x] + s)[1..] == s;
  }

  /** Enqueuing adds one more item at the end of the queue's text. */
  lemma {:induction false} QueueTextEnqueue<T>(s: seq<T>, x: T, show: T -> string)
    ensures QueueText(Enqueue(s, Some(x)).value, show) == QueueText(s, show) + show(x) + ","
  {
    if |s| > 0 {
      assert (s + [x])[1..] == s[1..] + [x];
      QueueTextEnqueue(s[1..], x, show);
    }
  }

  /**
   * `Pila.toString`: the loop walks the nodes from the top and appends each
   * element's text and a line break. The text is empty exactly for an empty
   * stack.
   */
  method StackToString<T>(s: seq<T>, show: T -> string) returns (out: string)
    ensures out == StackText(s, show)
    ensures out == "" <==> |s| == 0
  {
    out := "";
    var n := 0;
    while n < |s|
      invariant 0 <= n <= |s|
      invariant out + StackText(s[n..], show) == StackText(s, show)
    {
      StackTextStep(s, n, out, show);
      out := out + show(s[n]) + "\n";
      n := n + 1;
    }
  }

  /** `Cola.toString`: the same walk from the head, each element followed by a comma. */
  method QueueToString<T>(s: seq<T>, show: T -> string) returns (out: string)
    ensures out == QueueText(s, show)
    ensures out == "" <==> |s| == 0
  {
    out := "";
    var n := 0;
    while n < |s|
      invariant 0 <= n <= |s|
      invariant out + QueueText(s[n..], show) == QueueText(s, show)
    {
      QueueTextStep(s, n, out, show);
      out := out + show(s[n]) + ",";
      n := n + 1;
    }
  }

  /** One round of `Pila.toString`'s loop: the element at `n` moves from the rest to the text. */
  lemma StackTextStep<T>(s: seq<T>, n: nat, out: string, show: T -> string)
    requires n < |s|
    ensures out + StackText(s[n..], show) == (out + show(s[n]) + "\n") + StackText(s[n + 1..], show)
  {
    assert s[n..][1..] == s[n + 1..];
  }

  /** One round of `Cola.toString`'s loop. */
  lemma QueueTextStep<T>(s: seq<T>, n: nat, out: string, show: T -> string)
    requires n < |s|
    ensures out + QueueText(s[n..], show) == (out + show(s[n]) + ",") + QueueText(s[n + 1..], show)
  {
    assert s[n..][1..] == s[n + 1..];
  }
}

=== FILE: text.dfy ===
/**
 * The pure string helpers of the two front ends: the word splitter and the
 * word counter of the word-count project (Organizador.java), the HTML pieces
 * it writes (HtmlCreator.java), and the line cleaner, the structure-name
 * check and the space collapsing of the structure reader (Lector.java).
 * Strings are sequences of characters; the word counts go into a Dafny map
 * where the Java code uses its own `Diccionario`.
 */
module Text {
  import opened Wrappers

  /** How many times `c` occurs in `s`. */
  function Occurrences(s: string, c: char): nat {
    if |s| == 0 then 0 else Occurrences(s[..|s| - 1], c) + (if s[|s| - 1] == c then 1 else 0)
  }

  // ------------------------------------------------------------ prefixes

  /**
   * The loop shared by `nombrador` and `buscador`: the characters of `s` up
   * to the first `stop`, and whether a `stop` was met.
   */
  method UpTo(s: string, stop: char) returns (r: string, cut: bool)
    ensures stop !in r && |r| <= |s| && r == s[..|r|]
    ensures cut <==> stop in s
    ensures cut ==> |r| < |s| && s[|r|] == stop
    ensures !cut ==> r == s
  {
    r := "";
    for i := 0 to |s|
      invariant r == s[..i] && stop !in r
    {
      if s[i] == stop {
        return r, true;
      }
      r := r + [s[i]];
    }
    assert s[..|s|] == s;
    cut := false;
  }

  /** The part of `s` before the first `stop`: no `stop` in it, and `s` goes on with a `stop` or ends. */
  ghost predicate Before(s: string, stop: char, r: string) {
    && stop !in r && |r| <= |s| && r == s[..|r|]
    && (|r| < |s| ==> s[|r|] == stop)
  }

  /** Only one prefix of a string is the part before the first `stop`. */
  lemma BeforeUnique(s: string, stop: char, r1: string, r2: string)
    requires Before(s, stop, r1) && Before(s, stop, r2)
    ensures r1 == r2
  {
  }

  /** `nombrador`: a file name without its extension, cut at the first dot. */
  method Stem(s: string) returns (r: string)
    ensures Before(s, '.', r)
    ensures '.' !in s ==> r == s
  {
    var cut;
    r, cut := UpTo(s, '.');
  }

  // ------------------------------------------------------------ words

  /** Each word followed by the space that closed it. */
  function Spaced(ws: seq<string>): string {
    if |ws| == 0 then "" else Spaced(ws[..|ws| - 1]) + ws[|ws| - 1] + " "
  }

  /**
   * `listador`: every space closes the word read since the previous one, so
   * two spaces in a row give an empty word; the text after the last space
   * is never listed. Joining the words back, each with its space, gives the
   * text up to that last space.
   */
  method SplitWords(s: string) returns (ws: seq<string>)
    ensures |ws| == Occurrences(s, ' ')
    ensures forall k | 0 <= k < |ws| :: ' ' !in ws[k]
    ensures |Spaced(ws)| <= |s| && Spaced(ws) == s[..|Spaced(ws)|]
    ensures ' ' !in s[|Spaced(ws)|..]
  {
    var cur := "";
    ws := [];
    for i := 0 to |s|
      invariant |ws| == Occurrences(s[..i], ' ')
      invariant forall k | 0 <= k < |ws| :: ' ' !in ws[k]
      invariant Spaced(ws) + cur == s[..i]
      invariant ' ' !in cur
    {
      assert s[..i + 1][..i] == s[..i];
      if s[i] != ' ' {
        cur := cur + [s[i]];
      } else {
        var ws' := ws + [cur];
        assert ws'[..|ws|] == ws;
        ws := ws';
        cur := "";
      }
    }
    assert s[..|s|] == s;
  }

  /** The sum of the counts in `d` over the keys listed in `ks`; a key missing from `d` counts 0. */
  function Total(d: map<string, nat>, ks: seq<string>): nat {
    if |ks| == 0 then 0 else Total(d, ks[..|ks| - 1]) + (if ks[|ks| - 1] in d then d[ks[|ks| - 1]] else 0)
  }

  /** No key listed twice. */
  predicate Distinct(ks: seq<string>) {
    forall i, j | 0 <= i < j < |ks| :: ks[i] != ks[j]
  }

  /**
   * `llenador`: each distinct word is mapped to the number of times it
   * occurs in the list; an empty list gives an empty map.
   */
  method Tally(ws: seq<string>) returns (d: map<string, nat>)
    ensures d.Keys == set w | w in ws
    ensures forall w | w in d :: d[w] == multiset(ws)[w]
    ensures |ws| == 0 ==> d == map[]
  {
    d := map[];
    for i := 0 to |ws|
      invariant d.Keys == set w | w in ws[..i]
      invariant forall w | w in d :: d[w] == multiset(ws[..i])[w]
    {
      assert ws[..i + 1] == ws[..i] + [ws[i]];
      if ws[i] in d {
        d := d[ws[i] := d[ws[i]] + 1];
      } else {
        d := d[ws[i] := 1];
      }
    }
    assert ws[..|ws|] == ws;
  }

  /** Summing the multiplicities of `m` over distinct keys, one key at a time. */
  function Sum(m: multiset<string>, ks: seq<string>): nat {
    if |ks| == 0 then 0 else Sum(m, ks[..|ks| - 1]) + m[ks[|ks| - 1]]
  }

  lemma {:induction false} SumAdd(a: multiset<string>, b: multiset<string>, ks: seq<string>)
    ensures Sum(a + b, ks) == Sum(a, ks) + Sum(b, ks)
  {
    if |ks| > 0 {
      SumAdd(a, b, ks[..|ks| - 1]);
    }
  }

  lemma {:induction false} SumSingle(w: string, ks: seq<string>)
    requires Distinct(ks)
    ensures Sum(multiset{w}, ks) == if w in ks then 1 else 0
  {
    if |ks| > 0 {
      var ks' := ks[..|ks| - 1];
      SumSingle(w, ks');
      if ks[|ks| - 1] == w {
        assert w !in ks' by {
          forall i | 0 <= i < |ks'| ensures ks'[i] != w {
            assert ks'[i] == ks[i];
          }
        }
      } else {
        assert w in ks <==> w in ks' by {
          assert ks == ks' + [ks[|ks| - 1]];
        }
      }
    }
  }

  /** Over distinct keys that cover every word, the multiplicities add up to the number of words. */
  lemma {:induction false} SumCounts(ws: seq<string>, ks: seq<string>)
    requires Distinct(ks) && forall w | w in ws :: w in ks
    ensures Sum(multiset(ws), ks) == |ws|
  {
    if |ws| == 0 {
      SumEmpty(ks);
    } else {
      var ws' := ws[..|ws| - 1];
      var w := ws[|ws| - 1];
      assert ws == ws' + [w];
      SumCounts(ws', ks);
      SumAdd(multiset(ws'), multiset{w}, ks);
      SumSingle(w, ks);
    }
  }

  lemma {:induction false} SumEmpty(ks: seq<string>)
    ensures Sum(multiset{}, ks) == 0
  {
    if |ks| > 0 {
      SumEmpty(ks[..|ks| - 1]);
    }
  }

  /** A map holding the multiplicities of the words sums like the multiset itself. */
  lemma {:induction false} TotalIsSum(d: map<string, nat>, ws: seq<string>, ks: seq<string>)
    requires d.Keys == set w | w in ws
    requires forall w | w in d :: d[w] == multiset(ws)[w]
    ensures Total(d, ks) == Sum(multiset(ws), ks)
  {
    if |ks| > 0 {
      TotalIsSum(d, ws, ks[..|ks| - 1]);
      var k := ks[|ks| - 1];
      if k !in d {
        assert k !in ws;
      }
    }
  }

  /** The counts `llenador` produces add up to the length of the word list. */
  lemma TallySumsToLength(ws: seq<string>, d: map<string, nat>, ks: seq<string>)
    requires d.Keys == set w | w in ws
    requires forall w | w in d :: d[w] == multiset(ws)[w]
    requires Distinct(ks) && (set k | k in ks) == d.Keys
    ensures Total(d, ks) == |ws|
  {
    TotalIsSum(d, ws, ks);
    forall w | w in ws ensures w in ks {
      assert w in d.Keys;
    }
    SumCounts(ws, ks);
  }

  // ------------------------------------------------------------ HTML pieces

  /** The middle of `t` when it opens with `open` and closes with `close`. */
  function Unwrap(t: string, open: string, close: string): (r: Option<string>)
    ensures r.Some? ==> open + r.value + close == t
  {
    if |open| + |close| <= |t| && t[..|open|] == open && t[|t| - |close|..] == close
    then Some(t[|open|..|t| - |close|])
    else None
  }

  /** Taking off the tags put around `s` gives `s` back. */
  lemma UnwrapWrapped(open: string, s: string, close: string)
    ensures Unwrap(open + s + close, open, close) == Some(s)
  {
    var t := open + s + close;
    assert t[..|open|] == open;
    assert t[|t| - |close|..] == close;
    assert t[|open|..|t| - |close|] == s;
  }

  const ParagraphOpen := "\n\t\t<p>"
  const ParagraphClose := "</p>"
  const TitleOpen := "\n\t<body>\n\t\t<h1>"
  const TitleClose := "</h1>"

  /** `p(s)`: the text as a paragraph, which can be read back from it. */
  function Paragraph(s: string): (r: string)
    ensures Unwrap(r, ParagraphOpen, ParagraphClose) == Some(s)
  {
    UnwrapWrapped(ParagraphOpen, s, ParagraphClose);
    ParagraphOpen + s + ParagraphClose
  }

  /** `title(s)`: the body opens with the text as its heading, which can be read back from it. */
  function Title(s: string): (r: string)
    ensures Unwrap(r, TitleOpen, TitleClose) == Some(s)
  {
    UnwrapWrapped(TitleOpen, s, TitleClose);
    TitleOpen + s + TitleClose
  }

  /** The paragraphs for the chunks, in order. */
  function Paragraphs(ps: seq<string>): string {
    if |ps| == 0 then "" else Paragraphs(ps[..|ps| - 1]) + Paragraph(ps[|ps| - 1])
  }

  /**
   * The state of the `escribeConteo` loop: the chunks already written out,
   * the chunk being read, and the spaces counted since the last flush.
   */
  datatype Chunking = Chunking(done: seq<string>, open: string, spaces: nat)

  /**
   * One character of `escribeConteo`: a space is counted; at the second
   * space the open chunk is written out and the counter reset; then the
   * character starts or extends the open chunk.
   */
  function Feed(st: Chunking, c: char): Chunking {
    var n := if c == ' ' then st.spaces + 1 else st.spaces;
    if n == 2 then Chunking(st.done + [st.open], [c], 0)
    else Chunking(st.done, st.open + [c], n)
  }

  /** The state after reading all of `s`. */
  function Chunk(s: string): Chunking {
    if |s| == 0 then Chunking([], "", 0) else Feed(Chunk(s[..|s| - 1]), s[|s| - 1])
  }

  /** `escribeConteo` on the already formatted text: one paragraph per chunk written out. */
  method WriteCounts(s: string) returns (pes: string)
    ensures pes == Paragraphs(Chunk(s).done)
  {
    pes := "";
    var count := 0;
    var p := "";
    ghost var done: seq<string> := [];
    for i := 0 to |s|
      invariant Chunk(s[..i]) == Chunking(done, p, count)
      invariant pes == Paragraphs(done)
    {
      assert s[..i + 1][..i] == s[..i];
      if s[i] == ' ' {
        count := count + 1;
      }
      if count == 2 {
        var done' := done + [p];
        assert done'[..|done|] == done;
        pes := pes + Paragraph(p);
        done := done';
        count := 0;
        p := "";
      }
      p := p + [s[i]];
    }
    assert s[..|s|] == s;
  }

  /** The chunks in order, glued together. */
  function Flat(ps: seq<string>): string {
    if |ps| == 0 then "" else Flat(ps[..|ps| - 1]) + ps[|ps| - 1]
  }

  /** One paragraph per two spaces; the odd space, if any, is still counted. */
  lemma {:induction false} ChunkCounts(s: string)
    ensures |Chunk(s).done| == Occurrences(s, ' ') / 2
    ensures Chunk(s).spaces == Occurrences(s, ' ') % 2
  {
    if |s| > 0 {
      ChunkCounts(s[..|s| - 1]);
    }
  }

  /**
   * Nothing is lost or reordered: the chunks written out followed by the
   * open chunk are the text. The open chunk, the text after the last flush,
   * is what `escribeConteo` never writes.
   */
  lemma {:induction false} ChunkKeepsText(s: string)
    ensures Flat(Chunk(s).done) + Chunk(s).open == s
  {
    if |s| > 0 {
      var s' := s[..|s| - 1];
      ChunkKeepsText(s');
      FeedKeeps(Chunk(s'), s[|s| - 1]);
      assert s == s' + [s[|s| - 1]];
    }
  }

  /** One character fed in is one character appended to the text read so far. */
  lemma FeedKeeps(st: Chunking, c: char)
    ensures Flat(Feed(st, c).done) + Feed(st, c).open == Flat(st.done) + st.open + [c]
  {
    if (if c == ' ' then st.spaces + 1 else st.spaces) == 2 {
      assert (st.done + [st.open])[..|st.done|] == st.done;
    }
  }

  /** The fixed head of the page, opening the `html` element. */
  const Head := HtmlOpen + "\n\t<head>\n\t\t<title>2018-1-EDD-Proyecto3</title>\n\t</head>"

  const HtmlOpen := "<html>"

  /** `termina` as written: the body is closed, and then `html` is opened again instead of closed. */
  const ClosingAsWritten := "\n\t</body>\n<html>\n"

  /** The closing the page needs: the body and then the `html` element are closed. */
  const Closing := "\n\t</body>\n</html>\n"

  predicate StartsWith(s: string, t: string) {
    |t| <= |s| && s[..|t|] == t
  }

  predicate EndsWith(s: string, t: string) {
    |t| <= |s| && s[|s| - |t|..] == t
  }

  /** The page `cuenta` assembles, ended by the given closing. */
  function Page(name: string, counts: string, closing: string): string {
    Head + Title(name) + counts + closing
  }

  /** A text starting with `h` starts with what `h` starts with. */
  lemma StartsWithJoin(h: string, rest: string, t: string)
    requires StartsWith(h, t)
    ensures StartsWith(h + rest, t)
  {
    assert (h + rest)[..|t|] == h[..|t|];
  }

  /** A text ending with `c` ends with what `c` ends with. */
  lemma EndsWithJoin(pre: string, c: string, t: string)
    requires EndsWith(c, t)
    ensures EndsWith(pre + c, t)
  {
    var s := pre + c;
    assert s[|s| - |t|..] == c[|c| - |t|..];
  }

  /** As written, the page never closes its `html` element: it ends by opening another. */
  lemma PageAsWrittenUnclosed(name: string, counts: string)
    ensures StartsWith(Page(name, counts, ClosingAsWritten), "<html>")
    ensures EndsWith(Page(name, counts, ClosingAsWritten), "<html>\n")
    ensures !EndsWith(Page(name, counts, ClosingAsWritten), "</html>\n")
  {
    var page := Page(name, counts, ClosingAsWritten);
    assert Head[..|HtmlOpen|] == HtmlOpen;
    StartsWithJoin(Head, Title(name) + counts + ClosingAsWritten, "<html>");
    assert page == Head + (Title(name) + counts + ClosingAsWritten);
    assert EndsWith(ClosingAsWritten, "<html>\n");
    EndsWithJoin(Head + Title(name) + counts, ClosingAsWritten, "<html>\n");
    assert page[|page| - 7] == '<' != "</html>\n"[1];
  }

  /** With the corrected closing the page opens and closes the `html` element. */
  lemma PageClosed(name: string, counts: string)
    ensures StartsWith(Page(name, counts, Closing), "<html>")
    ensures EndsWith(Page(name, counts, Closing), "</html>\n")
  {
    assert Head[..|HtmlOpen|] == HtmlOpen;
    StartsWithJoin(Head, Title(name) + counts + Closing, "<html>");
    assert Page(name, counts, Closing) == Head + (Title(name) + counts + Closing);
    assert EndsWith(Closing, "</html>\n");
    EndsWithJoin(Head + Title(name) + counts, Closing, "</html>\n");
  }

  // ------------------------------------------------------------ the structure reader

  /** `replaceAll("\t", "")`: the line without its tabs, every other character kept in order. */
  function NoTabs(s: string): (r: string)
    ensures '\t' !in r && |r| <= |s|
  {
    if |s| == 0 then ""
    else NoTabs(s[..|s| - 1]) + (if s[|s| - 1] == '\t' then "" else [s[|s| - 1]])
  }

  /** Removing tabs keeps every other character, as many times as it occurs. */
  lemma {:induction false} NoTabsKeepsOthers(s: string, c: char)
    requires c != '\t'
    ensures Occurrences(NoTabs(s), c) == Occurrences(s, c)
  {
    if |s| > 0 {
      var s' := s[..|s| - 1];
      NoTabsKeepsOthers(s', c);
      var x := s[|s| - 1];
      if x != '\t' {
        assert (NoTabs(s') + [x])[..|NoTabs(s')|] == NoTabs(s');
      } else {
        assert NoTabs(s') + "" == NoTabs(s');
      }
    }
  }

  /** A line without tabs is left as it is. */
  lemma {:induction false} NoTabsIdentity(s: string)
    requires '\t' !in s
    ensures NoTabs(s) == s
  {
    if |s| > 0 {
      var s' := s[..|s| - 1];
      assert '\t' !in s' by {
        forall i | 0 <= i < |s'| ensures s'[i] != '\t' {
          assert s'[i] == s[i];
        }
      }
      NoTabsIdentity(s');
      assert s == s' + [s[|s| - 1]];
    }
  }

  /**
   * Removing tabs works piece by piece, and a single character is dropped
   * exactly when it is a tab: so the kept characters stay in their order.
   */
  lemma {:induction false} NoTabsConcat(a: string, b: string)
    ensures NoTabs(a + b) == NoTabs(a) + NoTabs(b)
    ensures |b| == 1 ==> NoTabs(b) == (if b[0] == '\t' then "" else b)
    decreases |b|
  {
    if |b| == 0 {
      assert a + b == a;
    } else {
      var b', x := b[..|b| - 1], b[|b| - 1];
      SnocAppend(a, b);
      NoTabsConcat(a, b');
      var k := if x == '\t' then "" else [x];
      assert NoTabs(a + b) == NoTabs(a + b') + k;
      assert NoTabs(b) == NoTabs(b') + k;
      Reassociate(NoTabs(a), NoTabs(b'), k);
      if |b| == 1 {
        assert b' == [];
      }
    }
  }

  /** Dropping the last element of a concatenation with a non-empty second part. */
  lemma SnocAppend<T>(a: seq<T>, b: seq<T>)
    requires |b| > 0
    ensures (a + b)[..|a + b| - 1] == a + b[..|b| - 1] && (a + b)[|a + b| - 1] == b[|b| - 1]
  {
  }


  /**
   * `buscador`: without its tabs, the line is cut before its first `#`, a
   * comment; a line with no comment gets one space added at its end.
   */
  method CleanLine(line: string) returns (r: string)
    ensures '#' in NoTabs(line) ==> Before(NoTabs(line), '#', r) && |r| < |NoTabs(line)|
    ensures '#' !in NoTabs(line) ==> r == NoTabs(line) + " "
  {
    var l := NoTabs(line);
    var cut;
    r, cut := UpTo(l, '#');
    if !cut {
      r := r + " ";
    }
  }

  /** The nine structure names the reader accepts. */
  const Structures: set<string> := {
    "Lista", "Pila", "Cola", "ArbolBinarioCompleto", "ArbolBinarioOrdenado",
    "ArbolRojinegro", "ArbolAVL", "Grafica", "MonticuloMinimo"
  }

  /** `elejidor`: a structure name comes back unchanged; anything else ends the program. */
  function Choose(ed: string): (r: Result<string>)
    ensures r.Ok? <==> ed in Structures
    ensures r.Ok? ==> r.value == ed
    ensures r.Err? ==> r.error == ProgramExit
  {
    if ed == "Lista" then Ok("Lista")
    else if ed == "Pila" then Ok("Pila")
    else if ed == "Cola" then Ok("Cola")
    else if ed == "ArbolBinarioCompleto" then Ok("ArbolBinarioCompleto")
    else if ed == "ArbolBinarioOrdenado" then Ok("ArbolBinarioOrdenado")
    else if ed == "ArbolRojinegro" then Ok("ArbolRojinegro")
    else if ed == "ArbolAVL" then Ok("ArbolAVL")
    else if ed == "Grafica" then Ok("Grafica")
    else if ed == "MonticuloMinimo" then Ok("MonticuloMinimo")
    else Err(ProgramExit)
  }

  /** The text without its leading spaces. */
  function DropSpaces(s: string): (r: string)
    ensures |r| <= |s| && r == s[|s| - |r|..]
    ensures |r| > 0 ==> r[0] != ' '
    ensures forall i | 0 <= i < |s| - |r| :: s[i] == ' '
  {
    if |s| > 0 && s[0] == ' ' then DropSpaces(s[1..]) else s
  }

  /** `replaceAll(" +", " ")`: every run of spaces becomes one space. */
  function Collapse(s: string): (r: string)
    ensures |r| <= |s|
    ensures |r| == 0 <==> |s| == 0
    ensures |s| > 0 ==> r[0] == s[0]
    decreases |s|
  {
    if |s| == 0 then ""
    else if s[0] == ' ' then " " + Collapse(DropSpaces(s[1..]))
    else [s[0]] + Collapse(s[1..])
  }

  /** No space is followed by another. */
  predicate SingleSpaced(s: string) {
    forall i | 0 <= i < |s| - 1 :: !(s[i] == ' ' && s[i + 1] == ' ')
  }

  /** After collapsing, no two spaces are next to each other. */
  lemma {:induction false} CollapseSingleSpaced(s: string)
    ensures SingleSpaced(Collapse(s))
    decreases |s|
  {
    if |s| > 0 {
      var r := Collapse(s);
      var t := if s[0] == ' ' then DropSpaces(s[1..]) else s[1..];
      CollapseSingleSpaced(t);
      assert r == [s[0]] + Collapse(t);
      if s[0] == ' ' && |t| > 0 {
        assert Collapse(t)[0] == t[0] != ' ';
      }
      forall i | 0 <= i < |r| - 1 ensures !(r[i] == ' ' && r[i + 1] == ' ') {
        if i > 0 {
          assert r[i] == Collapse(t)[i - 1] && r[i + 1] == Collapse(t)[i];
        }
      }
    }
  }

  /** Text without a run of spaces is left as it is; so collapsing twice is collapsing once. */
  lemma {:induction false} CollapseFixed(s: string)
    requires SingleSpaced(s)
    ensures Collapse(s) == s
    decreases |s|
  {
    if |s| > 0 {
      assert SingleSpaced(s[1..]) by {
        forall i | 0 <= i < |s[1..]| - 1 ensures !(s[1..][i] == ' ' && s[1..][i + 1] == ' ') {
          assert s[1..][i] == s[i + 1] && s[1..][i + 1] == s[i + 2];
        }
      }
      if s[0] == ' ' && |s| > 1 {
        assert s[1] != ' ';
      }
      CollapseFixed(s[1..]);
      assert s == [s[0]] + s[1..];
    }
  }

  lemma CollapseIdempotent(s: string)
    ensures Collapse(Collapse(s)) == Collapse(s)
  {
    CollapseSingleSpaced(s);
    CollapseFixed(Collapse(s));
  }

  /** Collapsing keeps every character other than a space, as many times as it occurs. */
  lemma {:induction false} CollapseKeepsOthers(s: string, c: char)
    requires c != ' '
    ensures Occurrences(Collapse(s), c) == Occurrences(s, c)
    decreases |s|
  {
    if |s| > 0 {
      var t := if s[0] == ' ' then DropSpaces(s[1..]) else s[1..];
      CollapseKeepsOthers(t, c);
      OccurrencesCons(s[0], Collapse(t), c);
      OccurrencesCons(s[0], s[1..], c);
      assert s == [s[0]] + s[1..];
      if s[0] == ' ' {
        DropSpacesKeepsOthers(s[1..], c);
      }
    }
  }

  lemma {:induction false} DropSpacesKeepsOthers(s: string, c: char)
    requires c != ' '
    ensures Occurrences(DropSpaces(s), c) == Occurrences(s, c)
    decreases |s|
  {
    if |s| > 0 && s[0] == ' ' {
      DropSpacesKeepsOthers(s[1..], c);
      OccurrencesCons(s[0], s[1..], c);
      assert s == [s[0]] + s[1..];
    }
  }

  /** The text is empty or its last character is not a space. */
  predicate EndsSolid(s: string) {
    |s| == 0 || s[|s| - 1] != ' '
  }

  /** Leading spaces are dropped from a text that does not end in a space without touching what follows it. */
  lemma {:induction false} DropSpacesAppend(s: string, c: string)
    requires |s| > 0 && EndsSolid(s)
    ensures DropSpaces(s + c) == DropSpaces(s) + c
    decreases |s|
  {
    assert (s + c)[0] == s[0];
    if s[0] == ' ' {
      assert (s + c)[1..] == s[1..] + c;
      DropSpacesAppend(s[1..], c);
    }
  }

  /** Dropping a run of spaces in front of a text that starts with something else leaves that text. */
  lemma {:induction false} DropSpacesRun(sp: string, b: string)
    requires forall i | 0 <= i < |sp| :: sp[i] == ' '
    requires |b| == 0 || b[0] != ' '
    ensures DropSpaces(sp + b) == b
    decreases |sp|
  {
    if |sp| == 0 {
      assert sp + b == b;
    } else {
      assert (sp + b)[0] == ' ' && (sp + b)[1..] == sp[1..] + b;
      DropSpacesRun(sp[1..], b);
    }
  }

  /** Collapsing a text that starts with a character other than a space keeps that character. */
  lemma CollapseKept(x: char, t: string)
    requires x != ' '
    ensures Collapse([x] + t) == [x] + Collapse(t)
  {
    assert ([x] + t)[1..] == t;
  }

  /** Collapsing a text that starts with a space writes one space and swallows the spaces after it. */
  lemma CollapseSpace(t: string)
    ensures Collapse(" " + t) == " " + Collapse(DropSpaces(t))
  {
    assert (" " + t)[1..] == t;
  }

  lemma Reassociate<T>(x: seq<T>, y: seq<T>, z: seq<T>)
    ensures x + (y + z) == (x + y) + z
  {
  }

  /** A run that starts with a space, cut after that space. */
  lemma RunShape(a: string, sp: string, b: string)
    requires |sp| > 0 && sp[0] == ' '
    ensures a + sp + b == a + (" " + (sp[1..] + b))
  {
    assert sp == " " + sp[1..];
  }

  /** A non-empty sequence is its first element followed by the rest, also with something appended. */
  lemma ConsAppend<T>(a: seq<T>, c: seq<T>)
    requires |a| > 0
    ensures a == [a[0]] + a[1..] && a + c == [a[0]] + (a[1..] + c)
  {
  }

  /** The step of `CollapseAppend` for a text that starts with a character other than a space. */
  lemma CollapseAppendKept(a: string, c: string)
    requires |a| > 0 && a[0] != ' '
    requires Collapse(a[1..] + c) == Collapse(a[1..]) + Collapse(c)
    ensures Collapse(a + c) == Collapse(a) + Collapse(c)
  {
    var x, t := a[0], a[1..];
    ConsAppend(a, c);
    CollapseKept(x, t + c);
    CollapseKept(x, t);
    Reassociate([x], Collapse(t), Collapse(c));
  }

  /** The step of `CollapseAppend` for a text that starts with a space. */
  lemma CollapseAppendRun(a: string, c: string, d: string)
    requires |a| > 0 && a[0] == ' ' && d == DropSpaces(a[1..])
    requires DropSpaces(a[1..] + c) == d + c
    requires Collapse(d + c) == Collapse(d) + Collapse(c)
    ensures Collapse(a + c) == Collapse(a) + Collapse(c)
  {
    var t := a[1..];
    ConsAppend(a, c);
    CollapseSpace(t + c);
    CollapseSpace(t);
    Reassociate(" ", Collapse(d), Collapse(c));
  }

  /** A text that does not end in a space collapses independently of what follows it. */
  lemma {:induction false} CollapseAppend(a: string, c: string)
    requires EndsSolid(a)
    ensures Collapse(a + c) == Collapse(a) + Collapse(c)
    decreases |a|
  {
    if |a| == 0 {
      assert a + c == c;
    } else if a[0] != ' ' {
      CollapseAppend(a[1..], c);
      CollapseAppendKept(a, c);
    } else {
      var d := DropSpaces(a[1..]);
      DropSpacesAppend(a[1..], c);
      assert |d| > 0 ==> d[|d| - 1] == a[|a| - 1];
      CollapseAppend(d, c);
      CollapseAppendRun(a, c, d);
    }
  }

  /**
   * `replaceAll(" +", " ")` pinned down: a maximal run of spaces between two
   * pieces of text becomes exactly one space, and the pieces on either side
   * are collapsed on their own, so every other character keeps its place in
   * the order.
   */
  lemma CollapseRun(a: string, sp: string, b: string)
    requires EndsSolid(a)
    requires |sp| > 0 && forall i | 0 <= i < |sp| :: sp[i] == ' '
    requires |b| == 0 || b[0] != ' '
    ensures Collapse(a + sp + b) == Collapse(a) + " " + Collapse(b)
  {
    var t := sp[1..] + b;
    RunShape(a, sp, b);
    CollapseAppend(a, " " + t);
    CollapseSpace(t);
    DropSpacesRun(sp[1..], b);
    Reassociate(Collapse(a), " ", Collapse(b));
  }

  /** Counting from the front: the first character, then the rest. */
  lemma {:induction false} OccurrencesCons(x: char, s: string, c: char)
    ensures Occurrences([x] + s, c) == (if x == c then 1 else 0) + Occurrences(s, c)
    decreases |s|
  {
    if |s| > 0 {
      var s' := s[..|s| - 1];
      OccurrencesCons(x, s', c);
      assert ([x] + s)[..|s|] == [x] + s';
    }
  }
}

=== FILE: traversal.dfy ===
/**
 * The walks over a graph (`bfs`, `dfs` and `recorrido` of practica 6, and
 * the traversal of `esConexa` in practicas 6 and 12), and connectivity.
 *
 * A walk keeps a bag of vertices to visit: a queue (`Cola`) for `bfs` and
 * `recorrido`, a stack (`Pila`) for `dfs`. It takes a vertex out, visits
 * it, and puts in each neighbour not yet coloured, colouring it. Every
 * traversal leaves the vertices coloured NINGUNO, and the model assumes they
 * all are when a walk starts, so the colouring is modelled by the set of
 * vertices marked during the walk. A colour set from outside through
 * `setColor` is not modelled.
 */
module Traversal {
  import opened Wrappers
  import opened Graphs

  /** The elements of a sequence, as a set. */
  function Elems<T(==,!new)>(s: seq<T>): set<T> {
    set x | x in s
  }

  /** The vertices of a graph. */
  function VertSet<T(==,!new)>(g: Graph<T>): set<T> {
    Elems(g.verts)
  }

  // ---------------------------------------------------------------- paths

  /** `p` is a walk along edges of `g`. */
  ghost predicate IsPath<T(!new)>(g: Graph<T>, p: seq<T>) {
    |p| > 0 && p[0] in g.adj && forall i | 0 <= i < |p| - 1 :: Adjacent(g, p[i], p[i + 1])
  }

  /** Some walk leads from `a` to `b`. */
  ghost predicate Reachable<T(!new)>(g: Graph<T>, a: T, b: T) {
    exists p :: IsPath(g, p) && p[0] == a && p[|p| - 1] == b
  }

  /** The vertices reachable from `a`: a reference definition independent of any walk. */
  ghost function Reach<T(!new)>(g: Graph<T>, a: T): set<T> {
    set v | v in g.adj && Reachable(g, a, v)
  }

  /** Every vertex reaches every other one. */
  ghost predicate Connected<T(!new)>(g: Graph<T>) {
    forall a, b | a in g.verts && b in g.verts :: Reachable(g, a, b)
  }

  lemma ReachSelf<T(!new)>(g: Graph<T>, a: T)
    requires a in g.adj
    ensures Reachable(g, a, a)
  {
    assert IsPath(g, [a]);
  }

  lemma ReachStep<T(!new)>(g: Graph<T>, a: T, b: T, c: T)
    requires Reachable(g, a, b) && Adjacent(g, b, c)
    ensures Reachable(g, a, c)
  {
    var p :| IsPath(g, p) && p[0] == a && p[|p| - 1] == b;
    var q := p + [c];
    assert IsPath(g, q);
  }

  /** Edges go both ways, so walks do too. */
  lemma ReachBack<T(!new)>(g: Graph<T>, a: T, b: T)
    requires Valid(g) && Reachable(g, a, b)
    ensures Reachable(g, b, a)
  {
    var p :| IsPath(g, p) && p[0] == a && p[|p| - 1] == b;
    var q := seq(|p|, i requires 0 <= i < |p| => p[|p| - 1 - i]);
    forall i | 0 <= i < |q| - 1
      ensures Adjacent(g, q[i], q[i + 1])
    {
      assert Adjacent(g, p[|p| - 2 - i], p[|p| - 1 - i]);
    }
    if |p| > 1 {
      assert Adjacent(g, p[|p| - 2], p[|p| - 1]);
    }
    assert IsPath(g, q);
  }

  lemma ReachJoin<T(!new)>(g: Graph<T>, a: T, b: T, c: T)
    requires Reachable(g, a, b) && Reachable(g, b, c)
    ensures Reachable(g, a, c)
  {
    var p :| IsPath(g, p) && p[0] == a && p[|p| - 1] == b;
    var q :| IsPath(g, q) && q[0] == b && q[|q| - 1] == c;
    var r := p + q[1..];
    forall i | 0 <= i < |r| - 1
      ensures Adjacent(g, r[i], r[i + 1])
    {
      if i < |p| - 1 {
        assert r[i] == p[i] && r[i + 1] == p[i + 1];
      } else {
        assert r[i] == q[i - |p| + 1] && r[i + 1] == q[i - |p| + 2];
      }
    }
    assert IsPath(g, r);
  }

  /** A set that holds `a` and every neighbour of its members holds every vertex reachable from `a`. */
  lemma {:induction false} ClosedHoldsReach<T(!new)>(g: Graph<T>, a: T, m: set<T>, p: seq<T>)
    requires a in m && forall v, u | v in m && Adjacent(g, v, u) :: u in m
    requires IsPath(g, p) && p[0] == a
    ensures p[|p| - 1] in m
    decreases |p|
  {
    if |p| > 1 {
      var q := p[..|p| - 1];
      assert IsPath(g, q);
      ClosedHoldsReach(g, a, m, q);
      assert Adjacent(g, q[|q| - 1], p[|p| - 1]);
    }
  }

  // ---------------------------------------------------------------- counting

  /** A sequence has no more distinct elements than positions, and exactly as many without repeats. */
  lemma {:induction false} ElemsSize<T(!new)>(s: seq<T>)
    ensures |Elems(s)| <= |s|
    ensures Distinct(s) ==> |Elems(s)| == |s|
  {
    if |s| > 0 {
      ElemsSize(s[1..]);
      assert Elems(s) == Elems(s[1..]) + {s[0]};
      DistinctPrepend(s[0], s[1..]);
      assert s == [s[0]] + s[1..];
    }
  }

  /** The degree sum over a list without repeats counts a member's degree once. */
  lemma {:induction false} DegreesSplit<T(!new)>(adj: map<T, seq<Nbr<T>>>, s: seq<T>, x: T)
    requires forall v | v in s :: v in adj
    requires Distinct(s) && x in s
    ensures Degrees(adj, s) == |adj[x]| + Degrees(adj, Without(s, x))
  {
    if s[0] == x {
      assert x !in s[1..];
    } else {
      DegreesSplit(adj, s[1..], x);
    }
  }

  /** Summing over some of the vertices gives at most the sum over all of them. */
  lemma {:induction false} DegreesSubset<T(!new)>(adj: map<T, seq<Nbr<T>>>, r: seq<T>, s: seq<T>)
    requires forall v | v in s :: v in adj
    requires Distinct(r) && Distinct(s) && forall v | v in r :: v in s
    ensures forall v | v in r :: v in adj
    ensures Degrees(adj, r) <= Degrees(adj, s)
    decreases |r|
  {
    if |r| > 0 {
      DegreesSplit(adj, s, r[0]);
      assert r[0] !in r[1..];
      DegreesSubset(adj, r[1..], Without(s, r[0]));
    }
  }

  // ---------------------------------------------------------------- the walk

  lemma ElemsCons<T(!new)>(s: seq<T>)
    requires |s| > 0
    ensures Elems(s) == {s[0]} + Elems(s[1..])
    ensures Distinct(s) ==> s[0] !in s[1..] && Distinct(s[1..])
  {
    assert s == [s[0]] + s[1..];
    DistinctPrepend(s[0], s[1..]);
  }

  /** `mete`: a queue puts at the back, a stack on top (the front here). */
  function Put<T>(lifo: bool, pending: seq<T>, u: T): seq<T> {
    if lifo then [u] + pending else pending + [u]
  }

  lemma PutElems<T(!new)>(lifo: bool, pending: seq<T>, u: T)
    ensures Elems(Put(lifo, pending, u)) == Elems(pending) + {u}
    ensures Distinct(pending) && u !in pending ==> Distinct(Put(lifo, pending, u))
  {
    DistinctPrepend(u, pending);
  }

  /** The bag and the marks after a step of the walk. */
  datatype Bag<T> = Bag(pending: seq<T>, marked: set<T>)

  /**
   * The loop over the neighbours `ns` of the vertex taken out: each one not
   * yet marked is marked and put in the bag.
   */
  function Scan<T(==,!new)>(lifo: bool, ns: seq<T>, pending: seq<T>, marked: set<T>): (r: Bag<T>)
    ensures r.marked == marked + Elems(ns)
    ensures Elems(r.pending) == Elems(pending) + (Elems(ns) - marked)
    ensures Elems(ns) <= marked ==> r.pending == pending
    decreases |ns|
  {
    if |ns| == 0 then Bag(pending, marked)
    else
      ElemsCons(ns);
      if ns[0] in marked then Scan(lifo, ns[1..], pending, marked)
      else
        PutElems(lifo, pending, ns[0]);
        Scan(lifo, ns[1..], Put(lifo, pending, ns[0]), marked + {ns[0]})
  }

  /** Unmarked neighbours after the first one, as a count. */
  lemma GainCons<T>(x: T, rest: set<T>, marked: set<T>)
    requires x !in marked
    ensures ({x} + rest) - marked == {x} + (rest - (marked + {x}))
    ensures |({x} + rest) - marked| == 1 + |rest - (marked + {x})|
  {
    var tail := rest - (marked + {x});
    assert ({x} + rest) - marked == {x} + tail;
    assert x !in tail;
  }

  /** Nothing enters the bag twice, and the bag grows by the number of new marks. */
  lemma {:induction false} ScanCount<T(!new)>(lifo: bool, ns: seq<T>, pending: seq<T>, marked: set<T>)
    requires Distinct(pending) && Elems(pending) <= marked
    ensures var r := Scan(lifo, ns, pending, marked);
      Distinct(r.pending) && |r.pending| == |pending| + |Elems(ns) - marked|
    decreases |ns|
  {
    if |ns| == 0 {
      assert Elems(ns) == {};
    } else {
      var x := ns[0];
      ElemsCons(ns);
      if x in marked {
        assert Scan(lifo, ns, pending, marked) == Scan(lifo, ns[1..], pending, marked);
        ScanCount(lifo, ns[1..], pending, marked);
        assert Elems(ns) - marked == Elems(ns[1..]) - marked;
      } else {
        var p := Put(lifo, pending, x);
        assert Scan(lifo, ns, pending, marked) == Scan(lifo, ns[1..], p, marked + {x});
        assert x !in pending by {
          assert x !in Elems(pending);
        }
        PutElems(lifo, pending, x);
        assert |p| == |pending| + 1;
        ScanCount(lifo, ns[1..], p, marked + {x});
        GainCons(x, Elems(ns[1..]), marked);
      }
    }
  }

  /** Every neighbour of a vertex of `g` is a vertex of `g`. */
  ghost predicate Closed<T(!new)>(g: Graph<T>) {
    forall v, u | v in g.adj && u in Nbrs(g, v) :: u in g.adj
  }

  /** Every edge is listed at both ends (the part of symmetry the walks need). */
  ghost predicate Mutual<T(!new)>(g: Graph<T>) {
    forall v, u | v in g.adj && u in Nbrs(g, v) :: Adjacent(g, u, v)
  }

  lemma ValidMutual<T(!new)>(g: Graph<T>)
    requires Valid(g)
    ensures Closed(g) && Mutual(g)
  {
    assert Symmetric(g);
  }

  lemma SubsetSize<T>(a: set<T>, b: set<T>)
    requires a <= b
    ensures |a| <= |b|
    ensures |a| == |b| ==> a == b
  {
    var c := b - a;
    assert b == a + c && a * c == {};
    if |a| == |b| {
      assert |c| == 0;
    }
  }

  lemma SmallerGap<T>(k: set<T>, a: set<T>, b: set<T>, x: T)
    requires a <= b <= k && x in b - a
    ensures |k - b| < |k - a|
  {
    var d := (k - a) - {x};
    assert k - a == d + {x} && x !in d;
    SubsetSize(k - b, d);
  }

  /** A step of the walk marks only vertices and either marks a new one or shortens the bag. */
  lemma ScanProgress<T(!new)>(g: Graph<T>, lifo: bool, pending: seq<T>, marked: set<T>)
    requires Closed(g) && marked <= g.adj.Keys && Elems(pending) <= marked && |pending| > 0
    ensures pending[0] in g.adj
    ensures var b := Scan(lifo, Nbrs(g, pending[0]), pending[1..], marked);
      && marked <= b.marked <= g.adj.Keys && Elems(b.pending) <= b.marked
      && (|g.adj.Keys - b.marked| < |g.adj.Keys - marked| || (b.marked == marked && |b.pending| < |pending|))
  {
    var v := pending[0];
    assert v in Elems(pending);
    var ns := Nbrs(g, v);
    var b := Scan(lifo, ns, pending[1..], marked);
    forall u | u in Elems(ns)
      ensures u in g.adj.Keys
    {
      assert u in Nbrs(g, v);
    }
    if Elems(ns) <= marked {
      assert b.pending == pending[1..];
    } else {
      var x :| x in Elems(ns) && x !in marked;
      SmallerGap(g.adj.Keys, marked, b.marked, x);
    }
    assert Elems(pending[1..]) <= Elems(pending) by {
      ElemsCons(pending);
    }
  }

  /**
   * The loop of the walk: while the bag is not empty, take out its first
   * vertex, visit it, and scan its neighbours. Returns the vertices in the
   * order visited.
   */
  function Explore<T(==,!new)>(g: Graph<T>, lifo: bool, pending: seq<T>, marked: set<T>, visit: seq<T>): (r: seq<T>)
    requires Closed(g) && marked <= g.adj.Keys && Elems(pending) <= marked
    decreases |g.adj.Keys - marked|, |pending|
  {
    if |pending| == 0 then visit
    else
      ScanProgress(g, lifo, pending, marked);
      var b := Scan(lifo, Nbrs(g, pending[0]), pending[1..], marked);
      Explore(g, lifo, b.pending, b.marked, visit + [pending[0]])
  }

  /** One turn of the loop. */
  lemma ExploreStep<T(!new)>(g: Graph<T>, lifo: bool, pending: seq<T>, marked: set<T>, visit: seq<T>)
    requires Closed(g) && marked <= g.adj.Keys && Elems(pending) <= marked && |pending| > 0
    ensures pending[0] in g.adj
    ensures var b := Scan(lifo, Nbrs(g, pending[0]), pending[1..], marked);
      && marked <= b.marked <= g.adj.Keys && Elems(b.pending) <= b.marked
      && (|g.adj.Keys - b.marked| < |g.adj.Keys - marked| || (b.marked == marked && |b.pending| < |pending|))
      && Explore(g, lifo, pending, marked, visit) == Explore(g, lifo, b.pending, b.marked, visit + [pending[0]])
  {
    ScanProgress(g, lifo, pending, marked);
  }

  /** The walk from `s`: the bag holds `s`, which is marked. */
  function Walk<T(==,!new)>(g: Graph<T>, lifo: bool, s: T): (r: seq<T>)
    requires Valid(g) && s in g.adj
  {
    ValidMutual(g);
    Explore(g, lifo, [s], {s}, [])
  }

  // ---------------------------------------------------------------- what the walk visits

  /** The bookkeeping of the walk: the marked vertices are those visited or in the bag, each once. */
  ghost predicate Books<T(!new)>(g: Graph<T>, pending: seq<T>, marked: set<T>, visit: seq<T>) {
    && Distinct(visit) && Distinct(pending)
    && marked == Elems(visit) + Elems(pending)
    && Elems(visit) !! Elems(pending)
    && marked <= g.adj.Keys
    && forall v, u | v in visit && Adjacent(g, v, u) :: u in marked
  }

  lemma ElemsAppend<T(!new)>(s: seq<T>, x: T)
    ensures Elems(s + [x]) == Elems(s) + {x}
    ensures Distinct(s) && x !in s ==> Distinct(s + [x])
  {
  }

  /** The vertex taken out lists only marked vertices once its neighbours are scanned. */
  lemma VisitCloses<T(!new)>(g: Graph<T>, visit: seq<T>, v: T, marked: set<T>, m: set<T>)
    requires v in g.adj && marked + Elems(Nbrs(g, v)) <= m
    requires forall w, u | w in visit && Adjacent(g, w, u) :: u in marked
    ensures forall w, u | w in visit + [v] && Adjacent(g, w, u) :: u in m
  {
    forall w, u | w in visit + [v] && Adjacent(g, w, u)
      ensures u in m
    {
      if w != v {
        assert w in visit;
      } else {
        assert u in Elems(Nbrs(g, v));
      }
    }
  }

  lemma NbrsInside<T(!new)>(g: Graph<T>, v: T)
    requires Closed(g) && v in g.adj
    ensures Elems(Nbrs(g, v)) <= g.adj.Keys
  {
    forall u | u in Elems(Nbrs(g, v))
      ensures u in g.adj.Keys
    {
      assert u in Nbrs(g, v);
    }
  }

  /** The set arithmetic of a step: `v` moves from the bag to the visited, the unmarked neighbours `n` join the bag. */
  lemma StepSets<T>(vis: set<T>, bag: set<T>, rest: set<T>, n: set<T>, marked: set<T>, v: T)
    requires marked == vis + bag && vis !! bag && bag == {v} + rest && v !in rest
    ensures v !in vis
    ensures marked + n == (vis + {v}) + (rest + (n - marked))
    ensures (vis + {v}) !! (rest + (n - marked))
  {
  }

  /** A step of the walk keeps the bookkeeping. */
  lemma StepBooks<T(!new)>(g: Graph<T>, lifo: bool, pending: seq<T>, marked: set<T>, visit: seq<T>)
    requires Closed(g) && Books(g, pending, marked, visit) && |pending| > 0
    ensures pending[0] in g.adj && Elems(pending) <= marked
    ensures var b := Scan(lifo, Nbrs(g, pending[0]), pending[1..], marked);
      Books(g, b.pending, b.marked, visit + [pending[0]])
  {
    var v := pending[0];
    ElemsCons(pending);
    var ns := Nbrs(g, v);
    var b := Scan(lifo, ns, pending[1..], marked);
    StepSets(Elems(visit), Elems(pending), Elems(pending[1..]), Elems(ns), marked, v);
    ScanCount(lifo, ns, pending[1..], marked);
    assert v !in visit by {
      assert v !in Elems(visit);
    }
    ElemsAppend(visit, v);
    NbrsInside(g, v);
    VisitCloses(g, visit, v, marked, b.marked);
  }

  /** The walk appends to what was visited before. */
  lemma {:induction false} ExplorePrefix<T(!new)>(g: Graph<T>, lifo: bool, pending: seq<T>, marked: set<T>, visit: seq<T>)
    requires Closed(g) && marked <= g.adj.Keys && Elems(pending) <= marked
    ensures var r := Explore(g, lifo, pending, marked, visit);
      |r| >= |visit| && r[..|visit|] == visit
    decreases |g.adj.Keys - marked|, |pending|
  {
    if |pending| > 0 {
      ExploreStep(g, lifo, pending, marked, visit);
      var b := Scan(lifo, Nbrs(g, pending[0]), pending[1..], marked);
      var visit' := visit + [pending[0]];
      ExplorePrefix(g, lifo, b.pending, b.marked, visit');
      PrefixTrans(Explore(g, lifo, b.pending, b.marked, visit'), visit, visit');
    }
  }

  /**
   * The walk visits each vertex it marks once, and what it visits holds
   * every neighbour of what it visits.
   */
  lemma {:induction false} ExploreVisits<T(!new)>(g: Graph<T>, lifo: bool, pending: seq<T>, marked: set<T>, visit: seq<T>)
    requires Closed(g) && Books(g, pending, marked, visit)
    ensures Elems(pending) <= marked
    ensures var r := Explore(g, lifo, pending, marked, visit);
      && Distinct(r) && marked <= Elems(r) <= g.adj.Keys
      && forall v, u | v in r && Adjacent(g, v, u) :: u in r
    decreases |g.adj.Keys - marked|, |pending|
  {
    if |pending| > 0 {
      StepBooks(g, lifo, pending, marked, visit);
      ExploreStep(g, lifo, pending, marked, visit);
      var b := Scan(lifo, Nbrs(g, pending[0]), pending[1..], marked);
      ExploreVisits(g, lifo, b.pending, b.marked, visit + [pending[0]]);
    }
  }

  /** A step marks only vertices reachable from `s`, given that all marked ones are. */
  lemma ScanReach<T(!new)>(g: Graph<T>, lifo: bool, pending: seq<T>, marked: set<T>, s: T)
    requires Closed(g) && marked <= Reach(g, s) && Elems(pending) <= marked && |pending| > 0
    ensures pending[0] in g.adj
    ensures Scan(lifo, Nbrs(g, pending[0]), pending[1..], marked).marked <= Reach(g, s)
  {
    var v := pending[0];
    assert v in Elems(pending);
    var ns := Nbrs(g, v);
    forall u | u in Elems(ns)
      ensures u in Reach(g, s)
    {
      assert u in ns;
      assert Adjacent(g, v, u);
      ReachStep(g, s, v, u);
      NbrsInside(g, v);
    }
  }

  /** Everything the walk marks is reachable from `s`, so everything it visits is. */
  lemma {:induction false} ExploreSound<T(!new)>(g: Graph<T>, lifo: bool, pending: seq<T>, marked: set<T>, visit: seq<T>, s: T)
    requires Closed(g) && marked <= g.adj.Keys && Elems(pending) <= marked && Elems(visit) <= marked
    requires marked <= Reach(g, s)
    ensures Elems(Explore(g, lifo, pending, marked, visit)) <= Reach(g, s)
    decreases |g.adj.Keys - marked|, |pending|
  {
    if |pending| > 0 {
      ExploreStep(g, lifo, pending, marked, visit);
      ScanReach(g, lifo, pending, marked, s);
      var b := Scan(lifo, Nbrs(g, pending[0]), pending[1..], marked);
      ElemsAppend(visit, pending[0]);
      ExploreSound(g, lifo, b.pending, b.marked, visit + [pending[0]], s);
    }
  }

  /** The first vertex taken out of the bag is the first one visited. */
  lemma ExploreFirst<T(!new)>(g: Graph<T>, lifo: bool, pending: seq<T>, marked: set<T>)
    requires Closed(g) && marked <= g.adj.Keys && Elems(pending) <= marked && |pending| > 0
    ensures var r := Explore(g, lifo, pending, marked, []);
      |r| > 0 && r[0] == pending[0]
  {
    ExploreStep(g, lifo, pending, marked, []);
    var b := Scan(lifo, Nbrs(g, pending[0]), pending[1..], marked);
    var first := [] + [pending[0]];
    ExplorePrefix(g, lifo, b.pending, b.marked, first);
    var r' := Explore(g, lifo, b.pending, b.marked, first);
    assert r'[0] == r'[..1][0];
  }

  /**
   * `bfs`, `dfs` and `recorrido` visit each vertex reachable from the start
   * exactly once, the start first, and nothing else.
   */
  lemma WalkVisitsReach<T(!new)>(g: Graph<T>, lifo: bool, s: T)
    requires Valid(g) && s in g.adj
    ensures var r := Walk(g, lifo, s);
      Distinct(r) && |r| > 0 && r[0] == s && Elems(r) == Reach(g, s)
  {
    ValidMutual(g);
    WalkFacts(g, lifo, s);
  }

  /** `WalkVisitsReach` for a graph whose edges lead to vertices. */
  lemma WalkFacts<T(!new)>(g: Graph<T>, lifo: bool, s: T)
    requires Closed(g) && s in g.adj
    ensures var r := Explore(g, lifo, [s], {s}, []);
      Distinct(r) && |r| > 0 && r[0] == s && Elems(r) == Reach(g, s)
  {
    var r := Explore(g, lifo, [s], {s}, []);
    assert Elems([s]) == {s};
    assert Books(g, [s], {s}, []);
    ExploreVisits(g, lifo, [s], {s}, []);
    ExploreFirst(g, lifo, [s], {s});
    ReachSelf(g, s);
    ExploreSound(g, lifo, [s], {s}, [], s);
    forall v | v in Reach(g, s)
      ensures v in Elems(r)
    {
      var p :| IsPath(g, p) && p[0] == s && p[|p| - 1] == v;
      ClosedHoldsReach(g, s, Elems(r), p);
    }
  }

  // ---------------------------------------------------------------- how many edges a walk needs

  /** The vertex taken out marks at most as many new vertices as its degree, one fewer unless it is the start. */
  lemma StepGain<T(!new)>(g: Graph<T>, lifo: bool, pending: seq<T>, marked: set<T>, s: T)
    requires Closed(g) && marked <= g.adj.Keys && Elems(pending) <= marked && |pending| > 0
    requires pending[0] != s ==> exists w :: w in marked && Adjacent(g, pending[0], w)
    ensures pending[0] in g.adj
    ensures var b := Scan(lifo, Nbrs(g, pending[0]), pending[1..], marked);
      |b.marked| - |marked| + (if pending[0] != s then 1 else 0) <= |g.adj[pending[0]]|
  {
    var v := pending[0];
    ElemsCons(pending);
    var ns := Nbrs(g, v);
    var b := Scan(lifo, ns, pending[1..], marked);
    var gained := Elems(ns) - marked;
    ElemsSize(ns);
    if v != s {
      var w :| w in marked && Adjacent(g, v, w);
      assert w in Elems(ns);
      assert gained <= Elems(ns) - {w};
    }
    assert b.marked == marked + gained;
  }

  /** Every marked vertex other than `s` lists a marked vertex: the one it was marked from. */
  ghost predicate Anchored<T(!new)>(g: Graph<T>, marked: set<T>, s: T) {
    forall u | u in marked && u != s :: exists w :: w in marked && Adjacent(g, u, w)
  }

  lemma StepAnchored<T(!new)>(g: Graph<T>, lifo: bool, pending: seq<T>, marked: set<T>, s: T)
    requires Mutual(g) && Anchored(g, marked, s) && Elems(pending) <= marked <= g.adj.Keys && |pending| > 0
    ensures pending[0] in g.adj
    ensures Anchored(g, Scan(lifo, Nbrs(g, pending[0]), pending[1..], marked).marked, s)
  {
    var v := pending[0];
    assert v in Elems(pending);
    var m := Scan(lifo, Nbrs(g, v), pending[1..], marked).marked;
    forall u | u in m && u != s
      ensures exists w :: w in m && Adjacent(g, u, w)
    {
      if u !in marked {
        assert u in Nbrs(g, v);
        assert Adjacent(g, u, v);
      }
    }
  }

  /** The start is in the bag before a step exactly when it is taken out or stays in. */
  lemma StepStart<T(!new)>(g: Graph<T>, lifo: bool, pending: seq<T>, marked: set<T>, s: T)
    requires s in marked && Elems(pending) <= marked <= g.adj.Keys && |pending| > 0 && Distinct(pending)
    ensures pending[0] in g.adj
    ensures var b := Scan(lifo, Nbrs(g, pending[0]), pending[1..], marked);
      && (s in pending <==> pending[0] == s || s in b.pending)
      && (pending[0] == s ==> s !in b.pending)
  {
    ElemsCons(pending);
    var b := Scan(lifo, Nbrs(g, pending[0]), pending[1..], marked);
    assert s in b.pending <==> s in Elems(b.pending);
    assert s in pending[1..] <==> s in Elems(pending[1..]);
    assert pending == [pending[0]] + pending[1..];
  }

  lemma PrefixTrans<T>(r: seq<T>, a: seq<T>, b: seq<T>)
    requires |r| >= |b| && r[..|b|] == b && |a| <= |b| && b[..|a|] == a
    ensures |r| >= |a| && r[..|a|] == a
  {
    assert r[..|a|] == r[..|b|][..|a|];
  }

  lemma PrefixSplit<T>(r: seq<T>, visit: seq<T>, v: T)
    requires |r| >= |visit| + 1 && r[..|visit| + 1] == visit + [v]
    ensures r[|visit|..] == [v] + r[|visit| + 1..]
  {
    assert r[|visit|] == (visit + [v])[|visit|];
  }

  /** Summing degrees along `[v] + rest`. */
  lemma DegreesCons<T(!new)>(adj: map<T, seq<Nbr<T>>>, t: seq<T>, v: T, rest: seq<T>)
    requires t == [v] + rest && forall u | u in t :: u in adj
    ensures Degrees(adj, t) == |adj[v]| + Degrees(adj, rest)
  {
    assert t[0] == v && t[1..] == rest;
  }

  /** What one step does to the quantities the edge count follows. */
  lemma StepCounts<T(!new)>(g: Graph<T>, lifo: bool, pending: seq<T>, marked: set<T>, visit: seq<T>, s: T)
    requires Closed(g) && Mutual(g) && Books(g, pending, marked, visit) && s in marked && Anchored(g, marked, s)
    requires |pending| > 0
    ensures pending[0] in g.adj && Elems(pending) <= marked
    ensures var b := Scan(lifo, Nbrs(g, pending[0]), pending[1..], marked);
      && Books(g, b.pending, b.marked, visit + [pending[0]]) && s in b.marked && Anchored(g, b.marked, s)
      && |b.marked| - |marked| + (if s in b.pending then 1 else 0) <= |g.adj[pending[0]]| + (if s in pending then 1 else 0) - 1
  {
    var v := pending[0];
    StepBooks(g, lifo, pending, marked, visit);
    ExploreStep(g, lifo, pending, marked, visit);
    StepAnchored(g, lifo, pending, marked, s);
    StepStart(g, lifo, pending, marked, s);
    assert v != s ==> exists w :: w in marked && Adjacent(g, v, w) by {
      assert v in Elems(pending);
    }
    StepGain(g, lifo, pending, marked, s);
  }

  /**
   * The edge count behind the shortcut of `esConexa`: every vertex the walk
   * marks, other than the start, is marked from a neighbour, and it lists
   * that neighbour in turn; so the lists of the visited vertices hold at
   * least two entries per vertex reached after the start.
   */
  lemma {:induction false} ExploreCounts<T(!new)>(g: Graph<T>, lifo: bool, pending: seq<T>, marked: set<T>, visit: seq<T>, s: T)
    requires Closed(g) && Mutual(g) && Books(g, pending, marked, visit) && s in marked && Anchored(g, marked, s)
    ensures Elems(pending) <= marked
    ensures var r := Explore(g, lifo, pending, marked, visit);
      && |r| >= |visit| && (forall v | v in r[|visit|..] :: v in g.adj)
      && Degrees(g.adj, r[|visit|..]) + (if s in pending then 1 else 0) >= |r| - |visit| + |Elems(r)| - |marked|
    decreases |g.adj.Keys - marked|, |pending|
  {
    ExploreVisits(g, lifo, pending, marked, visit);
    ExplorePrefix(g, lifo, pending, marked, visit);
    var r := Explore(g, lifo, pending, marked, visit);
    if |pending| == 0 {
      assert r[|visit|..] == [];
    } else {
      var v := pending[0];
      StepCounts(g, lifo, pending, marked, visit, s);
      ExploreStep(g, lifo, pending, marked, visit);
      var b := Scan(lifo, Nbrs(g, v), pending[1..], marked);
      var visit' := visit + [v];
      ExploreCounts(g, lifo, b.pending, b.marked, visit', s);
      ExplorePrefix(g, lifo, b.pending, b.marked, visit');
      var r' := Explore(g, lifo, b.pending, b.marked, visit');
      assert r == r';
      assert |visit'| == |visit| + 1 && r'[..|visit'|] == visit';
      PrefixSplit(r', visit, v);
      DegreesCons(g.adj, r[|visit|..], v, r[|visit'|..]);
    }
  }

  /** A walk from `s` that reaches `k` vertices needs at least `k - 1` edges. */
  lemma WalkNeedsEdges<T(!new)>(g: Graph<T>, lifo: bool, s: T)
    requires Valid(g) && s in g.adj
    ensures g.edges >= |Walk(g, lifo, s)| - 1
  {
    ValidMutual(g);
    var r := Explore(g, lifo, [s], {s}, []);
    assert Elems([s]) == {s};
    assert Books(g, [s], {s}, []);
    assert Anchored(g, {s}, s);
    ExploreCounts(g, lifo, [s], {s}, [], s);
    ExploreVisits(g, lifo, [s], {s}, []);
    assert r[0..] == r;
    ElemsSize(r);
    assert Keyed(g) && Counted(g);
    DegreesSubset(g.adj, r, g.verts);
  }

  // ---------------------------------------------------------------- operations

  /**
   * `bfs(elemento)` of practica 6: nothing for an empty graph; else
   * NoSuchElement for an element not in it; else the breadth-first walk.
   */
  function Bfs<T(==,!new)>(g: Graph<T>, x: T): (r: Result<seq<T>>)
    requires Valid(g)
    ensures r.Err? <==> |g.verts| > 0 && x !in g.verts
    ensures r.Err? ==> r.error == NoSuchElement
    ensures r.Ok? ==> (Distinct(r.value) && (|g.verts| == 0 ==> r.value == [])
      && (x in g.verts ==> Elems(r.value) == Reach(g, x) && |r.value| > 0 && r.value[0] == x))
  {
    if |g.verts| == 0 then Ok([])
    else if x !in g.verts then Err(NoSuchElement)
    else
      WalkVisitsReach(g, false, x);
      Ok(Walk(g, false, x))
  }

  /**
   * `dfs(elemento)` of practica 6: nothing for an empty graph; else
   * NoSuchElement for an element not in it; else the depth-first walk.
   */
  function Dfs<T(==,!new)>(g: Graph<T>, x: T): (r: Result<seq<T>>)
    requires Valid(g)
    ensures r.Err? <==> |g.verts| > 0 && x !in g.verts
    ensures r.Err? ==> r.error == NoSuchElement
    ensures r.Ok? ==> (Distinct(r.value) && (|g.verts| == 0 ==> r.value == [])
      && (x in g.verts ==> Elems(r.value) == Reach(g, x) && |r.value| > 0 && r.value[0] == x))
  {
    if |g.verts| == 0 then Ok([])
    else if x !in g.verts then Err(NoSuchElement)
    else
      WalkVisitsReach(g, true, x);
      Ok(Walk(g, true, x))
  }

  /** Everything reachable from one vertex means every vertex reaches every other. */
  lemma ConnectedFromOne<T(!new)>(g: Graph<T>, s: T)
    requires Valid(g) && s in g.verts
    ensures Connected(g) <==> Reach(g, s) == VertSet(g)
  {
    if Reach(g, s) == VertSet(g) {
      forall a, b | a in g.verts && b in g.verts
        ensures Reachable(g, a, b)
      {
        assert a in Reach(g, s) && b in Reach(g, s);
        ReachBack(g, s, a);
        ReachJoin(g, a, s, b);
      }
    }
    if Connected(g) {
      assert forall v | v in g.verts :: v in Reach(g, s);
    }
  }

  /** The walk from `s` visits as many vertices as there are exactly when the graph is connected. */
  lemma WalkCountsConnected<T(!new)>(g: Graph<T>, s: T)
    requires Valid(g) && s in g.verts
    ensures |Walk(g, false, s)| == |g.verts| <==> Connected(g)
  {
    var r := Walk(g, false, s);
    WalkVisitsReach(g, false, s);
    ConnectedFromOne(g, s);
    ElemsSize(r);
    ElemsSize(g.verts);
    assert Elems(r) <= VertSet(g);
    if |r| == |g.verts| {
      assert |Elems(r)| == |VertSet(g)|;
      SubsetSameSize(Elems(r), VertSet(g));
    }
  }

  lemma SubsetSameSize<T>(a: set<T>, b: set<T>)
    requires a <= b && |a| == |b|
    ensures a == b
  {
    assert b == a + (b - a);
    assert |b - a| == 0;
  }

  /**
   * `esConexa` of practica 12: true with at most one vertex; false with
   * fewer than `n - 1` edges; else whether a breadth-first walk from the
   * first vertex reaches all `n` of them.
   */
  function IsConnected<T(==,!new)>(g: Graph<T>): (r: bool)
    requires Valid(g)
    ensures r <==> Connected(g)
  {
    var n := |g.verts|;
    if n <= 1 then
      SmallConnected(g);
      true
    else if g.edges < n - 1 then
      WalkNeedsEdges(g, false, g.verts[0]);
      WalkCountsConnected(g, g.verts[0]);
      false
    else
      WalkCountsConnected(g, g.verts[0]);
      |Walk(g, false, g.verts[0])| == n
  }

  lemma SmallConnected<T(!new)>(g: Graph<T>)
    requires Valid(g) && |g.verts| <= 1
    ensures Connected(g)
  {
    forall a, b | a in g.verts && b in g.verts
      ensures Reachable(g, a, b)
    {
      assert a == g.verts[0] == b;
      ReachSelf(g, a);
    }
  }

  /**
   * `esConexa` of practica 6: false with fewer than `n - 1` edges;
   * otherwise NoSuchElement for an empty graph (its first vertex is asked
   * for); else whether a walk from the first vertex reaches all of them.
   */
  function IsConnected6<T(==,!new)>(g: Graph<T>): (r: Result<bool>)
    requires Valid(g)
    ensures r.Err? <==> |g.verts| == 0
    ensures r.Err? ==> r.error == NoSuchElement
    ensures r.Ok? ==> (r.value <==> Connected(g))
  {
    var n := |g.verts|;
    if g.edges < n - 1 then
      WalkNeedsEdges(g, false, g.verts[0]);
      WalkCountsConnected(g, g.verts[0]);
      Ok(false)
    else if n == 0 then Err(NoSuchElement)
    else
      WalkCountsConnected(g, g.verts[0]);
      Ok(|Walk(g, false, g.verts[0])| == n)
  }

  /**
   * `esConexa` of practica 10 as written: false as soon as some vertex has
   * no neighbours, else true.
   */
  function IsConnectedAsWritten<T(==,!new)>(g: Graph<T>): (r: bool)
    requires Valid(g)
    ensures r <==> forall v | v in g.verts :: |Nbrs(g, v)| > 0
  {
    forall v | v in g.verts :: |g.adj[v]| > 0
  }

  /** Two separate edges `1 - 2` and `3 - 4`, each of weight 1. */
  function TwoEdges(): Graph<int> {
    Graph([1, 2, 3, 4], map[1 := [Nbr(2, 1.0)], 2 := [Nbr(1, 1.0)], 3 := [Nbr(4, 1.0)], 4 := [Nbr(3, 1.0)]], 2)
  }

  lemma TwoEdgesNbrs()
    ensures var g := TwoEdges();
      g.adj.Keys == {1, 2, 3, 4}
      && Nbrs(g, 1) == [2] && Nbrs(g, 2) == [1] && Nbrs(g, 3) == [4] && Nbrs(g, 4) == [3]
  {
    var g := TwoEdges();
    assert Nbrs(g, 1) == [g.adj[1][0].to];
    assert Nbrs(g, 2) == [g.adj[2][0].to];
    assert Nbrs(g, 3) == [g.adj[3][0].to];
    assert Nbrs(g, 4) == [g.adj[4][0].to];
  }

  lemma TwoEdgesValid()
    ensures Valid(TwoEdges())
  {
    var g := TwoEdges();
    TwoEdgesNbrs();
    assert Keyed(g);
    assert Simple(g);
    assert Symmetric(g) by {
      forall v, u | v in g.adj && u in Nbrs(g, v)
        ensures Adjacent(g, u, v) && Weight(g, u, v) == Weight(g, v, u)
      {
        assert v in {1, 2, 3, 4};
        assert g.adj[v][0].weight == 1.0 && g.adj[u][0].weight == 1.0;
      }
    }
    assert Degrees(g.adj, g.verts) == 4;
  }

  /** In the two separate edges, 1 does not reach 3. */
  lemma TwoEdgesSplit()
    ensures !Reachable(TwoEdges(), 1, 3)
  {
    var g := TwoEdges();
    TwoEdgesNbrs();
    var m := {1, 2};
    forall v, u | v in m && Adjacent(g, v, u)
      ensures u in m
    {
      assert v == 1 || v == 2;
    }
    if Reachable(g, 1, 3) {
      var p :| IsPath(g, p) && p[0] == 1 && p[|p| - 1] == 3;
      ClosedHoldsReach(g, 1, m, p);
    }
  }

  /**
   * In the two separate edges no vertex is isolated, so `esConexa` of
   * practica 10 answers true, but 1 does not reach 3.
   */
  lemma IsConnectedAsWrittenIsWrong()
    ensures Valid(TwoEdges()) && IsConnectedAsWritten(TwoEdges())
    ensures !Connected(TwoEdges()) && !IsConnected(TwoEdges())
  {
    var g := TwoEdges();
    TwoEdgesValid();
    TwoEdgesNbrs();
    assert forall v | v in g.verts :: |Nbrs(g, v)| > 0;
    TwoEdgesSplit();
    assert 1 in g.verts && 3 in g.verts;
  }

  /** A lone vertex is connected, but `esConexa` of practica 10 answers false for it. */
  lemma IsConnectedAsWrittenRejectsLone()
    ensures Valid(Graph([1], map[1 := []], 0))
    ensures !IsConnectedAsWritten(Graph([1], map[1 := []], 0))
    ensures Connected(Graph([1], map[1 := []], 0)) && IsConnected(Graph([1], map[1 := []], 0))
  {
    var h := Graph([1], map[1 := []], 0);
    assert Nbrs(h, 1) == [];
    assert Valid(h);
    SmallConnected(h);
  }
}

=== FILE: wrappers.dfy ===
/** Optional values, results, and the kinds of exception the collections throw. */
module Wrappers {

  /** An optional value; `None` stands for Java's `null`. */
  datatype Option<+T> = None | Some(value: T)

  /** The exceptions thrown by the collections, by kind. */
  datatype Error =
    | IllegalArgument       // IllegalArgumentException
    | NoSuchElement         // NoSuchElementException
    | UnsupportedOperation  // UnsupportedOperationException
    | IllegalState          // IllegalStateException
    | InvalidIndex          // ExcepcionIndiceInvalido
    | ProgramExit           // the program prints a message and calls System.exit(1)
    | RuntimeFailure        // the Java runtime throws: a null dereference or an array index out of bounds

  /** The outcome of an operation that may throw. */
  datatype Result<+R> = Ok(value: R) | Err(error: Error) {

    predicate IsFailure() {
      Err?
    }

    function PropagateFailure<U>(): Result<U>
      requires Err?
    {
      Err(error)
    }

    function Extract(): R
      requires Ok?
    {
      value
    }
  }
}
